=== FILE: README.md ===
# Advent of Code 2023 solvers, modelled in Dafny

This project models the puzzle solvers of the Rust repository `aoc23`: one solver per day of
Advent of Code 2023, days 1 to 22 and 25, plus the shared grid they use. Each solver reads the
puzzle text and computes one or two integers. The model follows each solver's own algorithm. That
covers parsing, folds, interval maps, the day 12 partition enumeration, the day 19 box splitting,
the day 20 pulse queue, the day 21 breadth-first fill and the day 22 brick settling. Most
algorithms are related to an independent reference statement of what they compute. Where a
contract stops short of that, a line under "Left out" that starts with the member's name says so.

Layout: one module per source file (`Grid`, `Day01` … `Day25`) and three shared modules. `Common`
holds `Option`/`Result`, sums, and the search helpers `partition_point` (`PartitionPoint`), `MinOf`
and `FirstIndex`. `Strings` holds splitting, trimming, searching and integer parsing. `Sorting` holds
stable sorting and `dedup`. Day06 has its own `PartitionPoint` over a range of integers. Characters stand for bytes;
every puzzle input is ASCII.

Conventions:

- A Rust panic that a caller can rule out statically is a precondition.
- A panic that depends on how a run goes, such as an `unwrap` on a lookup, is an error value.
- A loop the source runs without bound is given a `fuel` count. The model states what happens when
  the run finishes within it.

## Model

| member | source | states |
|---|---|---|
| Grid.Dir.Step | src/grid.rs:58-65 | the offset of x steps in a direction has Manhattan length abs(x) and lies on the direction's own axis |
| Grid.FromXy | src/grid.rs:21-38 | a direction exists exactly for a non-zero offset on one axis, and stepping that far in it reproduces the offset |
| Grid.OppositeInvolution | src/grid.rs:40-47 | the opposite of the opposite is the direction itself, and stepping in the opposite direction is stepping backwards |
| Grid.FromXyStep | src/grid.rs:21-38 | from_xy inverts step for every positive length |
| Grid.IndexInjective | src/grid.rs:49-56 | two directions share an index exactly when they are equal |
| Grid.DirsComplete | src/grid.rs:7 | DIRS lists every direction, each once |
| Grid.Grid.ToXy | src/grid.rs:101-106 | a storage index has a cell exactly when it is in range; the cell is inside the grid and maps back to the index |
| Grid.Grid.ToIndex | src/grid.rs:108-113 | a cell has a storage index exactly when it is inside the grid, and the index is in range |
| Grid.Grid.Get | src/grid.rs:115-122 | a cell has a value exactly when it is inside the grid |
| Grid.ToIndexToXy | src/grid.rs:101-113 | to_index followed by to_xy returns every inside cell |
| Grid.ToXyToIndex | src/grid.rs:101-113 | to_xy followed by to_index returns every in-range storage index |
| Grid.New | src/grid.rs:131-138 | the new grid has the requested size and every inside cell holds the fill value |
| Grid.Find | src/grid.rs:171-176 | the cell is found exactly when the value occurs; it holds the value and no earlier cell in storage order does |
| Grid.ParseFold | src/grid.rs:143-160 | the fold succeeds exactly when every line after the first non-empty one has that line's width; the cells are the lines concatenated |
| Grid.UniformCons | src/grid.rs:143-160 | rows are uniform exactly when the later rows are and all have the first non-empty row's width |
| Grid.ParseLines | src/grid.rs:143-160 | a block of lines becomes a grid exactly when the non-empty lines share one width; its cells are the lines in order and its height counts the non-empty lines |
| Grid.FoldedWidth | src/grid.rs:143-160 | when the lines share one width, the fold that collects them yields that width, taken from a non-empty line, and their concatenation in order |
| Grid.Parse | src/grid.rs:143-160 | parsing text succeeds exactly when its non-empty lines are equally wide |
| Grid.ConcatUniformLength | src/grid.rs:143-160 | lines of width w or 0 concatenate to w times the number of non-empty lines cells |
| Day01.DigitFoldFirst | src/day01.rs:23-29 | the first slot keeps a digit once set, and from empty it ends at the line's first digit, or empty exactly when the line has no digit |
| Day01.DigitFoldLast | src/day01.rs:23-29 | the second slot ends at the line's last digit, and is left as it was when the line has no digit |
| Day01.Calibr1 | src/day01.rs:22-36 | a value exactly when the line has a digit; it is ten times the first digit plus the last digit, at most 99 |
| Day01.FirstBeforeLast | src/day01.rs:22-36 | the first digit of a line never comes after its last digit |
| Day01.FirstStepCorrect | src/day01.rs:61-68 | one find step keeps the leftmost occurrence among the tokens searched so far |
| Day01.LastStepCorrect | src/day01.rs:69-73 | one rfind step keeps the rightmost occurrence among the tokens searched so far |
| Day01.ScanFirstCorrect | src/day01.rs:61-74 | after the loop over the whole table the first slot holds the leftmost token occurrence |
| Day01.ScanLastCorrect | src/day01.rs:61-74 | after the loop over the whole table the second slot holds the rightmost token occurrence |
| Day01.ScanOutcome | src/day01.rs:61-80 | both slots are set exactly when some token occurs in the line |
| Day01.CalibrTable | src/day01.rs:38-81 | a value exactly when some token occurs; it is ten times the value of the leftmost occurrence plus that of the rightmost one |
| Day01.Calibr2 | src/day01.rs:38-81 | a value exactly when a digit or digit word occurs; ten times the value of the leftmost occurrence plus that of the rightmost one |
| Day01.DigitIsToken | src/day01.rs:39-59 | every digit character is a token of calibr_2 with its own value |
| Day01.Calibr2ReadsDigits | src/day01.rs:22-81 | every line calibr_1 accepts is accepted by calibr_2 |
| Day01.CalibrFold | src/day01.rs:11-20 | the fold keeps an earlier error, succeeds exactly when every line does, then adds every line's value, and otherwise returns a failing line's error |
| Day01.RunCalibr | src/day01.rs:11-20 | the sum of all line values, or an error exactly when some line fails |
| Day01.Run | src/day01.rs:3-9 | both answers exactly when every line passes both calibrations, and they are the sums of the part-one and part-two calibration values |
| Day02.Pick.Accum | src/day02.rs:64-70 | the colour-wise maximum bounds both picks and is the least pick that does |
| Day02.ParsePart | src/day02.rs:84-94 | a parsed part names a colour with a 32-bit count |
| Day02.ParsePartShape | src/day02.rs:84-94 | a part parses exactly when its trimmed text is a count, one space and a colour, and the result is that colour and count |
| Day02.LastMentionOrCons | src/day02.rs:83-95 | a later mention of a colour overrides an earlier one |
| Day02.PickFold | src/day02.rs:80-98 | the draw parses exactly when every part does, and each colour gets its last mentioned count |
| Day02.ParsePick | src/day02.rs:80-98 | a draw parses exactly when all its comma-separated parts do; unmentioned colours are 0 |
| Day02.ParseDraws | src/day02.rs:112-115 | the draws parse exactly when every ';'-separated draw does, one pick per draw in order |
| Day02.ParseGame | src/day02.rs:101-119 | a parsed game comes from a line "Game n:draws" whose number and draws parse to the game's |
| Day02.ParseGameAccepts | src/day02.rs:101-119 | every line "Game n:draws" with no colon in n, a u32 number and draws that all parse is accepted, with that number and those draws; with ParseGame this makes the error exactly the malformed line |
| Day02.GameLineSplits | src/day02.rs:104-108 | strip_prefix and split_once take such a line apart into exactly its number text and its draws text |
| Day02.MinBag | src/day02.rs:27-33 | the fold bounds every draw and is the least pick that does |
| Day02.GamePower | src/day02.rs:26-33 | 0 without draws, otherwise the power of the least bag that holds every draw |
| Day02.P1 | src/day02.rs:11-21 | every possible game's number is counted, and nothing when no game is possible |
| Day02.P1Append | src/day02.rs:11-21 | the sum adds up over any split of the games, a single game counting its number exactly when it is possible |
| Day02.P2 | src/day02.rs:23-36 | every game's power is counted |
| Day02.P2Append | src/day02.rs:23-36 | the sum adds up over any split of the games, a single game counting its power |
| Day02.PossibleIffMinBagFits | src/day02.rs:11-33 | a game is possible for part one exactly when the smallest bag of part two fits the 12/13/14 bag |
| Day02.Run | src/day02.rs:5-9 | both answers exactly when every line is a game; they are part one and part two of the parsed games |
| Day03.DigitsValueSnoc | src/day03.rs:58-61 | appending a digit to a run multiplies its value by ten and adds the digit |
| Day03.RunExtended | src/day03.rs:57-70 | a digit either starts a run or extends the open run by one column |
| Day03.RunClosed | src/day03.rs:71-78 | a run closed by a non-digit or the end of the line is a maximal run of digits |
| Day03.ScanFromCorrect | src/day03.rs:55-79 | the scan of a line from any column yields disjoint maximal digit runs, in order, that cover every digit from there on |
| Day03.ScanLine | src/day03.rs:55-79 | the numbers of one line are its maximal digit runs with their values, disjoint, covering every digit, without a symbol yet |
| Day03.RawNumsRuns | src/day03.rs:50-79 | every number found is a maximal digit run of its row |
| Day03.RawNumsCovers | src/day03.rs:50-79 | every digit of the schematic lies in some number found |
| Day03.GetSym | src/day03.rs:81-97 | a symbol exactly at an inside position not holding '.', carrying that position and character |
| Day03.RingFrom | src/day03.rs:105-110 | the row scan above and below returns a symbol within the scanned columns, or none when every such column is clear |
| Day03.GetNumSym | src/day03.rs:99-113 | the symbol found lies on the ring around the number and no cell tried before it (left end, right end, then column by column above before below) holds one; none is found exactly when the ring is free of symbols |
| Day03.AttachSyms | src/day03.rs:115-117 | every number keeps its place and gets the symbol of its ring |
| Day03.NumsRuns | src/day03.rs:50-120 | every number is a maximal digit run with the symbol of its ring |
| Day03.NumsCover | src/day03.rs:50-120 | every digit belongs to some number |
| Day03.Nums | src/day03.rs:115-119 | one number for each digit run the scan found |
| Day03.P1 | src/day03.rs:9-14 | every number with a symbol is counted, and nothing when no number has one |
| Day03.P1Append | src/day03.rs:9-14 | the sum adds up over any split of the numbers, a single number counting its value exactly when it has a symbol |
| Day03.PushLookup | src/day03.rs:22 | entry().or_default().push appends the value to its key's list and leaves every other key's list alone |
| Day03.PushHasKey | src/day03.rs:22 | after a push the map has a key exactly for the keys it had and the pushed key |
| Day03.PushDistinct | src/day03.rs:22 | a push never lists a key twice when the map did not |
| Day03.HasGearCons | src/day03.rs:19-25 | a star cell gathers numbers exactly when the first number touches it or a later one does |
| Day03.GroupGearsLookup | src/day03.rs:17-25 | the grouping appends to each star the values of the numbers touching it, in input order |
| Day03.GroupGearsKeys | src/day03.rs:17-25 | the grouping has a key exactly for the stars it started with and those some number touches |
| Day03.GroupGearsDistinct | src/day03.rs:17-25 | the grouping keeps keys distinct |
| Day03.GroupsAreGears | src/day03.rs:16-30 | the map built from nothing has distinct keys, one per touched star, each listing exactly the values of the numbers touching that star |
| Day03.LookupDistinct | src/day03.rs:27 | with distinct keys the value listed at an entry is the lookup of its key |
| Day03.GearSumIsRatioSum | src/day03.rs:27-29 | summing a map whose entries list the values of each star's numbers adds the ratio of each listed star |
| Day03.KeysOfHasKey | src/day03.rs:27 | a star is among the map's keys exactly when the map has an entry for it |
| Day03.P2IsRatioSum | src/day03.rs:16-30 | part two adds, once per star with numbers around it, the product of its two numbers when it has exactly two and nothing otherwise |
| Day03.Run | src/day03.rs:5-14 | part one is the sum p1 takes over the numbers scanned from the lines, which P1Append pins to the values of the numbers with a symbol, counting every such number and giving 0 without one; part two is the ratio sum over the stars with numbers, each once |
| Day04.CardParts | src/day04.rs:40-47 | the three pieces split off a card line reassemble it around "Card", the first ':' and the first following bar |
| Day04.ParseNumbers | src/day04.rs:49-52 | the list parses exactly when every whitespace-separated word is a 32-bit number, one value per word in order |
| Day04.CountIn | src/day04.rs:53-55 | the count of winning numbers held is at most the numbers held; it is all of them or none exactly when all or none win |
| Day04.CountInAppend | src/day04.rs:53-55 | the count of winning numbers is additive over concatenation |
| Day04.ParseCard | src/day04.rs:39-57 | a card parses exactly when its number and both lists do; its wins count the held numbers found in the winning set |
| Day04.Score | src/day04.rs:59-65 | the score is 0 exactly for a card without wins and otherwise 2 to the power wins-1 |
| Day04.ScoreDoubles | src/day04.rs:59-65 | every win past the first doubles the score |
| Day04.P1 | src/day04.rs:9-13 | the sum of the card scores, or an error exactly when some line is not a card |
| Day04.ResizeEntries | src/day04.rs:22-24 | the queue grows with zeros to at least the wanted length and keeps its entries |
| Day04.AddFirstEntries | src/day04.rs:25 | the first `wins` entries gain the copies of the current card, the rest are unchanged |
| Day04.QueueStep | src/day04.rs:18-29 | one step pops the copies of the current card and leaves a queue holding, for every later card, exactly the copies won so far |
| Day04.QueueFront | src/day04.rs:20 | the front of the queue plus one is the number of copies of the current card |
| Day04.AdvanceEntries | src/day04.rs:20-25 | after a step each queue entry is the copies its card has won from the cards processed |
| Day04.AdvanceTail | src/day04.rs:22-25 | after a step no card beyond the queue has won any copy |
| Day04.PendingNext | src/day04.rs:25 | card i adds its copies to exactly the wins(i) cards after it |
| Day04.QueueFoldCorrect | src/day04.rs:18-29 | the queue fold adds up the copies of every remaining card, as defined directly by the cards that win them |
| Day04.Wins | src/day04.rs:33-36 | the win counts of the cards in order |
| Day04.P2 | src/day04.rs:15-30 | the total number of cards in the end, or an error exactly when some line is not a card |
| Day04.TotalCopiesAtLeast | src/day04.rs:15-30 | every card is counted at least once |
| Day04.Example | src/day04.rs:72-86 | wins 4, 2, 2, 1, 0, 0 end with 30 cards |
| Day05.MapEntry.Apply | src/day05.rs:184-190 | a number of the source interval keeps its offset in the destination interval; any other number is unchanged |
| Day05.MapEntry.Take | src/day05.rs:171-182 | take splits an entry into a first piece of length d and the remainder, which together cover the same source and destination intervals |
| Day05.NewEntry | src/day05.rs:162-165 | a new entry has equally long source and destination |
| Day05.ApplyInverse | src/day05.rs:184-190 | an entry applied and then inverted gives back every number of its source |
| Day05.TakeCovers | src/day05.rs:171-182 | the two pieces of take partition the source interval and map each number as the whole entry did |
| Day05.MapApply | src/day05.rs:82-89 | a map leaves a number alone or applies an entry that contains it |
| Day05.MapApplyCovering | src/day05.rs:82-89 | on sorted non-overlapping entries the map applies the one entry containing the number, and is the identity when none does |
| Day05.Merge | src/day05.rs:100-143 | the merge loop keeps every entry balanced and ends by appending what is left of either list |
| Day05.Combine | src/day05.rs:91-152 | the combined map runs from the first map's source name to the second's destination name, with balanced entries sorted by source |
| Day05.CombineEmptyRight | src/day05.rs:91-152 | combining with an empty map keeps the first map's entries |
| Day05.CombineEmptyLeft | src/day05.rs:91-152 | combining an empty map with another keeps the other's entries |
| Day05.CombineNotComposition | src/day05.rs:91-152 | for a first map [0,10)→[100,110) and a second map [5,15)→[200,210), seed 7 goes to 107 through the maps in turn but to 202 through the combined map |
| Day05.LocateAppend | src/day05.rs:55-59 | sending a seed through two chains of maps is sending it through their concatenation |
| Day05.Locations | src/day05.rs:55-59 | one location per seed, the seed sent through every map in order |
| Day05.P1 | src/day05.rs:11-15 | the lowest location of any seed, an error exactly for an almanac without seeds |
| Day05.CombineAll | src/day05.rs:61-69 | folding combine keeps the entries balanced and sorted, from the first map's source name to the last map's destination name |
| Day05.CombinedMap | src/day05.rs:61-69 | a combined map exists exactly when there is a map |
| Day05.Pairs | src/day05.rs:20-25 | the seeds read as (start, length) pairs, none exactly when one number is left over |
| Day05.StartsBelow | src/day05.rs:40-43 | take_while yields the destination starts of the longest prefix of entries starting below hi |
| Day05.Candidates | src/day05.rs:36-43 | the candidates of a range start with the combined location of its first seed |
| Day05.AllCandidates | src/day05.rs:35-44 | the candidates include the combined location of every range start |
| Day05.P2 | src/day05.rs:17-47 | an answer exactly when there are maps and a non-empty even seed list; it is at most the combined location of every range start |
| Day05.ParseNums | src/day05.rs:203-207 | the numbers parse exactly when every word is a 64-bit number, one value per word |
| Day05.EntryOf | src/day05.rs:230-234 | a "d s l" line becomes the balanced entry from [s, s+l) to [d, d+l) |
| Day05.AddEntry | src/day05.rs:218-234 | an entry line needs three numbers and a map to add to, and appends its entry to the last map only |
| Day05.AddHeader | src/day05.rs:208-216 | a header needs "-to-" and appends a new empty map with the two names |
| Day05.ParseLine | src/day05.rs:199-236 | blank lines change nothing; a seeds line replaces the seeds exactly when its numbers parse; an entry line succeeds exactly when it has three numbers and a map exists |
| Day05.ParseLines | src/day05.rs:199-236 | parsing keeps every entry balanced |
| Day05.SortMap | src/day05.rs:238-240 | a map's entries are sorted by source start as a permutation, names unchanged |
| Day05.SortMapsSpec | src/day05.rs:238-240 | every map is sorted that way, in place |
| Day05.ParseAlmanac | src/day05.rs:193-243 | the almanac parses exactly when every line does; it has the seeds the line loop read and, map by map, that loop's names and entries, now sorted by source start |
| Day05.Run | src/day05.rs:3-7 | answers exactly when the almanac parses with maps and an even, non-zero number of seeds; the first is the lowest location of any seed, the second no higher than the combined location of any range start |
| Day05.Solve | src/day05.rs:3-7 | both answers exactly when the almanac has maps and an even, non-zero number of seeds, with the same meaning as in run |
| Day05.ExampleSeedToSoil | src/day05.rs:250-256 | the example's seed-to-soil map sends 79 to 81, 14 to 14 and 98 to 50 |
| Day06.CountWins | src/day06.rs:34-41 | at most one winning hold time per millisecond counted |
| Day06.Wins | src/day06.rs:32-42 | a race of t_max has at most t_max-1 winning hold times |
| Day06.CountWinsIsSetSize | src/day06.rs:34-41 | the filtered count is the size of the set of hold times that beat the record |
| Day06.BeatsSymmetric | src/day06.rs:35-40 | holding t wins exactly when holding t_max-t does |
| Day06.AllWinAgainstNegative | src/day06.rs:35-40 | against a negative record every hold time counts |
| Day06.ZipWins | src/day06.rs:31-42 | zip pairs the races up to the shorter list, one count per race |
| Day06.Proc | src/day06.rs:26-44 | an answer exactly for two number lists: the product of the win counts of the paired races |
| Day06.ProcIgnoresSurplus | src/day06.rs:31 | numbers of the longer list without a partner do not change the answer |
| Day06.ParseLine | src/day06.rs:10-16 | a line parses exactly when every word after the first is a 64-bit number, one value per such word |
| Day06.P1 | src/day06.rs:7-20 | an answer exactly for two lines whose numbers parse: the product of the win counts of the races paired from them |
| Day06.Example | src/day06.rs:31-43 | the example races have 4, 8 and 9 winning hold times, 288 together |
| Day06.PartitionPointAsWritten | src/day06.rs:48-70 | the loop as written returns a point at which a partitioned predicate holds before and fails after, but the point itself is never tested |
| Day06.PartitionPoint | src/day06.rs:48-70 | with the loop running while lo < hi the result is the first point of the range where a partitioned predicate fails, or the end |
| Day06.SplitPointUnique | src/day06.rs:48-70 | a partitioned range has exactly one split point |
| Day06.AsWrittenOffByOne | src/day06.rs:58-69 | the code's result is the split point, or one below it exactly when the predicate holds there |
| Day06.PartitionPointCounterexample | src/day06.rs:58-69 | on 0..1 with an always-true predicate the code returns 0 where the split point is 1 |
| Day07.ToCardIdx | src/day07.rs:63-69 | a card letter has a strength exactly when it is one of the thirteen letters, and the strength indexes that letter |
| Day07.CardIdxRoundTrip | src/day07.rs:59-69 | every card letter reads back as its own position |
| Day07.CardsDistinct | src/day07.rs:59-61 | no letter appears twice among the cards |
| Day07.HandType.Rank | src/day07.rs:71-80 | the derived order of hand types is their declaration order, seven ranks |
| Day07.Counts | src/day07.rs:88-92 | one count per card strength: how often the hand holds it |
| Day07.Nonzero | src/day07.rs:94 | retain keeps exactly the positive counts, with their multiplicities |
| Day07.Tally | src/day07.rs:94-97 | the counts read are the positive multiplicities of the hand, largest first |
| Day07.HandTypePermutation | src/day07.rs:83-119 | the type of a hand depends only on which cards it holds, not their order |
| Day07.SortedDescUnique | src/day07.rs:95-97 | two descending sequences with the same elements are equal, so any stable sort by count reads the same counts |
| Day07.SortedDescHead | src/day07.rs:95-97 | two non-empty descending sequences with the same elements have the same length and the same largest element |
| Day07.HandTypeByShape | src/day07.rs:99-118 | five equal cards are five of a kind, 4+1 four of a kind, 3+2 a full house, 3+1+1 three of a kind, 2+2+1 two pair, 2+1+1+1 one pair, all distinct high card |
| Day07.SameShapeSameType | src/day07.rs:99-118 | the type depends only on the multiset of multiplicities |
| Day07.ClassifyShort | src/day07.rs:100-101 | descending counts 5 give five of a kind |
| Day07.ClassifyFourOne | src/day07.rs:100-102 | descending counts 4+1 give four of a kind |
| Day07.ClassifyFullHouse | src/day07.rs:103-105 | descending counts 3+2 give a full house |
| Day07.ClassifyThree | src/day07.rs:103-109 | descending counts 3+1+1 give three of a kind |
| Day07.ClassifyTwoPairs | src/day07.rs:110-116 | descending counts 2+2+1 give two pair |
| Day07.ClassifyFour | src/day07.rs:110-116 | descending counts 2+1+1+1 give one pair |
| Day07.ClassifyFive | src/day07.rs:117 | five distinct cards give high card |
| Day07.LexLeTotal | src/day07.rs:40-44 | any two card sequences are ordered one way or the other |
| Day07.LexLeTransitive | src/day07.rs:40-44 | the order on card sequences is transitive |
| Day07.LexLeAntisymmetric | src/day07.rs:40-44 | equally long card sequences ordered both ways are equal |
| Day07.HandLeTotal | src/day07.rs:40-44 | the derived order on hands, type first then cards, is a total preorder |
| Day07.HandLeAntisymmetric | src/day07.rs:40-44 | two parsed hands ordered both ways are equal |
| Day07.ParseHand | src/day07.rs:46-57 | a hand parses exactly from five card letters; its strengths index those letters and its type is computed from them |
| Day07.ParseGame | src/day07.rs:26-38 | a line parses exactly when it splits at its first space into a hand and a 32-bit bid; the game holds the hand read from the text before the space and the bid read from the text after it |
| Day07.GameLeTotal | src/day07.rs:10 | sorting games by hand uses a total preorder |
| Day07.P1 | src/day07.rs:8-15 | an answer exactly when every line parses: the sum of rank times bid over the games sorted by hand, equal hands keeping their input order |
| Sorting.SortByStable | src/day07.rs:10 | the sort used for sort_by_key keeps the elements of each class of equal keys in their input order |
| Sorting.InsertClass | src/day07.rs:10 | inserting an element appends it to its own class and leaves every other class alone |
| Sorting.StableSortUnique | src/day07.rs:10 | two sorted sequences with the same classes in the same order are equal, so the stably sorted games, and the answer, are determined |
| Day07.WinningsShift | src/day07.rs:11-14 | raising every rank by one adds every bid once more |
| Day07.Bids | src/day07.rs:11-14 | the bids of the games in order |
| Day08.NonEmpty | src/day08.rs:175-177 | the filter keeps only non-empty words, never more than there were |
| Day08.NonEmptyCons | src/day08.rs:175-177 | the filter drops a leading empty word and keeps a leading non-empty one |
| Day08.ParseNode | src/day08.rs:174-182 | a node line parses exactly when it has three words between the separators, and they are the name and the two successors |
| Day08.ParseFormatNode | src/day08.rs:174-182 | reading the line "NAME = (LEFT, RIGHT)" gives the node back for every separator-free name |
| Day08.TokensWord | src/day08.rs:175-177 | a word followed by a separator is the first token |
| Day08.TokensSep | src/day08.rs:175-177 | a leading separator yields no token |
| Day08.Names | src/day08.rs:73 | the names of the node lines in order |
| Day08.EntryNames | src/day08.rs:63-69 | the names of the map entries in order |
| Day08.Decode | src/day08.rs:63-69 | a valid map decodes to one node line per entry |
| Day08.Search | src/day08.rs:79-84 | binary search returns a position holding the name, and on sorted names finds it exactly when it is present |
| Day08.SearchMiss | src/day08.rs:78-83 | among sorted names, a name missing at the partition point occurs nowhere, so the lookup error is justified |
| Day08.NameLeTotal | src/day08.rs:73 | ordering node lines by name is a total preorder |
| Day08.Resolve | src/day08.rs:77-85 | a node resolves exactly when both successors are found, and their indices name them |
| Day08.NamesPermutation | src/day08.rs:73 | sorting keeps the set of names |
| Day08.ClosedTransfer | src/day08.rs:73-87 | sorting keeps every successor named by some node line |
| Day08.ClosedPermutation | src/day08.rs:73-87 | whether every successor is defined does not depend on the order of the lines |
| Day08.BuildMap | src/day08.rs:72-90 | the map builds exactly when every successor names a node; it is sorted by name, valid, and decodes to a permutation of the node lines |
| Day08.ResolveAllOk | src/day08.rs:74-86 | resolving node lines sorted by name succeeds exactly when every successor is the name of a node line |
| Day08.ResolveAllValid | src/day08.rs:74-86 | the resolved entries keep the node names and index only inside the map |
| Day08.ResolveAllDecodes | src/day08.rs:74-86 | every resolved entry points at the names of its own node line's successors, so the map decodes to the node lines |
| Day08.NameIndex | src/day08.rs:96-98 | a found index holds the name, and on a map sorted by name a name is found exactly when present |
| Day08.Next | src/day08.rs:115-125 | a move exists exactly inside the map for 'L' or 'R', and stays inside a valid map |
| Day08.NextFollowsNames | src/day08.rs:115-125 | a move goes to the node its node line names on that side |
| Day08.WalkFuelMonotone | src/day08.rs:16-27 | a walk that arrives within some fuel arrives at the same count with any more fuel |
| Day08.Walk | src/day08.rs:16-27 | no instructions count 0 moves; otherwise a count found is below the characters of fuel consumed |
| Day08.WalkFirstArrival | src/day08.rs:16-27 | with moves only, a count n means the walk first stands on the goal after n+1 moves |
| Day08.WalkFindsArrival | src/day08.rs:16-27 | conversely, a first arrival after n+1 moves is counted as n |
| Day08.P1 | src/day08.rs:8-28 | an answer exactly when "AAA" and "ZZZ" both exist; a step count is at least one |
| Day08.P1IsFirstArrival | src/day08.rs:8-28 | with moves only, the step count of part one is the length of the shortest walk from "AAA" to "ZZZ" |
| Day08.NextGoalIsFirst | src/day08.rs:144-159 | a goal index is where the walk first stands on a node ending in 'Z' after the start |
| Day08.NextGoal | src/day08.rs:144-159 | a goal found is a node ending in 'Z' at an index between the start and the fuel bound; no fuel means exhausted |
| Day08.CycleLen | src/day08.rs:127-142 | a cycle length is positive |
| Day08.CycleLenIsPeriod | src/day08.rs:127-142 | a cycle length a means the walk first stands on a 'Z' node after a moves and again after 2a |
| Day08.ReachAppend | src/day08.rs:144-159 | walking a moves and then b more is walking a+b moves |
| Day08.DividesLinear | src/day08.rs:49 | a common divisor divides every integer combination |
| Day08.DividesTransitive | src/day08.rs:49 | divisibility is transitive |
| Day08.Gcd | src/day08.rs:49 | the greatest common divisor divides both numbers and is positive unless both are 0 |
| Day08.GcdGreatest | src/day08.rs:49 | every common divisor divides the gcd |
| Day08.ExactDivision | src/day08.rs:49 | dividing a multiple of g by g gives its cofactor |
| Day08.ExactQuotient | src/day08.rs:49 | a number divisible by g is g times its quotient |
| Day08.Lcm | src/day08.rs:49 | the lcm is a common multiple with lcm times gcd equal to the product, positive for positive numbers |
| Day08.Bezout | src/day08.rs:49 | the gcd is an integer combination of the two numbers |
| Day08.LcmLeast | src/day08.rs:49 | the lcm divides every common multiple of the two numbers |
| Day08.Starts | src/day08.rs:47-48 | the start positions are exactly the nodes ending in 'A', ascending |
| Day08.StartsFrom | src/day08.rs:47-48 | the start positions from p on, ascending |
| Day08.FoldLcm | src/day08.rs:47-49 | the fold succeeds exactly when every cycle length does; the result is a multiple of the seed and of every cycle length, and divides every other common multiple of them |
| Day08.P2 | src/day08.rs:30-50 | an answer exactly when every start has a cycle length; it is positive, a multiple of every start's cycle length, and divides every common multiple of them |
| Day08.P2Least | src/day08.rs:30-50 | the answer is a common multiple of the cycle lengths and no larger than any positive one |
| Day08.ParseInput | src/day08.rs:52-61 | the first line is the instructions; the map is valid, sorted by name and decodes to a permutation of the node lines after the second line, which succeeds whenever those lines are nodes whose successors are all defined; fewer than two lines are an error |
| Day08.NodeLinesResult | src/day08.rs:58 | the collected node lines are the lines after the second parsed in order, and they are collected whenever every one parses |
| Day08.Sample1Ends | src/day08.rs:191-201 | in the first example "AAA" is node 0 and "ZZZ" node 6 |
| Day08.ExampleP1 | src/day08.rs:190-206 | the first example takes 2 steps |
| Day08.Sample2Names | src/day08.rs:208-214 | in the second example "AAA" is node 0 and "ZZZ" node 2 |
| Day08.ExampleP1Cycled | src/day08.rs:208-215 | the second example takes 6 steps |
| Day08.Sample3Cycles | src/day08.rs:220-231 | in the part two example the starts have cycle lengths 2 and 3 |
| Day08.Sample3Starts | src/day08.rs:220-231 | the start nodes of the part two example are 11A and 22A |
| Day08.ExampleP2 | src/day08.rs:218-234 | the part two example answers 6 |
| Day09.Diffs | src/day09.rs:28-36 | one difference per neighbouring pair of values, each the later minus the earlier |
| Day09.Extrapolate | src/day09.rs:24-46 | a single value continues as itself; an all-zero history continues with zero |
| Day09.NextTermOfZeros | src/day09.rs:24-46 | an all-zero history continues with zero |
| Day09.ExtrapolateIsNextTerm | src/day09.rs:24-46 | stopping at the first all-zero row of differences gives the same value as taking differences down to a single value |
| Day09.ExtrapolateConstant | src/day09.rs:24-46 | a constant history continues with the constant |
| Day09.ExtrapolateArithmetic | src/day09.rs:24-46 | an arithmetic progression a+b·i of at least two terms continues with its next term |
| Day09.DiffsArithmetic | src/day09.rs:28-36 | the differences of an arithmetic progression are its common difference |
| Day09.NextTermLinear | src/day09.rs:24-46 | extrapolation is linear: the term-wise sum of two histories continues with the sum of their continuations |
| Day09.ExtrapolateRows | src/day09.rs:24-46 | the loop that pushes rows of differences and sums their last values computes the next term of the history |
| Day09.ParseHistory | src/day09.rs:11-14 | a line parses exactly when every word is a 64-bit number, one value per word |
| Day09.P1 | src/day09.rs:7-22 | an answer exactly when every line parses: the sum of the extrapolations of the histories |
| Day09.ExampleFirst | src/day09.rs:24-46 | the history 0 3 6 9 12 15 continues with 18 |
| Day09.ExampleThirdDiffs | src/day09.rs:24-46 | the differences 3 3 5 9 15 continue with 23 |
| Day09.ExampleThird | src/day09.rs:24-46 | the history 10 13 16 21 30 45 continues with 68 |
| Day09.DiffsStep | src/day09.rs:28-36 | a row whose entries are the neighbouring differences is the row of differences |
| Day10.ParseMap | src/day10.rs:46-63 | the map parses exactly when the non-empty lines are equally wide; it is a valid grid of positive width holding the lines in order |
| Day10.PipeShapes | src/day10.rs:174-188 | 'S' opens in every direction, each of the six pipe letters in exactly two, and every other tile in none |
| Day10.NeighbourBack | src/day10.rs:135-149 | stepping to a neighbour and back in the opposite direction returns to the cell |
| Day10.NeighbourInjective | src/day10.rs:135-149 | different directions lead to different neighbours |
| Day10.Step | src/day10.rs:135-149 | a step exists exactly when this tile opens that way and the neighbour opens back; both cells are on the map |
| Day10.StepSymmetric | src/day10.rs:135-149 | every step can be retraced in the opposite direction |
| Day10.AdjacentSymmetric | src/day10.rs:135-149 | connected tiles are connected both ways |
| Day10.NextStep | src/day10.rs:78-81 | the chosen move is a possible step other than straight back, from the listed directions, and there is none exactly when no listed direction allows one |
| Day10.NextStepIsFirst | src/day10.rs:78-81 | the chosen direction comes before every other usable one in the list |
| Day10.ChainInside | src/day10.rs:72-90 | every cell of the walk is on the map |
| Day10.NotBack | src/day10.rs:78-81 | the next cell is connected to the current one and is not the cell just left |
| Day10.ChainSnoc | src/day10.rs:83-88 | a chain extended by an adjacent cell that neither steps straight back nor returns to its start is a chain |
| Day10.WalkExtend | src/day10.rs:83-88 | pushing the next cell keeps the walk a chain of connected cells that never steps straight back or returns to its start early |
| Day10.FindLoopFrom | src/day10.rs:76-89 | a loop found extends the walk so far and is closed: connected all round and back to its first cell |
| Day10.FindLoop | src/day10.rs:65-90 | a loop found is closed and starts at the first 'S' in storage order; without 'S' there is no loop |
| Day10.MarkLoop | src/day10.rs:95-103 | the marking loop gives every tile its mark: on the loop or not, and whether a loop tile connects north |
| Day10.EnclosedCount | src/day10.rs:105-132 | no more tiles are enclosed than there are tiles |
| Day10.Scan | src/day10.rs:105-132 | the single pass with the inside flag counts the tiles off the loop that have an odd number of north-connecting loop tiles before them |
| Day10.CountEnclosed | src/day10.rs:92-133 | count_enclosed counts exactly the off-loop tiles with an odd number of north-connecting loop tiles before them in storage order |
| Day10.Probl | src/day10.rs:9-15 | both answers come from the parsed map's loop: half its length and the enclosed count; a map without a loop is an error |
| Day10.ProblOn | src/day10.rs:12-14 | answers exactly when the walk closes a loop: half the loop length and the count of tiles the loop encloses |
| Day11.MaxLen | src/day11.rs:16 | the width is the length of the longest row, 0 without rows |
| Day11.EmptyCols | src/day11.rs:20-27 | one flag per column up to the width, set exactly when no row has a non-'.' byte there |
| Day11.NoStretch | src/day11.rs:29-45 | with a stretch of 1 the coordinates are the column and row indices |
| Day11.XOfIncreasing | src/day11.rs:41 | with a positive stretch later columns lie strictly further east |
| Day11.RowGalaxies | src/day11.rs:35-40 | the galaxies of a row prefix are exactly its non-'.' cells |
| Day11.GalaxiesUpTo | src/day11.rs:29-45 | the galaxies of the first rows are exactly their non-'.' cells |
| Day11.Stretch | src/day11.rs:29-45 | one stretched position per galaxy |
| Day11.GalaxiesOnMap | src/day11.rs:29-45 | every galaxy lies within the empty-column flags |
| Day11.StretchSnoc | src/day11.rs:37 | recording a further galaxy appends its stretched coordinates |
| Day11.RowStep | src/day11.rs:35-42 | one step of the inner loop records the cell's galaxy, if any, at its stretched coordinates |
| Day11.Galaxies | src/day11.rs:29-45 | the loops record every galaxy, in row-major order, at its stretched coordinates |
| Day11.RowSumCons | src/day11.rs:49-53 | the distances from a point to a list are additive |
| Day11.FullSumCons | src/day11.rs:48-54 | the sum over ordered pairs splits off the pairs with one new point |
| Day11.PairSumHalf | src/day11.rs:47-54 | summing each galaxy against the later ones counts every unordered pair once: twice that sum is the sum over all ordered pairs |
| Day11.SumPairs | src/day11.rs:47-54 | the nested loops add the Manhattan distance of every pair i < j |
| Day11.DistSum | src/day11.rs:13-57 | the answer is the pairwise distance sum of the galaxies at coordinates stretched by the empty rows and columns |
| Day11.RunImpl | src/day11.rs:9-11 | the two answers are the pairwise distance sums of the galaxies with empty rows and columns stretched to 2 and to 1000000 |
| Day11.ScanRow | src/day11.rs:32-44 | one row's galaxies are appended at their stretched coordinates, and the row counts as empty exactly when it has no galaxy |
| Day12.ParseRunsSpec | src/day12.rs:34-40 | the run list parses exactly when every comma-separated piece is a number, one value per piece, at least one |
| Day12.ParsePatternSpec | src/day12.rs:27-43 | a line parses exactly when it has a space and its run list parses; the row is the text before the first space |
| Day12.Unfold | src/day12.rs:45-56 | n copies of the row joined by '?' and n copies of the runs, with the lengths that implies |
| Day12.RepeatNIndex | src/day12.rs:53 | entry k of the repeated runs is entry k mod the run count |
| Day12.RepeatNLength | src/day12.rs:53 | n copies of the runs hold n times as many runs |
| Day12.JoinNIndex | src/day12.rs:48-52 | the joined row holds '?' at every copy boundary and the row's byte elsewhere |
| Day12.JoinNLength | src/day12.rs:48-52 | n copies joined by '?' have n·(len+1)-1 bytes |
| Day12.StepThen | src/day12.rs:107-109 | the next index exactly when the n bytes from i pass the test |
| Day12.PStep | src/day12.rs:101-105 | a step succeeds exactly when the spare bytes plus separator may all be working and the next run's bytes may all be damaged |
| Day12.SumTail | src/day12.rs:60 | the run total from i splits into run i and the rest |
| Day12.Prefix | src/day12.rs:175-178 | each vector gets x put in front |
| Day12.CountOfPrefix | src/day12.rs:175-178 | a vector occurs among the prefixed vectors exactly as often as its tail occurs among the originals when it starts with x, else never |
| Day12.PartsExactlyOnce | src/day12.rs:165-180 | partitions(n, m) hands every length-m vector of naturals summing to n to the callback exactly once, and nothing else |
| Day12.PartsFromExactlyOnce | src/day12.rs:170-180 | the loop from x on hands over exactly once every such vector whose first entry is at least x |
| Day12.CountArrAppend | src/day12.rs:141-160 | the count of matching rows is additive over the vectors |
| Day12.MatchesSplit | src/day12.rs:153-157 | a row matches a concatenation exactly when the pieces match its corresponding parts |
| Day12.MatchesDots | src/day12.rs:146 | a row matches k working springs exactly when it has k bytes that may all be working |
| Day12.MatchesHashes | src/day12.rs:148 | a row matches k damaged springs exactly when it has k bytes that may all be damaged |
| Day12.BuildLength | src/day12.rs:143-150 | the bytes written before the final fill are the spare springs and the runs plus at most one separator per run, exactly one per run once the write index has left 0 |
| Day12.RowMatchesSplit | src/day12.rs:151-157 | the filled row matches the pattern exactly when its written front matches the pattern's front byte by byte and the rest matches the rest |
| Day12.RowMatchesPiece | src/day12.rs:144-157 | one run's spare springs and damaged springs followed by the rest match exactly when those bytes of the pattern may be working then damaged and the rest matches |
| Day12.BuildCons | src/day12.rs:143-150 | the bytes written for a vector are its first run's piece followed by the bytes the rest of the vector writes from the advanced index |
| Day12.PrefixHead | src/day12.rs:143-157 | a vector starting with x yields a matching row exactly when its first piece fits the front of the pattern and the rest of the vector yields a matching row on the rest |
| Day12.CountArrPrefix | src/day12.rs:144-157 | the vectors starting with x count rows only when the first spare springs and first run fit, and then as the rest on the rest of the row |
| Day12.RecCountsRows | src/day12.rs:85-99 | rec counts exactly the spare-spring vectors for the remaining runs whose written row matches the rest of the pattern |
| Day12.RecLoopCountsRows | src/day12.rs:94-98 | the loop of rec from add on counts the matching vectors whose first entry is at least add |
| Day12.HereCountsRows | src/day12.rs:95-97 | one iteration counts the matching vectors whose first entry is add |
| Day12.HereSome | src/day12.rs:95-97 | when the spare springs and run fit at the current position, the iteration counts the matching vectors for the remaining runs from the next position |
| Day12.NumArrangIsP1Line | src/day12.rs:58-74 | num_arrang counts the same arrangements as p1_line's enumeration of partitions |
| Day12.P1Line | src/day12.rs:120-163 | p1_line answers exactly for a line that parses |
| Day12.P1LineIsNumArrang | src/day12.rs:120-163 | on a line num_arrang can handle, p1_line gives the same count |
| Day12.P1LineCount | src/day12.rs:136-163 | the count is at most the number of spare-spring vectors partitions hands over |
| Day12.P1LinesParses | src/day12.rs:14-19 | the fold succeeds exactly when every line parses |
| Day12.P1LinesIsP1LineFold | src/day12.rs:14-19 | summing num_arrang and summing p1_line over the lines give the same result, errors included |
| Day12.P1 | src/day12.rs:14-19 | an answer exactly when every line parses, and equal to the fold with p1_line |
| Day12.ExampleSingleRun | src/day12.rs:58-74 | a row "???" with one run of 1 has 3 arrangements |
| Day12.ExampleZeroRun | src/day12.rs:141-160 | on "?#" with runs 0,1 the zero-length first run writes nothing, the second run gets no separator and lands on the '?', so the count is 0 |
| Day13.FirstRowsAxis | src/day13.rs:36-37 | the first row axis from lo on at which every mirrored pair of rows is equal, or None when there is none |
| Day13.ReflVert | src/day13.rs:34-39 | None exactly when no row axis reflects; otherwise 100 times the first one |
| Day13.FirstColsAxis | src/day13.rs:43 | the first column axis from lo on at which every mirrored pair of columns is equal, or None when there is none |
| Day13.FirstColsAxisIs | src/day13.rs:43 | a reflecting column axis with none before it from lo on is the one the search returns |
| Day13.ReflHorz | src/day13.rs:41-48 | None exactly when no column axis reflects; otherwise the first one |
| Day13.Reflection | src/day13.rs:30-32 | the row axis when there is one, else the column axis |
| Day13.NoAxisInOneLine | src/day13.rs:34-44 | a single row has no row axis and a single column has no column axis |
| Day13.Transpose | src/day13.rs:46-48 | column x of the mirror is row x of the transpose |
| Day13.EqColsTranspose | src/day13.rs:46-48 | eq_cols holds exactly when the transposed rows are equal |
| Day13.ColsReflectTranspose | src/day13.rs:43-48 | a column axis reflects exactly when the same row axis reflects in the transpose |
| Day13.FirstColsIsFirstRows | src/day13.rs:41-44 | the column search finds what the row search finds on the transpose |
| Day13.ReflHorzIsTransposedVert | src/day13.rs:34-44 | refl_horz is refl_vert of the transpose without the factor 100 |
| Day13.ParseValley | src/day13.rs:51-66 | no mirror without a line, and no blank row in any mirror |
| Day13.UnparseLastGrows | src/day13.rs:61 | adding a line to the last mirror adds it to the end of the written-back lines |
| Day13.UnparseAddLine | src/day13.rs:53-62 | one more input line is one more written-back line, except that a blank first line only opens the first mirror |
| Day13.UnparseParseValley | src/day13.rs:51-66 | writing the mirrors back with blank separators gives the lines again, less a leading blank line |
| Day13.SumReflections | src/day13.rs:7-13 | a sum exactly when every mirror has an axis |
| Day13.SumReflectionsValue | src/day13.rs:7-13 | when every mirror has an axis, the summary equals the sum of each mirror's own reflection value, taken in input order |
| Day13.Run | src/day13.rs:4-16 | an answer exactly when every mirror of the input has an axis, and then it is the sum of the mirrors' axis values (100 times the row count for a horizontal mirror line, the column count otherwise) |
| Day13.ExampleFirstRows | src/day13.rs:34-39 | the first sample mirror has no row axis |
| Day13.ExampleFirstAxis | src/day13.rs:41-48 | the first sample mirror reflects about column 5 |
| Day13.ExampleFirst | src/day13.rs:30-32 | the first sample mirror summarises to 5 |
| Day14.TwiceStackLoad | src/day14.rs:66-68 | twice the load of n rocks stacked down from load hi is (hi + lo)·n with lo = hi - n + 1, so the halving in sum_last_range is exact |
| Day14.SumLastRange | src/day14.rs:61-69 | the closed form is the load of the pending rocks resting from row first_free down |
| Day14.Add | src/day14.rs:49-59 | a rounded rock joins the pending range, a cube rock banks the pending load and restarts below itself, any other tile changes nothing |
| Day14.Accumulate | src/day14.rs:19-27 | after the fold the pending range ends within the tiles seen |
| Day14.Total | src/day14.rs:71-73 | banked loads plus the load of the pending rocks |
| Day14.TotalLoad | src/day14.rs:19-27 | total_load is the load of the column after every rounded rock has rolled north against the top or the next rock or cube rock above it |
| Day14.AccumulateState | src/day14.rs:19-27 | after any prefix the pending range starts below the last cube rock, holds the rocks after it, and banked plus pending loads are the tilted load of the prefix |
| Day14.StepState | src/day14.rs:49-59 | one add keeps that state |
| Day14.StepRock | src/day14.rs:51 | a rounded rock lengthens the pending range by one, adding the load of the row it rests in |
| Day14.StepCube | src/day14.rs:52-56 | a cube rock banks the pending load and starts an empty range just below itself |
| Day14.StepEmpty | src/day14.rs:57 | empty ground changes neither the range nor the load |
| Day14.AccumulateSnoc | src/day14.rs:20-25 | the fold over one more tile is one more add |
| Day14.StartSnoc | src/day14.rs:52-55 | a cube rock moves the start of the free range just below itself |
| Day14.TiltedLoadSnoc | src/day14.rs:51 | a further rounded rock adds the load of the row it comes to rest in |
| Day14.AccumulateTilted | src/day14.rs:19-27 | the closed-form accumulator after the whole column gives the load of the column after rolling every rock north |
| Day14.ExampleTilted | src/day14.rs:19-27 | the column ".O#.O" of five tiles tilts to load 7 |
| Day14.ExampleColumn | src/day14.rs:19-27 | total_load gives 7 for that column |
| Day14.Column | src/day14.rs:15 | entry r is row r's tile in the column |
| Day14.LoadsFromTilted | src/day14.rs:13-16 | the column loads summed are the tilted loads summed |
| Day14.P1 | src/day14.rs:7-17 | the sum over the columns of the load after tilting north |
| Day15.XHash | src/day15.rs:9-13 | the hash is a byte value |
| Day15.XHashIsPolyMod | src/day15.rs:9-13 | the fold equals the polynomial sum of c_i·17^(n-i) reduced mod 256 once at the end |
| Day15.XHashEmpty | src/day15.rs:9-13 | the empty step hashes to 0 |
| Day15.ExampleHash | src/day15.rs:9-13 | "HASH" hashes to 52 |
| Day15.SumHashes | src/day15.rs:4 | the sum is at most 255 per step |
| Day15.Run | src/day15.rs:3-7 | the answer is at most 255 per comma-separated step of the trimmed input |
| Day15.RunOfSteps | src/day15.rs:3-7 | for steps joined by commas, the answer is the sum of the steps' hashes |
| Day16.IdxBijective | src/day16.rs:23-30 | the direction bits are distinct and are exactly 0..3 |
| Day16.Delta | src/day16.rs:32-39 | every direction moves one tile |
| Day16.DeltaInjective | src/day16.rs:32-39 | different directions move differently |
| Day16.MirrorsTurn | src/day16.rs:96-111 | both mirrors turn the beam by a right angle, each is its own inverse, and they turn opposite ways |
| Day16.Go | src/day16.rs:88-92 | the next beam travels in the new direction from a tile adjacent to the old one, in the same row exactly when that direction is horizontal |
| Day16.ParseFold | src/day16.rs:50-61 | the fold succeeds exactly when every non-empty line has the first line's width; it concatenates the tiles |
| Day16.ParseLines | src/day16.rs:49-68 | a map exactly when the lines are uniform; its tiles are the lines' bytes and its height counts the non-empty lines |
| Day16.ParseLinesIsGridParse | src/day16.rs:49-68 | Map::parse agrees with Grid::parse on success and on the result |
| Day16.Next | src/day16.rs:94-129 | a beam continues as one or two beams, two exactly at a splitter hit side-on |
| Day16.NextCases | src/day16.rs:112-128 | empty ground keeps the direction; a splitter hit side-on sends beams both ways along it |
| Day16.InUniverse | src/day16.rs:75-77 | the finite set of beams holds exactly those inside the box |
| Day16.Fire | src/day16.rs:70-131 | fire keeps earlier light, lights only tiles inside, lights its start when inside, and leaves every newly lit beam's successors lit |
| Day16.ClosedStep | src/day16.rs:86-129 | lighting a beam and then its successors' runs leaves everything closed |
| Day16.FireLeast | src/day16.rs:70-131 | fire lights nothing outside any closed set holding its start |
| Day16.Energized | src/day16.rs:10 | the run from the top-left corner lights only tiles inside |
| Day16.EnergizedIsLeastClosed | src/day16.rs:8-12 | the light of the run is the least set of beams that holds the start and every successor of its beams |
| Day16.CountLit | src/day16.rs:133-135 | no more lit tiles than tiles looked at |
| Day16.CountLitMonotone | src/day16.rs:133-135 | more light counts at least as many tiles |
| Day16.CountLitPositive | src/day16.rs:133-135 | a lit tile makes the count positive |
| Day16.CountEnergized | src/day16.rs:133-135 | at most every tile is energized |
| Day16.Part1 | src/day16.rs:8-12 | an answer exactly when the map parses: the count of tiles the least closed light holds, between 1 and the tile count |
| Day16.StartLit | src/day16.rs:10 | the top-left tile is always energized |
| Day17.Back | src/day17.rs:92-94 | the reverse of a direction cancels it |
| Day17.BackInvolution | src/day17.rs:92-94 | reversing twice gives the direction back, and only the zero step is its own reverse |
| Day17.SuccFrom | src/day17.rs:63-84 | the filter succeeds exactly when every allowed step lands on a digit; each step it keeps is allowed and priced by its digit, every allowed step is kept, and the reverse step is dropped |
| Day17.Successors | src/day17.rs:61-85 | at most four successors, at most three once the node has a direction |
| Day17.SuccessorsSound | src/day17.rs:61-85 | every successor is a unit step other than back, inside the grid, with at most three steps in a row, costing its tile's digit |
| Day17.SuccessorsComplete | src/day17.rs:61-85 | every allowed unit step appears among the successors |
| Day17.NoFourthStep | src/day17.rs:68-73 | after three steps in one direction the next step turns |
| Day17.StartMoves | src/day17.rs:54-85 | from the start node every unit step that stays inside is allowed |
| Day17.Distance | src/day17.rs:87-89 | the distance is zero exactly at the goal |
| Day17.DistanceConsistent | src/day17.rs:87-89 | each step changes the distance by one, so the heuristic never overestimates a step costing at least 1 |
| Day18.DirOfLetter | src/day18.rs:158-164 | the letters L, R, U, D and the directions correspond one to one |
| Day18.Colour | src/day18.rs:168-169 | a colour only from a token "(#…)" whose inner text is a hexadecimal u32 |
| Day18.ColourOfWrapped | src/day18.rs:168-169 | a token "(#c)" reads as c in hexadecimal |
| Day18.ParsePlan | src/day18.rs:156-172 | a plan exactly when the line has three words: a direction letter, a decimal length and a colour |
| Day18.ParseFix | src/day18.rs:174-185 | a plan exactly when the line parses and the colour's low hex digit is 0-3; that digit gives the direction and the five above it the length |
| Day18.FixSplitsColour | src/day18.rs:176-184 | the colour's low 24 bits are the length's five hex digits followed by the direction digit |
| Day18.ParsePlans | src/day18.rs:18-21 | the plans exactly when every line reads, one plan per line in order |
| Day18.OffsetIsStep | src/day18.rs:27-28 | the scaled unit step is the step of the whole length, that many tiles long |
| Day18.VerticesAt | src/day18.rs:22-30 | the recorded corners are, in order, the sums of the offsets before each instruction |
| Day18.TraceVertices | src/day18.rs:23-31 | entry i is the corner reached after the first i instructions |
| Day18.VertexWithinTrench | src/day18.rs:23-31 | no corner lies further from the start than the trench dug to reach it |
| Day18.Pairs | src/day18.rs:78-84 | every coordinate and its successor, and nothing else |
| Day18.SortedUnique | src/day18.rs:86-90 | sort followed by dedup gives the same values strictly increasing |
| Day18.Extend | src/day18.rs:92-97 | one breakpoint is added below the first and one above the last, keeping them increasing |
| Day18.Breakpoints | src/day18.rs:75-100 | the breakpoints increase strictly, hold exactly the coordinates and their successors inside, and enclose every coordinate with a margin of one more breakpoint at each end, one below the smallest and one above the largest |
| Day18.FromControlPoints | src/day18.rs:75-107 | a valid sparse grid of the corners' breakpoints, one fill cell per rectangle between them |
| Day18.MapRange | src/day18.rs:142-146 | each end is the number of breakpoints below the value, and the range is ordered when the values are |
| Day18.CountAreas | src/day18.rs:126-140 | the total area of the rectangles whose cell the predicate keeps |
| Day18.AddColumn | src/day18.rs:132-138 | the inner loop adds exactly the areas of the kept cells of one column |
| Day18.ColumnAreaBound | src/day18.rs:130-138 | a column keeps at most the area it spans, and all of it when every cell is kept |
| Day18.AreaBound | src/day18.rs:126-140 | the kept area lies within the breakpoints' bounding box, and fills it when every cell is kept |
| Day19.RatingIndexOf | src/day19.rs:315-323 | an index exactly for the one-letter names x, m, a, s, and the index names that letter |
| Day19.RatingIndexOfChar | src/day19.rs:315-323 | every rating letter reads back as its own index |
| Day19.Quad.With | src/day19.rs:289-290 | the value at the index is replaced and every other value is kept |
| Day19.ParseCondition | src/day19.rs:247-263 | a condition only from a rating letter, a comparison sign and a u16 text |
| Day19.ParseConditionOf | src/day19.rs:247-263 | every condition written as letter, sign and value parses back to itself |
| Day19.ParseTarget | src/day19.rs:217-225 | a target exactly for "A", "R" or a label; A accepts, R rejects, a label names its workflow |
| Day19.ParseShowTarget | src/day19.rs:217-225 | every target written out parses back to itself |
| Day19.MapWorkflow | src/day19.rs:227-238 | resolving fails only for an unknown label; accept and reject are kept, a label becomes its index |
| Day19.ParseRule | src/day19.rs:190-200 | a rule with ':' has a condition and target read from either side; a rule without one is a target alone |
| Day19.Consider | src/day19.rs:202-209 | the rule's target exactly when it has no condition or the part matches |
| Day19.FirstTarget | src/day19.rs:111 | None exactly when no rule applies; otherwise the target of the first rule that does |
| Day19.IsAcceptedImpl | src/day19.rs:107-117 | a walk that ends reports accepted or rejected as the first applicable rule says, and stuck only when no rule applies on the way |
| Day19.FirstTargetOk | src/day19.rs:65 | a resolved workflow target names one of the plan's workflows |
| Day19.WalkFuelMonotone | src/day19.rs:107-117 | once a walk ends, allowing more hops gives the same verdict |
| Day19.RangeSpace | src/day19.rs:333-335 | the box holds exactly the parts with every rating in lo..=hi |
| Day19.Point | src/day19.rs:325-326 | the one-part box holds exactly that part |
| Day19.EmptyHasNoParts | src/day19.rs:337-339 | a box is empty exactly when it holds no part |
| Day19.TotalCount | src/day19.rs:341-346 | the count is zero exactly when the box is empty |
| Day19.RangeCount | src/day19.rs:333-346 | the box of lo..=hi counts (hi - lo + 1)^4 parts |
| Day19.PointCount | src/day19.rs:341-346 | a one-part box counts one |
| Day19.TotalCountFactor | src/day19.rs:341-346 | the count is one width times the other three, which a change of that one interval keeps |
| Day19.CutCount | src/day19.rs:286-291 | cutting an interval inside splits the count in two |
| Day19.CutMembers | src/day19.rs:286-291 | the lower piece holds the parts below the cut, the upper one the rest |
| Day19.SplitImplAsWritten | src/day19.rs:281-295 | as written the two halves still count the whole box; when the cut lies inside the interval (lo <= value < hi) the halves are exactly the parts below the value and the rest, the same as the corrected SplitImpl |
| Day19.SplitAsWritten | src/day19.rs:265-295 | as written the two halves still count the whole box; when the cut lies inside the interval the first half is exactly the matching parts and the second the rest, the same as the corrected Split |
| Day19.SplitAsWrittenLosesMatches | src/day19.rs:281-295 | under x<100 a box with x in 1..49 matches wholly, yet the matching half returned is empty |
| Day19.SplitImpl | src/day19.rs:281-295 | the parts below the value, then the rest, counting the whole box together |
| Day19.Split | src/day19.rs:270-279 | the parts matching the condition, then those that do not, counting the whole box together |
| Day19.SplitPoint | src/day19.rs:270-279 | a one-part box goes whole to the side its part belongs to |
| Day19.UnitBox | src/day19.rs:341-346 | a box counting one that holds a part is that part's box |
| Day19.Count | src/day19.rs:139-157 | the corrected count (splitting with Split): never more accepted parts than the box holds |
| Day19.CountRules | src/day19.rs:144-156 | the fold never counts more than the box left to it |
| Day19.Handle | src/day19.rs:159-175 | an accepted box counts whole, a rejected or empty one nothing, any other at most its size |
| Day19.CountPoint | src/day19.rs:103-175 | the corrected count of a one-part box is 1 exactly when walking the part accepts it |
| Day19.CountRulesPoint | src/day19.rs:144-156 | over a one-part box the fold counts what the first applicable rule's target counts |
| Day19.FirstRulePoint | src/day19.rs:147-155 | the first rule takes a one-part box when it applies to the part and passes it on whole otherwise |
| Day19.CountAccepted | src/day19.rs:119-122 | at most (hi - lo + 1)^4 accepted parts |
| Day19.TallyConst | src/day19.rs:341-346 | when the test says the same of every part, the part-by-part count is the box's total count or zero |
| Day19.TallyPoint | src/day19.rs:341-346 | the part-by-part count of a one-part box is one exactly when the test holds of the part |
| Day19.TallyCut | src/day19.rs:286-291 | cutting any interval at a point inside it splits the part-by-part count in two |
| Day19.SplitTally | src/day19.rs:270-295 | the two halves of a split hold between them every counted part of the box |
| Day19.CountTally | src/day19.rs:139-175 | when every part's walk from workflow i ends within the fuel, the corrected count of any box is the number of its parts the walk accepts |
| Day19.CountRulesTally | src/day19.rs:144-156 | the fold counts exactly the parts of the box whose first applicable rule's target accepts them |
| Day19.HandleTally | src/day19.rs:159-175 | handle counts exactly the parts of the box its target accepts: all for Accept, none for Reject, the walk's for a workflow |
| Day19.CountAcceptedTally | src/day19.rs:119-122 | count_accepted(lo, hi) is the number of parts with all ratings in lo..=hi that the walk from in accepts |
| Day19.CountAsWritten | src/day19.rs:139-157 | the count as written, splitting with split_impl as written: never more accepted parts than the box holds |
| Day19.CountRulesAsWritten | src/day19.rs:144-156 | the fold as written never counts more than the box left to it |
| Day19.HandleAsWritten | src/day19.rs:159-175 | as written an accepted box counts whole, a rejected or empty one nothing, any other at most its size |
| Day19.AllAcceptCounts | src/day19.rs:144-156 | rules that all accept count the whole box, both as written and corrected, since either split conserves the count |
| Day19.CountAcceptedAsWritten | src/day19.rs:119-122 | as written at most (hi - lo + 1)^4 accepted parts |
| Day19.CountAsWrittenDisagrees | src/day19.rs:119-157 | under in{x<100:A,R} the part (1,1,1,1) is accepted by the walk and counted 1 by the corrected count, but 0 by the count as written |
| Day20.ParseSourceLink | src/day20.rs:194-210 | a link exactly when the line has " -> " after a non-empty head; the line is the kind's sign, the name, the arrow and the targets joined by ", " |
| Day20.ParseShowSourceLink | src/day20.rs:194-210 | every link written out parses back to itself |
| Day20.SplitShown | src/day20.rs:195 | a written-out link splits at its first " -> " into its head and its targets |
| Day20.AddName | src/day20.rs:30-34 | a new name is numbered next; a known name changes nothing |
| Day20.AssignNames | src/day20.rs:29-40 | every name gets one number, the numbers follow first appearance, and no other names are numbered |
| Day20.Idx | src/day20.rs:54-60 | the number of a known name is an index holding that name |
| Day20.IdxOfDistinct | src/day20.rs:54-60 | among distinct names the number of the name at k is k |
| Day20.TargetNames | src/day20.rs:37-40 | exactly the names some link sends to |
| Day20.DefinitionsFirst | src/day20.rs:36-40 | every defined module is numbered before every module that is only a target |
| Day20.FirstInFront | src/day20.rs:36-40 | a name of the front part first appears before one found only in the back part |
| Day20.EarlierFirstEarlierIndex | src/day20.rs:30-34 | a name that appears first earlier gets the smaller number |
| Day20.CircuitNamesCover | src/day20.rs:29-40 | every defined name and every target is numbered |
| Day20.LastDef | src/day20.rs:53-70 | a definition exactly when some line defines the name, and then the last such line wins |
| Day20.Indices | src/day20.rs:56-64 | each target becomes the number of its name |
| Day20.SourcesOf | src/day20.rs:59-62 | exactly the numbers of the modules that send to the target |
| Day20.BareLink | src/day20.rs:53-70 | a module's targets are numbered modules and its sources are the modules sending to it |
| Day20.SizeSumMonotone | src/day20.rs:72-84 | the state size of a longer prefix of links is no smaller |
| Day20.WithOffsetsAt | src/day20.rs:72-84 | each link keeps its fields and gets as offset the state size of the links before it |
| Day20.Build | src/day20.rs:42-91 | a circuit whose links list their senders, whose state slices are disjoint and lie within state_len, and whose state_len is the total size |
| Day20.BuiltValid | src/day20.rs:72-90 | the circuit built this way is well formed |
| Day20.BuiltSources | src/day20.rs:59-84 | every built link's sources are the modules sending to it |
| Day20.BuiltSendersListed | src/day20.rs:59-84 | every module's targets list it among their sources |
| Day20.BareLinks | src/day20.rs:42-70 | one link per numbered module, in number order |
| Day20.BuiltLinkDef | src/day20.rs:53-70 | a built link carries the name and kind of the last line defining it and its targets translated to numbers, or is an empty broadcaster when no line defines it |
| Day20.OffsetsLayout | src/day20.rs:72-84 | the offsets keep every other field of the links |
| Day20.OffsetsArePrefixSums | src/day20.rs:80 | each offset is the size of the links before it |
| Day20.OffsetsWithin | src/day20.rs:72-84 | every link's state slice lies within the total state |
| Day20.LinkWithin | src/day20.rs:72-84 | one link's state slice lies within the total state |
| Day20.OneWithin | src/day20.rs:72-84 | a link's slice ends within the total size |
| Day20.OffsetsDisjoint | src/day20.rs:72-84 | an earlier link's slice ends before a later link's begins |
| Day20.OneBefore | src/day20.rs:72-84 | a link's slice ends before the slice of any later link |
| Day20.SizeSumSameSizes | src/day20.rs:72-84 | setting offsets does not change the total size |
| Day20.SenderListed | src/day20.rs:59-62 | a module that sends to t is among t's sources |
| Day20.Load | src/day20.rs:23-91 | a circuit exactly when every line parses, and then the circuit built from the parsed lines in order: well formed, senders listed, disjoint state |
| Day20.ParsedLinks | src/day20.rs:25-27 | the parsed link of each line, in line order |
| Day20.Receive | src/day20.rs:115-136 | a broadcaster passes the pulse on; a flip-flop ignores high and toggles and sends its new state on low; a conjunction records the sender's pulse and sends low exactly when all its inputs are high, failing only for a sender it does not list |
| Day20.FlipFlopTwoLows | src/day20.rs:118-127 | two low pulses leave a flip-flop as it was, sending on and off in some order |
| Day20.ConjunctionOfOneInverts | src/day20.rs:128-135 | a conjunction with one input inverts it |
| Day20.Process | src/day20.rs:112-143 | the queue drains with the state size kept and every queued pulse counted |
| Day20.After | src/day20.rs:112-142 | the queue after a delivery holds only pulses to existing modules |
| Day20.AfterParts | src/day20.rs:137-142 | the undelivered pulses stay in front in order, followed only by pulses from the receiver to its targets |
| Day20.DeliverInOrder | src/day20.rs:112-142 | pulses are delivered oldest first: the queue is the front of the delivered trace |
| Day20.LowsHighs | src/day20.rs:112-113 | every delivered pulse is counted as low or high |
| Day20.CountsAppend | src/day20.rs:96-99 | the counts of two traces one after the other add up |
| Day20.StepUnfolds | src/day20.rs:112-142 | one accepted pulse advances the counting loop and the delivered trace alike |
| Day20.CountedPrepend | src/day20.rs:112-113 | a pulse delivered first adds one to the low or the high count |
| Day20.ProcessCounts | src/day20.rs:112-143 | the loop counts exactly the low and the high pulses it delivers, and panics or runs out exactly when the delivery does |
| Day20.PrependInOrder | src/day20.rs:112-142 | delivering the oldest pulse first keeps the queue at the front of the trace |
| Day20.ProcessNoPanic | src/day20.rs:128-132 | pulses along the circuit's own cables never make the conjunction lookup panic |
| Day20.Run | src/day20.rs:108-145 | a finished press keeps the state size and counts at least the first low pulse |
| Day20.RunNoPanic | src/day20.rs:108-145 | with a broadcaster a press never panics |
| Day20.RunCounts | src/day20.rs:108-145 | a press counts the pulses of its trace, which starts with the low pulse to the broadcaster |
| Day20.Presses | src/day20.rs:96-99 | n finished presses count at least n low pulses |
| Day20.PressesSteady | src/day20.rs:96-99 | a press that restores its state makes n presses count n times its pulses |
| Day20.PressesStep | src/day20.rs:96-99 | one more press adds its own counts |
| Day20.PressesCounts | src/day20.rs:96-99 | n presses count the low and the high pulses of all their traces, one press after the other |
| Day20.PressAfter | src/day20.rs:96-99 | a further press adds the pulses of its own trace |
| Day20.NewState | src/day20.rs:103-105 | state_len bits, all low |
| Day20.ButtonPulsesResult | src/day20.rs:93-101 | an answer exactly when the presses finish: the product of the low and high totals |
| Day21.OpenCells | src/day21.rs:26 | exactly the cells inside the grid that are not rocks |
| Day21.ReachMonotone | src/day21.rs:22-32 | a cell reachable within i steps is reachable within any larger budget |
| Day21.ReachStep | src/day21.rs:24-29 | one unit step onto an open cell extends a walk by one |
| Day21.ReachedOpen | src/day21.rs:26 | a walk ends at the start or on a cell that may be entered |
| Day21.EvenReachMonotone | src/day21.rs:10-35 | a larger budget keeps every cell at even distance |
| Day21.GrowStep | src/day21.rs:24-30 | one step of the inner loop (Visit) visits and queues the neighbour at n + 1 exactly when it is open and unvisited, keeping the earlier distances and queue |
| Day21.GrowAll | src/day21.rs:24-30 | the whole inner loop (Expand) leaves every open unvisited neighbour visited at distance n + 1 and queued once behind the old queue, and visits nothing else |
| Day21.Fill | src/day21.rs:21-32 | the fill keeps earlier distances, gives the start 0, records only true walk lengths, and leaves every neighbour of a cell below the budget visited |
| Day21.PopInv | src/day21.rs:22-23 | dropping a queue entry at the budget keeps the fill's invariant |
| Day21.ExpandInv | src/day21.rs:22-32 | expanding the oldest entry keeps the invariant and every distance already found |
| Day21.ExpandProgress | src/day21.rs:22-32 | expanding the oldest entry visits a new cell or shortens the queue, so the loop ends |
| Day21.ExpandSound | src/day21.rs:26-28 | cells first visited from p at distance n + 1 are one step from p and open |
| Day21.ExpandQueue | src/day21.rs:21-32 | the queue stays visited, distinct and in layers of distance |
| Day21.ExpandClosed | src/day21.rs:22-32 | every expanded cell below the budget has its open neighbours visited |
| Day21.FillComplete | src/day21.rs:21-32 | every cell reachable within k steps is recorded at distance at most k |
| Day21.FillShortest | src/day21.rs:10-32 | a cell is recorded exactly when it is reachable within the budget, and its recorded distance is its shortest distance |
| Day21.FillFirst | src/day21.rs:21-32 | k is a cell's shortest distance exactly when the fill records k |
| Day21.FirstIsRecorded | src/day21.rs:21-32 | a cell first reached in k steps is recorded at k |
| Day21.RecordedIsFirst | src/day21.rs:21-32 | a recorded distance is the cell's shortest distance |
| Day21.Start | src/day21.rs:14-21 | the fill from S: the start at 0, only true walk lengths, and every neighbour of a cell below the budget visited |
| Day21.EvenCellsAreEvenReach | src/day21.rs:34 | the visited cells at even distance are exactly the cells whose shortest distance is even and within the budget |
| Day21.Part1 | src/day21.rs:10-35 | an answer exactly when the grid parses and holds S: the number of open cells at even shortest distance from S within the budget |
| Day21.Part1Monotone | src/day21.rs:10-35 | a larger budget never counts fewer cells |
| Day21.Part1NoSteps | src/day21.rs:10-35 | with no steps only the start counts |
| Day21.EvenReachNoSteps | src/day21.rs:34 | with no steps only the start is at even distance |
| Day22.ParseVec3 | src/day22.rs:111-118 | a point only from at least three comma pieces that read as i32, taken in order, with no fourth piece that reads as a number |
| Day22.ParseVec3Joined | src/day22.rs:111-118 | three i32 texts joined by commas read back as their point; a fourth numeric piece is refused and a fourth non-numeric one is ignored |
| Day22.ParseBrick | src/day22.rs:128-136 | a brick exactly when the line has '~' and both sides read as points, the sides split at the first '~' |
| Day22.ParseBrickJoined | src/day22.rs:128-136 | two points joined by '~' read back as their brick |
| Day22.Cells | src/day22.rs:67 | exactly the cells of the rectangle x0..=x1 by y0..=y1 |
| Day22.Column | src/day22.rs:67 | the cells of one column in ascending y |
| Day22.CellsDistinct | src/day22.rs:67 | no cell of the rectangle is listed twice |
| Day22.FootprintCovers | src/day22.rs:65-67 | the footprint lists exactly the cells the brick covers, once each, and is non-empty exactly when the brick is flat-ordered |
| Day22.MaxHeight | src/day22.rs:68 | the maximum exists exactly for a non-empty footprint, and is the height of one of its cells and no lower than any |
| Day22.Place | src/day22.rs:70-72 | the brick moves to the new bottom keeping its height and its horizontal extent |
| Day22.PlaceAgain | src/day22.rs:70-72 | moving keeps the footprint, moving twice to the same bottom is moving once, and moving to its own bottom changes nothing |
| Day22.TouchSpec | src/day22.rs:78-87 | one footprint cell shows the new brick on top, and a brick just under it gains the support edge in both maps |
| Day22.SettleSpec | src/day22.rs:78-87 | after the footprint loop each covered cell shows the new brick on top, and the brick is recorded on both sides of every support it rests on, with nothing else added |
| Day22.DropOne | src/day22.rs:64-88 | a brick drops exactly when its footprint is non-empty; it lands at its new bottom and counts as fallen exactly when that is lower |
| Day22.DropOneHeight | src/day22.rs:68 | the new bottom is one above the highest cell under the brick |
| Day22.DropFrom | src/day22.rs:64-88 | a finished drop has placed every brick |
| Day22.DropFromOk | src/day22.rs:64-88 | the drop finishes exactly when every remaining brick is flat-ordered |
| Day22.DropBricks | src/day22.rs:56-95 | drop_bricks finishes exactly when every brick is flat-ordered, placing every brick |
| Day22.FallenCount | src/day22.rs:74-76 | no more fallen bricks than placed ones |
| Day22.SupportsPrefix | src/day22.rs:78-87 | placing a further brick leaves the earlier bricks' supports alone |
| Day22.DropOneShape | src/day22.rs:64-88 | one drop appends the moved brick and updates heights and supports along its footprint |
| Day22.DropOneLands | src/day22.rs:68-72 | every placed brick has come to rest on the bricks placed before it |
| Day22.DropOneHeights | src/day22.rs:78-87 | the height map stays the top brick over each cell of the bricks placed so far |
| Day22.NextSupports | src/day22.rs:80-84 | the new brick rests on j exactly when j is on top of some cell under it at one below its bottom |
| Day22.DropOneEdges | src/day22.rs:80-84 | supports and supported_by stay exactly the resting relation of the placed bricks, in both directions |
| Day22.DropOneFallen | src/day22.rs:74-76 | n_fallen stays the number of bricks that moved down |
| Day22.DropOneConsistent | src/day22.rs:64-88 | one drop keeps the state a faithful record of the settled bricks |
| Day22.DropFromConsistent | src/day22.rs:64-88 | the remaining drops keep the state faithful |
| Day22.DropBricksConsistent | src/day22.rs:56-95 | after drop_bricks the state is faithful |
| Day22.DropBricksSettles | src/day22.rs:56-95 | each brick rests on those before it, and n_fallen counts the bricks that moved |
| Day22.DropBricksSupports | src/day22.rs:56-95 | supports lists exactly the resting relation, and supported_by is its reverse |
| Day22.DropBricksFlat | src/day22.rs:56-95 | every settled brick is flat-ordered |
| Day22.LandsSettled | src/day22.rs:68-72 | a settled brick would land where it is, and settling keeps flat-ordering |
| Day22.RefHeightMeaning | src/day22.rs:57-86 | the height over a cell is 0 with no brick when none covers it, otherwise the top of the last brick covering it |
| Day22.SupportsMeaning | src/day22.rs:80-84 | a supporting brick is placed earlier, shares a cell, and has its top just below the supported bottom |
| Day22.LandsUnique | src/day22.rs:68-72 | a brick lands in one place only |
| Day22.DropSettledAgain | src/day22.rs:56-95 | dropping settled bricks again leaves them in place and none falls |
| Day22.SameSettling | src/day22.rs:56-95 | settling the settled bricks reproduces them brick by brick |
| Day22.SameStep | src/day22.rs:68-72 | with the same bricks below, a settled brick lands where it is |
| Day22.FallenNone | src/day22.rs:74-76 | no settled brick moves when dropped again |
| Day22.FallenWithout | src/day22.rs:28-44 | a safe brick drops none; otherwise the fresh drop without it answers, which always finishes on flat-ordered bricks |
| Day22.Tally | src/day22.rs:26-51 | the first count is at most the number of bricks, and the fold always finishes on flat-ordered bricks (the exact counts are in TallyFold and TallyCounts) |
| Day22.SafeCounted | src/day22.rs:46-51 | every safe brick counts towards the first answer |
| Day22.SettledAbove | src/day22.rs:68-72 | settled upright bricks stay upright and rest at height one or more |
| Day22.Stacked | src/day22.rs:68-86 | of two settled upright bricks over one cell, the earlier lies wholly below the later |
| Day22.LastUnder | src/day22.rs:78-84 | an earlier brick over a cell of k whose top is just under k is recorded as supporting k |
| Day22.Without | src/day22.rs:39-40 | the settled bricks with brick i removed, the others keeping their order |
| Day22.LandsOn | src/day22.rs:68 | a settled brick rests one above the height under some cell of it |
| Day22.LandsShape | src/day22.rs:70-72 | settling keeps a brick's height and its cells |
| Day22.AgainLower | src/day22.rs:36-41 | settling again without one brick leaves every other brick where it was or lower |
| Day22.OnlySupportFalls | src/day22.rs:28-41 | a brick whose only support is removed ends lower when the rest settle again |
| Day22.FallenPositive | src/day22.rs:74-76 | a brick that ended lower than it started makes n_fallen at least one |
| Day22.SubsetCard | src/day22.rs:31 | a subset has no more elements than its superset |
| Day22.Single | src/day22.rs:31 | a set of at most one element that holds i holds nothing else |
| Day22.LoneSupported | src/day22.rs:28-34 | a brick that is not safe is the only support of some brick resting on it |
| Day22.LoneSupportFalls | src/day22.rs:36-41 | removing the only support of a brick and settling again drops at least one brick |
| Day22.FallsAgain | src/day22.rs:36-41 | after removing the only support, the fresh drop counts at least one fallen brick |
| Day22.UnsafeFalls | src/day22.rs:28-43 | with upright bricks, removing a brick that is not safe drops at least one other |
| Day22.TallyCounts | src/day22.rs:26-51 | with upright bricks the first count is exactly the safe bricks, the second is at least the unsafe bricks, and zero exactly when all are safe |
| Day22.TallyFold | src/day22.rs:45-50 | the fold counts a brick as safe exactly when its removal drops none, and adds up the drops |
| Day22.SafeCountBound | src/day22.rs:45-50 | no more safe bricks than bricks |
| Day22.SupportedListed | src/day22.rs:31 | the unwrap of supported_by in the safety test never fails |
| Day22.SettleSorted | src/day22.rs:18-24 | the bricks settle exactly when all are flat-ordered, and the result is the drop of some ordering of them sorted by bottom |
| Day22.SameBricksUpright | src/day22.rs:18 | sorting keeps every brick upright |
| Day22.SimSpec | src/day22.rs:12-54 | an answer exactly when every line parses as a flat-ordered brick; it is the fold over the settled bricks and counts every safe brick |
| Day22.SimCounts | src/day22.rs:12-54 | with upright bricks the first answer is exactly the number of safe bricks, the second at least the unsafe ones, and zero exactly when every brick is safe |
| Day25.Idx | src/day25.rs:44-47 | a known name keeps its index and changes nothing; a new name gets the next index; no other entry changes |
| Day25.IdxDense | src/day25.rs:44-47 | the indices stay exactly 0..len |
| Day25.IdxIdempotent | src/day25.rs:44-47 | looking a name up twice gives the same index and map as once |
| Day25.Resize | src/day25.rs:21-27 | the list grows to at least n with empty entries and keeps the existing ones |
| Day25.CountAbsent | src/day25.rs:21-27 | an index above every listed one is never listed |
| Day25.Push | src/day25.rs:29-30 | each side gains the other once, and nothing else is added |
| Day25.Connect | src/day25.rs:24-31 | connecting never shrinks the adjacency list |
| Day25.ConnectAll | src/day25.rs:24-31 | connecting all of a line's neighbours never shrinks the adjacency list |
| Day25.LoadLine | src/day25.rs:15-31 | a line loads exactly when it holds ": " |
| Day25.LoadLines | src/day25.rs:15-32 | the lines load exactly when every one holds ": " |
| Day25.LoadInput | src/day25.rs:11-35 | the input loads exactly when every line holds ": " |
| Day25.MultExtend | src/day25.rs:44-47 | new indices do not change how often a connection between known names occurs |
| Day25.MultSnoc | src/day25.rs:24-31 | one more connection adds one occurrence between its two indices |
| Day25.MultUnnamed | src/day25.rs:44-47 | an index no name has takes part in no connection |
| Day25.LookupWf | src/day25.rs:20-23 | looking up a name and resizing keeps every index within the list |
| Day25.LookupHolds | src/day25.rs:20-27 | looking up a name and resizing keeps the adjacency list counting the connections so far |
| Day25.ExtendCounts | src/day25.rs:21-27 | growing the list with empty entries keeps the counts |
| Day25.PushHolds | src/day25.rs:29-30 | pushing both directions counts the new connection |
| Day25.ConnectHolds | src/day25.rs:24-31 | one neighbour of a line adds its connection to the counts |
| Day25.ConnectAllHolds | src/day25.rs:24-31 | all neighbours of a line add their connections in order |
| Day25.LoadLineHolds | src/day25.rs:15-31 | a loaded line adds exactly the connections it lists |
| Day25.LoadLinesStep | src/day25.rs:15-32 | loading the lines is loading the first and then the rest |
| Day25.LoadLinesHolds | src/day25.rs:15-32 | loaded lines add exactly the connections they list |
| Day25.LoadInputSpec | src/day25.rs:11-35 | every name has a dense index with its own entry, and b occurs in a's list once per listed connection between them, either way round |
| Day25.LoadInputSymmetric | src/day25.rs:11-35 | b is listed under a exactly as often as a under b |

## Left out

- Command-line handling, input loading, timing, and every `println!`/`show`/`show_info`/`Display` are not modelled. Nor is the debug output gated on the verbose flag (days 10, 17, 18, 19): they only print.
- Days 23 and 24 are not part of this model. Day 23 is unfinished, and day 24 works in floating point.
- Fixed-width integer arithmetic is modelled with unbounded integers throughout: `u8`, `i16`, `u16`, `i32`, `u32`, `i64` and `usize`, in the grid and in days 1–14, 16–20 and 22. Overflow is not modelled except where a panic guards it, as listed below. The day 15 hash is the exception: its `u8` wrap-around is written out as a remainder modulo 256.
- Sample answers are not derived for days 1, 2, 3, 5, 7, 10, 11 and 16–22. Examples: 35 and 46 for day 5, 19114 and 167409079868000 for day 19, (5, 7) for day 22. For day 4 only the second answer, 30, is derived, and from the sample's card wins rather than its text; the first answer, 13, is not. Evaluating those inputs symbolically exceeds the verifier's resource limit, so only smaller examples are proved.
- Grid: `positions`, `iter`, `values`, `rows`, `as_slice`, `dimensions` and `get_mut` are plain accessors over the storage and have no model of their own. `Grid::fill_block`, `Grid::flood` and `STEPS` are not part of this model. `STEPS` is taken to be the four unit offsets in day 21.
- Grid.Parse: requires a non-empty line, because `w.len() / dx` divides by zero otherwise; the same holds for Day10.ParseMap, Day10.Probl, Day16.ParseLines, Day16.Part1 and Day21.Part1.
- Day05.Combine: states only labels and order. It does not claim that the combined map is the composition of the two maps, because the source's `combine` is not (see Day05.CombineNotComposition).
- Day05.CombineAll: states only the labels of the folded map, for the same reason as Day05.Combine: each step is the source's `combine`, which is not composition.
- Day05.Candidates: `slice::partition_point` is modelled as the first entry that fails the test (Common.PartitionPoint). Rust leaves the result unspecified on a slice that is not partitioned, and the combined map is only sorted by start, so its entries can overlap: for [0,100) before [5,15) with lo = 20 the model gives 0 where Rust's binary search can give 2.
- Day05.P2: states only that the answer is at most the combined location of every range start. It does not claim the answer is the least location of any seed in the ranges, for the same reason.
- Day05.Solve: its second answer is Day05.P2's, so it is only the upper bound stated there, for the same reason.
- Day05.Run: its second answer is Day05.Solve's, so it is only the upper bound stated under Day05.P2, for the same reason.
- Day06: `num_wins` has an empty body and `p2` returns 0; neither is modelled.
- Day07.P1: the sort is `sort_by_key`, which is stable; the contract pins the order of equal hands through `Stable` (proved of `SortBy` by Sorting.SortByStable, and unique by Sorting.StableSortUnique). `p2` returns 0 and is not modelled. The `i64` rank·bid products are unbounded.
- Day08: the walks carry fuel. `NodeMap::from`'s binary search is modelled as the first node with that name. An empty instruction list and characters other than L and R are modelled as the source treats them. The `cycle_len` panic is an error value.
- Day09: `extrapolate` unwraps the last element, so every line must hold a number (`NoEmptyLine` is a precondition).
- Day10: the loop walk carries fuel, and the loop marks are a datatype instead of bits of a `u8`.
- Day12: the separator before a run is written only once some byte has been written (`Build` carries the write index), as `num_arrang` does; Day12.ExampleZeroRun shows the difference from separating every run after the first. Day12.P1Lines and Day12.P1 require every parsed line to be arrangeable: at least one run, every run positive, and the row long enough. A shorter row underflows the `usize` subtraction in `num_arrang`, and a zero run can trip its `assert_eq!`. `Pattern::unfold` is modelled, but `p1` does not use it.
- Day13: a mirror without a row axis must have rows as wide as its first (`Summarizable`). `refl_horz` indexes row 0 and panics on an empty mirror.
- Day14.P1: requires every row to be as wide as the first, which the source's indexing assumes.
- Day16: beams are modelled as a set of lit (tile, direction) pairs instead of the four bits per tile.
- Day17: `astar`, `min_heat_loss` and `part1` rely on the `pathfinding` crate and are not modelled; only the successor rule and the heuristic are. `part2` returns 0. The `u8` subtraction on a non-digit tile is modelled as an error value.
- Day18: `fill_block`, `flood_from_outside` and the final area of `calc_sparse` depend on `Grid::fill_block` and `Grid::flood` and are not modelled. The colour's bit masks are modelled as division and remainder.
- Day19: `Plan::load`, `Part::parse`, `sum_rating` and `part1`/`part2` are not modelled; the model starts from a loaded plan. `tinystr` is not part of this model, so a label is assumed to be at most four non-NUL ASCII characters (`IsLabel`). `Ordering::Equal` never arises and is omitted. The `u16` sum `value + 1` in `split` is a precondition (`RulesOk`). A cyclic plan is cut off by fuel.
- Day19.Count: this is the corrected count, which splits with `Split`; the source's own count, through the `split_impl` of the findings below, is `CountAsWritten`. `Count`'s own ensures is the upper bound; the exact value is in Day19.CountTally: the number of parts of the box that the walk accepts (`Tally`), under the hypothesis that every part's walk ends within the fuel. The source has no fuel and recurses without bound on a cyclic plan, where it never returns, so no count is promised there.
- Day19.CountRules: its own ensures is the upper bound; the exact value is in Day19.CountRulesTally (the parts whose first applicable rule's target accepts them), under the same hypothesis as Day19.Count.
- Day19.Handle: for a workflow target its own ensures is only the bound; the exact value is in Day19.HandleTally, under the same hypothesis as Day19.Count.
- Day19.CountAccepted: its own ensures is the bound (hi - lo + 1)^4; the exact value is in Day19.CountAcceptedTally, under the same hypothesis as Day19.Count.
- Day20: names are numbered by an unbounded index, not truncated to `u16`. The pulse queue carries fuel. A line with an empty head, or a conjunction receiving from a module it does not list, is an error instead of a panic. A missing broadcaster gives index 0, as in the source.
- Day20.Process: its own contract states the drained queue's bounds; the exact low and high counts, tied to the pulses `Receive` produces in delivery order, are Day20.ProcessCounts and Day20.DeliverInOrder.
- Day20.Run: its own contract states only that a finished press counts the first low pulse; the exact counts of one press are Day20.RunCounts.
- Day20.Presses: its own contract states only that n presses count at least n low pulses; the exact totals are Day20.PressesCounts.
- Day21: a cell absent from the visited map is unvisited, which stands for the `usize::MAX` marker.
- Day22.SimSpec: for bricks in general it states only that the first answer counts every safe brick. Day22.SimCounts gives the exact count and the bound on the second answer, but only for upright bricks (no first corner above the second). With a reversed brick the source can count an unsafe brick as safe: for `0,0,1~0,0,1`, `0,0,5~0,0,3`, `0,0,6~0,0,6` the middle brick is the only support of the top one, yet without it the top brick settles higher instead of falling.
- Day22.Tally: its second answer is not stated beyond the bound of Day22.TallyCounts; it is the sum of the fresh drops, which the fold computes directly.
- Day22: `crate::quadmap` is not part of this model; it is taken to be a total map with default `(0, None)`. `sort_unstable_by_key` is modelled as some permutation sorted by bottom. The `max().unwrap()` panic on an empty footprint is an error value. The `supported_by` unwrap is proved never to fail (Day22.SupportedListed). Day22.ParseVec3 accepts a fourth piece that does not read as an `i32`, as the source does.
- Strings.Lines: splits at '\n' only. `str::lines` also drops a '\r' before each '\n', so the model takes input with '\n' line ends; with '\r\n' a bid such as "765\r" would fail to parse in day 7.
- Day25: `run` is `todo!()` and is not modelled.

## Findings

| source | as written | input that shows it | evidently intended | confidence | as-written member | corrected member |
|---|---|---|---|---|---|---|
| src/day06.rs:58-69 | the loop runs while `lo + 1 < hi` and returns `lo`, so the last candidate is never tested | range 0..1 with an always-true predicate: the result is 0 | the first point where the predicate fails, 1 here, as `slice::partition_point` does | not executed | Day06.PartitionPointCounterexample | Day06.PartitionPoint |
| src/day19.rs:284-293 | when the whole interval lies below the cut, `split_impl` returns it as the upper half, and when it lies above, as the lower half | condition `x<100` on a box with x in 1..49: the matching half is empty | the whole box goes to the side it lies on | not executed | Day19.SplitAsWrittenLosesMatches | Day19.Split |
| src/day19.rs:139-157 | `count` splits each box with the `split_impl` above, so a box lying wholly on one side of a cut is counted on the wrong side | plan `in{x<100:A,R}`, box of the one part (1,1,1,1): the walk accepts the part, the count gives 0 | the number of parts the walk accepts, 1 here | not executed | Day19.CountAsWrittenDisagrees | Day19.CountTally |

=== FILE: common.dfy ===
/** Failure-compatible wrappers and small arithmetic folds shared by every puzzle module. */
module Common {

  /** The Rust `Option`. */
  datatype Option<+T> = None | Some(value: T) {
    predicate IsFailure() { None? }

    function PropagateFailure<U>(): Option<U>
      requires None?
    {
      None
    }

    function Extract(): T
      requires Some?
    {
      value
    }
  }

  /** The `anyhow::Result` of the solvers: the error text is kept only as a tag. */
  datatype Result<+T> = Ok(value: T) | Err(msg: string) {
    predicate IsFailure() { Err? }

    function PropagateFailure<U>(): Result<U>
      requires Err?
    {
      Err(msg)
    }

    function Extract(): T
      requires Ok?
    {
      value
    }
  }

  /** `Option::ok_or`. */
  function OkOr<T>(o: Option<T>, msg: string): (r: Result<T>)
    ensures r.Ok? <==> o.Some?
    ensures r.Ok? ==> r.value == o.value
  {
    match o
    case Some(v) => Ok(v)
    case None => Err(msg)
  }

  /** `collect::<Result<Vec<_>>>` over `xs.map(f)`: all results, or the first error. */
  function MapResult<A, B>(xs: seq<A>, f: A -> Result<B>): (r: Result<seq<B>>)
    ensures r.Ok? <==> forall i :: 0 <= i < |xs| ==> f(xs[i]).Ok?
    ensures r.Ok? ==> |r.value| == |xs| && forall i :: 0 <= i < |xs| ==> r.value[i] == f(xs[i]).value
    ensures r.Err? ==> exists i :: 0 <= i < |xs| && f(xs[i]).Err? && r.msg == f(xs[i]).msg &&
                                  forall k :: 0 <= k < i ==> f(xs[k]).Ok?
  {
    if |xs| == 0 then Ok([])
    else
      match f(xs[0])
      case Err(m) => Err(m)
      case Ok(y) =>
        match MapResult(xs[1..], f)
        case Err(m) =>
          var i :| 0 <= i < |xs| - 1 && f(xs[1..][i]).Err? && m == f(xs[1..][i]).msg &&
                   forall k :: 0 <= k < i ==> f(xs[1..][k]).Ok?;
          assert forall k :: 1 <= k < i + 1 ==> xs[k] == xs[1..][k - 1];
          assert f(xs[i + 1]).Err? && m == f(xs[i + 1]).msg;
          Err(m)
        case Ok(ys) => Ok([y] + ys)
  }

  /** The collected values all satisfy `p` exactly when every result is a value satisfying `p`. */
  lemma MapResultAll<A, B>(xs: seq<A>, f: A -> Result<B>, ys: seq<B>, p: B -> bool)
    requires MapResult(xs, f) == Ok(ys)
    ensures (forall i :: 0 <= i < |ys| ==> p(ys[i])) <==> forall i :: 0 <= i < |xs| ==> f(xs[i]).Ok? && p(f(xs[i]).value)
  {
  }

  /** Sum of a sequence, folded from the front. */
  function Sum(s: seq<int>): int
  {
    if |s| == 0 then 0 else s[0] + Sum(s[1..])
  }

  /** Product of a sequence, folded from the front (the empty product is 1). */
  function Product(s: seq<int>): int
  {
    if |s| == 0 then 1 else s[0] * Product(s[1..])
  }

  lemma {:induction false} SumAppend(a: seq<int>, b: seq<int>)
    ensures Sum(a + b) == Sum(a) + Sum(b)
  {
    if |a| == 0 {
      assert a + b == b;
    } else {
      assert (a + b)[1..] == a[1..] + b;
      SumAppend(a[1..], b);
    }
  }

  lemma SumSnoc(a: seq<int>, x: int)
    ensures Sum(a + [x]) == Sum(a) + x
  {
    SumAppend(a, [x]);
  }

  lemma {:induction false} SumNonNegative(s: seq<int>)
    requires forall i :: 0 <= i < |s| ==> s[i] >= 0
    ensures Sum(s) >= 0
  {
    if |s| > 0 {
      SumNonNegative(s[1..]);
    }
  }

  function Abs(x: int): nat
  {
    if x < 0 then -x else x
  }

  function Max(a: int, b: int): int
  {
    if a < b then b else a
  }

  function Min(a: int, b: int): int
  {
    if a < b then a else b
  }

  /** 2^n. */
  function Pow2(n: nat): nat
  {
    if n == 0 then 1 else 2 * Pow2(n - 1)
  }

  lemma {:induction false} Pow2Positive(n: nat)
    ensures Pow2(n) >= 1
  {
    if n > 0 {
      Pow2Positive(n - 1);
    }
  }

  /** Number of elements of `s` equal to `x`. */
  function CountOf<T(==)>(s: seq<T>, x: T): nat
  {
    if |s| == 0 then 0 else (if s[0] == x then 1 else 0) + CountOf(s[1..], x)
  }

  /** Counting is additive over concatenation. */
  lemma {:induction false} CountOfAppend<T>(a: seq<T>, b: seq<T>, x: T)
    ensures CountOf(a + b, x) == CountOf(a, x) + CountOf(b, x)
  {
    if |a| > 0 {
      assert (a + b)[1..] == a[1..] + b;
      CountOfAppend(a[1..], b, x);
    } else {
      assert a + b == b;
    }
  }

  lemma {:induction false} CountOfIsMultiplicity<T>(s: seq<T>, x: T)
    ensures CountOf(s, x) == multiset(s)[x]
  {
    if |s| > 0 {
      assert s == [s[0]] + s[1..];
      CountOfIsMultiplicity(s[1..], x);
    }
  }

  /** The integer range lo..hi (exclusive) as a sequence. */
  function Range(lo: int, hi: int): (r: seq<int>)
    decreases hi - lo
    ensures |r| == if lo < hi then hi - lo else 0
    ensures forall i :: 0 <= i < |r| ==> r[i] == lo + i
  {
    if lo < hi then [lo] + Range(lo + 1, hi) else []
  }

  /** `collect::<Option<Vec<_>>>()`: every element mapped, or None at the first that fails. */
  function MapOption<A, B>(xs: seq<A>, f: A -> Option<B>): (r: Option<seq<B>>)
    ensures r.Some? <==> forall i :: 0 <= i < |xs| ==> f(xs[i]).Some?
    ensures r.Some? ==> |r.value| == |xs| && forall i :: 0 <= i < |xs| ==> r.value[i] == f(xs[i]).value
  {
    if |xs| == 0 then Some([])
    else
      match f(xs[0])
      case None => None
      case Some(y) =>
        match MapOption(xs[1..], f)
        case None =>
          assert exists i :: 0 <= i < |xs| - 1 && f(xs[1..][i]).None?;
          None
        case Some(ys) => Some([y] + ys)
  }

  /** `slice::partition_point`: the length of the prefix whose elements all satisfy `p`, which is
      the split point when `s` is partitioned by `p`. */
  function PartitionPoint<T>(s: seq<T>, p: T -> bool): (r: nat)
    ensures r <= |s|
    ensures forall k :: 0 <= k < r ==> p(s[k])
    ensures r < |s| ==> !p(s[r])
  {
    if |s| == 0 || !p(s[0]) then 0
    else
      var r := PartitionPoint(s[1..], p);
      assert forall k :: 1 <= k < r + 1 ==> s[k] == s[1..][k - 1];
      r + 1
  }

  /** The least element of a non-empty sequence. */
  function MinOf(s: seq<int>): (r: int)
    requires |s| > 0
    ensures r in s
    ensures forall i :: 0 <= i < |s| ==> r <= s[i]
  {
    if |s| == 1 then s[0]
    else
      var m := MinOf(s[1..]);
      assert forall i :: 1 <= i < |s| ==> s[i] == s[1..][i - 1];
      if s[0] <= m then s[0] else m
  }

  /** `Iterator::position` for equality. */
  function FirstIndex<T(==)>(s: seq<T>, x: T): (r: Option<nat>)
    ensures r.Some? <==> x in s
    ensures r.Some? ==> r.value < |s| && s[r.value] == x && x !in s[..r.value]
  {
    if |s| == 0 then None
    else if s[0] == x then Some(0)
    else
      match FirstIndex(s[1..], x)
      case None => None
      case Some(i) =>
        assert s[..i + 1] == [s[0]] + s[1..][..i];
        Some(i + 1)
  }

  /** The first position of `y` after appending `x`: unchanged when `y` was already there. */
  lemma {:induction false} FirstIndexSnoc<T>(s: seq<T>, x: T, y: T)
    ensures FirstIndex(s + [x], y) == if y in s then FirstIndex(s, y) else if y == x then Some(|s|) else None
  {
    if |s| > 0 {
      assert (s + [x])[1..] == s[1..] + [x];
      FirstIndexSnoc(s[1..], x, y);
      assert y in s <==> y == s[0] || y in s[1..];
    }
  }
}

=== FILE: day01.dfy ===
/** Day 1 (Trebuchet?!): the calibration value of a line is ten times its first digit plus its last
    digit; part two also reads the spelled-out digit names. */
module Day01 {
  import opened Common
  import opened Strings

  // ---------------------------------------------------------------------------------------------
  // Part one: decimal digits only

  predicate IsFirstDigit(s: string, i: int)
  {
    0 <= i < |s| && IsDigit(s[i]) && forall k :: 0 <= k < i ==> !IsDigit(s[k])
  }

  predicate IsLastDigit(s: string, j: int)
  {
    0 <= j < |s| && IsDigit(s[j]) && forall k :: j < k < |s| ==> !IsDigit(s[k])
  }

  predicate HasDigit(s: string)
  {
    exists i :: 0 <= i < |s| && IsDigit(s[i])
  }

  /** The character fold of `calibr_1`: `f` keeps the first digit seen, `l` the latest one. */
  function DigitFold(s: string, f: Option<nat>, l: Option<nat>): (Option<nat>, Option<nat>)
    decreases |s|
  {
    if |s| == 0 then (f, l)
    else
      var c := s[0];
      var f' := if IsDigit(c) && f.None? then Some(DigitValue(c)) else f;
      var l' := if IsDigit(c) then Some(DigitValue(c)) else l;
      DigitFold(s[1..], f', l')
  }

  lemma HasDigitCons(s: string)
    requires |s| > 0
    ensures HasDigit(s) <==> IsDigit(s[0]) || HasDigit(s[1..])
  {
    if HasDigit(s[1..]) {
      var i :| 0 <= i < |s[1..]| && IsDigit(s[1..][i]);
      assert IsDigit(s[i + 1]);
    }
    if HasDigit(s) && !IsDigit(s[0]) {
      var i :| 0 <= i < |s| && IsDigit(s[i]);
      assert IsDigit(s[1..][i - 1]);
    }
  }

  /** The first slot keeps a digit once set, and from empty it ends at the line's first digit, or
      empty when the line has none. */
  lemma {:induction false} DigitFoldFirst(s: string, f: Option<nat>, l: Option<nat>)
    ensures f.Some? ==> DigitFold(s, f, l).0 == f
    ensures f.None? ==> (DigitFold(s, f, l).0.Some? <==> HasDigit(s))
    ensures f.None? && DigitFold(s, f, l).0.Some? ==>
      exists i :: IsFirstDigit(s, i) && DigitFold(s, f, l).0.value == DigitValue(s[i])
    decreases |s|
  {
    if |s| > 0 {
      var c := s[0];
      var f' := if IsDigit(c) && f.None? then Some(DigitValue(c)) else f;
      var l' := if IsDigit(c) then Some(DigitValue(c)) else l;
      var r := DigitFold(s[1..], f', l');
      assert DigitFold(s, f, l) == r;
      DigitFoldFirst(s[1..], f', l');
      HasDigitCons(s);
      if f.None? && r.0.Some? {
        if IsDigit(c) {
          assert IsFirstDigit(s, 0);
        } else {
          var i :| IsFirstDigit(s[1..], i) && r.0.value == DigitValue(s[1..][i]);
          assert IsFirstDigit(s, i + 1);
        }
      }
    }
  }

  /** The second slot ends at the line's last digit, and is left alone when the line has none. */
  lemma {:induction false} DigitFoldLast(s: string, f: Option<nat>, l: Option<nat>)
    ensures HasDigit(s) ==> exists j :: IsLastDigit(s, j) && DigitFold(s, f, l).1 == Some(DigitValue(s[j]))
    ensures !HasDigit(s) ==> DigitFold(s, f, l).1 == l
    decreases |s|
  {
    if |s| > 0 {
      var c := s[0];
      var f' := if IsDigit(c) && f.None? then Some(DigitValue(c)) else f;
      var l' := if IsDigit(c) then Some(DigitValue(c)) else l;
      var r := DigitFold(s[1..], f', l');
      assert DigitFold(s, f, l) == r;
      DigitFoldLast(s[1..], f', l');
      HasDigitCons(s);
      if HasDigit(s) {
        if HasDigit(s[1..]) {
          var j :| IsLastDigit(s[1..], j) && r.1 == Some(DigitValue(s[1..][j]));
          assert IsLastDigit(s, j + 1);
        } else {
          assert forall k :: 0 < k < |s| ==> s[k] == s[1..][k - 1];
          assert IsLastDigit(s, 0);
        }
      }
    }
  }

  /** `calibr_1`: an error when the line holds no digit. */
  function Calibr1(line: string): (r: Result<nat>)
    ensures r.Ok? <==> HasDigit(line)
    ensures r.Ok? ==> exists i, j :: IsFirstDigit(line, i) && IsLastDigit(line, j) &&
                                     r.value == 10 * DigitValue(line[i]) + DigitValue(line[j])
    ensures r.Ok? ==> r.value <= 99
  {
    DigitFoldFirst(line, None, None);
    DigitFoldLast(line, None, None);
    var (f, l) := DigitFold(line, None, None);
    if f.Some? && l.Some? then Ok(f.value * 10 + l.value)
    else Err("Missing digits in string")
  }

  lemma FirstBeforeLast(s: string, i: int, j: int)
    requires IsFirstDigit(s, i) && IsLastDigit(s, j)
    ensures i <= j
  {
  }

  // ---------------------------------------------------------------------------------------------
  // Part two: digits and digit names

  /** The token table of `calibr_2`, in its order. */
  const Tokens: seq<(string, nat)> := [
    ("0", 0), ("1", 1), ("one", 1), ("2", 2), ("two", 2), ("3", 3), ("three", 3), ("4", 4),
    ("four", 4), ("5", 5), ("five", 5), ("6", 6), ("six", 6), ("7", 7), ("seven", 7), ("8", 8),
    ("eight", 8), ("9", 9), ("nine", 9)]

  /** Token `t` of `table` occurs in `line` at position `p`. */
  predicate TokenAt(table: seq<(string, nat)>, line: string, t: int, p: int)
    requires 0 <= t < |table|
  {
    OccursAt(line, table[t].0, p)
  }

  /** `fst` is the leftmost occurrence, as (value, position), among the first `t` tokens. */
  ghost predicate FirstSoFar(table: seq<(string, nat)>, line: string, t: nat, fst: Option<(nat, nat)>)
    requires t <= |table|
  {
    && (fst.None? <==> forall u, p :: 0 <= u < t && TokenAt(table, line, u, p) ==> false)
    && (fst.Some? ==> exists u :: 0 <= u < t && TokenAt(table, line, u, fst.value.1) && table[u].1 == fst.value.0)
    && (fst.Some? ==> forall u, p :: 0 <= u < t && TokenAt(table, line, u, p) ==> fst.value.1 <= p)
  }

  /** `lst` is the rightmost occurrence among the first `t` tokens. */
  ghost predicate LastSoFar(table: seq<(string, nat)>, line: string, t: nat, lst: Option<(nat, nat)>)
    requires t <= |table|
  {
    && (lst.None? <==> forall u, p :: 0 <= u < t && TokenAt(table, line, u, p) ==> false)
    && (lst.Some? ==> exists u :: 0 <= u < t && TokenAt(table, line, u, lst.value.1) && table[u].1 == lst.value.0)
    && (lst.Some? ==> forall u, p :: 0 <= u < t && TokenAt(table, line, u, p) ==> p <= lst.value.1)
  }

  /** One step of the loop of `calibr_2` for the leftmost occurrence. */
  function FirstStep(line: string, tok: (string, nat), fst: Option<(nat, nat)>): Option<(nat, nat)>
  {
    match Find(line, tok.0)
    case Some(p) => if fst.None? || p < fst.value.1 then Some((tok.1, p)) else fst
    case None => fst
  }

  /** One step of the loop of `calibr_2` for the rightmost occurrence. */
  function LastStep(line: string, tok: (string, nat), lst: Option<(nat, nat)>): Option<(nat, nat)>
  {
    match RFind(line, tok.0)
    case Some(p) => if lst.None? || p > lst.value.1 then Some((tok.1, p)) else lst
    case None => lst
  }

  /** The loop of `calibr_2` over the tokens of `table` from `t` on. */
  function Scan(table: seq<(string, nat)>, line: string, t: nat, fst: Option<(nat, nat)>, lst: Option<(nat, nat)>)
    : (r: (Option<(nat, nat)>, Option<(nat, nat)>))
    requires t <= |table|
    decreases |table| - t
  {
    if t == |table| then (fst, lst)
    else Scan(table, line, t + 1, FirstStep(line, table[t], fst), LastStep(line, table[t], lst))
  }

  lemma FirstStepCorrect(table: seq<(string, nat)>, line: string, t: nat, fst: Option<(nat, nat)>)
    requires t < |table| && FirstSoFar(table, line, t, fst)
    ensures FirstSoFar(table, line, t + 1, FirstStep(line, table[t], fst))
  {
    var fst' := FirstStep(line, table[t], fst);
    match Find(line, table[t].0)
    case None =>
      assert forall p :: !TokenAt(table, line, t, p);
    case Some(p) =>
      assert TokenAt(table, line, t, p);
      assert forall q :: TokenAt(table, line, t, q) ==> p <= q;
  }

  lemma LastStepCorrect(table: seq<(string, nat)>, line: string, t: nat, lst: Option<(nat, nat)>)
    requires t < |table| && LastSoFar(table, line, t, lst)
    ensures LastSoFar(table, line, t + 1, LastStep(line, table[t], lst))
  {
    var lst' := LastStep(line, table[t], lst);
    match RFind(line, table[t].0)
    case None =>
      assert forall p :: !TokenAt(table, line, t, p);
    case Some(p) =>
      assert TokenAt(table, line, t, p);
      assert forall q :: TokenAt(table, line, t, q) ==> q <= p;
  }

  /** After the loop over the whole table the first slot holds the leftmost token occurrence. */
  lemma {:induction false} ScanFirstCorrect(table: seq<(string, nat)>, line: string, t: nat,
                                            fst: Option<(nat, nat)>, lst: Option<(nat, nat)>)
    requires t <= |table|
    requires FirstSoFar(table, line, t, fst)
    ensures FirstSoFar(table, line, |table|, Scan(table, line, t, fst, lst).0)
    decreases |table| - t
  {
    if t < |table| {
      FirstStepCorrect(table, line, t, fst);
      ScanFirstCorrect(table, line, t + 1, FirstStep(line, table[t], fst), LastStep(line, table[t], lst));
    }
  }

  /** After the loop over the whole table the second slot holds the rightmost token occurrence. */
  lemma {:induction false} ScanLastCorrect(table: seq<(string, nat)>, line: string, t: nat,
                                           fst: Option<(nat, nat)>, lst: Option<(nat, nat)>)
    requires t <= |table|
    requires LastSoFar(table, line, t, lst)
    ensures LastSoFar(table, line, |table|, Scan(table, line, t, fst, lst).1)
    decreases |table| - t
  {
    if t < |table| {
      LastStepCorrect(table, line, t, lst);
      ScanLastCorrect(table, line, t + 1, FirstStep(line, table[t], fst), LastStep(line, table[t], lst));
    }
  }

  ghost predicate HasToken(table: seq<(string, nat)>, line: string)
  {
    exists t, p :: 0 <= t < |table| && TokenAt(table, line, t, p)
  }

  /** The search of `calibr_2` over any token table: the value of the leftmost token occurrence times
      ten plus the value of the rightmost one. */
  function CalibrTable(table: seq<(string, nat)>, line: string): (r: Result<nat>)
    ensures r.Ok? <==> HasToken(table, line)
    ensures r.Ok? ==> exists t1, p1, t2, p2 ::
      && 0 <= t1 < |table| && TokenAt(table, line, t1, p1)
      && 0 <= t2 < |table| && TokenAt(table, line, t2, p2)
      && (forall t, p :: 0 <= t < |table| && TokenAt(table, line, t, p) ==> p1 <= p <= p2)
      && r.value == 10 * table[t1].1 + table[t2].1
  {
    var sc := Scan(table, line, 0, None, None);
    ScanOutcome(table, line, sc);
    if sc.0.Some? && sc.1.Some? then Ok(sc.0.value.0 * 10 + sc.1.value.0)
    else Err("Missing digits in string")
  }

  lemma ScanOutcome(table: seq<(string, nat)>, line: string, sc: (Option<(nat, nat)>, Option<(nat, nat)>))
    requires sc == Scan(table, line, 0, None, None)
    ensures sc.0.Some? <==> HasToken(table, line)
    ensures sc.1.Some? <==> HasToken(table, line)
    ensures sc.0.Some? && sc.1.Some? ==> exists t1, t2 ::
      && 0 <= t1 < |table| && TokenAt(table, line, t1, sc.0.value.1)
      && 0 <= t2 < |table| && TokenAt(table, line, t2, sc.1.value.1)
      && (forall t, p :: 0 <= t < |table| && TokenAt(table, line, t, p) ==> sc.0.value.1 <= p <= sc.1.value.1)
      && sc.0.value.0 * 10 + sc.1.value.0 == 10 * table[t1].1 + table[t2].1
  {
    ScanFirstCorrect(table, line, 0, None, None);
    ScanLastCorrect(table, line, 0, None, None);
  }

  /** `calibr_2`: the leftmost and rightmost digit or digit word. */
  function Calibr2(line: string): (r: Result<nat>)
    ensures r.Ok? <==> HasToken(Tokens, line)
    ensures r.Ok? ==> exists t1, p1, t2, p2 ::
      && 0 <= t1 < |Tokens| && TokenAt(Tokens, line, t1, p1)
      && 0 <= t2 < |Tokens| && TokenAt(Tokens, line, t2, p2)
      && (forall t, p :: 0 <= t < |Tokens| && TokenAt(Tokens, line, t, p) ==> p1 <= p <= p2)
      && r.value == 10 * Tokens[t1].1 + Tokens[t2].1
  {
    CalibrTable(Tokens, line)
  }

  /** A decimal digit is a token of its own value, so part two reads every digit part one does. */
  lemma DigitIsToken(line: string, i: int)
    requires 0 <= i < |line| && IsDigit(line[i])
    ensures exists t :: 0 <= t < |Tokens| && TokenAt(Tokens, line, t, i) && Tokens[t].1 == DigitValue(line[i])
  {
    var c := line[i];
    assert line[i..i + 1] == [c];
    var t := if c == '0' then 0 else 2 * DigitValue(c) - 1;
    assert Tokens[t].0 == [c] && Tokens[t].1 == DigitValue(c);
    assert TokenAt(Tokens, line, t, i);
  }

  lemma Calibr2ReadsDigits(line: string)
    ensures Calibr1(line).Ok? ==> Calibr2(line).Ok?
  {
    if Calibr1(line).Ok? {
      var i :| 0 <= i < |line| && IsDigit(line[i]);
      DigitIsToken(line, i);
    }
  }

  // ---------------------------------------------------------------------------------------------
  // Summing over the lines

  predicate AllOk(lines: seq<string>, f: string -> Result<nat>)
  {
    forall i :: 0 <= i < |lines| ==> f(lines[i]).Ok?
  }

  function Values(lines: seq<string>, f: string -> Result<nat>): (r: seq<int>)
    requires AllOk(lines, f)
    ensures |r| == |lines| && forall i :: 0 <= i < |lines| ==> r[i] == f(lines[i]).value
  {
    if |lines| == 0 then [] else [f(lines[0]).value] + Values(lines[1..], f)
  }

  /** The `fold` of `run_calibr`: the first error sticks, otherwise the values add up. */
  function CalibrFold(lines: seq<string>, f: string -> Result<nat>, acc: Result<nat>): (r: Result<nat>)
    ensures acc.Err? ==> r == acc
    ensures acc.Ok? ==> (r.Ok? <==> AllOk(lines, f))
    ensures acc.Ok? && AllOk(lines, f) ==> r.value == acc.value + Sum(Values(lines, f))
    ensures acc.Ok? && !AllOk(lines, f) ==> exists i :: 0 <= i < |lines| && r == f(lines[i]) &&
                                                        AllOk(lines[..i], f)
    decreases |lines|
  {
    if |lines| == 0 then acc
    else
      var e := f(lines[0]);
      var next := match (acc, e)
        case (Ok(sum), Ok(v)) => Ok(sum + v)
        case (Err(_), _) => acc
        case (_, Err(_)) => e;
      var r := CalibrFold(lines[1..], f, next);
      assert AllOk(lines, f) <==> e.Ok? && AllOk(lines[1..], f) by {
        if e.Ok? && AllOk(lines[1..], f) {
          forall i | 0 <= i < |lines| ensures f(lines[i]).Ok? {
            if i > 0 { assert lines[i] == lines[1..][i - 1]; }
          }
        }
      }
      assert acc.Ok? && !AllOk(lines, f) ==> exists i :: 0 <= i < |lines| && r == f(lines[i]) && AllOk(lines[..i], f) by {
        if acc.Ok? && !AllOk(lines, f) {
          if e.Err? {
            assert r == f(lines[0]) && AllOk(lines[..0], f);
          } else {
            var i :| 0 <= i < |lines[1..]| && r == f(lines[1..][i]) && AllOk(lines[1..][..i], f);
            var pre := lines[..i + 1];
            assert AllOk(pre, f) by {
              forall k | 0 <= k < |pre| ensures f(pre[k]).Ok? {
                if k > 0 { assert pre[k] == lines[1..][..i][k - 1]; }
              }
            }
          }
        }
      }
      r
  }

  /** `run_calibr`: the calibration values of all lines summed, or the first line's error. */
  function RunCalibr(input: string, f: string -> Result<nat>): (r: Result<nat>)
    ensures r.Ok? <==> AllOk(Lines(input), f)
    ensures r.Ok? ==> r.value == Sum(Values(Lines(input), f))
  {
    CalibrFold(Lines(input), f, Ok(0))
  }

  /** `run`: both parts. */
  function Run(input: string): (r: Result<(nat, nat)>)
    ensures r.Ok? <==> AllOk(Lines(input), Calibr1) && AllOk(Lines(input), Calibr2)
    ensures r.Ok? ==> r.value.0 == Sum(Values(Lines(input), Calibr1))
    ensures r.Ok? ==> r.value.1 == Sum(Values(Lines(input), Calibr2))
  {
    var p1 :- RunCalibr(input, Calibr1);
    var p2 :- RunCalibr(input, Calibr2);
    Ok((p1, p2))
  }
}

=== FILE: day02.dfy ===
/** Day 2 (Cube Conundrum): games of cube draws; part one sums the numbers of the games possible with
    12 red, 13 green and 14 blue cubes, part two sums the powers of the smallest sufficient bags. */
module Day02 {
  import opened Common
  import opened Strings

  datatype Pick = Pick(red: nat, green: nat, blue: nat)
  {
    /** No colour count exceeds the other's. */
    predicate AllLt(other: Pick)
    {
      red <= other.red && green <= other.green && blue <= other.blue
    }

    /** The colour-wise maximum: the least pick that bounds both. */
    function Accum(other: Pick): (r: Pick)
      ensures AllLt(r) && other.AllLt(r)
      ensures forall q: Pick :: AllLt(q) && other.AllLt(q) ==> r.AllLt(q)
      ensures r.red in {red, other.red} && r.green in {green, other.green} && r.blue in {blue, other.blue}
    {
      Pick(Max(red, other.red), Max(green, other.green), Max(blue, other.blue))
    }

    function Power(): nat
    {
      red * green * blue
    }
  }

  datatype Game = Game(no: nat, picks: seq<Pick>)

  const Empty: Pick := Pick(0, 0, 0)

  /** The bag of part one. */
  const Want: Pick := Pick(12, 13, 14)

  // ---------------------------------------------------------------------------------------------
  // Parsing

  predicate IsColour(c: string)
  {
    c == "red" || c == "green" || c == "blue"
  }

  /** One comma-separated part of a draw, such as " 3 blue": its colour name and count. */
  function ParsePart(e: string): (r: Result<(string, nat)>)
    ensures r.Ok? ==> IsColour(r.value.0) && r.value.1 <= U32_MAX
  {
    match SplitOnce(Trim(e), ' ')
    case None => Err("Invalid part")
    case Some((l, r)) =>
      match ParseU32(l)
      case None => Err("invalid number")
      case Some(n) => if IsColour(r) then Ok((r, n)) else Err("Invalid color in part")
  }

  /** A part parses exactly when its trimmed text is a decimal count, one space, and a colour. */
  lemma ParsePartShape(e: string)
    ensures ParsePart(e).Ok? <==> exists l, c :: Trim(e) == l + " " + c && ' ' !in l && ParseU32(l).Some? && IsColour(c)
    ensures ParsePart(e).Ok? ==> exists l :: Trim(e) == l + " " + ParsePart(e).value.0 && ParseU32(l) == Some(ParsePart(e).value.1)
  {
    var t := Trim(e);
    match SplitOnce(t, ' ')
    case None =>
    case Some((l, c)) =>
      assert t == l + " " + c;
      if exists l', c' :: t == l' + " " + c' && ' ' !in l' && ParseU32(l').Some? && IsColour(c') {
        var l', c' :| t == l' + " " + c' && ' ' !in l' && ParseU32(l').Some? && IsColour(c');
        SplitOnceUnique(t, ' ', l, c, l', c');
      }
  }

  /** The count of the last part of colour `c`, or `d` when no part names `c`. */
  function LastMentionOr(parts: seq<(string, nat)>, c: string, d: nat): nat
  {
    if |parts| == 0 then d
    else if parts[|parts| - 1].0 == c then parts[|parts| - 1].1
    else LastMentionOr(parts[..|parts| - 1], c, d)
  }

  lemma {:induction false} LastMentionOrCons(x: (string, nat), rest: seq<(string, nat)>, c: string, d: nat)
    ensures LastMentionOr([x] + rest, c, d) == LastMentionOr(rest, c, if x.0 == c then x.1 else d)
    decreases |rest|
  {
    if |rest| > 0 {
      assert ([x] + rest)[..|rest|] == [x] + rest[..|rest| - 1];
      LastMentionOrCons(x, rest[..|rest| - 1], c, d);
    }
  }

  /** The pick that starts from `p` and takes, per colour, the count of the last part naming it. */
  function Mentioned(parts: seq<(string, nat)>, p: Pick): Pick
  {
    Pick(LastMentionOr(parts, "red", p.red), LastMentionOr(parts, "green", p.green),
         LastMentionOr(parts, "blue", p.blue))
  }

  predicate PartsOk(es: seq<string>)
  {
    forall i :: 0 <= i < |es| ==> ParsePart(es[i]).Ok?
  }

  function PartValues(es: seq<string>): (r: seq<(string, nat)>)
    requires PartsOk(es)
    ensures |r| == |es| && forall i :: 0 <= i < |es| ==> r[i] == ParsePart(es[i]).value
  {
    if |es| == 0 then [] else [ParsePart(es[0]).value] + PartValues(es[1..])
  }

  /** The loop of `Pick::from_str` over the parts `es`, starting from `p`: a later part overrides an
      earlier part of the same colour. */
  function PickFold(es: seq<string>, p: Pick): (r: Result<Pick>)
    ensures r.Ok? <==> PartsOk(es)
    ensures r.Ok? ==> r.value == Mentioned(PartValues(es), p)
    decreases |es|
  {
    if |es| == 0 then Ok(p)
    else
      match ParsePart(es[0])
      case Err(m) => Err(m)
      case Ok((c, n)) =>
        var p' := if c == "red" then p.(red := n) else if c == "green" then p.(green := n) else p.(blue := n);
        var r := PickFold(es[1..], p');
        assert PartsOk(es) <==> PartsOk(es[1..]) by {
          if PartsOk(es[1..]) {
            forall i | 0 <= i < |es| ensures ParsePart(es[i]).Ok? {
              if i > 0 { assert es[i] == es[1..][i - 1]; }
            }
          }
        }
        if r.Ok? then
          assert PartValues(es) == [(c, n)] + PartValues(es[1..]);
          LastMentionOrCons((c, n), PartValues(es[1..]), "red", p.red);
          LastMentionOrCons((c, n), PartValues(es[1..]), "green", p.green);
          LastMentionOrCons((c, n), PartValues(es[1..]), "blue", p.blue);
          r
        else r
  }

  /** `Pick::from_str`: a draw such as "3 blue, 4 red"; colours not named are 0. */
  function ParsePick(s: string): (r: Result<Pick>)
    ensures r.Ok? <==> PartsOk(Split(s, ','))
    ensures r.Ok? ==> r.value == Mentioned(PartValues(Split(s, ',')), Empty)
  {
    PickFold(Split(s, ','), Empty)
  }

  /** The draws after the colon of a game line, separated by ';'. */
  function ParseDraws(gr: string): (r: Result<seq<Pick>>)
    ensures r.Ok? <==> forall i :: 0 <= i < |Split(gr, ';')| ==> ParsePick(Split(gr, ';')[i]).Ok?
    ensures r.Ok? ==> |r.value| == |Split(gr, ';')| &&
                      forall i :: 0 <= i < |r.value| ==> Ok(r.value[i]) == ParsePick(Split(gr, ';')[i])
  {
    MapResult(Split(gr, ';'), ParsePick)
  }

  /** `parse_picks`: a line "Game <no>: <draw>; <draw>; ...". */
  function ParseGame(line: string): (r: Result<Game>)
    ensures r.Ok? ==> exists gl, gr ::
      && line == "Game " + gl + ":" + gr && ':' !in gl
      && ParseU32(gl) == Some(r.value.no)
      && ParseDraws(gr) == Ok(r.value.picks)
  {
    match StripPrefix(line, "Game ")
    case None => Err("Line is not a game")
    case Some(rest) =>
      match SplitOnce(rest, ':')
      case None => Err("Colon (:) missing in line")
      case Some((gl, gr)) =>
        match ParseU32(gl)
        case None => Err("invalid game number")
        case Some(no) =>
          match ParseDraws(gr)
          case Err(m) => Err(m)
          case Ok(picks) =>
            GameShape(line, rest, gl, gr);
            Ok(Game(no, picks))
  }

  /** `line` reads "Game <gl>:<gr>" with no colon in the number part `gl`. */
  predicate GameText(line: string, gl: string, gr: string)
  {
    line == "Game " + gl + ":" + gr && ':' !in gl
  }

  /** `parse_picks` accepts every well-shaped game line whose number and draws parse, and returns
      that number and those draws. */
  lemma ParseGameAccepts(line: string, gl: string, gr: string)
    requires GameText(line, gl, gr) && ParseU32(gl).Some? && ParseDraws(gr).Ok?
    ensures ParseGame(line) == Ok(Game(ParseU32(gl).value, ParseDraws(gr).value))
  {
    GameLineSplits(line, gl, gr);
  }

  /** A line "Game <gl>:<gr>" with no colon in `gl` splits back into `gl` and `gr`. */
  lemma GameLineSplits(line: string, gl: string, gr: string)
    requires line == "Game " + gl + ":" + gr && ':' !in gl
    ensures StripPrefix(line, "Game ") == Some(gl + ":" + gr)
    ensures SplitOnce(gl + ":" + gr, ':') == Some((gl, gr))
  {
    var rest := gl + ":" + gr;
    assert line == "Game " + rest;
    var v := StripPrefix(line, "Game ").value;
    assert v == line[5..] == rest;
    assert rest == gl + [':'] + gr;
    var sp := SplitOnce(rest, ':').value;
    SplitOnceUnique(rest, ':', gl, gr, sp.0, sp.1);
  }

  lemma GameShape(line: string, rest: string, gl: string, gr: string)
    requires line == "Game " + rest && rest == gl + [':'] + gr
    ensures line == "Game " + gl + ":" + gr
  {
    assert ":" == [':'];
  }

  // ---------------------------------------------------------------------------------------------
  // The two parts

  predicate Possible(g: Game)
  {
    forall i :: 0 <= i < |g.picks| ==> g.picks[i].AllLt(Want)
  }

  /** `p1`: the sum of the numbers of the possible games. */
  function P1(games: seq<Game>): (r: nat)
    ensures forall i :: 0 <= i < |games| && Possible(games[i]) ==> games[i].no <= r
    ensures (forall i :: 0 <= i < |games| ==> !Possible(games[i])) ==> r == 0
  {
    if |games| == 0 then 0
    else
      var r := (if Possible(games[0]) then games[0].no else 0) + P1(games[1..]);
      assert forall i :: 1 <= i < |games| ==> games[i] == games[1..][i - 1];
      r
  }

  /** The numbers of possible games add up over any split of the list, one game at a time. */
  lemma {:induction false} P1Append(a: seq<Game>, b: seq<Game>)
    ensures P1(a + b) == P1(a) + P1(b)
    ensures P1([]) == 0
    ensures forall g :: P1([g]) == if Possible(g) then g.no else 0
    decreases |a|
  {
    if |a| > 0 {
      assert (a + b)[1..] == a[1..] + b;
      P1Append(a[1..], b);
    } else {
      assert a + b == b;
    }
    forall g ensures P1([g]) == if Possible(g) then g.no else 0 {
      assert [g][1..] == [];
    }
  }

  /** The fold of `p2` over the draws after the first: the smallest bag holding every draw. */
  function MinBag(acc: Pick, rest: seq<Pick>): (r: Pick)
    ensures acc.AllLt(r) && forall i :: 0 <= i < |rest| ==> rest[i].AllLt(r)
    ensures forall q: Pick :: acc.AllLt(q) && (forall i :: 0 <= i < |rest| ==> rest[i].AllLt(q)) ==> r.AllLt(q)
    decreases |rest|
  {
    if |rest| == 0 then acc
    else
      var r := MinBag(acc.Accum(rest[0]), rest[1..]);
      assert forall i :: 1 <= i < |rest| ==> rest[i] == rest[1..][i - 1];
      r
  }

  /** Every draw of the list fits in the bag `q`. */
  predicate Bounds(picks: seq<Pick>, q: Pick)
  {
    forall i :: 0 <= i < |picks| ==> picks[i].AllLt(q)
  }

  /** The power of the smallest bag of a game, 0 for a game without draws. */
  function GamePower(g: Game): (r: nat)
    ensures |g.picks| == 0 ==> r == 0
    ensures |g.picks| > 0 ==> exists m: Pick ::
      && Bounds(g.picks, m) && (forall q: Pick :: Bounds(g.picks, q) ==> m.AllLt(q)) && r == m.Power()
  {
    if |g.picks| == 0 then 0
    else
      var m := MinBag(g.picks[0], g.picks[1..]);
      assert forall i :: 1 <= i < |g.picks| ==> g.picks[i] == g.picks[1..][i - 1];
      assert Bounds(g.picks, m);
      m.Power()
  }

  /** `p2`: the sum of the game powers. */
  function P2(games: seq<Game>): (r: nat)
    ensures forall i :: 0 <= i < |games| ==> GamePower(games[i]) <= r
  {
    if |games| == 0 then 0
    else
      var r := GamePower(games[0]) + P2(games[1..]);
      assert forall i :: 1 <= i < |games| ==> games[i] == games[1..][i - 1];
      r
  }

  /** The game powers add up over any split of the list, one game at a time. */
  lemma {:induction false} P2Append(a: seq<Game>, b: seq<Game>)
    ensures P2(a + b) == P2(a) + P2(b)
    ensures P2([]) == 0
    ensures forall g :: P2([g]) == GamePower(g)
    decreases |a|
  {
    if |a| > 0 {
      assert (a + b)[1..] == a[1..] + b;
      P2Append(a[1..], b);
    } else {
      assert a + b == b;
    }
    forall g ensures P2([g]) == GamePower(g) {
      assert [g][1..] == [];
    }
  }

  /** A game with draws is possible exactly when its smallest bag fits in the bag of part one. */
  lemma PossibleIffMinBagFits(g: Game)
    requires |g.picks| > 0
    ensures Possible(g) <==> MinBag(g.picks[0], g.picks[1..]).AllLt(Want)
  {
    var m := MinBag(g.picks[0], g.picks[1..]);
    assert forall i :: 1 <= i < |g.picks| ==> g.picks[i] == g.picks[1..][i - 1];
    if m.AllLt(Want) {
      forall i | 0 <= i < |g.picks| ensures g.picks[i].AllLt(Want) {
        if i > 0 { assert g.picks[1..][i - 1].AllLt(m); }
      }
    }
  }

  /** The games are the lines parsed one by one. */
  predicate ParsedAs(lines: seq<string>, games: seq<Game>)
  {
    |games| == |lines| && forall i :: 0 <= i < |games| ==> ParseGame(lines[i]) == Ok(games[i])
  }

  /** `run`: both answers, or the first line that does not parse. */
  function Run(input: string): (r: Result<(nat, nat)>)
    ensures r.Ok? <==> forall i :: 0 <= i < |Lines(input)| ==> ParseGame(Lines(input)[i]).Ok?
    ensures r.Ok? ==> exists games :: ParsedAs(Lines(input), games) && r.value == (P1(games), P2(games))
  {
    var lines := Lines(input);
    var games :- MapResult(lines, ParseGame);
    assert ParsedAs(lines, games);
    Ok((P1(games), P2(games)))
  }
}

=== FILE: day03.dfy ===
/** Day 3 (Gear Ratios): the numbers of an engine schematic, each paired with the first symbol found
    around it. Any character other than '.' counts as a symbol, digits in the rows above and below
    included. */
module Day03 {
  import opened Common
  import opened Strings

  datatype Sym = Sym(x: int, y: int, c: char)

  /** A number of the schematic: `w` digits starting at column `x` of row `y`. */
  datatype Num = Num(x: int, y: int, w: nat, sym: Option<Sym>, value: nat)

  predicate AllDec(s: string)
  {
    forall i :: 0 <= i < |s| ==> IsDigit(s[i])
  }

  /** `n` is a maximal run of decimal digits of `line`, with its decimal value. */
  predicate IsRun(line: string, n: Num)
  {
    && n.w >= 1 && 0 <= n.x && n.x + n.w <= |line|
    && AllDec(line[n.x..n.x + n.w])
    && n.value == DigitsValue(line[n.x..n.x + n.w], 10)
    && (n.x == 0 || !IsDigit(line[n.x - 1]))
    && (n.x + n.w == |line| || !IsDigit(line[n.x + n.w]))
  }

  // ---------------------------------------------------------------------------------------------
  // Scanning one line

  /** The inner loop of `nums` from column `x` on, with the number being read in `acc`. */
  function ScanFrom(line: string, y: int, x: nat, acc: Option<Num>): seq<Num>
    requires x <= |line|
    decreases |line| - x
  {
    if x == |line| then (if acc.Some? then [acc.value] else [])
    else if IsDigit(line[x]) then ScanFrom(line, y, x + 1, Some(Extend(line, y, x, acc)))
    else
      (if acc.Some? then [acc.value] else []) + ScanFrom(line, y, x + 1, None)
  }

  /** `acc` holds the digits of `line` from its start up to column `x`. */
  predicate AccOk(line: string, y: int, x: nat, a: Num)
    requires x <= |line|
  {
    && a.y == y && a.sym.None? && a.w >= 1 && 0 <= a.x && a.x + a.w == x
    && AllDec(line[a.x..x]) && a.value == DigitsValue(line[a.x..x], 10)
    && (a.x == 0 || !IsDigit(line[a.x - 1]))
  }

  predicate Disjoint(r: seq<Num>)
  {
    forall i, j :: 0 <= i < j < |r| ==> r[i].x + r[i].w < r[j].x
  }

  lemma DigitsValueSnoc(s: string, c: char)
    requires AllDec(s) && IsDigit(c)
    ensures AllDec(s + [c])
    ensures DigitsValue(s + [c], 10) == DigitsValue(s, 10) * 10 + DigitValue(c)
  {
    assert (s + [c])[..|s|] == s;
  }

  /** The facts `ScanFrom` establishes about the numbers it returns, all starting at or after `start`. */
  predicate ScanGood(line: string, y: int, r: seq<Num>, start: int)
  {
    && (forall i :: 0 <= i < |r| ==> IsRun(line, r[i]) && r[i].y == y && r[i].sym.None? && r[i].x >= start)
    && Disjoint(r)
  }

  /** Every digit of `line` at or after `start` lies in one of the numbers of `r`. */
  ghost predicate Covers(line: string, r: seq<Num>, start: int)
  {
    forall k :: 0 <= k < |line| && start <= k && IsDigit(line[k]) ==> exists i :: 0 <= i < |r| && r[i].x <= k < r[i].x + r[i].w
  }

  lemma RunClosed(line: string, y: int, x: nat, a: Num)
    requires x <= |line| && AccOk(line, y, x, a)
    requires x == |line| || !IsDigit(line[x])
    ensures IsRun(line, a)
  {
  }

  lemma RunExtended(line: string, y: int, x: nat, acc: Option<Num>)
    requires x < |line| && IsDigit(line[x])
    requires acc.Some? ==> AccOk(line, y, x, acc.value)
    requires acc.None? ==> x == 0 || !IsDigit(line[x - 1])
    ensures AccOk(line, y, x + 1, Extend(line, y, x, acc))
  {
    if acc.Some? {
      assert line[acc.value.x..x + 1] == line[acc.value.x..x] + [line[x]];
      DigitsValueSnoc(line[acc.value.x..x], line[x]);
    } else {
      assert line[x..x + 1] == [] + [line[x]];
      DigitsValueSnoc([], line[x]);
    }
  }

  lemma CloseThenRest(line: string, y: int, x: nat, a: Num, tail: seq<Num>)
    requires x < |line| && !IsDigit(line[x]) && AccOk(line, y, x, a)
    requires ScanGood(line, y, tail, x + 1) && Covers(line, tail, x + 1)
    ensures ScanGood(line, y, [a] + tail, a.x) && Covers(line, [a] + tail, a.x)
  {
    RunClosed(line, y, x, a);
    GoodCons(line, y, a, tail, x + 1);
    CoversCons(line, x, a, tail);
  }

  lemma GoodCons(line: string, y: int, a: Num, tail: seq<Num>, start: int)
    requires IsRun(line, a) && a.y == y && a.sym.None? && a.x + a.w < start
    requires ScanGood(line, y, tail, start)
    ensures ScanGood(line, y, [a] + tail, a.x)
  {
    var r := [a] + tail;
    assert forall i :: 0 < i < |r| ==> r[i] == tail[i - 1];
  }

  lemma CoversCons(line: string, x: nat, a: Num, tail: seq<Num>)
    requires x < |line| && !IsDigit(line[x]) && a.x + a.w == x && a.x >= 0
    requires Covers(line, tail, x + 1)
    ensures Covers(line, [a] + tail, a.x)
  {
    var r := [a] + tail;
    forall k | 0 <= k < |line| && a.x <= k && IsDigit(line[k])
      ensures exists i :: 0 <= i < |r| && r[i].x <= k < r[i].x + r[i].w
    {
      if k < x {
        assert r[0].x <= k < r[0].x + r[0].w;
      } else {
        var i :| 0 <= i < |tail| && tail[i].x <= k < tail[i].x + tail[i].w;
        assert r[i + 1] == tail[i];
      }
    }
  }

  lemma {:induction false} ScanFromCorrect(line: string, y: int, x: nat, acc: Option<Num>)
    requires x <= |line|
    requires acc.Some? ==> AccOk(line, y, x, acc.value)
    requires acc.None? ==> x == 0 || !IsDigit(line[x - 1])
    ensures ScanGood(line, y, ScanFrom(line, y, x, acc), StartOf(x, acc))
    ensures Covers(line, ScanFrom(line, y, x, acc), StartOf(x, acc))
    decreases |line| - x
  {
    if x == |line| {
      ScanEnd(line, y, x, acc);
    } else if IsDigit(line[x]) {
      RunExtended(line, y, x, acc);
      var a := Extend(line, y, x, acc);
      ScanFromCorrect(line, y, x + 1, Some(a));
      assert ScanFrom(line, y, x, acc) == ScanFrom(line, y, x + 1, Some(a));
    } else {
      ScanFromCorrect(line, y, x + 1, None);
      ScanBreak(line, y, x, acc);
    }
  }

  function StartOf(x: nat, acc: Option<Num>): int
  {
    if acc.Some? then acc.value.x else x
  }

  /** The number being read once digit `line[x]` is added to it. */
  function Extend(line: string, y: int, x: nat, acc: Option<Num>): Num
    requires x < |line| && IsDigit(line[x])
  {
    match acc
    case Some(a) => a.(w := a.w + 1, value := a.value * 10 + DigitValue(line[x]))
    case None => Num(x, y, 1, None, DigitValue(line[x]))
  }

  lemma ScanEnd(line: string, y: int, x: nat, acc: Option<Num>)
    requires x == |line|
    requires acc.Some? ==> AccOk(line, y, x, acc.value)
    ensures ScanGood(line, y, ScanFrom(line, y, x, acc), StartOf(x, acc))
    ensures Covers(line, ScanFrom(line, y, x, acc), StartOf(x, acc))
  {
    if acc.Some? {
      RunClosed(line, y, x, acc.value);
      var r := ScanFrom(line, y, x, acc);
      assert r == [acc.value];
      assert r[0].x <= StartOf(x, acc);
    }
  }

  lemma ScanBreak(line: string, y: int, x: nat, acc: Option<Num>)
    requires x < |line| && !IsDigit(line[x])
    requires acc.Some? ==> AccOk(line, y, x, acc.value)
    requires ScanGood(line, y, ScanFrom(line, y, x + 1, None), x + 1)
    requires Covers(line, ScanFrom(line, y, x + 1, None), x + 1)
    ensures ScanGood(line, y, ScanFrom(line, y, x, acc), StartOf(x, acc))
    ensures Covers(line, ScanFrom(line, y, x, acc), StartOf(x, acc))
  {
    var tail := ScanFrom(line, y, x + 1, None);
    if acc.Some? {
      assert ScanFrom(line, y, x, acc) == [acc.value] + tail;
      CloseThenRest(line, y, x, acc.value, tail);
    } else {
      assert ScanFrom(line, y, x, acc) == tail;
      assert Covers(line, tail, x) by {
        forall k | 0 <= k < |line| && x <= k && IsDigit(line[k])
          ensures exists i :: 0 <= i < |tail| && tail[i].x <= k < tail[i].x + tail[i].w
        {
          assert k != x;
        }
      }
    }
  }

  /** The numbers of one line, left to right, with no symbols attached yet. */
  function ScanLine(line: string, y: int): (r: seq<Num>)
    ensures forall i :: 0 <= i < |r| ==> IsRun(line, r[i]) && r[i].y == y && r[i].sym.None?
    ensures Disjoint(r)
    ensures forall k :: 0 <= k < |line| && IsDigit(line[k]) ==> exists i :: 0 <= i < |r| && r[i].x <= k < r[i].x + r[i].w
  {
    ScanFromCorrect(line, y, 0, None);
    ScanFrom(line, y, 0, None)
  }

  /** The numbers of rows `y` onwards, row by row. */
  function RawNums(v: seq<string>, y: nat): seq<Num>
    requires y <= |v|
    decreases |v| - y
  {
    if y == |v| then [] else ScanLine(v[y], y) + RawNums(v, y + 1)
  }

  /** `n` is a maximal run of digits of row `n.y` of `v`. */
  predicate NumOk(v: seq<string>, n: Num)
  {
    0 <= n.y < |v| && IsRun(v[n.y], n)
  }

  lemma {:induction false} RawNumsRuns(v: seq<string>, y: nat)
    requires y <= |v|
    ensures forall i :: 0 <= i < |RawNums(v, y)| ==>
      RawNums(v, y)[i].y >= y && NumOk(v, RawNums(v, y)[i]) && RawNums(v, y)[i].sym.None?
    decreases |v| - y
  {
    if y < |v| {
      var here := ScanLine(v[y], y);
      var rest := RawNums(v, y + 1);
      RawNumsRuns(v, y + 1);
      var r := here + rest;
      assert RawNums(v, y) == r;
      forall i | 0 <= i < |r| ensures r[i].y >= y && NumOk(v, r[i]) && r[i].sym.None? {
        if i < |here| {
          assert r[i] == here[i];
        } else {
          assert r[i] == rest[i - |here|];
        }
      }
    }
  }

  /** Some number of `r` lies on row `row` and spans column `k`. */
  predicate CellIn(r: seq<Num>, row: int, k: int)
  {
    exists i :: 0 <= i < |r| && r[i].y == row && r[i].x <= k < r[i].x + r[i].w
  }

  lemma CellInLeft(a: seq<Num>, b: seq<Num>, row: int, k: int)
    requires CellIn(a, row, k)
    ensures CellIn(a + b, row, k)
  {
    var i :| 0 <= i < |a| && a[i].y == row && a[i].x <= k < a[i].x + a[i].w;
    assert (a + b)[i] == a[i];
  }

  lemma CellInRight(a: seq<Num>, b: seq<Num>, row: int, k: int)
    requires CellIn(b, row, k)
    ensures CellIn(a + b, row, k)
  {
    var i :| 0 <= i < |b| && b[i].y == row && b[i].x <= k < b[i].x + b[i].w;
    assert (a + b)[|a| + i] == b[i];
  }

  lemma {:induction false} RawNumsCovers(v: seq<string>, y: nat)
    requires y <= |v|
    ensures forall row, k :: y <= row < |v| && 0 <= k < |v[row]| && IsDigit(v[row][k]) ==> CellIn(RawNums(v, y), row, k)
    decreases |v| - y
  {
    if y < |v| {
      var here := ScanLine(v[y], y);
      var rest := RawNums(v, y + 1);
      RawNumsCovers(v, y + 1);
      assert RawNums(v, y) == here + rest;
      forall row, k | y <= row < |v| && 0 <= k < |v[row]| && IsDigit(v[row][k])
        ensures CellIn(here + rest, row, k)
      {
        if row == y {
          CellInLeft(here, rest, row, k);
        } else {
          CellInRight(here, rest, row, k);
        }
      }
    }
  }

  // ---------------------------------------------------------------------------------------------
  // Symbols around a number

  /** `get_sym`: the symbol at a cell, if the cell exists and is not '.'. */
  function GetSym(v: seq<string>, x: int, y: int): (r: Option<Sym>)
    ensures r.Some? <==> 0 <= y < |v| && 0 <= x < |v[y]| && v[y][x] != '.'
    ensures r.Some? ==> r.value == Sym(x, y, v[y][x])
  {
    if x < 0 || y < 0 then None
    else if y >= |v| then None
    else if x >= |v[y]| then None
    else if v[y][x] != '.' then Some(Sym(x, y, v[y][x]))
    else None
  }

  function OrElse(a: Option<Sym>, b: Option<Sym>): Option<Sym>
  {
    if a.Some? then a else b
  }

  /** The cells around a number: both ends of its row and the rows above and below, diagonals included. */
  predicate InRing(n: Num, px: int, py: int)
  {
    || (py == n.y && (px == n.x - 1 || px == n.x + n.w))
    || ((py == n.y - 1 || py == n.y + 1) && n.x - 1 <= px <= n.x + n.w)
  }

  /** No symbol above or below row `y` at column `px`. */
  predicate ColumnClear(v: seq<string>, y: int, px: int)
  {
    GetSym(v, px, y - 1).None? && GetSym(v, px, y + 1).None?
  }

  /** The loop of `get_num_sym` over the columns from `i` to `last`, the row above row `y` before the
      row below. */
  function RingFrom(v: seq<string>, y: int, last: int, i: int): (r: Option<Sym>)
    ensures r.Some? ==> (r.value.y == y - 1 || r.value.y == y + 1) && i <= r.value.x <= last &&
                        GetSym(v, r.value.x, r.value.y) == r
    ensures r.None? ==> forall px :: i <= px <= last ==> ColumnClear(v, y, px)
    ensures r.Some? ==> (forall px :: i <= px < r.value.x ==> ColumnClear(v, y, px)) &&
                        (r.value.y == y + 1 ==> GetSym(v, r.value.x, y - 1).None?)
    decreases last + 1 - i
  {
    if i > last then None
    else
      var z := OrElse(GetSym(v, i, y - 1), GetSym(v, i, y + 1));
      if z.Some? then z else RingFrom(v, y, last, i + 1)
  }

  /** The place of a ring cell in the order `get_num_sym` tries them: left end, right end, then column
      by column from the left, the row above before the row below. */
  function ScanRank(n: Num, px: int, py: int): int
  {
    if py == n.y then (if px == n.x - 1 then 0 else 1)
    else 2 + 2 * (px - (n.x - 1)) + (if py == n.y + 1 then 1 else 0)
  }

  /** `get_num_sym`: the first symbol around the number: left end, right end, then the rows above and
      below column by column. */
  function GetNumSym(v: seq<string>, n: Num): (r: Option<Sym>)
    ensures r.Some? ==> InRing(n, r.value.x, r.value.y) && GetSym(v, r.value.x, r.value.y) == r
    ensures r.Some? ==> forall px, py :: InRing(n, px, py) && ScanRank(n, px, py) < ScanRank(n, r.value.x, r.value.y) ==>
                          GetSym(v, px, py).None?
    ensures r.None? <==> forall px, py :: InRing(n, px, py) ==> GetSym(v, px, py).None?
  {
    var z := OrElse(GetSym(v, n.x - 1, n.y), GetSym(v, n.x + n.w, n.y));
    if z.Some? then z
    else
      var r := RingFrom(v, n.y, n.x + n.w, n.x - 1);
      assert r.None? ==> forall px, py :: InRing(n, px, py) ==> GetSym(v, px, py).None? by {
        if r.None? {
          forall px, py | InRing(n, px, py) ensures GetSym(v, px, py).None? {
            if py != n.y {
              assert ColumnClear(v, n.y, px);
            }
          }
        }
      }
      assert r.Some? ==> forall px, py :: InRing(n, px, py) && ScanRank(n, px, py) < ScanRank(n, r.value.x, r.value.y) ==>
                           GetSym(v, px, py).None? by {
        if r.Some? {
          forall px, py | InRing(n, px, py) && ScanRank(n, px, py) < ScanRank(n, r.value.x, r.value.y)
            ensures GetSym(v, px, py).None?
          {
            if py != n.y && px < r.value.x {
              assert ColumnClear(v, n.y, px);
            }
          }
        }
      }
      r
  }

  /** The last loop of `nums`: attaches to each number the symbol found around it. */
  function AttachSyms(v: seq<string>, raw: seq<Num>): (r: seq<Num>)
    ensures |r| == |raw|
    ensures forall i :: 0 <= i < |r| ==> r[i] == raw[i].(sym := GetNumSym(v, raw[i]))
  {
    if |raw| == 0 then [] else [raw[0].(sym := GetNumSym(v, raw[0]))] + AttachSyms(v, raw[1..])
  }

  /** `nums`: every number of the schematic with the symbol found around it. */
  function Nums(v: seq<string>): (r: seq<Num>)
    ensures |r| == |RawNums(v, 0)|
  {
    AttachSyms(v, RawNums(v, 0))
  }

  lemma NumOkIgnoresSym(v: seq<string>, n: Num, s: Option<Sym>)
    ensures NumOk(v, n.(sym := s)) == NumOk(v, n)
  {
  }

  /** Every number of `nums` is a maximal digit run of its row, with the symbol found around it. */
  lemma NumsRuns(v: seq<string>)
    ensures forall i :: 0 <= i < |Nums(v)| ==> NumOk(v, Nums(v)[i]) && Nums(v)[i].sym == GetNumSym(v, Nums(v)[i])
  {
    var raw := RawNums(v, 0);
    var r := Nums(v);
    RawNumsRuns(v, 0);
    forall i | 0 <= i < |r| ensures NumOk(v, r[i]) && r[i].sym == GetNumSym(v, r[i]) {
      AttachedRun(v, raw[i]);
    }
  }

  lemma AttachedRun(v: seq<string>, n: Num)
    requires NumOk(v, n)
    ensures var a := n.(sym := GetNumSym(v, n)); NumOk(v, a) && a.sym == GetNumSym(v, a)
  {
    var a := n.(sym := GetNumSym(v, n));
    assert a.x == n.x && a.y == n.y && a.w == n.w;
    NumOkIgnoresSym(v, n, GetNumSym(v, n));
  }

  /** Every digit of the schematic belongs to one of the numbers of `nums`. */
  lemma NumsCover(v: seq<string>)
    ensures forall row, k :: 0 <= row < |v| && 0 <= k < |v[row]| && IsDigit(v[row][k]) ==>
      exists i :: 0 <= i < |Nums(v)| && Nums(v)[i].y == row && Nums(v)[i].x <= k < Nums(v)[i].x + Nums(v)[i].w
  {
    var raw := RawNums(v, 0);
    var r := Nums(v);
    RawNumsCovers(v, 0);
    forall row, k | 0 <= row < |v| && 0 <= k < |v[row]| && IsDigit(v[row][k])
      ensures exists i :: 0 <= i < |r| && r[i].y == row && r[i].x <= k < r[i].x + r[i].w
    {
      assert CellIn(raw, row, k);
      var i :| 0 <= i < |raw| && raw[i].y == row && raw[i].x <= k < raw[i].x + raw[i].w;
      assert r[i].y == row && r[i].x <= k < r[i].x + r[i].w;
    }
  }

  // ---------------------------------------------------------------------------------------------
  // The two parts

  /** `p1`: the sum of the numbers that have a symbol around them. */
  function P1(nums: seq<Num>): (r: nat)
    ensures forall i :: 0 <= i < |nums| && nums[i].sym.Some? ==> nums[i].value <= r
    ensures (forall i :: 0 <= i < |nums| ==> nums[i].sym.None?) ==> r == 0
  {
    if |nums| == 0 then 0
    else
      var r := (if nums[0].sym.Some? then nums[0].value else 0) + P1(nums[1..]);
      assert forall i :: 1 <= i < |nums| ==> nums[i] == nums[1..][i - 1];
      r
  }

  /** The part numbers add up over any split of the list, a single number counting exactly when it
      has a symbol. */
  lemma {:induction false} P1Append(a: seq<Num>, b: seq<Num>)
    ensures P1(a + b) == P1(a) + P1(b)
    ensures forall n :: P1([n]) == if n.sym.Some? then n.value else 0
    decreases |a|
  {
    if |a| > 0 {
      assert (a + b)[1..] == a[1..] + b;
      P1Append(a[1..], b);
    } else {
      assert a + b == b;
    }
    forall n ensures P1([n]) == if n.sym.Some? then n.value else 0 {
      assert [n][1..] == [];
    }
  }

  predicate IsGearOf(n: Num, k: (int, int))
  {
    n.sym.Some? && n.sym.value.c == '*' && (n.sym.value.x, n.sym.value.y) == k
  }

  /** The values of the numbers whose symbol is the '*' at `k`, in order. */
  function GearValues(nums: seq<Num>, k: (int, int)): (r: seq<nat>)
    ensures |r| <= |nums|
  {
    if |nums| == 0 then []
    else (if IsGearOf(nums[0], k) then [nums[0].value] else []) + GearValues(nums[1..], k)
  }

  /** The `HashMap` of `p2` as an association list in order of first insertion. */
  type Groups = seq<((int, int), seq<nat>)>

  function Lookup(m: Groups, k: (int, int)): seq<nat>
  {
    if |m| == 0 then [] else if m[0].0 == k then m[0].1 else Lookup(m[1..], k)
  }

  predicate KeysDistinct(m: Groups)
  {
    forall i, j :: 0 <= i < j < |m| ==> m[i].0 != m[j].0
  }

  predicate HasKey(m: Groups, k: (int, int))
  {
    exists i :: 0 <= i < |m| && m[i].0 == k
  }

  /** `m.entry(k).or_default().push(v)`. */
  function Push(m: Groups, k: (int, int), v: nat): Groups
  {
    if |m| == 0 then [(k, [v])]
    else if m[0].0 == k then [(k, m[0].1 + [v])] + m[1..]
    else [m[0]] + Push(m[1..], k, v)
  }

  /** Pushing appends `v` to the values of `k` and leaves every other key's values alone. */
  lemma {:induction false} PushLookup(m: Groups, k: (int, int), v: nat)
    ensures forall k' :: Lookup(Push(m, k, v), k') == if k' == k then Lookup(m, k) + [v] else Lookup(m, k')
  {
    var r := Push(m, k, v);
    if |m| > 0 {
      assert r[1..] == if m[0].0 == k then m[1..] else Push(m[1..], k, v);
      if m[0].0 != k {
        PushLookup(m[1..], k, v);
      }
    }
  }

  lemma HasKeyCons(m: Groups)
    requires |m| > 0
    ensures forall k' :: HasKey(m, k') <==> m[0].0 == k' || HasKey(m[1..], k')
  {
    forall k' ensures HasKey(m, k') <==> m[0].0 == k' || HasKey(m[1..], k') {
      if HasKey(m, k') && m[0].0 != k' {
        var i :| 0 <= i < |m| && m[i].0 == k';
        assert m[1..][i - 1].0 == k';
      }
      if HasKey(m[1..], k') {
        var i :| 0 <= i < |m[1..]| && m[1..][i].0 == k';
        assert m[i + 1].0 == k';
      }
    }
  }

  /** Pushing adds `k` to the keys and no other key. */
  lemma {:induction false} PushHasKey(m: Groups, k: (int, int), v: nat)
    ensures forall k' :: HasKey(Push(m, k, v), k') <==> HasKey(m, k') || k' == k
  {
    var r := Push(m, k, v);
    if |m| == 0 {
      assert r[0].0 == k;
    } else {
      HasKeyCons(m);
      HasKeyCons(r);
      if m[0].0 == k {
        assert r[1..] == m[1..];
      } else {
        assert r[1..] == Push(m[1..], k, v);
        PushHasKey(m[1..], k, v);
      }
    }
  }

  /** Pushing keeps the keys distinct. */
  lemma {:induction false} PushDistinct(m: Groups, k: (int, int), v: nat)
    requires KeysDistinct(m)
    ensures KeysDistinct(Push(m, k, v))
  {
    var r := Push(m, k, v);
    if |m| > 0 && m[0].0 != k {
      var tail := Push(m[1..], k, v);
      assert r[1..] == tail;
      PushDistinct(m[1..], k, v);
      PushHasKey(m[1..], k, v);
      HasKeyCons(m);
      forall j | 0 < j < |r| ensures r[0].0 != r[j].0 {
        assert HasKey(tail, r[j].0) by { assert tail[j - 1] == r[j]; }
        if r[j].0 != k {
          var i :| 0 <= i < |m[1..]| && m[1..][i].0 == r[j].0;
          assert m[i + 1].0 == r[j].0;
        }
      }
    } else if |m| > 0 {
      assert forall j :: 0 < j < |r| ==> r[j] == m[j];
    }
  }

  /** One step of the `p2` loop: a number next to a '*' adds its value under that '*'. */
  lemma GearPush(m: Groups, n: Num)
    ensures var m' := if n.sym.Some? && n.sym.value.c == '*' then Push(m, (n.sym.value.x, n.sym.value.y), n.value) else m;
      && (forall k :: Lookup(m', k) == Lookup(m, k) + if IsGearOf(n, k) then [n.value] else [])
      && (forall k :: HasKey(m', k) <==> HasKey(m, k) || IsGearOf(n, k))
      && (KeysDistinct(m) ==> KeysDistinct(m'))
  {
    if n.sym.Some? && n.sym.value.c == '*' {
      var key := (n.sym.value.x, n.sym.value.y);
      PushLookup(m, key, n.value);
      PushHasKey(m, key, n.value);
      if KeysDistinct(m) { PushDistinct(m, key, n.value); }
    }
  }

  lemma GearPushLookup(m: Groups, n: Num, k: (int, int))
    ensures var m' := if n.sym.Some? && n.sym.value.c == '*' then Push(m, (n.sym.value.x, n.sym.value.y), n.value) else m;
      Lookup(m', k) == Lookup(m, k) + if IsGearOf(n, k) then [n.value] else []
  {
    if n.sym.Some? && n.sym.value.c == '*' {
      PushLookup(m, (n.sym.value.x, n.sym.value.y), n.value);
    }
  }

  lemma ConcatAssoc(a: seq<nat>, b: seq<nat>, c: seq<nat>)
    ensures (a + b) + c == a + (b + c)
  {
  }

  ghost predicate HasGear(nums: seq<Num>, k: (int, int))
  {
    exists i :: 0 <= i < |nums| && IsGearOf(nums[i], k)
  }

  lemma HasGearCons(nums: seq<Num>, k: (int, int))
    requires |nums| > 0
    ensures HasGear(nums, k) <==> IsGearOf(nums[0], k) || HasGear(nums[1..], k)
  {
    if HasGear(nums, k) {
      var i :| 0 <= i < |nums| && IsGearOf(nums[i], k);
      if i > 0 { assert IsGearOf(nums[1..][i - 1], k); }
    }
    if HasGear(nums[1..], k) {
      var i :| 0 <= i < |nums[1..]| && IsGearOf(nums[1..][i], k);
      assert IsGearOf(nums[i + 1], k);
    }
  }

  /** The loop of `p2` that gathers, per '*', the values of the numbers around it. */
  function GroupGears(nums: seq<Num>, m: Groups): Groups
    decreases |nums|
  {
    if |nums| == 0 then m
    else
      var n := nums[0];
      var m' := if n.sym.Some? && n.sym.value.c == '*' then Push(m, (n.sym.value.x, n.sym.value.y), n.value) else m;
      GroupGears(nums[1..], m')
  }

  /** The gathering appends to each '*' the values of the numbers around it, in order. */
  lemma {:induction false} GroupGearsLookup(nums: seq<Num>, m: Groups, k: (int, int))
    ensures Lookup(GroupGears(nums, m), k) == Lookup(m, k) + GearValues(nums, k)
    decreases |nums|
  {
    if |nums| > 0 {
      var n := nums[0];
      var m' := if n.sym.Some? && n.sym.value.c == '*' then Push(m, (n.sym.value.x, n.sym.value.y), n.value) else m;
      GearPushLookup(m, n, k);
      GroupGearsLookup(nums[1..], m', k);
      var here: seq<nat> := if IsGearOf(n, k) then [n.value] else [];
      var later := GearValues(nums[1..], k);
      assert GroupGears(nums, m) == GroupGears(nums[1..], m');
      assert GearValues(nums, k) == here + later;
      assert Lookup(m', k) == Lookup(m, k) + here;
      ConcatAssoc(Lookup(m, k), here, later);
    }
  }

  /** The gathering has a key exactly for the '*'s it started with and those some number touches. */
  lemma {:induction false} GroupGearsKeys(nums: seq<Num>, m: Groups)
    ensures forall k :: HasKey(GroupGears(nums, m), k) <==> HasKey(m, k) || HasGear(nums, k)
    decreases |nums|
  {
    if |nums| > 0 {
      var n := nums[0];
      var m' := if n.sym.Some? && n.sym.value.c == '*' then Push(m, (n.sym.value.x, n.sym.value.y), n.value) else m;
      GearPush(m, n);
      GroupGearsKeys(nums[1..], m');
      var r := GroupGears(nums, m);
      assert r == GroupGears(nums[1..], m');
      forall k ensures HasKey(r, k) <==> HasKey(m, k) || HasGear(nums, k) {
        HasGearCons(nums, k);
      }
    }
  }

  /** The gathering never lists a key twice. */
  lemma {:induction false} GroupGearsDistinct(nums: seq<Num>, m: Groups)
    requires KeysDistinct(m)
    ensures KeysDistinct(GroupGears(nums, m))
    decreases |nums|
  {
    if |nums| > 0 {
      var n := nums[0];
      var m' := if n.sym.Some? && n.sym.value.c == '*' then Push(m, (n.sym.value.x, n.sym.value.y), n.value) else m;
      GearPush(m, n);
      GroupGearsDistinct(nums[1..], m');
    }
  }

  /** The ratio of a '*' with exactly two numbers around it, 0 for any other. */
  function Ratio(vs: seq<nat>): nat
  {
    if |vs| == 2 then vs[0] * vs[1] else 0
  }

  function GearSum(m: Groups): nat
  {
    if |m| == 0 then 0 else Ratio(m[0].1) + GearSum(m[1..])
  }

  /** The ratios of the '*' cells listed, each from the numbers touching it. */
  function RatioSum(nums: seq<Num>, ks: seq<(int, int)>): nat
  {
    if |ks| == 0 then 0 else Ratio(GearValues(nums, ks[0])) + RatioSum(nums, ks[1..])
  }

  function KeysOf(m: Groups): (r: seq<(int, int)>)
    ensures |r| == |m| && forall i :: 0 <= i < |m| ==> r[i] == m[i].0
  {
    if |m| == 0 then [] else [m[0].0] + KeysOf(m[1..])
  }

  lemma {:induction false} GearSumIsRatioSum(nums: seq<Num>, m: Groups)
    requires forall i :: 0 <= i < |m| ==> m[i].1 == GearValues(nums, m[i].0)
    ensures GearSum(m) == RatioSum(nums, KeysOf(m))
  {
    if |m| > 0 {
      assert KeysOf(m)[1..] == KeysOf(m[1..]);
      GearSumIsRatioSum(nums, m[1..]);
    }
  }

  /** `p2`: the gear ratios summed over the '*' symbols with exactly two numbers around them. */
  function P2(nums: seq<Num>): nat
  {
    GearSum(GroupGears(nums, []))
  }

  /** The gathering map of `p2` holds each '*' with numbers once, with exactly the values of its
      numbers in order. */
  lemma GroupsAreGears(nums: seq<Num>)
    ensures KeysDistinct(GroupGears(nums, []))
    ensures forall k :: HasKey(GroupGears(nums, []), k) <==> HasGear(nums, k)
    ensures forall i :: 0 <= i < |GroupGears(nums, [])| ==>
      GroupGears(nums, [])[i].1 == GearValues(nums, GroupGears(nums, [])[i].0)
  {
    var m := GroupGears(nums, []);
    GroupGearsKeys(nums, []);
    GroupGearsDistinct(nums, []);
    forall i | 0 <= i < |m| ensures m[i].1 == GearValues(nums, m[i].0) {
      GroupGearsLookup(nums, [], m[i].0);
      LookupDistinct(m, i);
    }
  }

  lemma {:induction false} LookupDistinct(m: Groups, i: int)
    requires KeysDistinct(m) && 0 <= i < |m|
    ensures Lookup(m, m[i].0) == m[i].1
  {
    if i > 0 {
      LookupDistinct(m[1..], i - 1);
    }
  }

  /** The '*' cells listed are distinct and are exactly those with numbers around them. */
  ghost predicate GearKeys(nums: seq<Num>, ks: seq<(int, int)>)
  {
    && (forall i, j :: 0 <= i < j < |ks| ==> ks[i] != ks[j])
    && (forall k :: k in ks <==> HasGear(nums, k))
  }

  lemma KeysOfHasKey(m: Groups, k: (int, int))
    ensures k in KeysOf(m) <==> HasKey(m, k)
  {
    if HasKey(m, k) {
      var i :| 0 <= i < |m| && m[i].0 == k;
      assert KeysOf(m)[i] == k;
    }
  }

  /** `p2` adds the ratio of every '*' that has numbers around it, each such '*' once. */
  lemma P2IsRatioSum(nums: seq<Num>)
    ensures exists ks :: GearKeys(nums, ks) && P2(nums) == RatioSum(nums, ks)
  {
    var m := GroupGears(nums, []);
    GroupsAreGears(nums);
    GearSumIsRatioSum(nums, m);
    var ks := KeysOf(m);
    forall k ensures k in ks <==> HasGear(nums, k) {
      KeysOfHasKey(m, k);
    }
    assert GearKeys(nums, ks);
  }

  /** `run`: part one counts every number with a symbol around it, part two the ratio of every '*'
      with numbers around it. */
  function Run(input: string): (r: (nat, nat))
    ensures forall i :: 0 <= i < |Nums(Lines(input))| && Nums(Lines(input))[i].sym.Some? ==>
              Nums(Lines(input))[i].value <= r.0
    ensures (forall i :: 0 <= i < |Nums(Lines(input))| ==> Nums(Lines(input))[i].sym.None?) ==> r.0 == 0
    ensures r.0 == P1(Nums(Lines(input)))
    ensures exists ks :: GearKeys(Nums(Lines(input)), ks) && r.1 == RatioSum(Nums(Lines(input)), ks)
  {
    var nums := Nums(Lines(input));
    P2IsRatioSum(nums);
    (P1(nums), P2(nums))
  }
}

=== FILE: day04.dfy ===
/** Day 4 (Scratchcards): each card counts how many of its drawn numbers are winning numbers. Part one
    scores a card 2^(wins-1); part two lets every copy of a card win one copy of each of the next
    `wins` cards and counts the cards in the end. */
module Day04 {
  import opened Common
  import opened Strings

  datatype Card = Card(num: nat, wins: nat)

  // ---------------------------------------------------------------------------------------------
  // Parsing

  /** The text of "Card <ns>: <ls> | <rs>" split at the first ':' and then the first '|'. */
  function CardParts(line: string): (r: Option<(string, string, string)>)
    ensures r.Some? ==> line == "Card" + r.value.0 + ":" + r.value.1 + "|" + r.value.2
    ensures r.Some? ==> ':' !in r.value.0 && '|' !in r.value.1
  {
    match StripPrefix(line, "Card")
    case None => None
    case Some(rest) =>
      match SplitOnce(rest, ':')
      case None => None
      case Some((ns, lrs)) =>
        match SplitOnce(lrs, '|')
        case None => None
        case Some((ls, rs)) =>
          CardShape(line, rest, ns, lrs, ls, rs);
          Some((ns, ls, rs))
  }

  lemma CardShape(line: string, rest: string, ns: string, lrs: string, ls: string, rs: string)
    requires line == "Card" + rest && rest == ns + [':'] + lrs && lrs == ls + ['|'] + rs
    ensures line == "Card" + ns + ":" + ls + "|" + rs
  {
    assert ":" == [':'] && "|" == ['|'];
  }

  function ParseNumber(s: string): (r: Result<nat>)
    ensures r.Ok? <==> ParseU32(s).Some?
    ensures r.Ok? ==> r.value == ParseU32(s).value
  {
    OkOr(ParseU32(s), "invalid number")
  }

  /** The whitespace-separated numbers of a list. */
  function ParseNumbers(s: string): (r: Result<seq<nat>>)
    ensures r.Ok? ==> forall i :: 0 <= i < |SplitWhitespace(s)| ==> ParseU32(SplitWhitespace(s)[i]).Some?
    ensures (forall i :: 0 <= i < |SplitWhitespace(s)| ==> ParseU32(SplitWhitespace(s)[i]).Some?) ==> r.Ok?
    ensures r.Ok? ==> |r.value| == |SplitWhitespace(s)| &&
                      forall i :: 0 <= i < |r.value| ==> Some(r.value[i]) == ParseU32(SplitWhitespace(s)[i])
  {
    var ts := SplitWhitespace(s);
    var r := MapResult(ts, ParseNumber);
    assert r.Ok? <==> forall i :: 0 <= i < |ts| ==> ParseU32(ts[i]).Some? by {
      if !r.Ok? {
        var i :| 0 <= i < |ts| && ParseNumber(ts[i]).Err?;
        assert ParseU32(ts[i]).None?;
      }
    }
    r
  }

  /** The number of entries of `have` that belong to `winning`, repeated entries counted each time. */
  function CountIn(have: seq<nat>, winning: set<nat>): (r: nat)
    ensures r <= |have|
    ensures r == |have| <==> forall i :: 0 <= i < |have| ==> have[i] in winning
    ensures r == 0 <==> forall i :: 0 <= i < |have| ==> have[i] !in winning
  {
    if |have| == 0 then 0
    else
      var rest := CountIn(have[1..], winning);
      assert forall i :: 1 <= i < |have| ==> have[i] == have[1..][i - 1];
      (if have[0] in winning then 1 else 0) + rest
  }

  lemma {:induction false} CountInAppend(a: seq<nat>, b: seq<nat>, winning: set<nat>)
    ensures CountIn(a + b, winning) == CountIn(a, winning) + CountIn(b, winning)
  {
    if |a| > 0 {
      assert (a + b)[1..] == a[1..] + b;
      CountInAppend(a[1..], b, winning);
    } else {
      assert a + b == b;
    }
  }

  /** `Card::parse`. */
  function ParseCard(line: string): (r: Result<Card>)
    ensures r.Ok? <==> (CardParts(line).Some? &&
      (var (ns, ls, rs) := CardParts(line).value;
       ParseU32(Trim(ns)).Some? && ParseNumbers(ls).Ok? && ParseNumbers(rs).Ok?))
    ensures r.Ok? ==> var (ns, ls, rs) := CardParts(line).value;
      && r.value.num == ParseU32(Trim(ns)).value
      && r.value.wins == CountIn(ParseNumbers(rs).value, set x | x in ParseNumbers(ls).value)
  {
    var (ns, ls, rs) :- OkOr(CardParts(line), "invalid card");
    var num :- ParseNumber(Trim(ns));
    var mine :- ParseNumbers(ls);
    var have :- ParseNumbers(rs);
    Ok(Card(num, CountIn(have, set x | x in mine)))
  }

  // ---------------------------------------------------------------------------------------------
  // Part one

  /** `Card::score`. */
  function Score(c: Card): (r: nat)
    ensures r == 0 <==> c.wins == 0
    ensures c.wins > 0 ==> r == Pow2(c.wins - 1)
  {
    if c.wins > 0 then Pow2Positive(c.wins - 1); Pow2(c.wins - 1) else 0
  }

  /** Every win past the first doubles the score. */
  lemma ScoreDoubles(num: nat, w: nat)
    requires w >= 1
    ensures Score(Card(num, w + 1)) == 2 * Score(Card(num, w))
  {
  }

  function ScoreSum(cards: seq<Card>): nat
  {
    if |cards| == 0 then 0 else Score(cards[0]) + ScoreSum(cards[1..])
  }

  /** `p1`: the scores summed, or the first error. */
  function P1(input: string): (r: Result<nat>)
    ensures r.Ok? <==> forall i :: 0 <= i < |Lines(input)| ==> ParseCard(Lines(input)[i]).Ok?
    ensures r.Ok? ==> r.value == ScoreSum(MapResult(Lines(input), ParseCard).value)
  {
    var cards :- MapResult(Lines(input), ParseCard);
    Ok(ScoreSum(cards))
  }

  // ---------------------------------------------------------------------------------------------
  // Part two

  /** The copies of card `t` won by the cards before card `i`: card `j` wins one copy of each of the
      `ws[j]` cards after it for every copy of itself. */
  function Pending(ws: seq<nat>, i: nat, t: int): nat
    requires i <= |ws|
    decreases i, 2
  {
    if i == 0 then 0
    else Pending(ws, i - 1, t) + (if i - 1 < t <= i - 1 + ws[i - 1] then Copies(ws, i - 1) else 0)
  }

  /** The number of copies of card `i` in the end: the original and the copies won. */
  function Copies(ws: seq<nat>, i: nat): nat
    requires i < |ws|
    decreases i, 3
  {
    1 + Pending(ws, i, i)
  }

  function TotalCopies(ws: seq<nat>, i: nat): nat
    requires i <= |ws|
    decreases |ws| - i
  {
    if i == |ws| then 0 else Copies(ws, i) + TotalCopies(ws, i + 1)
  }

  /** `nexts` holds the copies already won for the cards from `i` on, and no card further on has any. */
  ghost predicate QueueInv(ws: seq<nat>, i: nat, nexts: seq<nat>)
    requires i <= |ws|
  {
    && (forall k {:trigger nexts[k]} :: 0 <= k < |nexts| ==> nexts[k] == Pending(ws, i, i + k))
    && (forall t :: t >= i + |nexts| ==> Pending(ws, i, t) == 0)
  }

  /** `n` zeros. */
  function Zeros(n: nat): (r: seq<nat>)
    ensures |r| == n && forall k :: 0 <= k < n ==> r[k] == 0
  {
    if n == 0 then [] else Zeros(n - 1) + [0]
  }

  /** `VecDeque::resize` to at least `n` entries, padding with zeros. */
  function Resize(q: seq<nat>, n: nat): seq<nat>
  {
    if n > |q| then q + Zeros(n - |q|) else q
  }

  /** Resizing keeps every entry and pads with zeros up to the wanted length. */
  lemma ResizeEntries(q: seq<nat>, n: nat)
    ensures |Resize(q, n)| == Max(|q|, n)
    ensures forall k :: 0 <= k < |Resize(q, n)| ==> Resize(q, n)[k] == if k < |q| then q[k] else 0
  {
  }

  /** Adds `nc` to the first `w` entries, front to back. */
  function AddFirst(q: seq<nat>, w: nat, nc: nat): seq<nat>
  {
    if |q| == 0 then [] else [if w > 0 then q[0] + nc else q[0]] + AddFirst(q[1..], if w > 0 then w - 1 else 0, nc)
  }

  /** The first `w` entries gain `nc` and the rest are unchanged. */
  lemma {:induction false} AddFirstEntries(q: seq<nat>, w: nat, nc: nat)
    ensures |AddFirst(q, w, nc)| == |q|
    ensures forall k :: 0 <= k < |q| ==> AddFirst(q, w, nc)[k] == if k < w then q[k] + nc else q[k]
  {
    if |q| > 0 {
      var w' := if w > 0 then w - 1 else 0;
      AddFirstEntries(q[1..], w', nc);
      var r := AddFirst(q, w, nc);
      assert forall k :: 1 <= k < |r| ==> r[k] == AddFirst(q[1..], w', nc)[k - 1] && q[k] == q[1..][k - 1];
    }
  }

  /** The copies of the card at the front of the queue: the original and those won. */
  function Front(nexts: seq<nat>): nat
  {
    1 + if |nexts| > 0 then nexts[0] else 0
  }

  /** The queue once its front card is popped and its `w` next cards have won `nc` copies each. */
  function Advance(nexts: seq<nat>, w: nat, nc: nat): seq<nat>
  {
    AddFirst(Resize(if |nexts| > 0 then nexts[1..] else [], w), w, nc)
  }

  /** The `try_fold` of `p2` from card `i` on: the copies of card `i` are one plus the front of the
      queue, and they are added to the next `ws[i]` entries. */
  function QueueFold(ws: seq<nat>, i: nat, nexts: seq<nat>, total: nat): nat
    requires i <= |ws|
    decreases |ws| - i
  {
    if i == |ws| then total
    else QueueFold(ws, i + 1, Advance(nexts, ws[i], Front(nexts)), total + Front(nexts))
  }

  lemma QueueStep(ws: seq<nat>, i: nat, nexts: seq<nat>)
    requires i < |ws| && QueueInv(ws, i, nexts)
    ensures Front(nexts) == Copies(ws, i)
    ensures QueueInv(ws, i + 1, Advance(nexts, ws[i], Copies(ws, i)))
  {
    QueueFront(ws, i, nexts);
    AdvanceEntries(ws, i, nexts);
    AdvanceTail(ws, i, nexts);
  }

  lemma QueueFront(ws: seq<nat>, i: nat, nexts: seq<nat>)
    requires i < |ws| && QueueInv(ws, i, nexts)
    ensures Front(nexts) == Copies(ws, i)
  {
    if |nexts| == 0 {
      assert Pending(ws, i, i) == 0;
    } else {
      assert nexts[0] == Pending(ws, i, i + 0);
    }
  }

  lemma AdvanceEntries(ws: seq<nat>, i: nat, nexts: seq<nat>)
    requires i < |ws| && QueueInv(ws, i, nexts)
    ensures var q := Advance(nexts, ws[i], Copies(ws, i));
      forall k :: 0 <= k < |q| ==> q[k] == Pending(ws, i + 1, i + 1 + k)
  {
    var rest := if |nexts| > 0 then nexts[1..] else [];
    var q := Advance(nexts, ws[i], Copies(ws, i));
    ResizeEntries(rest, ws[i]);
    AddFirstEntries(Resize(rest, ws[i]), ws[i], Copies(ws, i));
    forall k | 0 <= k < |q| ensures q[k] == Pending(ws, i + 1, i + 1 + k) {
      PendingNext(ws, i, i + 1 + k);
      if k < |rest| {
        assert rest[k] == nexts[k + 1];
      }
    }
  }

  lemma AdvanceTail(ws: seq<nat>, i: nat, nexts: seq<nat>)
    requires i < |ws| && QueueInv(ws, i, nexts)
    ensures var j, q := i + 1, Advance(nexts, ws[i], Copies(ws, i));
      forall t :: t >= j + |q| ==> Pending(ws, j, t) == 0
  {
    var j, q := i + 1, Advance(nexts, ws[i], Copies(ws, i));
    var rest := if |nexts| > 0 then nexts[1..] else [];
    ResizeEntries(rest, ws[i]);
    AddFirstEntries(Resize(rest, ws[i]), ws[i], Copies(ws, i));
    forall t | t >= j + |q| ensures Pending(ws, j, t) == 0 {
      PendingNext(ws, i, t);
    }
  }

  /** One more card scanned adds its copies to the `ws[i]` cards after it. */
  lemma PendingNext(ws: seq<nat>, i: nat, t: int)
    requires i < |ws|
    ensures Pending(ws, i + 1, t) == Pending(ws, i, t) + if i < t <= i + ws[i] then Copies(ws, i) else 0
  {
  }

  lemma {:induction false} QueueFoldCorrect(ws: seq<nat>, i: nat, nexts: seq<nat>, total: nat)
    requires i <= |ws| && QueueInv(ws, i, nexts)
    ensures QueueFold(ws, i, nexts, total) == total + TotalCopies(ws, i)
    decreases |ws| - i
  {
    if i < |ws| {
      var nc := Copies(ws, i);
      var q := Advance(nexts, ws[i], nc);
      assert Front(nexts) == nc && QueueInv(ws, i + 1, q) by {
        QueueStep(ws, i, nexts);
      }
      QueueFoldStep(ws, i, nexts, total, nc);
      QueueFoldCorrect(ws, i + 1, q, total + nc);
      assert TotalCopies(ws, i) == nc + TotalCopies(ws, i + 1);
      assert QueueFold(ws, i, nexts, total) == total + nc + TotalCopies(ws, i + 1);
    } else {
      assert QueueFold(ws, i, nexts, total) == total;
    }
  }

  /** One step of the fold: the front of the queue is the copies of card `i`, and the queue stays
      in step with the cards. */
  lemma QueueFoldStep(ws: seq<nat>, i: nat, nexts: seq<nat>, total: nat, nc: nat)
    requires i < |ws| && Front(nexts) == nc
    ensures QueueFold(ws, i, nexts, total) == QueueFold(ws, i + 1, Advance(nexts, ws[i], nc), total + nc)
  {
  }

  function Wins(cards: seq<Card>): (r: seq<nat>)
    ensures |r| == |cards| && forall i :: 0 <= i < |cards| ==> r[i] == cards[i].wins
  {
    seq(|cards|, i requires 0 <= i < |cards| => cards[i].wins)
  }

  /** `p2`: the total number of cards once every copy has been scratched. */
  function P2(input: string): (r: Result<nat>)
    ensures r.Ok? <==> forall i :: 0 <= i < |Lines(input)| ==> ParseCard(Lines(input)[i]).Ok?
    ensures r.Ok? ==> r.value == TotalCopies(Wins(MapResult(Lines(input), ParseCard).value), 0)
  {
    var cards :- MapResult(Lines(input), ParseCard);
    QueueFoldCorrect(Wins(cards), 0, [], 0);
    Ok(QueueFold(Wins(cards), 0, [], 0))
  }

  /** Every card ends with at least its original. */
  lemma TotalCopiesAtLeast(ws: seq<nat>, i: nat)
    requires i <= |ws|
    ensures TotalCopies(ws, i) >= |ws| - i
    decreases |ws| - i
  {
    if i < |ws| {
      TotalCopiesAtLeast(ws, i + 1);
    }
  }

  /** The example of the puzzle: wins 4, 2, 2, 1, 0, 0 make 30 cards. */
  lemma Example()
    ensures TotalCopies([4, 2, 2, 1, 0, 0], 0) == 30
  {
    var ws := [4, 2, 2, 1, 0, 0];
    assert Copies(ws, 0) == 1;
    assert Copies(ws, 1) == 2;
    assert Copies(ws, 2) == 4;
    assert Copies(ws, 3) == 8;
    assert Copies(ws, 4) == 14;
    assert Copies(ws, 5) == 1;
  }
}

=== FILE: day05.dfy ===
/** Day 5 (If You Give A Seed A Fertilizer): an almanac lists seeds and a chain of maps, each a list of
    entries that shift a source interval onto a destination interval. Part one sends every seed
    through the chain; part two composes the maps into one and probes seed ranges with it. */
module Day05 {
  import opened Common
  import opened Strings
  import opened Sorting

  /** A half-open interval `[lo, hi)`. */
  type Span = (int, int)

  datatype MapEntry = MapEntry(src: Span, dst: Span)
  {
    /** Source and destination have the same length, as `MapEntry::new` asserts. */
    predicate Balanced()
    {
      src.1 - src.0 == dst.1 - dst.0
    }

    function Size(): int
    {
      src.1 - src.0
    }

    predicate Contains(n: int)
    {
      src.0 <= n < src.1
    }

    /** `MapEntry::apply`: a number of the source interval moves to the same offset in the
        destination interval; any other number is left alone. */
    function Apply(n: int): (r: int)
      ensures Contains(n) ==> r - dst.0 == n - src.0
      ensures Balanced() && Contains(n) ==> dst.0 <= r < dst.1
      ensures !Contains(n) ==> r == n
    {
      if Contains(n) then n - src.0 + dst.0 else n
    }

    /** The entry that undoes this one. */
    function Inverse(): MapEntry
    {
      MapEntry(dst, src)
    }

    /** `MapEntry::take`: splits off the first `d` numbers; the second component is the entry that
        remains in place of this one. */
    function Take(d: int): (r: (MapEntry, MapEntry))
      requires src.0 + d <= src.1
      ensures r.0.src == (src.0, src.0 + d) && r.1.src == (src.0 + d, src.1)
      ensures r.0.dst.0 == dst.0 && r.1.dst.1 == dst.1 && r.0.dst.1 == r.1.dst.0
      ensures Balanced() ==> r.0.Balanced() && r.1.Balanced()
    {
      (MapEntry((src.0, src.0 + d), (dst.0, dst.0 + d)), MapEntry((src.0 + d, src.1), (dst.0 + d, dst.1)))
    }
  }

  /** `MapEntry::new`, which asserts that both intervals have the same length. */
  function NewEntry(src: Span, dst: Span): (e: MapEntry)
    requires src.1 - src.0 == dst.1 - dst.0
    ensures e.Balanced() && e.src == src && e.dst == dst
  {
    MapEntry(src, dst)
  }

  /** A balanced entry is undone by its inverse. */
  lemma ApplyInverse(e: MapEntry, n: int)
    requires e.Balanced() && e.Contains(n)
    ensures e.Inverse().Contains(e.Apply(n))
    ensures e.Inverse().Apply(e.Apply(n)) == n
  {
  }

  /** The two pieces of `take` partition the source interval and each maps its numbers as the whole
      entry did. */
  lemma TakeCovers(e: MapEntry, d: int, n: int)
    requires e.Balanced() && 0 <= d && e.src.0 + d <= e.src.1
    ensures e.Contains(n) <==> e.Take(d).0.Contains(n) || e.Take(d).1.Contains(n)
    ensures !(e.Take(d).0.Contains(n) && e.Take(d).1.Contains(n))
    ensures e.Take(d).0.Contains(n) ==> e.Take(d).0.Apply(n) == e.Apply(n)
    ensures e.Take(d).1.Contains(n) ==> e.Take(d).1.Apply(n) == e.Apply(n)
  {
  }

  // ---------------------------------------------------------------------------------------------
  // Maps

  datatype Map = Map(l: string, r: string, v: seq<MapEntry>)

  /** `Map::apply` on the entries `v`: the entry used is the one before the partition point of
      "starts at or below `seed`", and a number below every entry is left alone. */
  function MapApply(v: seq<MapEntry>, seed: int): (r: int)
    ensures r == seed || exists k :: 0 <= k < |v| && v[k].Contains(seed) && r == v[k].Apply(seed)
  {
    var i := PartitionPoint(v, (e: MapEntry) => e.src.0 <= seed);
    if i == 0 then seed else v[i - 1].Apply(seed)
  }

  /** Entries with ordered, pairwise disjoint source intervals. */
  predicate NonOverlapping(v: seq<MapEntry>)
  {
    && (forall k :: 0 <= k < |v| ==> v[k].src.0 <= v[k].src.1)
    && (forall j, k :: 0 <= j < k < |v| ==> v[j].src.1 <= v[k].src.0)
  }

  /** On entries with ordered disjoint sources, `Map::apply` uses the entry that contains the number,
      and is the identity when none does. */
  lemma MapApplyCovering(v: seq<MapEntry>, seed: int)
    requires NonOverlapping(v)
    ensures forall k :: 0 <= k < |v| && v[k].Contains(seed) ==> MapApply(v, seed) == v[k].Apply(seed)
    ensures (forall k :: 0 <= k < |v| ==> !v[k].Contains(seed)) ==> MapApply(v, seed) == seed
  {
    var p := (e: MapEntry) => e.src.0 <= seed;
    var i := PartitionPoint(v, p);
    forall k | 0 <= k < |v| && v[k].Contains(seed) ensures MapApply(v, seed) == v[k].Apply(seed) {
    }
  }

  predicate SrcLe(a: MapEntry, b: MapEntry)
  {
    a.src.0 <= b.src.0
  }

  predicate DstLe(a: MapEntry, b: MapEntry)
  {
    a.dst.0 <= b.dst.0
  }

  lemma KeysTotal()
    ensures TotalPreorder(SrcLe) && TotalPreorder(DstLe)
  {
  }

  predicate AllBalanced(v: seq<MapEntry>)
  {
    forall k :: 0 <= k < |v| ==> v[k].Balanced()
  }

  function HeadSize(v: seq<MapEntry>): nat
  {
    if |v| == 0 || v[0].Size() < 0 then 0 else v[0].Size()
  }

  /** The loop of `Map::combine`: `v0` holds the first map's entries ordered by destination, `v1` the
      second map's entries, and `r` the entries produced so far. Where the front destination interval
      of `v0` and the front source interval of `v1` overlap, the common part becomes one entry from the
      first map's source to the second map's destination; the parts before the overlap pass through. */
  function Merge(v0: seq<MapEntry>, v1: seq<MapEntry>, r: seq<MapEntry>): (out: seq<MapEntry>)
    requires AllBalanced(v0) && AllBalanced(v1) && AllBalanced(r)
    ensures AllBalanced(out)
    ensures |v0| == 0 || |v1| == 0 ==> out == r + v0 + v1
    decreases |v0| + |v1|, HeadSize(v0) + HeadSize(v1)
  {
    if |v0| == 0 || |v1| == 0 then r + v0 + v1
    else
      var f0, f1 := v0[0], v1[0];
      var (f0lo, f0hi) := f0.dst;
      var (f1lo, f1hi) := f1.src;
      if f0hi <= f1lo then
        Merge(v0[1..], v1, r + [f0])
      else if f1hi <= f0lo then
        Merge(v0, v1[1..], r + [f1])
      else if f0lo < f1lo then
        var (piece, rest) := f0.Take(f1lo - f0lo);
        Merge([rest] + v0[1..], v1, r + [piece])
      else if f1lo < f0lo then
        var (piece, rest) := f1.Take(f0lo - f1lo);
        Merge(v0, [rest] + v1[1..], r + [piece])
      else if f0hi < f1hi then
        var (piece, rest) := f1.Take(f0.Size());
        Merge(v0[1..], [rest] + v1[1..], r + [NewEntry(f0.src, piece.dst)])
      else if f0hi == f1hi then
        Merge(v0[1..], v1[1..], r + [NewEntry(f0.src, f1.dst)])
      else
        var (piece, rest) := f0.Take(f1.Size());
        Merge([rest] + v0[1..], v1[1..], r + [NewEntry(piece.src, f1.dst)])
  }

  /** `Map::combine`: the entries of both maps merged and ordered by source start, named from the
      first map's source to the second map's destination. */
  function Combine(a: Map, b: Map): (c: Map)
    requires AllBalanced(a.v) && AllBalanced(b.v)
    ensures c.l == a.l && c.r == b.r
    ensures AllBalanced(c.v) && SortedBy(c.v, SrcLe)
  {
    KeysTotal();
    var v0 := SortBy(a.v, DstLe);
    assert AllBalanced(v0) by {
      forall k | 0 <= k < |v0| ensures v0[k].Balanced() {
        assert v0[k] in multiset(a.v);
      }
    }
    var r := Merge(v0, b.v, []);
    var sorted := SortBy(r, SrcLe);
    assert AllBalanced(sorted) by {
      forall k | 0 <= k < |sorted| ensures sorted[k].Balanced() {
        assert sorted[k] in multiset(r);
      }
    }
    Map(a.l, b.r, sorted)
  }

  /** `Map::combine` with an empty second map keeps the first map's entries, reordered by source. */
  lemma CombineEmptyRight(a: Map, b: Map)
    requires AllBalanced(a.v) && b.v == []
    ensures multiset(Combine(a, b).v) == multiset(a.v)
  {
  }

  /** `Map::combine` with an empty first map keeps the second map's entries, reordered by source. */
  lemma CombineEmptyLeft(a: Map, b: Map)
    requires a.v == [] && AllBalanced(b.v)
    ensures multiset(Combine(a, b).v) == multiset(b.v)
  {
    assert SortBy(a.v, DstLe) == [];
    assert [] + [] + b.v == b.v;
  }

  // ---------------------------------------------------------------------------------------------
  // The almanac

  datatype Almanac = Almanac(seeds: seq<int>, maps: seq<Map>)

  predicate MapsBalanced(maps: seq<Map>)
  {
    forall k :: 0 <= k < |maps| ==> AllBalanced(maps[k].v)
  }

  /** A seed sent through the maps in order (the fold of `Almanac::locations`). */
  function Locate(maps: seq<Map>, seed: int): int
  {
    if |maps| == 0 then seed else Locate(maps[1..], MapApply(maps[0].v, seed))
  }

  /** Sending a seed through two chains of maps is sending it through their concatenation. */
  lemma {:induction false} LocateAppend(ms: seq<Map>, ns: seq<Map>, seed: int)
    ensures Locate(ms + ns, seed) == Locate(ns, Locate(ms, seed))
  {
    if |ms| > 0 {
      assert (ms + ns)[1..] == ms[1..] + ns;
      LocateAppend(ms[1..], ns, MapApply(ms[0].v, seed));
    } else {
      assert ms + ns == ns;
    }
  }

  /** `Almanac::locations`. */
  function Locations(alm: Almanac): (r: seq<int>)
    ensures |r| == |alm.seeds| && forall i :: 0 <= i < |r| ==> r[i] == Locate(alm.maps, alm.seeds[i])
  {
    seq(|alm.seeds|, i requires 0 <= i < |alm.seeds| => Locate(alm.maps, alm.seeds[i]))
  }

  /** `p1`: the lowest location of any seed. */
  function P1(alm: Almanac): (r: Result<int>)
    ensures r.Ok? <==> |alm.seeds| > 0
    ensures r.Ok? ==> exists i :: 0 <= i < |alm.seeds| && r.value == Locate(alm.maps, alm.seeds[i])
    ensures r.Ok? ==> forall i :: 0 <= i < |alm.seeds| ==> r.value <= Locate(alm.maps, alm.seeds[i])
  {
    if |alm.seeds| == 0 then Err("empty almanac")
    else
      var locs := Locations(alm);
      var m := MinOf(locs);
      assert exists i :: 0 <= i < |locs| && m == locs[i];
      Ok(m)
  }

  /** `Almanac::combined_map`: the first map combined with each later one in turn. */
  function CombineAll(acc: Map, rest: seq<Map>): (c: Map)
    requires AllBalanced(acc.v) && MapsBalanced(rest)
    ensures AllBalanced(c.v)
    ensures c.l == acc.l && c.r == if |rest| == 0 then acc.r else rest[|rest| - 1].r
    ensures |rest| > 0 ==> SortedBy(c.v, SrcLe)
    decreases |rest|
  {
    if |rest| == 0 then acc
    else
      var c := CombineAll(Combine(acc, rest[0]), rest[1..]);
      assert |rest| > 1 ==> rest[1..][|rest[1..]| - 1] == rest[|rest| - 1];
      c
  }

  function CombinedMap(maps: seq<Map>): (r: Option<Map>)
    requires MapsBalanced(maps)
    ensures r.Some? <==> |maps| > 0
    ensures r.Some? ==> AllBalanced(r.value.v) && r.value.l == maps[0].l && r.value.r == maps[|maps| - 1].r
  {
    if |maps| == 0 then None else Some(CombineAll(maps[0], maps[1..]))
  }

  /** The seed list read as `(start, length)` pairs; None when one number is left over. */
  function Pairs(seeds: seq<int>): (r: Option<seq<(int, int)>>)
    ensures r.Some? <==> |seeds| % 2 == 0
    ensures r.Some? ==> 2 * |r.value| == |seeds| &&
                        forall i :: 0 <= i < |r.value| ==> r.value[i] == (seeds[2 * i], seeds[2 * i + 1])
  {
    if |seeds| % 2 != 0 then None
    else
      var n := |seeds| / 2;
      Some(seq(n, i requires 0 <= i < n => (seeds[2 * i], seeds[2 * i + 1])))
  }

  /** The destination starts of the entries at the front of `es` whose sources start below `hi`
      (`take_while` in `p2`). */
  function StartsBelow(es: seq<MapEntry>, hi: int): (r: seq<int>)
    ensures |r| <= |es| && forall i :: 0 <= i < |r| ==> es[i].src.0 < hi && r[i] == es[i].dst.0
    ensures |r| < |es| ==> es[|r|].src.0 >= hi
  {
    if |es| == 0 || es[0].src.0 >= hi then []
    else
      var r := StartsBelow(es[1..], hi);
      assert forall i :: 1 <= i < |r| + 1 ==> es[i] == es[1..][i - 1];
      [es[0].dst.0] + r
  }

  /** The locations `p2` considers for the seeds `lo..lo + num`: the location of `lo`, and the
      destination start of every entry from the first one not ending at or below `lo` while its
      source starts below `lo + num`. */
  function Candidates(cm: seq<MapEntry>, lo: int, num: int): (r: seq<int>)
    ensures |r| >= 1 && r[0] == MapApply(cm, lo)
  {
    var i := PartitionPoint(cm, (e: MapEntry) => e.src.1 <= lo);
    [MapApply(cm, lo)] + StartsBelow(cm[i..], lo + num)
  }

  function AllCandidates(cm: seq<MapEntry>, pairs: seq<(int, int)>): (r: seq<int>)
    ensures |pairs| > 0 ==> |r| > 0
    ensures forall i :: 0 <= i < |pairs| ==> MapApply(cm, pairs[i].0) in r
  {
    if |pairs| == 0 then []
    else
      var r := Candidates(cm, pairs[0].0, pairs[0].1) + AllCandidates(cm, pairs[1..]);
      assert forall i :: 1 <= i < |pairs| ==> pairs[i] == pairs[1..][i - 1];
      r
  }

  /** `p2`: the least candidate location over all seed ranges. */
  function P2(alm: Almanac): (r: Result<int>)
    requires MapsBalanced(alm.maps)
    ensures r.Ok? <==> |alm.maps| > 0 && |alm.seeds| > 0 && |alm.seeds| % 2 == 0
    ensures r.Ok? ==> forall i :: 0 <= i < |alm.seeds| / 2 ==>
                        r.value <= MapApply(CombinedMap(alm.maps).value.v, alm.seeds[2 * i])
  {
    var cm :- OkOr(CombinedMap(alm.maps), "empty almanac");
    var pairs :- OkOr(Pairs(alm.seeds), "odd seed pair in almanac");
    if |pairs| == 0 then Err("no seeds")
    else
      var cs := AllCandidates(cm.v, pairs);
      var m := MinOf(cs);
      assert forall i :: 0 <= i < |pairs| ==> MapApply(cm.v, pairs[i].0) in cs;
      assert forall i :: 0 <= i < |pairs| ==> m <= MapApply(cm.v, pairs[i].0) by {
        forall i | 0 <= i < |pairs| ensures m <= MapApply(cm.v, pairs[i].0) {
          var k :| 0 <= k < |cs| && cs[k] == MapApply(cm.v, pairs[i].0);
        }
      }
      Ok(m)
  }

  // ---------------------------------------------------------------------------------------------
  // Parsing

  /** The whitespace-separated `i64` numbers of `s`, or None at the first that does not parse. */
  function ParseNums(s: string): (r: Option<seq<int>>)
    ensures r.Some? ==> forall i :: 0 <= i < |SplitWhitespace(s)| ==> ParseI64(SplitWhitespace(s)[i]).Some?
    ensures (forall i :: 0 <= i < |SplitWhitespace(s)| ==> ParseI64(SplitWhitespace(s)[i]).Some?) ==> r.Some?
    ensures r.Some? ==> |r.value| == |SplitWhitespace(s)|
  {
    MapOption(SplitWhitespace(s), ParseI64)
  }

  /** A line that is neither a seed list, a map header nor blank. */
  predicate IsEntryLine(line: string)
  {
    var t := Trim(line);
    !("seeds:" <= t) && !EndsWith(t, " map:") && |t| > 0
  }

  /** The entry of a line "d s l": sources `[s, s + l)` and destinations `[d, d + l)`. */
  function EntryOf(d: int, s: int, l: int): (e: MapEntry)
    ensures e.Balanced() && e.src.0 == s && e.dst.0 == d && e.Size() == l
  {
    MapEntry((s, s + l), (d, d + l))
  }

  /** A "d s l" line: its three numbers become an entry of the last map. */
  function AddEntry(alm: Almanac, v: seq<int>): (r: Result<Almanac>)
    ensures r.Ok? <==> |v| == 3 && |alm.maps| > 0
    ensures r.Ok? && MapsBalanced(alm.maps) ==> MapsBalanced(r.value.maps)
    ensures r.Ok? ==>
      var n := |alm.maps|;
      && r.value.seeds == alm.seeds
      && |r.value.maps| == n
      && r.value.maps[..n - 1] == alm.maps[..n - 1]
      && r.value.maps[n - 1].v == alm.maps[n - 1].v + [EntryOf(v[0], v[1], v[2])]
  {
    if |v| != 3 then Err("invalid map line")
    else if |alm.maps| == 0 then Err("map prefix missing")
    else
      var n := |alm.maps|;
      var m := alm.maps[n - 1];
      var maps := alm.maps[..n - 1] + [m.(v := m.v + [EntryOf(v[0], v[1], v[2])])];
      assert maps[..n - 1] == alm.maps[..n - 1];
      Ok(alm.(maps := maps))
  }

  /** A "<l>-to-<r> map:" header (with " map:" already removed) starts a new empty map. */
  function AddHeader(alm: Almanac, mx: string): (r: Result<Almanac>)
    ensures r.Ok? <==> SplitOnceStr(mx, "-to-").Some?
    ensures r.Ok? && MapsBalanced(alm.maps) ==> MapsBalanced(r.value.maps)
    ensures r.Ok? ==>
      && r.value.seeds == alm.seeds
      && r.value.maps == alm.maps + [Map(SplitOnceStr(mx, "-to-").value.0, SplitOnceStr(mx, "-to-").value.1, [])]
  {
    var (l, r) :- OkOr(SplitOnceStr(mx, "-to-"), "invalid map line");
    Ok(alm.(maps := alm.maps + [Map(l, r, [])]))
  }

  /** One line of `parse_almanac` applied to the almanac read so far. */
  function ParseLine(alm: Almanac, line: string): (r: Result<Almanac>)
    ensures r.Ok? && MapsBalanced(alm.maps) ==> MapsBalanced(r.value.maps)
    ensures |Trim(line)| == 0 ==> r == Ok(alm)
    ensures "seeds:" <= Trim(line) ==> (r.Ok? <==> ParseNums(Trim(line)[6..]).Some?)
    ensures "seeds:" <= Trim(line) && r.Ok? ==> r.value == alm.(seeds := ParseNums(Trim(line)[6..]).value)
    ensures IsEntryLine(line) ==> (var v := ParseNums(Trim(line));
                                   r.Ok? <==> v.Some? && AddEntry(alm, v.value).Ok?)
  {
    var t := Trim(line);
    match StripPrefix(t, "seeds:")
    case Some(nums) =>
      var seeds :- OkOr(ParseNums(nums), "invalid seed list");
      Ok(alm.(seeds := seeds))
    case None =>
      match StripSuffix(t, " map:")
      case Some(mx) => AddHeader(alm, mx)
      case None =>
        if |t| == 0 then Ok(alm)
        else
          var v :- OkOr(ParseNums(t), "invalid map entry");
          AddEntry(alm, v)
  }

  /** The loop of `parse_almanac` over the remaining lines. */
  function ParseLines(alm: Almanac, lines: seq<string>): (r: Result<Almanac>)
    ensures r.Ok? && MapsBalanced(alm.maps) ==> MapsBalanced(r.value.maps)
    decreases |lines|
  {
    if |lines| == 0 then Ok(alm)
    else
      var alm' :- ParseLine(alm, lines[0]);
      ParseLines(alm', lines[1..])
  }

  /** The entries of every map sorted by source start (the last loop of `parse_almanac`). */
  function SortMaps(maps: seq<Map>): (r: seq<Map>)
    requires MapsBalanced(maps)
    ensures |r| == |maps| && forall k :: 0 <= k < |r| ==> r[k] == SortMap(maps[k])
  {
    if |maps| == 0 then []
    else
      var rest := SortMaps(maps[1..]);
      var r := [SortMap(maps[0])] + rest;
      forall k | 1 <= k < |r| ensures r[k] == SortMap(maps[k]) {
        assert r[k] == rest[k - 1] && maps[1..][k - 1] == maps[k];
      }
      r
  }

  /** Every map keeps its names and its entries, now sorted by source start. */
  lemma SortMapsSpec(maps: seq<Map>)
    requires MapsBalanced(maps)
    ensures var r := SortMaps(maps);
      && |r| == |maps| && MapsBalanced(r)
      && (forall k :: 0 <= k < |r| ==> SortedBy(r[k].v, SrcLe) && multiset(r[k].v) == multiset(maps[k].v))
      && (forall k :: 0 <= k < |r| ==> r[k].l == maps[k].l && r[k].r == maps[k].r)
  {
    var r := SortMaps(maps);
    forall k | 0 <= k < |r|
      ensures AllBalanced(r[k].v) && SortedBy(r[k].v, SrcLe) && multiset(r[k].v) == multiset(maps[k].v)
      ensures r[k].l == maps[k].l && r[k].r == maps[k].r
    {
      var m := SortMap(maps[k]);
    }
  }

  function SortMap(m: Map): (r: Map)
    requires AllBalanced(m.v)
    ensures AllBalanced(r.v) && SortedBy(r.v, SrcLe) && multiset(r.v) == multiset(m.v)
    ensures r.l == m.l && r.r == m.r
  {
    KeysTotal();
    var v := SortBy(m.v, SrcLe);
    assert AllBalanced(v) by {
      forall j | 0 <= j < |v| ensures v[j].Balanced() {
        assert v[j] in multiset(m.v);
      }
    }
    m.(v := v)
  }

  /** `parse_almanac`. */
  function ParseAlmanac(input: string): (r: Result<Almanac>)
    ensures r.Ok? <==> ParseLines(Almanac([], []), Lines(input)).Ok?
    ensures r.Ok? ==> MapsBalanced(r.value.maps)
    ensures r.Ok? ==> forall k :: 0 <= k < |r.value.maps| ==> SortedBy(r.value.maps[k].v, SrcLe)
    ensures r.Ok? ==> var a := ParseLines(Almanac([], []), Lines(input)).value;
      && r.value.seeds == a.seeds && |r.value.maps| == |a.maps|
      && forall k :: 0 <= k < |a.maps| ==>
           && r.value.maps[k].l == a.maps[k].l && r.value.maps[k].r == a.maps[k].r
           && multiset(r.value.maps[k].v) == multiset(a.maps[k].v)
  {
    var alm :- ParseLines(Almanac([], []), Lines(input));
    SortMapsSpec(alm.maps);
    Ok(alm.(maps := SortMaps(alm.maps)))
  }

  /** Both parts can answer for the almanac: it has maps and an even, non-zero number of seeds. */
  predicate Answerable(alm: Almanac)
  {
    |alm.maps| > 0 && |alm.seeds| > 0 && |alm.seeds| % 2 == 0
  }

  /** `a` is the lowest location of any seed, and `b` is no higher than the combined location of
      any range start. */
  predicate Answers(alm: Almanac, a: int, b: int)
    requires MapsBalanced(alm.maps) && |alm.maps| > 0
  {
    && (exists i :: 0 <= i < |alm.seeds| && a == Locate(alm.maps, alm.seeds[i]))
    && (forall i :: 0 <= i < |alm.seeds| ==> a <= Locate(alm.maps, alm.seeds[i]))
    && (forall i :: 0 <= i < |alm.seeds| / 2 ==> b <= MapApply(CombinedMap(alm.maps).value.v, alm.seeds[2 * i]))
  }

  /** Both answers for a parsed almanac. */
  function Solve(alm: Almanac): (r: Result<(int, int)>)
    requires MapsBalanced(alm.maps)
    ensures r.Ok? <==> Answerable(alm)
    ensures r.Ok? ==> Answers(alm, r.value.0, r.value.1)
  {
    var a :- P1(alm);
    var b :- P2(alm);
    Ok((a, b))
  }

  /** `run`: both answers. */
  function Run(input: string): (r: Result<(int, int)>)
    ensures r.Ok? <==> ParseAlmanac(input).Ok? && Answerable(ParseAlmanac(input).value)
    ensures r.Ok? ==> Answers(ParseAlmanac(input).value, r.value.0, r.value.1)
  {
    var alm :- ParseAlmanac(input);
    Solve(alm)
  }

  /** The seed-to-soil map of the puzzle's example sends seed 79 to soil 81 and leaves 14 alone. */
  lemma ExampleSeedToSoil()
    ensures var v := [EntryOf(52, 50, 48), EntryOf(50, 98, 2)];
      MapApply(v, 79) == 81 && MapApply(v, 14) == 14 && MapApply(v, 98) == 50
  {
    var v := [EntryOf(52, 50, 48), EntryOf(50, 98, 2)];
    assert PartitionPoint(v[2..], (e: MapEntry) => e.src.0 <= 79) == 0;
    assert PartitionPoint(v[2..], (e: MapEntry) => e.src.0 <= 98) == 0;
    assert PartitionPoint(v[1..], (e: MapEntry) => e.src.0 <= 79) == 0;
  }

  /** `Map::combine` is not the composition of its maps in general: when an entry of the second map
      lies wholly below the first map's destinations, its source piece is kept unchanged although
      the first map moves the seeds in it. */
  lemma CombineNotComposition()
    ensures var a := Map("a", "b", [EntryOf(100, 0, 10)]);
            var b := Map("b", "c", [EntryOf(200, 5, 10)]);
            AllBalanced(a.v) && AllBalanced(b.v) &&
            Locate([a, b], 7) == 107 && MapApply(Combine(a, b).v, 7) == 202
  {
    var e0, e1 := EntryOf(100, 0, 10), EntryOf(200, 5, 10);
    var a := Map("a", "b", [e0]);
    var b := Map("b", "c", [e1]);
    assert AllBalanced(a.v) && AllBalanced(b.v);
    CombineSample(e0, e1, a, b);
    ApplySample(e0, e1);
    assert MapApply(Combine(a, b).v, 7) == 202;
    LocateSample(e0, e1, a, b);
  }

  lemma LocateSample(e0: MapEntry, e1: MapEntry, a: Map, b: Map)
    requires e0 == EntryOf(100, 0, 10) && e1 == EntryOf(200, 5, 10)
    requires a.v == [e0] && b.v == [e1]
    ensures Locate([a, b], 7) == 107
  {
    assert MapApply([e0], 7) == 107 by {
      assert PartitionPoint([e0][1..], (e: MapEntry) => e.src.0 <= 7) == 0;
    }
    assert MapApply([e1], 107) == 107 by {
      assert PartitionPoint([e1][1..], (e: MapEntry) => e.src.0 <= 107) == 0;
    }
    assert [a, b][1..] == [b] && [b][1..] == [];
    assert Locate([a, b], 7) == Locate([b], MapApply(a.v, 7));
    assert Locate([b], 107) == Locate([], MapApply(b.v, 107));
  }

  lemma ApplySample(e0: MapEntry, e1: MapEntry)
    requires e0 == EntryOf(100, 0, 10) && e1 == EntryOf(200, 5, 10)
    ensures MapApply([e0, e1], 7) == 202
  {
    assert PartitionPoint([e0, e1][2..], (e: MapEntry) => e.src.0 <= 7) == 0;
    assert PartitionPoint([e0, e1][1..], (e: MapEntry) => e.src.0 <= 7) == 1;
  }

  lemma CombineSample(e0: MapEntry, e1: MapEntry, a: Map, b: Map)
    requires e0 == EntryOf(100, 0, 10) && e1 == EntryOf(200, 5, 10)
    requires a.v == [e0] && b.v == [e1]
    ensures Combine(a, b).v == [e0, e1]
  {
    SortSample(e0, e1);
    var v0 := SortBy(a.v, DstLe);
    assert v0 == [e0];
    var r := Merge(v0, b.v, []);
    assert r == [e1, e0];
  }

  lemma SortSample(e0: MapEntry, e1: MapEntry)
    requires e0 == EntryOf(100, 0, 10) && e1 == EntryOf(200, 5, 10)
    ensures SortBy([e0], DstLe) == [e0]
    ensures Merge([e0], [e1], []) == [e1, e0]
    ensures SortBy([e1, e0], SrcLe) == [e0, e1]
  {
    MergeSample(e0, e1);
    SortPairSample(e0, e1);
  }

  lemma MergeSample(e0: MapEntry, e1: MapEntry)
    requires e0 == EntryOf(100, 0, 10) && e1 == EntryOf(200, 5, 10)
    ensures Merge([e0], [e1], []) == [e1, e0]
  {
    assert Merge([e0], [e1], []) == Merge([e0], [], [e1]);
  }

  lemma SortPairSample(e0: MapEntry, e1: MapEntry)
    requires e0 == EntryOf(100, 0, 10) && e1 == EntryOf(200, 5, 10)
    ensures SortBy([e1, e0], SrcLe) == [e0, e1]
  {
    assert [e1, e0][..1] == [e1];
    assert SortBy([e1], SrcLe) == [e1];
    assert SortBy([e1, e0], SrcLe) == Insert([e1], e0, SrcLe);
    assert Insert([e1], e0, SrcLe) == Insert([], e0, SrcLe) + [e1];
  }
}

=== FILE: day06.dfy ===
/** Day 6 (Wait For It): a boat race of `t_max` milliseconds is won by holding the button for `t`
    milliseconds when `t * (t_max - t)` beats the record distance. Part one multiplies the numbers of
    winning hold times over the races. */
module Day06 {
  import opened Common
  import opened Strings

  /** Holding the button `t` milliseconds of a `t_max` race travels farther than `d_rec`. */
  predicate Beats(t_max: int, d_rec: int, t: int)
  {
    t * (t_max - t) > d_rec
  }

  /** The winning hold times among `t..t_max - 1`. */
  function CountWins(t_max: int, d_rec: int, t: int): (r: nat)
    ensures r <= if t < t_max then t_max - t else 0
    decreases t_max - t
  {
    if t < t_max then (if Beats(t_max, d_rec, t) then 1 else 0) + CountWins(t_max, d_rec, t + 1)
    else 0
  }

  /** The count `proc` computes for one race: the hold times `1..t_max` that beat the record. */
  function Wins(t_max: int, d_rec: int): (r: nat)
    ensures r <= if t_max > 1 then t_max - 1 else 0
  {
    CountWins(t_max, d_rec, 1)
  }

  /** The set of winning hold times from `t` on. */
  ghost function WinSet(t_max: int, d_rec: int, t: int): set<int>
  {
    set u | t <= u < t_max && Beats(t_max, d_rec, u)
  }

  /** The count is the size of the set of winning hold times. */
  lemma {:induction false} CountWinsIsSetSize(t_max: int, d_rec: int, t: int)
    ensures CountWins(t_max, d_rec, t) == |WinSet(t_max, d_rec, t)|
    decreases t_max - t
  {
    if t < t_max {
      CountWinsIsSetSize(t_max, d_rec, t + 1);
      var rest := WinSet(t_max, d_rec, t + 1);
      if Beats(t_max, d_rec, t) {
        assert WinSet(t_max, d_rec, t) == rest + {t};
        assert t !in rest;
      } else {
        assert WinSet(t_max, d_rec, t) == rest;
      }
    } else {
      assert WinSet(t_max, d_rec, t) == {};
    }
  }

  /** A hold time wins exactly when the complementary hold time does. */
  lemma BeatsSymmetric(t_max: int, d_rec: int, t: int)
    ensures Beats(t_max, d_rec, t) <==> Beats(t_max, d_rec, t_max - t)
  {
    assert t * (t_max - t) == (t_max - t) * (t_max - (t_max - t));
  }

  /** Against a negative record every hold time wins. */
  lemma {:induction false} AllWinAgainstNegative(t_max: int, d_rec: int, t: int)
    requires d_rec < 0 && 0 <= t
    ensures CountWins(t_max, d_rec, t) == if t < t_max then t_max - t else 0
    decreases t_max - t
  {
    if t < t_max {
      assert t * (t_max - t) >= 0;
      AllWinAgainstNegative(t_max, d_rec, t + 1);
    }
  }

  /** The counts of the races paired up by `zip`, which stops at the shorter list. */
  function ZipWins(ts: seq<int>, ds: seq<int>): (r: seq<nat>)
    ensures |r| == Min(|ts|, |ds|)
    ensures forall i :: 0 <= i < |r| ==> r[i] == Wins(ts[i], ds[i])
  {
    seq(Min(|ts|, |ds|), i requires 0 <= i < Min(|ts|, |ds|) => Wins(ts[i], ds[i]))
  }

  /** `proc`: the product of the counts; exactly two number lists are needed. */
  function Proc(nums: seq<seq<int>>): (r: Result<int>)
    ensures r.Ok? <==> |nums| == 2
    ensures r.Ok? ==> r.value == Product(ZipWins(nums[0], nums[1]))
  {
    if |nums| != 2 then Err("invalid input") else Ok(Product(ZipWins(nums[0], nums[1])))
  }

  /** Entries of the longer list without a partner do not change the result. */
  lemma ProcIgnoresSurplus(ts: seq<int>, ds: seq<int>, extra: seq<int>)
    requires |ts| <= |ds|
    ensures Proc([ts, ds + extra]) == Proc([ts, ds])
    ensures Proc([ds + extra, ts]) == Proc([ds, ts])
  {
    assert ZipWins(ts, ds + extra) == ZipWins(ts, ds);
    assert ZipWins(ds + extra, ts) == ZipWins(ds, ts);
  }

  /** The numbers of a line after its first word, as `i64`. */
  function ParseLine(line: string): (r: Result<seq<int>>)
    ensures var toks := SplitWhitespace(line);
      r.Ok? <==> forall i :: 1 <= i < |toks| ==> ParseI64(toks[i]).Some?
    ensures r.Ok? ==> |r.value| == Max(|SplitWhitespace(line)| - 1, 0)
  {
    var toks := SplitWhitespace(line);
    var rest := if |toks| == 0 then [] else toks[1..];
    assert forall i :: 1 <= i < |toks| ==> toks[i] == rest[i - 1];
    var nums := MapOption(rest, ParseI64);
    assert nums.Some? <==> forall i :: 1 <= i < |toks| ==> ParseI64(toks[i]).Some? by {
      if nums.None? {
        var i :| 0 <= i < |rest| && ParseI64(rest[i]).None?;
        assert ParseI64(toks[i + 1]).None?;
      }
    }
    OkOr(nums, "error parsing line")
  }

  /** `p1`. */
  function P1(input: string): (r: Result<int>)
    ensures r.Ok? <==> |Lines(input)| == 2 && forall i :: 0 <= i < 2 ==> ParseLine(Lines(input)[i]).Ok?
    ensures r.Ok? ==> r.value == Product(ZipWins(ParseLine(Lines(input)[0]).value, ParseLine(Lines(input)[1]).value))
  {
    var nums :- MapResult(Lines(input), ParseLine);
    Proc(nums)
  }

  lemma ExampleSecondRace()
    ensures Wins(15, 40) == 8
  {
    assert CountWins(15, 40, 12) == 0;
    assert CountWins(15, 40, 8) == 4;
    assert CountWins(15, 40, 4) == 8;
  }

  lemma ExampleThirdRace()
    ensures Wins(30, 200) == 9
  {
    assert CountWins(30, 200, 25) == 0;
    assert CountWins(30, 200, 20) == 0;
    assert CountWins(30, 200, 15) == 5;
    assert CountWins(30, 200, 10) == 9;
    assert CountWins(30, 200, 5) == 9;
  }

  /** The races of the puzzle's example: 4, 8 and 9 ways to win, 288 together. */
  lemma Example()
    ensures Wins(7, 9) == 4 && Wins(15, 40) == 8 && Wins(30, 200) == 9
    ensures Proc([[7, 15, 30], [9, 40, 200]]) == Ok(288)
  {
    ExampleSecondRace();
    ExampleThirdRace();
    assert ZipWins([7, 15, 30], [9, 40, 200]) == [4, 8, 9];
    assert Product([9]) == 9 && Product([8, 9]) == 72;
  }

  // ---------------------------------------------------------------------------------------------
  // `partition_point` over an integer range

  /** `pred` holds on a prefix of `lo..hi` and fails on the rest. */
  ghost predicate Partitioned(pred: int -> bool, lo: int, hi: int)
  {
    forall i, j :: lo <= i < j < hi && pred(j) ==> pred(i)
  }

  /** `partition_point` as written: the loop runs while `lo + 1 < hi`, so the last candidate `lo` is
      returned without testing `pred` on it. */
  function PartitionPointAsWritten(lo: int, hi: int, pred: int -> bool): (r: int)
    ensures lo + 1 < hi ==> lo <= r <= hi
    ensures lo + 1 >= hi ==> r == lo
    ensures Partitioned(pred, lo, hi) ==> forall k :: lo <= k < r ==> pred(k)
    ensures Partitioned(pred, lo, hi) ==> forall k :: r < k < hi ==> !pred(k)
    decreases hi - lo
  {
    if lo + 1 < hi then
      var m := lo + (hi - lo) / 2;
      if pred(m) then PartitionPointAsWritten(m + 1, hi, pred) else PartitionPointAsWritten(lo, m, pred)
    else lo
  }

  /** `partition_point` with the loop condition `lo < hi`: the first element of the range where
      `pred` fails, or the end of the range. */
  function PartitionPoint(lo: int, hi: int, pred: int -> bool): (r: int)
    ensures lo < hi ==> lo <= r <= hi
    ensures lo >= hi ==> r == lo
    ensures Partitioned(pred, lo, hi) ==> forall k :: lo <= k < r ==> pred(k)
    ensures Partitioned(pred, lo, hi) ==> forall k :: r <= k < hi ==> !pred(k)
    decreases hi - lo
  {
    if lo < hi then
      var m := lo + (hi - lo) / 2;
      if pred(m) then PartitionPoint(m + 1, hi, pred) else PartitionPoint(lo, m, pred)
    else lo
  }

  /** The split point of a partitioned range is unique. */
  lemma SplitPointUnique(pred: int -> bool, lo: int, hi: int, a: int, b: int)
    requires lo <= a <= hi && lo <= b <= hi
    requires forall k :: lo <= k < a ==> pred(k)
    requires forall k :: a <= k < hi ==> !pred(k)
    requires forall k :: lo <= k < b ==> pred(k)
    requires forall k :: b <= k < hi ==> !pred(k)
    ensures a == b
  {
    if a < b {
      var pa := pred(a);
      assert false;
    } else if b < a {
      var pb := pred(b);
      assert false;
    }
  }

  /** The value as written misses the split point by one exactly when `pred` holds on it. */
  lemma AsWrittenOffByOne(lo: int, hi: int, pred: int -> bool)
    requires Partitioned(pred, lo, hi) && lo < hi
    ensures var r := PartitionPointAsWritten(lo, hi, pred);
      PartitionPoint(lo, hi, pred) == if r < hi && pred(r) then r + 1 else r
  {
    var r := PartitionPointAsWritten(lo, hi, pred);
    var p := PartitionPoint(lo, hi, pred);
    var q := if r < hi && pred(r) then r + 1 else r;
    forall k | q <= k < hi ensures !pred(k) {
      if k == r {
      } else {
        assert r < k;
      }
    }
    SplitPointUnique(pred, lo, hi, p, q);
  }

  /** The range `0..1` with a predicate that always holds: the split point is 1, the code gives 0. */
  lemma PartitionPointCounterexample()
    ensures PartitionPointAsWritten(0, 1, _ => true) == 0
    ensures PartitionPoint(0, 1, _ => true) == 1
  {
  }
}

=== FILE: day07.dfy ===
/** Day 7 (Camel Cards): hands of five cards are ranked by their type (the shape of their repeated
    cards), then card by card; part one sums rank times bid. */
module Day07 {
  import opened Common
  import opened Strings
  import opened Sorting

  /** The card letters from weakest to strongest. */
  const Cards: string := "23456789TJQKA"

  /** `to_card_idx`: the strength of a card letter. */
  function ToCardIdx(c: char): (r: Result<nat>)
    ensures r.Ok? <==> c in Cards
    ensures r.Ok? ==> r.value < |Cards| && Cards[r.value] == c
  {
    OkOr(FirstIndex(Cards, c), "invalid card")
  }

  /** Every card letter reads back as its own position: the strengths are 0..12 in order. */
  lemma CardIdxRoundTrip(i: nat)
    requires i < |Cards|
    ensures ToCardIdx(Cards[i]) == Ok(i)
  {
    CardsDistinct();
  }

  /** No letter appears twice among the cards. */
  lemma CardsDistinct()
    ensures forall a, b :: 0 <= a < b < |Cards| ==> Cards[a] != Cards[b]
  {
  }

  datatype HandType = HighCard | OnePair | TwoPair | ThreeOfAKind | FullHouse | FourOfAKind | FiveOfAKind
  {
    /** The position in the declaration, which the derived ordering compares. */
    function Rank(): (r: nat)
      ensures r < 7
    {
      match this
      case HighCard => 0
      case OnePair => 1
      case TwoPair => 2
      case ThreeOfAKind => 3
      case FullHouse => 4
      case FourOfAKind => 5
      case FiveOfAKind => 6
    }
  }

  predicate ValidCards(h: seq<nat>)
  {
    forall i :: 0 <= i < |h| ==> h[i] < |Cards|
  }

  /** How many cards of each strength the hand holds. */
  function Counts(h: seq<nat>): (r: seq<nat>)
    ensures |r| == |Cards| && forall i :: 0 <= i < |r| ==> r[i] == CountOf(h, i)
  {
    seq(|Cards|, i requires 0 <= i < |Cards| => CountOf(h, i))
  }

  /** `retain(n > 0)`. */
  function Nonzero(s: seq<nat>): (r: seq<nat>)
    ensures forall i :: 0 <= i < |r| ==> r[i] > 0
    ensures forall x :: x > 0 ==> multiset(r)[x] == multiset(s)[x]
    ensures 0 !in multiset(r)
  {
    if |s| == 0 then []
    else
      assert s == [s[0]] + s[1..];
      (if s[0] > 0 then [s[0]] else []) + Nonzero(s[1..])
  }

  predicate Ge(a: nat, b: nat)
  {
    a >= b
  }

  lemma GeTotal()
    ensures TotalPreorder(Ge)
  {
  }

  /** The non-zero multiplicities of the hand, largest first. The source sorts (card, count) pairs by
      count with a stable sort and then reads the counts; reading the counts of any such order gives
      this sequence. */
  function Tally(h: seq<nat>): (r: seq<nat>)
    ensures SortedBy(r, Ge)
    ensures multiset(r) == multiset(Nonzero(Counts(h)))
  {
    GeTotal();
    SortBy(Nonzero(Counts(h)), Ge)
  }

  /** The type from the largest multiplicity and the next one (0 when there is none). */
  function Classify(t: seq<nat>): HandType
  {
    var first := if |t| > 0 then t[0] else 0;
    var second := if |t| > 1 then t[1] else 0;
    if first == 5 then FiveOfAKind
    else if first == 4 then FourOfAKind
    else if first == 3 then (if second > 1 then FullHouse else ThreeOfAKind)
    else if first == 2 then (if second > 1 then TwoPair else OnePair)
    else HighCard
  }

  /** `HandType::from`, which panics unless given five cards. */
  function HandTypeOf(h: seq<nat>): HandType
    requires |h| == 5 && ValidCards(h)
  {
    Classify(Tally(h))
  }

  /** The type depends only on which cards the hand holds, not on their order. */
  lemma HandTypePermutation(h1: seq<nat>, h2: seq<nat>)
    requires |h1| == 5 && ValidCards(h1) && |h2| == 5 && ValidCards(h2)
    requires multiset(h1) == multiset(h2)
    ensures HandTypeOf(h1) == HandTypeOf(h2)
  {
    forall i | 0 <= i < |Cards| ensures CountOf(h1, i) == CountOf(h2, i) {
      CountOfIsMultiplicity(h1, i);
      CountOfIsMultiplicity(h2, i);
    }
    assert Counts(h1) == Counts(h2);
  }

  /** Two sequences sorted largest first with the same elements are equal. */
  lemma {:induction false} SortedDescUnique(s: seq<nat>, t: seq<nat>)
    requires SortedBy(s, Ge) && SortedBy(t, Ge) && multiset(s) == multiset(t)
    ensures s == t
    decreases |s|
  {
    if |s| > 0 {
      SortedDescHead(s, t);
      assert s == [s[0]] + s[1..] && t == [t[0]] + t[1..];
      calc {
        multiset(s[1..]);
        multiset(s) - multiset{s[0]};
        multiset(t) - multiset{t[0]};
        multiset(t[1..]);
      }
      SortedDescUnique(s[1..], t[1..]);
    } else {
      assert |t| == |multiset(t)| == 0;
    }
  }

  /** Two non-empty sequences sorted largest first with the same elements start alike. */
  lemma SortedDescHead(s: seq<nat>, t: seq<nat>)
    requires SortedBy(s, Ge) && SortedBy(t, Ge) && multiset(s) == multiset(t) && |s| > 0
    ensures |t| == |s| && s[0] == t[0]
  {
    assert |t| == |multiset(t)| == |multiset(s)| == |s|;
    assert s[0] in multiset(t) && t[0] in multiset(s);
    var i :| 0 <= i < |t| && t[i] == s[0];
    var j :| 0 <= j < |s| && s[j] == t[0];
    assert Ge(t[0], t[i]) by { if i > 0 { assert Ge(t[0], t[i]); } }
    assert Ge(s[0], s[j]) by { if j > 0 { assert Ge(s[0], s[j]); } }
  }

  /** The multiplicities of the cards a hand holds. */
  function Shape(h: seq<nat>): multiset<nat>
  {
    multiset(Nonzero(Counts(h)))
  }

  /** The type of a hand is read off its shape: 5 of a kind; 4 and 1; 3 and 2; 3, 1 and 1; 2, 2 and
      1; 2, 1, 1 and 1; five singles. */
  lemma HandTypeByShape(h: seq<nat>)
    requires |h| == 5 && ValidCards(h)
    ensures Shape(h) == multiset{5} ==> HandTypeOf(h) == FiveOfAKind
    ensures Shape(h) == multiset{4, 1} ==> HandTypeOf(h) == FourOfAKind
    ensures Shape(h) == multiset{3, 2} ==> HandTypeOf(h) == FullHouse
    ensures Shape(h) == multiset{3, 1, 1} ==> HandTypeOf(h) == ThreeOfAKind
    ensures Shape(h) == multiset{2, 2, 1} ==> HandTypeOf(h) == TwoPair
    ensures Shape(h) == multiset{2, 1, 1, 1} ==> HandTypeOf(h) == OnePair
    ensures Shape(h) == multiset{1, 1, 1, 1, 1} ==> HandTypeOf(h) == HighCard
  {
    var t := Tally(h);
    ClassifyShort(t);
    ClassifyFourOne(t);
    ClassifyFullHouse(t);
    ClassifyThree(t);
    ClassifyTwoPairs(t);
    ClassifyFour(t);
    ClassifyFive(t);
  }

  /** Tallies listed largest first with the same multiplicities have the same type. */
  lemma SameShapeSameType(t: seq<nat>, u: seq<nat>)
    requires SortedBy(t, Ge) && SortedBy(u, Ge) && multiset(t) == multiset(u)
    ensures Classify(t) == Classify(u)
  {
    SortedDescUnique(t, u);
  }

  /** `Classify` on tallies listed largest first with one entry. */
  lemma ClassifyShort(t: seq<nat>)
    requires SortedBy(t, Ge)
    ensures multiset(t) == multiset{5} ==> Classify(t) == FiveOfAKind
  {
    var u: seq<nat> := [5];
    if multiset(t) == multiset(u) { SameShapeSameType(t, u); }
  }

  /** `Classify` on tallies listed largest first with a quadruple and a single. */
  lemma ClassifyFourOne(t: seq<nat>)
    requires SortedBy(t, Ge)
    ensures multiset(t) == multiset{4, 1} ==> Classify(t) == FourOfAKind
  {
    var u: seq<nat> := [4, 1];
    if multiset(t) == multiset(u) {
      assert SortedBy(u, Ge);
      SameShapeSameType(t, u);
    }
  }

  /** `Classify` on tallies listed largest first with a triple and a pair. */
  lemma ClassifyFullHouse(t: seq<nat>)
    requires SortedBy(t, Ge)
    ensures multiset(t) == multiset{3, 2} ==> Classify(t) == FullHouse
  {
    var u: seq<nat> := [3, 2];
    if multiset(t) == multiset(u) {
      assert SortedBy(u, Ge);
      SameShapeSameType(t, u);
    }
  }

  /** `Classify` on tallies listed largest first with a triple and two singles. */
  lemma ClassifyThree(t: seq<nat>)
    requires SortedBy(t, Ge)
    ensures multiset(t) == multiset{3, 1, 1} ==> Classify(t) == ThreeOfAKind
  {
    var u: seq<nat> := [3, 1, 1];
    if multiset(t) == multiset(u) {
      assert SortedBy(u, Ge);
      SameShapeSameType(t, u);
    }
  }

  /** `Classify` on tallies listed largest first with two pairs and a single. */
  lemma ClassifyTwoPairs(t: seq<nat>)
    requires SortedBy(t, Ge)
    ensures multiset(t) == multiset{2, 2, 1} ==> Classify(t) == TwoPair
  {
    var u: seq<nat> := [2, 2, 1];
    if multiset(t) == multiset(u) {
      assert SortedBy(u, Ge);
      SameShapeSameType(t, u);
    }
  }

  /** `Classify` on tallies listed largest first with four entries. */
  lemma ClassifyFour(t: seq<nat>)
    requires SortedBy(t, Ge)
    ensures multiset(t) == multiset{2, 1, 1, 1} ==> Classify(t) == OnePair
  {
    var u: seq<nat> := [2, 1, 1, 1];
    if multiset(t) == multiset(u) {
      assert SortedBy(u, Ge);
      SameShapeSameType(t, u);
    }
  }

  /** `Classify` on tallies listed largest first with five entries. */
  lemma ClassifyFive(t: seq<nat>)
    requires SortedBy(t, Ge)
    ensures multiset(t) == multiset{1, 1, 1, 1, 1} ==> Classify(t) == HighCard
  {
    var u: seq<nat> := [1, 1, 1, 1, 1];
    if multiset(t) == multiset(u) {
      assert SortedBy(u, Ge);
      SameShapeSameType(t, u);
    }
  }

  // ---------------------------------------------------------------------------------------------
  // Hands and their order

  /** A hand: its type and its card strengths in the order dealt. */
  datatype Hand = Hand(type_: HandType, cardvs: seq<nat>)

  /** The derived lexicographic order on card strengths. */
  predicate LexLe(a: seq<nat>, b: seq<nat>)
  {
    |a| == 0 || (|b| > 0 && (a[0] < b[0] || (a[0] == b[0] && LexLe(a[1..], b[1..]))))
  }

  lemma {:induction false} LexLeTotal(a: seq<nat>, b: seq<nat>)
    ensures LexLe(a, b) || LexLe(b, a)
  {
    if |a| > 0 && |b| > 0 && a[0] == b[0] {
      LexLeTotal(a[1..], b[1..]);
    }
  }

  lemma {:induction false} LexLeTransitive(a: seq<nat>, b: seq<nat>, c: seq<nat>)
    requires LexLe(a, b) && LexLe(b, c)
    ensures LexLe(a, c)
  {
    if |a| > 0 && a[0] == b[0] && b[0] == c[0] {
      LexLeTransitive(a[1..], b[1..], c[1..]);
    }
  }

  lemma {:induction false} LexLeAntisymmetric(a: seq<nat>, b: seq<nat>)
    requires |a| == |b| && LexLe(a, b) && LexLe(b, a)
    ensures a == b
  {
    if |a| > 0 {
      LexLeAntisymmetric(a[1..], b[1..]);
      assert a == [a[0]] + a[1..] && b == [b[0]] + b[1..];
    }
  }

  /** The derived order of `Hand`: by type, then by the cards from left to right. */
  predicate HandLe(a: Hand, b: Hand)
  {
    a.type_.Rank() < b.type_.Rank() || (a.type_ == b.type_ && LexLe(a.cardvs, b.cardvs))
  }

  lemma HandLeTotal()
    ensures TotalPreorder(HandLe)
  {
    forall a: Hand, b: Hand ensures HandLe(a, b) || HandLe(b, a) {
      LexLeTotal(a.cardvs, b.cardvs);
    }
    forall a: Hand, b: Hand, c: Hand | HandLe(a, b) && HandLe(b, c) ensures HandLe(a, c) {
      if a.type_ == b.type_ && b.type_ == c.type_ {
        LexLeTransitive(a.cardvs, b.cardvs, c.cardvs);
      }
    }
  }

  /** Hands whose type is that of their cards are ordered without ties unless they are equal. */
  lemma HandLeAntisymmetric(a: Hand, b: Hand)
    requires |a.cardvs| == 5 && ValidCards(a.cardvs) && a.type_ == HandTypeOf(a.cardvs)
    requires |b.cardvs| == 5 && ValidCards(b.cardvs) && b.type_ == HandTypeOf(b.cardvs)
    requires HandLe(a, b) && HandLe(b, a)
    ensures a == b
  {
    LexLeAntisymmetric(a.cardvs, b.cardvs);
  }

  /** `Hand::from_str`: five card letters. A bad letter is reported before a wrong length. */
  function ParseHand(s: string): (r: Result<Hand>)
    ensures r.Ok? <==> |s| == 5 && forall i :: 0 <= i < |s| ==> s[i] in Cards
    ensures r.Ok? ==> |r.value.cardvs| == 5 && ValidCards(r.value.cardvs)
    ensures r.Ok? ==> forall i :: 0 <= i < 5 ==> Cards[r.value.cardvs[i]] == s[i]
    ensures r.Ok? ==> r.value.type_ == HandTypeOf(r.value.cardvs)
  {
    var v :- MapResult(s, ToCardIdx);
    if |v| != 5 then Err("invalid hand length")
    else Ok(Hand(HandTypeOf(v), v))
  }

  datatype Game = Game(hand: Hand, bid: int)

  /** One line of `games`: a hand, one space, and an `i32` bid. */
  function ParseGame(line: string): (r: Result<Game>)
    ensures r.Ok? <==> SplitOnce(line, ' ').Some? && ParseHand(SplitOnce(line, ' ').value.0).Ok? &&
                       ParseI32(SplitOnce(line, ' ').value.1).Some?
    ensures r.Ok? ==> r.value.hand == ParseHand(SplitOnce(line, ' ').value.0).value
    ensures r.Ok? ==> Some(r.value.bid) == ParseI32(SplitOnce(line, ' ').value.1)
  {
    var (l, rest) :- OkOr(SplitOnce(line, ' '), "invalid line");
    var hand :- ParseHand(l);
    var bid :- OkOr(ParseI32(rest), "invalid bid");
    Ok(Game(hand, bid))
  }

  predicate GameLe(a: Game, b: Game)
  {
    HandLe(a.hand, b.hand)
  }

  lemma GameLeTotal()
    ensures TotalPreorder(GameLe)
  {
    HandLeTotal();
  }

  /** The sum of rank times bid, ranks counted from `rank` on. */
  function Winnings(gs: seq<Game>, rank: nat): int
  {
    if |gs| == 0 then 0 else rank * gs[0].bid + Winnings(gs[1..], rank + 1)
  }

  /** `p1`: the games sorted by hand (weakest first) and each bid multiplied by its rank. */
  function P1(input: string): (r: Result<int>)
    ensures r.Ok? <==> forall i :: 0 <= i < |Lines(input)| ==> ParseGame(Lines(input)[i]).Ok?
    ensures r.Ok? ==> exists sorted: seq<Game> ::
      && multiset(sorted) == multiset(MapResult(Lines(input), ParseGame).value)
      && SortedBy(sorted, GameLe)
      && Stable(MapResult(Lines(input), ParseGame).value, sorted, GameLe)
      && r.value == Winnings(sorted, 1)
  {
    var gs :- MapResult(Lines(input), ParseGame);
    GameLeTotal();
    var sorted := SortBy(gs, GameLe);
    SortByStable(gs, GameLe);
    Ok(Winnings(sorted, 1))
  }

  /** Raising every rank by one adds every bid once more. */
  lemma {:induction false} WinningsShift(gs: seq<Game>, rank: nat)
    ensures Winnings(gs, rank + 1) == Winnings(gs, rank) + Sum(Bids(gs))
  {
    if |gs| > 0 {
      WinningsShift(gs[1..], rank + 1);
      assert Bids(gs) == [gs[0].bid] + Bids(gs[1..]);
    }
  }

  function Bids(gs: seq<Game>): (r: seq<int>)
    ensures |r| == |gs| && forall i :: 0 <= i < |gs| ==> r[i] == gs[i].bid
  {
    seq(|gs|, i requires 0 <= i < |gs| => gs[i].bid)
  }
}

=== FILE: day08.dfy ===
/** Day 8 (Haunted Wasteland): a network of named nodes, each with a left and a right successor, is
    walked by a cycled sequence of 'L'/'R' instructions. Part one counts the steps from "AAA" to
    "ZZZ"; part two takes the lcm of the cycle lengths of the walks from every node ending in 'A'.
    The walks of the source may run forever, so here they carry a `fuel` bound on the steps taken. */
module Day08 {
  import opened Common
  import opened Strings
  import opened Sorting
  import Grid

  // ---------------------------------------------------------------------------------------------
  // Node lines

  /** A node line before name resolution. */
  datatype Node = Node(name: string, left: string, right: string)

  /** The characters a node line is split on. */
  const NodeSeps: set<char> := {' ', '=', '(', ')', ','}

  /** The non-empty strings of `ss`, in order. */
  function NonEmpty(ss: seq<string>): (r: seq<string>)
    ensures forall i :: 0 <= i < |r| ==> |r[i]| > 0
    ensures |r| <= |ss|
  {
    if |ss| == 0 then []
    else
      (if |ss[0]| > 0 then [ss[0]] else []) + NonEmpty(ss[1..])
  }

  lemma NonEmptyCons(x: string, rest: seq<string>, empty: bool)
    requires empty <==> |x| == 0
    ensures NonEmpty([x] + rest) == (if empty then [] else [x]) + NonEmpty(rest)
  {
    assert ([x] + rest)[1..] == rest;
  }

  function NodeTokens(line: string): seq<string>
  {
    NonEmpty(SplitBy(line, NodeSeps))
  }

  /** `Node::from_impl`: exactly three words between the separators. */
  function ParseNode(line: string): (r: Option<Node>)
    ensures r.Some? <==> |NodeTokens(line)| == 3
    ensures r.Some? ==> NodeTokens(line) == [r.value.name, r.value.left, r.value.right]
  {
    var toks := NodeTokens(line);
    if |toks| == 3 then Some(Node(toks[0], toks[1], toks[2])) else None
  }

  /** A word a node line can carry: non-empty and free of separators. */
  predicate IsName(s: string)
  {
    |s| > 0 && NoneIn(s, NodeSeps)
  }

  /** The puzzle's node line `NAME = (LEFT, RIGHT)`. */
  function FormatNode(n: Node): string
  {
    n.name + " = (" + n.left + ", " + n.right + ")"
  }

  /** Reading a formatted node line gives the node back. */
  lemma ParseFormatNode(n: Node)
    requires IsName(n.name) && IsName(n.left) && IsName(n.right)
    ensures ParseNode(FormatNode(n)) == Some(n)
  {
    var r1 := "= (" + n.left + ", " + n.right + ")";
    assert FormatNode(n) == n.name + [' '] + r1;
    TokensAfterName(n.left, n.right);
    TokensWord(n.name, ' ', r1);
  }

  /** The tokens of `= (LEFT, RIGHT)`. */
  lemma TokensAfterName(left: string, right: string)
    requires IsName(left) && IsName(right)
    ensures NodeTokens("= (" + left + ", " + right + ")") == [left, right]
  {
    var r4 := left + [','] + ([' '] + (right + [')']));
    var r3 := ['('] + r4;
    var r2 := [' '] + r3;
    assert "= (" + left + ", " + right + ")" == ['='] + r2;
    TokensPair(left, right);
    TokensSep('(', r4);
    TokensSep(' ', r3);
    TokensSep('=', r2);
  }

  /** The tokens of `LEFT, RIGHT)`. */
  lemma TokensPair(left: string, right: string)
    requires IsName(left) && IsName(right)
    ensures NodeTokens(left + [','] + ([' '] + (right + [')']))) == [left, right]
  {
    var r6 := right + [')'];
    TokensLast(right);
    TokensSep(' ', r6);
    TokensWord(left, ',', [' '] + r6);
  }

  /** The tokens of `RIGHT)`. */
  lemma TokensLast(right: string)
    requires IsName(right)
    ensures NodeTokens(right + [')']) == [right]
  {
    var e: string := [];
    assert right + [')'] == right + [')'] + e;
    TokensWord(right, ')', e);
    assert SplitBy(e, NodeSeps) == [e];
    NonEmptyCons(e, [], true);
  }

  /** A word followed by a separator is the first token. */
  lemma TokensWord(w: string, c: char, rest: string)
    requires IsName(w) && c in NodeSeps
    ensures NodeTokens(w + [c] + rest) == [w] + NodeTokens(rest)
  {
    SplitByCons(w, c, rest, NodeSeps);
    NonEmptyCons(w, SplitBy(rest, NodeSeps), false);
  }

  /** A leading separator yields no token. */
  lemma TokensSep(c: char, rest: string)
    requires c in NodeSeps
    ensures NodeTokens([c] + rest) == NodeTokens(rest)
  {
    var e: string := [];
    assert e + [c] + rest == [c] + rest;
    SplitByCons(e, c, rest, NodeSeps);
    NonEmptyCons(e, SplitBy(rest, NodeSeps), true);
  }

  // ---------------------------------------------------------------------------------------------
  // The node map

  /** A resolved node: its name and the indices of its successors. */
  datatype Entry = Entry(name: string, left: nat, right: nat)

  /** Every successor index points into the map. */
  predicate ValidMap(m: seq<Entry>)
  {
    forall i :: 0 <= i < |m| ==> m[i].left < |m| && m[i].right < |m|
  }

  function Names(ns: seq<Node>): (r: seq<string>)
    ensures |r| == |ns| && forall i :: 0 <= i < |ns| ==> r[i] == ns[i].name
  {
    seq(|ns|, i requires 0 <= i < |ns| => ns[i].name)
  }

  function EntryNames(m: seq<Entry>): (r: seq<string>)
    ensures |r| == |m| && forall i :: 0 <= i < |m| ==> r[i] == m[i].name
  {
    seq(|m|, i requires 0 <= i < |m| => m[i].name)
  }

  /** The node lines a valid map was built from, in the map's order. */
  function Decode(m: seq<Entry>): (r: seq<Node>)
    requires ValidMap(m)
    ensures |r| == |m|
  {
    seq(|m|, i requires 0 <= i < |m| => Node(m[i].name, m[m[i].left].name, m[m[i].right].name))
  }

  /** `binary_search_by_key` on names sorted ascending, returning the first position of `name`. */
  function Search(names: seq<string>, name: string): (r: Option<nat>)
    ensures r.Some? ==> r.value < |names| && names[r.value] == name
    ensures SortedBy(names, StrLe) ==> (r.Some? <==> name in names)
  {
    var k := PartitionPoint(names, (n: string) => StrLt(n, name));
    if k < |names| && names[k] == name then Some(k)
    else
      if SortedBy(names, StrLe) then
        SearchMiss(names, name, k);
        None
      else None
  }

  /** In sorted names, a name absent from the partition point is absent altogether. */
  lemma SearchMiss(names: seq<string>, name: string, k: nat)
    requires SortedBy(names, StrLe) && k <= |names|
    requires forall i :: 0 <= i < k ==> StrLt(names[i], name)
    requires k < |names| ==> !StrLt(names[k], name) && names[k] != name
    ensures name !in names
  {
    forall j | 0 <= j < |names| ensures names[j] != name {
      if j < k {
        MissBefore(names[j], name);
      } else if j > k {
        MissAfter(names[k], names[j], name);
      }
    }
  }

  lemma MissBefore(a: string, name: string)
    requires StrLt(a, name)
    ensures a != name
  {
    StrLeTotalAt(name, name);
  }

  lemma MissAfter(a: string, b: string, name: string)
    requires StrLe(a, b) && !StrLt(a, name) && a != name
    ensures b != name
  {
    if b == name {
      StrLeAntisymmetric(a, name);
    }
  }

  predicate NameLe(a: Node, b: Node)
  {
    StrLe(a.name, b.name)
  }

  lemma NameLeTotal()
    ensures TotalPreorder(NameLe)
  {
    StrLeTotal();
  }

  /** One node with its successor names looked up among `names`. */
  function Resolve(names: seq<string>, n: Node): (r: Result<Entry>)
    ensures r.Ok? <==> Search(names, n.left).Some? && Search(names, n.right).Some?
    ensures r.Ok? ==> r.value.name == n.name && r.value.left < |names| && r.value.right < |names|
    ensures r.Ok? ==> names[r.value.left] == n.left && names[r.value.right] == n.right
  {
    var left :- OkOr(Search(names, n.left), "left node is invalid");
    var right :- OkOr(Search(names, n.right), "right node is invalid");
    Ok(Entry(n.name, left, right))
  }

  /** Every successor named by a node line is the name of some node line. */
  predicate Closed(ns: seq<Node>)
  {
    forall i :: 0 <= i < |ns| ==> ns[i].left in Names(ns) && ns[i].right in Names(ns)
  }

  /** Reordering node lines keeps the set of names. */
  lemma NamesPermutation(ns: seq<Node>, ms: seq<Node>, x: string)
    requires multiset(ns) == multiset(ms) && x in Names(ns)
    ensures x in Names(ms)
  {
    var i :| 0 <= i < |ns| && Names(ns)[i] == x;
    assert ns[i] in multiset(ms);
    var j :| 0 <= j < |ms| && ms[j] == ns[i];
    assert Names(ms)[j] == x;
  }

  lemma ClosedTransfer(ns: seq<Node>, ms: seq<Node>)
    requires multiset(ns) == multiset(ms) && Closed(ns)
    ensures Closed(ms)
  {
    forall i | 0 <= i < |ms| ensures ms[i].left in Names(ms) && ms[i].right in Names(ms) {
      assert ms[i] in multiset(ns);
      var j :| 0 <= j < |ns| && ns[j] == ms[i];
      NamesPermutation(ns, ms, ns[j].left);
      NamesPermutation(ns, ms, ns[j].right);
    }
  }

  /** Closure depends only on which node lines there are. */
  lemma ClosedPermutation(ns: seq<Node>, ms: seq<Node>)
    requires multiset(ns) == multiset(ms)
    ensures Closed(ns) <==> Closed(ms)
  {
    if Closed(ns) {
      ClosedTransfer(ns, ms);
    }
    if Closed(ms) {
      ClosedTransfer(ms, ns);
    }
  }

  /** Every node line with its successors resolved among `names`, failing at the first one that
      names an unknown node (the `collect` into a `Result`). */
  function ResolveAll(names: seq<string>, ns: seq<Node>): (r: Result<seq<Entry>>)
    ensures r.Ok? <==> forall i :: 0 <= i < |ns| ==> Resolve(names, ns[i]).Ok?
    ensures r.Ok? ==> |r.value| == |ns| && forall i :: 0 <= i < |ns| ==> r.value[i] == Resolve(names, ns[i]).value
  {
    MapResult(ns, (n: Node) => Resolve(names, n))
  }

  /** Resolving node lines sorted by name succeeds exactly when they are closed. */
  lemma ResolveAllOk(ns: seq<Node>)
    requires SortedBy(Names(ns), StrLe)
    ensures ResolveAll(Names(ns), ns).Ok? <==> Closed(ns)
  {
    var names := Names(ns);
    if ResolveAll(names, ns).Ok? {
      forall i | 0 <= i < |ns| ensures ns[i].left in names && ns[i].right in names {
        assert Resolve(names, ns[i]).Ok?;
      }
    }
    if Closed(ns) {
      forall i | 0 <= i < |ns| ensures Resolve(names, ns[i]).Ok? {
      }
    }
  }

  /** A resolved map keeps the names of the node lines and indexes only within itself. */
  lemma ResolveAllValid(names: seq<string>, ns: seq<Node>)
    requires names == Names(ns) && ResolveAll(names, ns).Ok?
    ensures EntryNames(ResolveAll(names, ns).value) == names
    ensures ValidMap(ResolveAll(names, ns).value)
  {
    var m := ResolveAll(names, ns).value;
    forall i | 0 <= i < |m| ensures m[i].name == names[i] && m[i].left < |m| && m[i].right < |m| {
      assert m[i] == Resolve(names, ns[i]).value;
    }
  }

  /** A resolved map decodes back to the node lines. */
  lemma ResolveAllDecodes(names: seq<string>, ns: seq<Node>, m: seq<Entry>)
    requires names == Names(ns) && ResolveAll(names, ns) == Ok(m) && ValidMap(m)
    ensures Decode(m) == ns
  {
    forall i | 0 <= i < |m| ensures Decode(m)[i] == ns[i] {
      var e := Resolve(names, ns[i]).value;
      assert m[i] == e;
      assert names[e.left] == ns[i].left && names[e.right] == ns[i].right;
    }
  }

  /** `NodeMap::from`: the node lines sorted by name, each successor resolved to an index. It fails
      exactly when some successor is not the name of a node; otherwise the map is valid and decodes to
      the given node lines, reordered by name. */
  function BuildMap(src: seq<Node>): (r: Result<seq<Entry>>)
    ensures r.Ok? <==> Closed(src)
    ensures r.Ok? ==> |r.value| == |src| && ValidMap(r.value)
    ensures r.Ok? ==> SortedBy(EntryNames(r.value), StrLe)
    ensures r.Ok? ==> multiset(Decode(r.value)) == multiset(src)
  {
    NameLeTotal();
    var sorted := SortBy(src, NameLe);
    ClosedPermutation(src, sorted);
    assert SortedBy(Names(sorted), StrLe);
    ResolveAllOk(sorted);
    var r := ResolveAll(Names(sorted), sorted);
    if r.Err? then Err(r.msg)
    else
      ResolveAllValid(Names(sorted), sorted);
      ResolveAllDecodes(Names(sorted), sorted, r.value);
      Ok(r.value)
  }

  /** `NodeMap::name_index`. */
  function NameIndex(m: seq<Entry>, name: string): (r: Option<nat>)
    ensures r.Some? ==> r.value < |m| && m[r.value].name == name
    ensures SortedBy(EntryNames(m), StrLe) ==> (r.Some? <==> name in EntryNames(m))
  {
    Search(EntryNames(m), name)
  }

  /** `NodeMap::next`: the successor chosen by one instruction; None for any other character or a
      position outside the map. */
  function Next(m: seq<Entry>, p: nat, c: char): (r: Option<nat>)
    ensures r.Some? <==> p < |m| && (c == 'L' || c == 'R')
    ensures r.Some? && ValidMap(m) ==> r.value < |m|
  {
    if p < |m| then
      if c == 'L' then Some(m[p].left) else if c == 'R' then Some(m[p].right) else None
    else None
  }

  /** A move goes to the node the node line names on that side. */
  lemma NextFollowsNames(m: seq<Entry>, p: nat)
    requires ValidMap(m) && p < |m|
    ensures m[Next(m, p, 'L').value].name == Decode(m)[p].left
    ensures m[Next(m, p, 'R').value].name == Decode(m)[p].right
  {
    var d := Decode(m);
    assert d[p] == Node(m[p].name, m[m[p].left].name, m[m[p].right].name);
  }

  /** `NodeMap::has_suffix`: false outside the map. */
  predicate HasSuffix(m: seq<Entry>, p: nat, c: char)
  {
    p < |m| && |m[p].name| > 0 && m[p].name[|m[p].name| - 1] == c
  }

  predicate IsStart(m: seq<Entry>, p: nat) { HasSuffix(m, p, 'A') }

  predicate IsEnd(m: seq<Entry>, p: nat) { HasSuffix(m, p, 'Z') }

  // ---------------------------------------------------------------------------------------------
  // Part one

  /** Every instruction is a move. */
  predicate AllMoves(instr: string)
  {
    forall i :: 0 <= i < |instr| ==> instr[i] == 'L' || instr[i] == 'R'
  }

  /** The position after applying instruction `c`; a character that is not a move leaves it. */
  function Move(m: seq<Entry>, p: nat, c: char): nat
  {
    match Next(m, p, c)
    case Some(q) => q
    case None => p
  }

  /** The position after `n` characters of the cycled instructions, starting with `instr[i]`. */
  function After(m: seq<Entry>, instr: string, p: nat, i: nat, n: nat): nat
    requires |instr| > 0
    decreases n
  {
    if n == 0 then p else After(m, instr, Move(m, p, instr[i % |instr|]), i + 1, n - 1)
  }

  /** The iterator of `p1` from position `cur` at instruction `i`: the number of moves yielded before
      the first move onto `z`. The cycle of an empty instruction string is empty and yields nothing;
      None means `fuel` characters were consumed without arriving. */
  function Walk(m: seq<Entry>, instr: string, z: nat, cur: nat, i: nat, fuel: nat): (r: Option<nat>)
    ensures |instr| == 0 ==> r == Some(0)
    ensures |instr| > 0 && r.Some? ==> r.value < fuel
    decreases fuel
  {
    if |instr| == 0 then Some(0)
    else if fuel == 0 then None
    else
      match Next(m, cur, instr[i % |instr|])
      case None => Walk(m, instr, z, cur, i + 1, fuel - 1)
      case Some(p) =>
        if p == z then Some(0)
        else
          match Walk(m, instr, z, p, i + 1, fuel - 1)
          case None => None
          case Some(n) => Some(n + 1)
  }

  /** With more fuel a walk that arrived arrives at the same count. */
  lemma {:induction false} WalkFuelMonotone(m: seq<Entry>, instr: string, z: nat, cur: nat, i: nat, fuel: nat, more: nat)
    requires Walk(m, instr, z, cur, i, fuel).Some? && fuel <= more
    ensures Walk(m, instr, z, cur, i, more) == Walk(m, instr, z, cur, i, fuel)
    decreases fuel
  {
    if |instr| > 0 && fuel > 0 {
      match Next(m, cur, instr[i % |instr|])
      case None => WalkFuelMonotone(m, instr, z, cur, i + 1, fuel - 1, more - 1);
      case Some(p) =>
        if p != z {
          WalkFuelMonotone(m, instr, z, p, i + 1, fuel - 1, more - 1);
        }
    }
  }

  /** With moves only, a count `n` means the walk first stands on `z` after `n + 1` moves. */
  lemma {:induction false} WalkFirstArrival(m: seq<Entry>, instr: string, z: nat, cur: nat, i: nat, fuel: nat)
    requires |instr| > 0 && AllMoves(instr) && ValidMap(m) && cur < |m|
    requires Walk(m, instr, z, cur, i, fuel).Some?
    ensures var n := Walk(m, instr, z, cur, i, fuel).value;
      After(m, instr, cur, i, n + 1) == z && forall k :: 1 <= k <= n ==> After(m, instr, cur, i, k) != z
    decreases fuel
  {
    var c := instr[i % |instr|];
    var p := Next(m, cur, c).value;
    assert After(m, instr, cur, i, 1) == p;
    if p != z {
      var n := Walk(m, instr, z, p, i + 1, fuel - 1).value;
      WalkFirstArrival(m, instr, z, p, i + 1, fuel - 1);
      forall k | 1 <= k <= n + 1 ensures After(m, instr, cur, i, k) == After(m, instr, p, i + 1, k - 1) {
      }
    }
  }

  /** Conversely, a first arrival after `n + 1` moves is found with `n + 1` characters of fuel. */
  lemma {:induction false} WalkFindsArrival(m: seq<Entry>, instr: string, z: nat, cur: nat, i: nat, n: nat)
    requires |instr| > 0 && AllMoves(instr) && ValidMap(m) && cur < |m|
    requires After(m, instr, cur, i, n + 1) == z
    requires forall k :: 1 <= k <= n ==> After(m, instr, cur, i, k) != z
    ensures Walk(m, instr, z, cur, i, n + 1) == Some(n)
    decreases n
  {
    var p := Next(m, cur, instr[i % |instr|]).value;
    assert After(m, instr, cur, i, 1) == p;
    if n > 0 {
      assert p != z;
      var j := i + 1;
      forall k | 1 <= k <= n - 1 ensures After(m, instr, p, j, k) != z {
        assert After(m, instr, cur, i, k + 1) == After(m, instr, p, j, k);
      }
      assert After(m, instr, cur, i, n + 1) == After(m, instr, p, j, n);
      WalkFindsArrival(m, instr, z, p, j, n - 1);
    }
  }

  /** The outcome of a run of the source that may not stop: a value, or no value within the fuel. */
  datatype Answer = Steps(n: nat) | OutOfFuel

  /** `p1`: the number of steps from "AAA" to "ZZZ". */
  function P1(instr: string, m: seq<Entry>, fuel: nat): (r: Result<Answer>)
    ensures r.Ok? <==> NameIndex(m, "AAA").Some? && NameIndex(m, "ZZZ").Some?
    ensures r.Ok? && r.value.Steps? ==> r.value.n >= 1
  {
    var a :- OkOr(NameIndex(m, "AAA"), "node AAA missing");
    var z :- OkOr(NameIndex(m, "ZZZ"), "node ZZZ missing");
    match Walk(m, instr, z, a, 0, fuel)
    case Some(n) => Ok(Steps(n + 1))
    case None => Ok(OutOfFuel)
  }

  /** With moves only, a step count from `p1` is the length of the shortest walk to "ZZZ". */
  lemma P1IsFirstArrival(instr: string, m: seq<Entry>, fuel: nat)
    requires |instr| > 0 && AllMoves(instr) && ValidMap(m)
    requires P1(instr, m, fuel).Ok? && P1(instr, m, fuel).value.Steps?
    ensures var a := NameIndex(m, "AAA").value;
            var z := NameIndex(m, "ZZZ").value;
            var n := P1(instr, m, fuel).value.n;
      After(m, instr, a, 0, n) == z && forall k :: 1 <= k < n ==> After(m, instr, a, 0, k) != z
  {
    var a := NameIndex(m, "AAA").value;
    var z := NameIndex(m, "ZZZ").value;
    var w := Walk(m, instr, z, a, 0, fuel);
    assert P1(instr, m, fuel) == Ok(Steps(w.value + 1));
    WalkFirstArrival(m, instr, z, a, 0, fuel);
  }

  // ---------------------------------------------------------------------------------------------
  // Part two

  /** The position after `n` moves from `cur` at instruction `i`, or None once a move fails. */
  function Reach(m: seq<Entry>, instr: string, cur: nat, i: nat, n: nat): Option<nat>
    requires |instr| > 0
    decreases n
  {
    if n == 0 then Some(cur)
    else
      match Next(m, cur, instr[i % |instr|])
      case None => None
      case Some(p) => Reach(m, instr, p, i + 1, n - 1)
  }

  /** The next item of `goal_steps`. */
  datatype Goal = Found(step: nat, node: nat) | Ended | Exhausted

  /** `goal_steps` continued from position `cur` before instruction `i`: the first index `j >= i` of
      the cycled instructions after whose move the walk stands on a node ending in 'Z'. `Ended` when
      a move fails first (or there are no instructions), `Exhausted` when the fuel runs out. */
  function NextGoal(m: seq<Entry>, instr: string, cur: nat, i: nat, fuel: nat): (r: Goal)
    ensures r.Found? ==> |instr| > 0 && i <= r.step < i + fuel && r.node < |m| && IsEnd(m, r.node)
    ensures fuel == 0 && |instr| > 0 ==> r.Exhausted?
    decreases fuel
  {
    if |instr| == 0 then Ended
    else if fuel == 0 then Exhausted
    else
      match Next(m, cur, instr[i % |instr|])
      case None => Ended
      case Some(p) => if IsEnd(m, p) then Found(i, p) else NextGoal(m, instr, p, i + 1, fuel - 1)
  }

  /** A goal found at index `j` is where the walk first stands on a 'Z' node after `i`. */
  lemma {:induction false} NextGoalIsFirst(m: seq<Entry>, instr: string, cur: nat, i: nat, fuel: nat)
    requires NextGoal(m, instr, cur, i, fuel).Found?
    ensures var g := NextGoal(m, instr, cur, i, fuel);
      && |instr| > 0 && i <= g.step
      && Reach(m, instr, cur, i, g.step + 1 - i) == Some(g.node) && IsEnd(m, g.node)
      && forall k :: 1 <= k <= g.step - i ==>
           Reach(m, instr, cur, i, k).Some? && !IsEnd(m, Reach(m, instr, cur, i, k).value)
    decreases fuel
  {
    var p := Next(m, cur, instr[i % |instr|]).value;
    assert Reach(m, instr, cur, i, 1) == Reach(m, instr, p, i + 1, 0);
    if !IsEnd(m, p) {
      var g := NextGoal(m, instr, p, i + 1, fuel - 1);
      NextGoalIsFirst(m, instr, p, i + 1, fuel - 1);
      forall k | 1 <= k <= g.step + 1 - i ensures Reach(m, instr, cur, i, k) == Reach(m, instr, p, i + 1, k - 1) {
      }
    }
  }

  /** `cycle_len`: with the first two goal indices `c0 < c1`, the length `c0 + 1` when the walk
      reaches its second goal exactly that many moves after its first. Any other outcome panics in
      the source and is an error here. */
  function CycleLen(m: seq<Entry>, instr: string, p: nat, fuel: nat): (r: Result<nat>)
    ensures r.Ok? ==> r.value >= 1
  {
    match NextGoal(m, instr, p, 0, fuel)
    case Found(c0, q0) =>
      (match NextGoal(m, instr, q0, c0 + 1, fuel)
       case Found(c1, _) => if c0 + 1 == c1 - c0 then Ok(c0 + 1) else Err("invalid cycle")
       case Ended => Err("invalid cycle")
       case Exhausted => Err("out of fuel"))
    case Ended => Err("invalid cycle")
    case Exhausted => Err("out of fuel")
  }

  /** A cycle length `a` means the walk from `p` first stands on a 'Z' node after `a` moves, and
      stands on one again after `2a` moves. */
  lemma CycleLenIsPeriod(m: seq<Entry>, instr: string, p: nat, fuel: nat)
    requires CycleLen(m, instr, p, fuel).Ok?
    ensures var a := CycleLen(m, instr, p, fuel).value;
      && |instr| > 0
      && Reach(m, instr, p, 0, a).Some? && IsEnd(m, Reach(m, instr, p, 0, a).value)
      && (forall k :: 1 <= k < a ==> Reach(m, instr, p, 0, k).Some? && !IsEnd(m, Reach(m, instr, p, 0, k).value))
      && Reach(m, instr, p, 0, 2 * a).Some? && IsEnd(m, Reach(m, instr, p, 0, 2 * a).value)
  {
    var g0 := NextGoal(m, instr, p, 0, fuel);
    NextGoalIsFirst(m, instr, p, 0, fuel);
    var g1 := NextGoal(m, instr, g0.node, g0.step + 1, fuel);
    NextGoalIsFirst(m, instr, g0.node, g0.step + 1, fuel);
    var a := g0.step + 1;
    ReachAppend(m, instr, p, 0, a, a);
  }

  /** Walking `a` moves and then `b` more is walking `a + b` moves. */
  lemma {:induction false} ReachAppend(m: seq<Entry>, instr: string, cur: nat, i: nat, a: nat, b: nat)
    requires |instr| > 0 && Reach(m, instr, cur, i, a).Some?
    ensures Reach(m, instr, cur, i, a + b) == Reach(m, instr, Reach(m, instr, cur, i, a).value, i + a, b)
    decreases a
  {
    if a > 0 {
      var p := Next(m, cur, instr[i % |instr|]).value;
      ReachAppend(m, instr, p, i + 1, a - 1, b);
    }
  }

  // Greatest common divisor and least common multiple, for `num::integer::lcm`.

  ghost predicate Divides(d: int, n: int)
  {
    exists k: int :: n == d * k
  }

  lemma DividesLinear(d: int, a: int, b: int, x: int, y: int)
    requires Divides(d, a) && Divides(d, b)
    ensures Divides(d, x * a + y * b)
  {
    var ka :| a == d * ka;
    var kb :| b == d * kb;
    assert x * a + y * b == d * (x * ka + y * kb);
  }

  lemma DividesTransitive(a: int, b: int, c: int)
    requires Divides(a, b) && Divides(b, c)
    ensures Divides(a, c)
  {
    var k :| b == a * k;
    var j :| c == b * j;
    assert c == a * (k * j);
  }

  function Gcd(a: nat, b: nat): (g: nat)
    ensures Divides(g, a) && Divides(g, b)
    ensures a > 0 || b > 0 ==> g > 0
    decreases b
  {
    if b == 0 then
      assert a == a * 1 && 0 == a * 0;
      a
    else
      var g := Gcd(b, a % b);
      assert a == (a / b) * b + 1 * (a % b);
      DividesLinear(g, b, a % b, a / b, 1);
      g
  }

  /** Every common divisor divides the gcd. */
  lemma {:induction false} GcdGreatest(d: int, a: nat, b: nat)
    requires Divides(d, a) && Divides(d, b)
    ensures Divides(d, Gcd(a, b))
    decreases b
  {
    if b > 0 {
      assert a % b == 1 * a + (-(a / b)) * b;
      DividesLinear(d, a, b, 1, -(a / b));
      GcdGreatest(d, b, a % b);
    }
  }

  /** A division that leaves no remainder. */
  lemma ExactDivision(a: nat, g: nat, k: int)
    requires g > 0 && a == g * k
    ensures k >= 0 && a / g == k
  {
    Grid.DivModUnique(0, k, g);
  }

  /** The quotient of `a` by a divisor `g > 0` of it. */
  function ExactQuotient(a: nat, g: nat): (k: nat)
    requires g > 0 && Divides(g, a)
    ensures a == g * k
  {
    var k :| a == g * k;
    ExactDivision(a, g, k);
    a / g
  }

  /** `lcm`, which is 0 when either argument is. */
  function Lcm(a: nat, b: nat): (r: nat)
    ensures Divides(a, r) && Divides(b, r)
    ensures r * Gcd(a, b) == a * b
    ensures a > 0 && b > 0 ==> r > 0
  {
    if a == 0 || b == 0 then
      assert 0 == a * 0 && 0 == b * 0;
      0
    else
      var g := Gcd(a, b);
      var ka := ExactQuotient(a, g);
      var kb := ExactQuotient(b, g);
      LcmOfQuotients(a, b, g, ka, kb);
      ka * b
  }

  /** Bezout's identity: the gcd is an integer combination of the two numbers. */
  lemma {:induction false} Bezout(a: nat, b: nat) returns (u: int, v: int)
    ensures Gcd(a, b) == u * a + v * b
    decreases b
  {
    if b == 0 {
      u, v := 1, 0;
    } else {
      var u', v' := Bezout(b, a % b);
      u, v := v', u' - v' * (a / b);
      BezoutStep(a, b, a / b, a % b, u', v');
    }
  }

  lemma BezoutStep(a: int, b: int, q: int, m: int, u: int, v: int)
    requires a == q * b + m
    ensures v * a + (u - v * q) * b == u * b + v * m
  {
  }

  lemma CombineMultiples(x: int, g: int, a: int, b: int, u: int, v: int, s: int, t: int)
    requires g == u * a + v * b && x == a * s && x == b * t
    ensures x * g == (a * b) * (u * t + v * s)
  {
    assert x * g == u * (a * x) + v * (b * x);
  }

  lemma CancelFactor(x: int, l: int, g: int, k: int)
    requires g > 0 && x * g == (l * g) * k
    ensures x == l * k
  {
    assert (x - l * k) * g == 0;
  }

  /** The lcm divides every common multiple. */
  lemma LcmLeast(a: nat, b: nat, x: int)
    requires Divides(a, x) && Divides(b, x)
    ensures Divides(Lcm(a, b), x)
  {
    if a == 0 || b == 0 {
      var k :| x == (if a == 0 then a else b) * k;
      assert x == 0 == Lcm(a, b) * 0;
    } else {
      var g, l := Gcd(a, b), Lcm(a, b);
      var u, v := Bezout(a, b);
      var s :| x == a * s;
      var t :| x == b * t;
      CombineMultiples(x, g, a, b, u, v, s, t);
      assert l * g == a * b;
      CancelFactor(x, l, g, u * t + v * s);
    }
  }

  /** With `a = g·ka` and `b = g·kb`, `ka·b` is a common multiple whose product with `g` is `a·b`. */
  lemma LcmOfQuotients(a: nat, b: nat, g: nat, ka: nat, kb: nat)
    requires a > 0 && b > 0 && a == g * ka && b == g * kb
    ensures Divides(a, ka * b) && Divides(b, ka * b)
    ensures (ka * b) * g == a * b && ka * b > 0
  {
    assert ka * b == ka * (g * kb) == (ka * g) * kb == a * kb;
    assert ka * b * g == a * (kb * g) == a * b;
    assert ka * b == b * ka;
    assert ka > 0;
  }

  /** The positions of the nodes ending in 'A'. */
  function Starts(m: seq<Entry>): (r: seq<nat>)
    ensures forall p: nat :: p in r <==> p < |m| && IsStart(m, p)
    ensures forall i, j :: 0 <= i < j < |r| ==> r[i] < r[j]
  {
    StartsFrom(m, 0)
  }

  function StartsFrom(m: seq<Entry>, p: nat): (r: seq<nat>)
    ensures forall q: nat :: q in r <==> p <= q < |m| && IsStart(m, q)
    ensures forall i :: 0 <= i < |r| ==> p <= r[i]
    ensures forall i, j :: 0 <= i < j < |r| ==> r[i] < r[j]
    decreases |m| - p
  {
    if p >= |m| then []
    else
      var rest := StartsFrom(m, p + 1);
      if IsStart(m, p) then
        var r := [p] + rest;
        assert forall i :: 1 <= i < |r| ==> r[i] == rest[i - 1];
        r
      else rest
  }

  /** `x` is a multiple of the cycle length of every start in `ps` that has one. */
  ghost predicate MultipleOfAll(m: seq<Entry>, instr: string, ps: seq<nat>, fuel: nat, x: int)
  {
    forall k :: 0 <= k < |ps| && CycleLen(m, instr, ps[k], fuel).Ok? ==> Divides(CycleLen(m, instr, ps[k], fuel).value, x)
  }

  /** The fold of `p2` over the start positions `ps`, from the accumulator `acc`. */
  function FoldLcm(m: seq<Entry>, instr: string, ps: seq<nat>, acc: nat, fuel: nat): (r: Result<nat>)
    ensures r.Ok? <==> forall k :: 0 <= k < |ps| ==> CycleLen(m, instr, ps[k], fuel).Ok?
    ensures r.Ok? ==> Divides(acc, r.value)
    ensures r.Ok? ==> forall k :: 0 <= k < |ps| ==> Divides(CycleLen(m, instr, ps[k], fuel).value, r.value)
    ensures r.Ok? && acc > 0 ==> r.value > 0
    ensures r.Ok? ==> forall x: int :: Divides(acc, x) && MultipleOfAll(m, instr, ps, fuel, x) ==> Divides(r.value, x)
  {
    if |ps| == 0 then
      assert acc == acc * 1;
      Ok(acc)
    else
      match CycleLen(m, instr, ps[0], fuel)
      case Err(e) => Err(e)
      case Ok(c) =>
        var next := Lcm(acc, c);
        var r := FoldLcm(m, instr, ps[1..], next, fuel);
        if r.Err? then
          var k :| 0 <= k < |ps| - 1 && CycleLen(m, instr, ps[1..][k], fuel).Err?;
          assert CycleLen(m, instr, ps[k + 1], fuel).Err?;
          r
        else
          DividesTransitive(acc, next, r.value);
          DividesTransitive(c, next, r.value);
          assert forall k :: 1 <= k < |ps| ==> ps[k] == ps[1..][k - 1];
          forall x: int | Divides(acc, x) && MultipleOfAll(m, instr, ps, fuel, x)
            ensures Divides(r.value, x)
          {
            assert Divides(c, x);
            assert MultipleOfAll(m, instr, ps[1..], fuel, x);
            LcmLeast(acc, c, x);
          }
          r
  }

  /** `p2`: the lcm of the cycle lengths of the walks from every node ending in 'A'. Every one of
      those cycle lengths divides the result, which is positive. */
  function P2(instr: string, m: seq<Entry>, fuel: nat): (r: Result<nat>)
    ensures r.Ok? <==> forall p: nat :: p < |m| && IsStart(m, p) ==> CycleLen(m, instr, p, fuel).Ok?
    ensures r.Ok? ==> r.value > 0
    ensures r.Ok? ==> forall p: nat :: p < |m| && IsStart(m, p) ==> Divides(CycleLen(m, instr, p, fuel).value, r.value)
    ensures r.Ok? ==> forall x: int :: CommonMultiple(m, instr, fuel, x) ==> Divides(r.value, x)
  {
    var ps := Starts(m);
    var r := FoldLcm(m, instr, ps, 1, fuel);
    assert r.Ok? <==> forall p: nat :: p < |m| && IsStart(m, p) ==> CycleLen(m, instr, p, fuel).Ok? by {
      if r.Err? {
        var k :| 0 <= k < |ps| && CycleLen(m, instr, ps[k], fuel).Err?;
        assert ps[k] in ps;
      } else {
        forall p: nat | p < |m| && IsStart(m, p) ensures CycleLen(m, instr, p, fuel).Ok? {
          assert p in ps;
          var k :| 0 <= k < |ps| && ps[k] == p;
        }
      }
    }
    if r.Ok? then
      forall p: nat | p < |m| && IsStart(m, p) ensures Divides(CycleLen(m, instr, p, fuel).value, r.value) {
        assert p in ps;
        var k :| 0 <= k < |ps| && ps[k] == p;
      }
      forall x: int | CommonMultiple(m, instr, fuel, x) ensures Divides(r.value, x) {
        assert x == 1 * x;
        forall k | 0 <= k < |ps| && CycleLen(m, instr, ps[k], fuel).Ok?
          ensures Divides(CycleLen(m, instr, ps[k], fuel).value, x)
        {
          assert ps[k] in ps;
        }
        assert MultipleOfAll(m, instr, ps, fuel, x);
      }
      r
    else r
  }

  /** `x` is a multiple of the cycle length of every start. */
  ghost predicate CommonMultiple(m: seq<Entry>, instr: string, fuel: nat, x: int)
  {
    forall p: nat :: p < |m| && IsStart(m, p) && CycleLen(m, instr, p, fuel).Ok? ==>
      Divides(CycleLen(m, instr, p, fuel).value, x)
  }

  /** The answer of part two is the least positive common multiple of the cycle lengths. */
  lemma P2Least(instr: string, m: seq<Entry>, fuel: nat, x: int)
    requires P2(instr, m, fuel).Ok? && x > 0 && CommonMultiple(m, instr, fuel, x)
    ensures CommonMultiple(m, instr, fuel, P2(instr, m, fuel).value)
    ensures 0 < P2(instr, m, fuel).value <= x
  {
    var r := P2(instr, m, fuel).value;
    assert Divides(r, x);
    var k: int :| x == r * k;
    MultipleAtLeast(r, x, k);
  }

  lemma MultipleAtLeast(r: int, x: int, k: int)
    requires r > 0 && x > 0 && x == r * k
    ensures r <= x
  {
    assert k >= 1;
  }

  // ---------------------------------------------------------------------------------------------
  // Input

  /** The lines after the first two are node lines, read as `nodes`. */
  predicate NodeLines(ls: seq<string>, nodes: seq<Node>)
  {
    |ls| >= 2 && |nodes| == |ls| - 2 && forall i :: 0 <= i < |nodes| ==> ParseNode(ls[i + 2]) == Some(nodes[i])
  }

  function NodeOf(l: string): Result<Node>
  {
    OkOr(ParseNode(l), "invalid node")
  }

  /** `parse_input`: the instruction line, one ignored line, then the node lines. */
  function ParseInput(input: string): (r: Result<(string, seq<Entry>)>)
    ensures r.Ok? ==> |Lines(input)| >= 2 && r.value.0 == Lines(input)[0]
    ensures r.Ok? ==> ValidMap(r.value.1) && SortedBy(EntryNames(r.value.1), StrLe)
    ensures r.Ok? ==> exists nodes :: NodeLines(Lines(input), nodes) && Closed(nodes) &&
                                      multiset(Decode(r.value.1)) == multiset(nodes)
    ensures (exists nodes :: NodeLines(Lines(input), nodes) && Closed(nodes)) ==> r.Ok?
    ensures |Lines(input)| < 2 ==> r.Err?
  {
    var ls := Lines(input);
    if |ls| == 0 then Err("instruction missing")
    else if |ls| == 1 then Err("map missing")
    else
      var pr := MapResult(ls[2..], NodeOf);
      NodeLinesResult(ls, pr);
      var nodes :- pr;
      var m :- BuildMap(nodes);
      Ok((ls[0], m))
  }

  lemma NodeLinesResult(ls: seq<string>, pr: Result<seq<Node>>)
    requires |ls| >= 2 && pr == MapResult(ls[2..], NodeOf)
    ensures pr.Ok? ==> NodeLines(ls, pr.value)
    ensures forall nodes :: NodeLines(ls, nodes) ==> pr == Ok(nodes)
  {
    forall nodes | NodeLines(ls, nodes) ensures pr == Ok(nodes) {
      var rest := ls[2..];
      forall i | 0 <= i < |rest| ensures NodeOf(rest[i]) == Ok(nodes[i]) {
        assert rest[i] == ls[i + 2];
      }
      assert pr.value == nodes;
    }
  }

  /** The first sample network, resolved: AAA, BBB, CCC, DDD, EEE, GGG, ZZZ. */
  const Sample1: seq<Entry> := [Entry("AAA", 1, 2), Entry("BBB", 3, 4), Entry("CCC", 6, 5), Entry("DDD", 3, 3),
                                Entry("EEE", 4, 4), Entry("GGG", 5, 5), Entry("ZZZ", 6, 6)]

  const Sample1Names: seq<string> := ["AAA", "BBB", "CCC", "DDD", "EEE", "GGG", "ZZZ"]

  lemma Sample1First()
    ensures Search(Sample1Names, "AAA") == Some(0)
  {
    assert PartitionPoint(Sample1Names, (n: string) => StrLt(n, "AAA")) == 0;
  }

  lemma Sample1Last()
    ensures Search(Sample1Names, "ZZZ") == Some(6)
  {
    var names := Sample1Names;
    forall k | 0 <= k < 6 ensures StrLt(names[k], "ZZZ") {
      assert names[k][0] < 'Z';
    }
    assert !StrLt("ZZZ", "ZZZ") by { StrLeTotalAt("ZZZ", "ZZZ"); }
    var r := PartitionPoint(names, (n: string) => StrLt(n, "ZZZ"));
    assert r == 6;
  }

  lemma Sample1Ends()
    ensures NameIndex(Sample1, "AAA") == Some(0) && NameIndex(Sample1, "ZZZ") == Some(6)
  {
    assert EntryNames(Sample1) == Sample1Names;
    Sample1First();
    Sample1Last();
  }

  /** "RL" leads from AAA to ZZZ in 2 steps. */
  lemma ExampleP1()
    ensures P1("RL", Sample1, 10) == Ok(Steps(2))
  {
    Sample1Ends();
    Sample1Walk();
  }

  lemma Sample1Walk()
    ensures Walk(Sample1, "RL", 6, 0, 0, 10) == Some(1)
  {
    assert Next(Sample1, 2, 'L') == Some(6);
    assert Walk(Sample1, "RL", 6, 2, 1, 9) == Some(0);
    assert Next(Sample1, 0, 'R') == Some(2);
  }

  /** The second sample network, resolved: AAA, BBB, ZZZ. */
  const Sample2: seq<Entry> := [Entry("AAA", 1, 1), Entry("BBB", 0, 2), Entry("ZZZ", 2, 2)]

  lemma Sample2Names()
    ensures NameIndex(Sample2, "AAA") == Some(0) && NameIndex(Sample2, "ZZZ") == Some(2)
  {
    var names := EntryNames(Sample2);
    assert names == ["AAA", "BBB", "ZZZ"];
    assert StrLe("AAA", "AAA") by {
      assert StrLe("AAA"[1..], "AAA"[1..]) by { assert StrLe("AAA"[2..], "AAA"[2..]); }
    }
    assert PartitionPoint(names, (n: string) => StrLt(n, "AAA")) == 0;
    assert StrLe("ZZZ", "ZZZ") by {
      assert StrLe("ZZZ"[1..], "ZZZ"[1..]) by { assert StrLe("ZZZ"[2..], "ZZZ"[2..]); }
    }
    assert !StrLe("ZZZ", "AAA") && !StrLe("ZZZ", "BBB");
    var lt := (n: string) => StrLt(n, "ZZZ");
    assert lt(names[0]) && lt(names[1]) && !lt(names[2]);
    var k := PartitionPoint(names, lt);
    assert k != 0 && k != 1 && k != 3;
  }

  /** "LLR" cycles twice through the instructions: 6 steps. */
  lemma ExampleP1Cycled()
    ensures P1("LLR", Sample2, 10) == Ok(Steps(6))
  {
    Sample2Names();
    Sample2Walk();
  }

  lemma Sample2Walk()
    ensures Walk(Sample2, "LLR", 2, 0, 0, 10) == Some(5)
  {
    Sample2WalkEnd();
    var m := Sample2;
    assert Walk(m, "LLR", 2, 1, 3, 7) == Some(2);
    assert Walk(m, "LLR", 2, 0, 2, 8) == Some(3);
    assert Walk(m, "LLR", 2, 1, 1, 9) == Some(4);
  }

  lemma Sample2WalkEnd()
    ensures Walk(Sample2, "LLR", 2, 0, 4, 6) == Some(1)
  {
    var m := Sample2;
    assert Walk(m, "LLR", 2, 1, 5, 5) == Some(0);
  }

  /** The part-two sample network, resolved: 11A, 11B, 11Z, 22A, 22B, 22C, 22Z, XXX. */
  const Sample3: seq<Entry> := [Entry("11A", 1, 7), Entry("11B", 7, 2), Entry("11Z", 1, 7), Entry("22A", 4, 7),
                                Entry("22B", 5, 5), Entry("22C", 6, 6), Entry("22Z", 4, 4), Entry("XXX", 7, 7)]

  /** The walk from 11A has cycle length 2, the walk from 22A cycle length 3. */
  lemma Sample3Cycles()
    ensures CycleLen(Sample3, "LR", 0, 10) == Ok(2)
    ensures CycleLen(Sample3, "LR", 3, 10) == Ok(3)
  {
    var m := Sample3;
    assert NextGoal(m, "LR", 0, 0, 10) == Found(1, 2);
    assert NextGoal(m, "LR", 2, 2, 10) == Found(3, 2);
    assert NextGoal(m, "LR", 3, 0, 10) == Found(2, 6);
    assert NextGoal(m, "LR", 6, 3, 10) == Found(5, 6);
  }

  /** The start nodes of the part-two sample are 11A and 22A. */
  lemma Sample3Starts()
    ensures Starts(Sample3) == [0, 3]
  {
    var m := Sample3;
    assert StartsFrom(m, 4) == [];
    assert StartsFrom(m, 3) == [3];
    assert StartsFrom(m, 1) == [3];
  }

  lemma SampleLcms()
    ensures Lcm(1, 2) == 2 && Lcm(2, 3) == 6
  {
    assert Gcd(1, 2) == 1 && Gcd(2, 3) == 1;
  }

  /** Part two of the sample: lcm(2, 3) = 6. */
  lemma ExampleP2()
    ensures P2("LR", Sample3, 10) == Ok(6)
  {
    Sample3Cycles();
    Sample3Starts();
    SampleLcms();
    assert FoldLcm(Sample3, "LR", [3], 2, 10) == Ok(6);
  }
}

=== FILE: day09.dfy ===
/** Day 9 (Mirage Maintenance): each history is extended by one value, found by taking rows of
    differences until a row is all zero and adding up the last values of the rows. */
module Day09 {
  import opened Common
  import opened Strings

  /** The differences of neighbouring values. */
  function Diffs(v: seq<int>): (r: seq<int>)
    ensures |r| == if |v| == 0 then 0 else |v| - 1
    ensures forall i :: 0 <= i < |r| ==> r[i] == v[i + 1] - v[i]
  {
    if |v| == 0 then [] else seq(|v| - 1, i requires 0 <= i < |v| - 1 => v[i + 1] - v[i])
  }

  predicate AllZero(s: seq<int>)
  {
    forall i :: 0 <= i < |s| ==> s[i] == 0
  }

  function Last(v: seq<int>): int
    requires |v| > 0
  {
    v[|v| - 1]
  }

  /** `extrapolate`: the last value plus the extrapolation of the differences, stopping at a row of
      differences that is all zero (which an empty row is). The source panics on an empty history. */
  function Extrapolate(v: seq<int>): (r: int)
    requires |v| > 0
    ensures |v| == 1 ==> r == v[0]
    ensures AllZero(v) ==> r == 0
    decreases |v|
  {
    var d := Diffs(v);
    if AllZero(d) then Last(v) else Last(v) + Extrapolate(d)
  }

  /** The next term of `v` by repeated differences, without stopping early. */
  function NextTerm(v: seq<int>): int
    requires |v| > 0
    decreases |v|
  {
    if |v| == 1 then v[0] else Last(v) + NextTerm(Diffs(v))
  }

  /** An all-zero history continues with zero. */
  lemma {:induction false} NextTermOfZeros(v: seq<int>)
    requires |v| > 0 && AllZero(v)
    ensures NextTerm(v) == 0
    decreases |v|
  {
    if |v| > 1 {
      NextTermOfZeros(Diffs(v));
    }
  }

  /** Stopping at an all-zero row does not change the result: the extrapolation is the next term. */
  lemma {:induction false} ExtrapolateIsNextTerm(v: seq<int>)
    requires |v| > 0
    ensures Extrapolate(v) == NextTerm(v)
    decreases |v|
  {
    var d := Diffs(v);
    if |v| > 1 {
      if AllZero(d) {
        NextTermOfZeros(d);
      } else {
        ExtrapolateIsNextTerm(d);
      }
    }
  }

  /** A history of one value continues with that value. */
  lemma ExtrapolateSingle(x: int)
    ensures Extrapolate([x]) == x
  {
  }

  /** A constant history continues with the constant. */
  lemma ExtrapolateConstant(v: seq<int>, c: int)
    requires |v| > 0 && forall i :: 0 <= i < |v| ==> v[i] == c
    ensures Extrapolate(v) == c
  {
  }

  /** An arithmetic progression of at least two terms continues with its next term. */
  lemma ExtrapolateArithmetic(v: seq<int>, a: int, b: int)
    requires |v| >= 2 && forall i :: 0 <= i < |v| ==> v[i] == a + b * i
    ensures Extrapolate(v) == a + b * |v|
  {
    var d := Diffs(v);
    DiffsArithmetic(v, a, b);
    var n := |v| - 1;
    assert v[n] == a + b * n;
    MulSucc(b, n);
    if AllZero(d) {
      assert d[0] == 0 == b;
    } else {
      ExtrapolateConstant(d, b);
    }
  }

  lemma MulSucc(b: int, i: int)
    ensures b * (i + 1) == b * i + b
  {
  }

  /** The differences of an arithmetic progression are its common difference. */
  lemma DiffsArithmetic(v: seq<int>, a: int, b: int)
    requires forall i :: 0 <= i < |v| ==> v[i] == a + b * i
    ensures forall i :: 0 <= i < |Diffs(v)| ==> Diffs(v)[i] == b
  {
    forall i | 0 <= i < |Diffs(v)| ensures Diffs(v)[i] == b {
      var j := i + 1;
      assert v[j] == a + b * j;
      MulSucc(b, i);
    }
  }

  /** Adding the sequences term by term adds their next terms. */
  lemma {:induction false} NextTermLinear(v: seq<int>, w: seq<int>, s: seq<int>)
    requires |v| > 0 && |v| == |w| == |s|
    requires forall i :: 0 <= i < |s| ==> s[i] == v[i] + w[i]
    ensures NextTerm(s) == NextTerm(v) + NextTerm(w)
    decreases |v|
  {
    if |v| > 1 {
      NextTermLinear(Diffs(v), Diffs(w), Diffs(s));
    }
  }

  /** The sum of the last values of the rows; an empty row counts 0. */
  function SumLasts(w: seq<seq<int>>): int
  {
    if |w| == 0 then 0 else SumLasts(w[..|w| - 1]) + (if |w[|w| - 1]| > 0 then Last(w[|w| - 1]) else 0)
  }

  /** The loop of `extrapolate`: rows of differences are pushed onto `w` until the next row is all
      zero, and the last values of the rows are summed. */
  method ExtrapolateRows(nums: seq<int>) returns (r: int)
    requires |nums| > 0
    ensures r == NextTerm(nums)
  {
    var w := [nums];
    while true
      invariant |w| > 0 && |w[|w| - 1]| > 0
      invariant SumLasts(w[..|w| - 1]) + Extrapolate(w[|w| - 1]) == Extrapolate(nums)
      decreases |w[|w| - 1]|
    {
      var row := w[|w| - 1];
      var next := Diffs(row);
      if AllZero(next) {
        break;
      }
      assert (w + [next])[..|w|] == w;
      w := w + [next];
    }
    r := SumLasts(w);
    ExtrapolateIsNextTerm(nums);
  }

  /** The numbers of one line, as `i64`. */
  function ParseHistory(line: string): (r: Result<seq<int>>)
    ensures r.Ok? ==> forall i :: 0 <= i < |SplitWhitespace(line)| ==> ParseI64(SplitWhitespace(line)[i]).Some?
    ensures (forall i :: 0 <= i < |SplitWhitespace(line)| ==> ParseI64(SplitWhitespace(line)[i]).Some?) ==> r.Ok?
    ensures r.Ok? ==> |r.value| == |SplitWhitespace(line)|
  {
    OkOr(MapOption(SplitWhitespace(line), ParseI64), "invalid number")
  }

  /** Every line of the input holds at least one number; `extrapolate` panics on an empty line. */
  predicate NoEmptyLine(input: string)
  {
    forall i :: 0 <= i < |Lines(input)| ==> |SplitWhitespace(Lines(input)[i])| > 0
  }

  /** The sum of the extrapolations of the histories. */
  function SumExtrapolations(hs: seq<seq<int>>): int
    requires forall i :: 0 <= i < |hs| ==> |hs[i]| > 0
  {
    if |hs| == 0 then 0 else Extrapolate(hs[0]) + SumExtrapolations(hs[1..])
  }

  /** `p1`: the sum over the lines, or the first parse error. */
  function P1(input: string): (r: Result<int>)
    requires NoEmptyLine(input)
    ensures r.Ok? <==> forall i :: 0 <= i < |Lines(input)| ==> ParseHistory(Lines(input)[i]).Ok?
    ensures r.Ok? ==> exists hs: seq<seq<int>> ::
      && |hs| == |Lines(input)|
      && (forall i :: 0 <= i < |hs| ==> Ok(hs[i]) == ParseHistory(Lines(input)[i]) && |hs[i]| > 0)
      && r.value == SumExtrapolations(hs)
  {
    var hs :- MapResult(Lines(input), ParseHistory);
    Ok(SumExtrapolations(hs))
  }

  /** The sample's first history 0 3 6 9 12 15 continues with 18. */
  lemma ExampleFirst()
    ensures Extrapolate([0, 3, 6, 9, 12, 15]) == 18
  {
    ExtrapolateArithmetic([0, 3, 6, 9, 12, 15], 0, 3);
  }

  /** The differences 3 3 5 9 15 of the sample's third history continue with 23. */
  lemma ExampleThirdDiffs()
    ensures Extrapolate([3, 3, 5, 9, 15]) == 23
  {
    var v1: seq<int> := [3, 3, 5, 9, 15];
    var v2: seq<int> := [0, 2, 4, 6];
    ExtrapolateArithmetic(v2, 0, 2);
    assert Diffs(v1) == v2 by {
      DiffsStep(v1, v2);
    }
    assert v2[1] != 0;
    assert Extrapolate(v1) == Last(v1) + Extrapolate(v2);
  }

  /** The sample's third history 10 13 16 21 30 45 continues with 68. */
  lemma ExampleThird()
    ensures Extrapolate([10, 13, 16, 21, 30, 45]) == 68
  {
    var v0: seq<int> := [10, 13, 16, 21, 30, 45];
    var v1: seq<int> := [3, 3, 5, 9, 15];
    assert Diffs(v0) == v1 by {
      DiffsStep(v0, v1);
    }
    ExampleThirdDiffs();
    assert v1[0] != 0;
    assert Extrapolate(v0) == Last(v0) + Extrapolate(v1);
  }

  /** `d` is the row of differences of `v`. */
  lemma DiffsStep(v: seq<int>, d: seq<int>)
    requires |v| == |d| + 1 && forall i :: 0 <= i < |d| ==> d[i] == v[i + 1] - v[i]
    ensures Diffs(v) == d
  {
  }
}

=== FILE: day10.dfy ===
/** Day 10 (Pipe Maze): the loop of pipes through the start tile 'S' is followed cell by cell; part
    one is half its length and part two counts the tiles it encloses with a row-major parity scan.
    The map is the shared character grid: its parsing and coordinate arithmetic are those of
    `Grid`, and its directions are `Grid.Dir`. */
module Day10 {
  import opened Common
  import opened Strings
  import opened G = Grid

  type Map = Grid<char>

  /** `Map::parse`: lines of one width, stored row-major. */
  function ParseMap(input: string): (r: Result<Map>)
    requires exists i :: 0 <= i < |Lines(input)| && |Lines(input)[i]| > 0
    ensures r.Ok? <==> Uniform(Lines(input))
    ensures r.Ok? ==> r.value.Valid() && r.value.dx > 0 && r.value.m == Concat(Lines(input))
  {
    var r := Parse(input);
    if r.Ok? then
      var k :| 0 <= k < |Lines(input)| && |Lines(input)[k]| > 0;
      assert Lines(input)[k] <= Concat(Lines(input)[k..]) by {
        assert Concat(Lines(input)[k..]) == Lines(input)[k] + Concat(Lines(input)[k + 1..]);
      }
      ConcatSuffixLength(Lines(input), k);
      r
    else r
  }

  lemma {:induction false} ConcatSuffixLength(ss: seq<string>, k: nat)
    requires k <= |ss|
    ensures |Concat(ss[k..])| <= |Concat(ss)|
  {
    if k > 0 {
      assert ss[k..] == ss[1..][k - 1..];
      ConcatSuffixLength(ss[1..], k - 1);
    }
  }

  /** The tiles whose pipe leaves the tile toward each direction; 'S' fits every direction. */
  predicate PipeNorth(c: char) { c in "JL|S" }
  predicate PipeSouth(c: char) { c in "7F|S" }
  predicate PipeWest(c: char) { c in "J7-S" }
  predicate PipeEast(c: char) { c in "LF-S" }

  predicate Opens(c: char, d: Dir)
  {
    match d
    case North => PipeNorth(c)
    case South => PipeSouth(c)
    case West => PipeWest(c)
    case East => PipeEast(c)
  }

  /** Every ordinary pipe tile opens toward exactly two directions, and 'S' toward all four. */
  lemma PipeShapes(c: char)
    ensures c == 'S' ==> forall d: Dir :: Opens(c, d)
    ensures c in "|-LJ7F" ==> |set d: Dir | Opens(c, d)| == 2
    ensures c !in "|-LJ7FS" ==> forall d: Dir :: !Opens(c, d)
  {
    if c in "|-LJ7F" {
      var s := set d: Dir | Opens(c, d);
      if c == '|' { assert s == {North, South}; }
      else if c == '-' { assert s == {West, East}; }
      else if c == 'L' { assert s == {North, East}; }
      else if c == 'J' { assert s == {North, West}; }
      else if c == '7' { assert s == {South, West}; }
      else { assert s == {South, East}; }
    }
  }

  /** The neighbouring cell in direction `d`. */
  function Neighbour(p: CellP, d: Dir): CellP
  {
    var o := d.Step(1);
    (p.0 + o.0, p.1 + o.1)
  }

  lemma NeighbourBack(p: CellP, d: Dir)
    ensures Neighbour(Neighbour(p, d), d.Opposite()) == p
  {
  }

  lemma NeighbourInjective(p: CellP, d: Dir, e: Dir)
    requires Neighbour(p, d) == Neighbour(p, e)
    ensures d == e
  {
  }

  /** The tile at `p` exists and opens toward `d`. */
  predicate OpensAt(m: Map, p: CellP, d: Dir)
    requires m.Valid()
  {
    m.Get(p).Some? && Opens(m.Get(p).value, d)
  }

  /** `Map::step`: the neighbour in direction `d`, when both tiles are on the map and their pipes meet. */
  function Step(m: Map, p: CellP, d: Dir): (r: Option<CellP>)
    requires m.Valid()
    ensures r.Some? <==> OpensAt(m, p, d) && OpensAt(m, Neighbour(p, d), d.Opposite())
    ensures r.Some? ==> r.value == Neighbour(p, d) && m.IsInside(p) && m.IsInside(r.value)
  {
    match d
    case North => Check(m, p, North, (p.0, p.1 - 1), South)
    case South => Check(m, p, South, (p.0, p.1 + 1), North)
    case West => Check(m, p, West, (p.0 - 1, p.1), East)
    case East => Check(m, p, East, (p.0 + 1, p.1), West)
  }

  /** The `check` closure of `Map::step`: `q` when `p` opens toward `dp` and `q` toward `dq`. */
  function Check(m: Map, p: CellP, dp: Dir, q: CellP, dq: Dir): Option<CellP>
    requires m.Valid()
  {
    if OpensAt(m, p, dp) && OpensAt(m, q, dq) then Some(q) else None
  }

  /** A connection can be walked both ways. */
  lemma StepSymmetric(m: Map, p: CellP, d: Dir)
    requires m.Valid() && Step(m, p, d).Some?
    ensures Step(m, Step(m, p, d).value, d.Opposite()) == Some(p)
  {
    NeighbourBack(p, d);
    assert d.Opposite().Opposite() == d;
  }

  /** `q` is reached from `p` by one step in some direction. */
  predicate Adjacent(m: Map, p: CellP, q: CellP)
    requires m.Valid()
  {
    Step(m, p, North) == Some(q) || Step(m, p, South) == Some(q)
      || Step(m, p, West) == Some(q) || Step(m, p, East) == Some(q)
  }

  lemma AdjacentSymmetric(m: Map, p: CellP, q: CellP)
    requires m.Valid() && Adjacent(m, p, q)
    ensures Adjacent(m, q, p)
  {
    var d :| d in Dirs && Step(m, p, d) == Some(q);
    StepSymmetric(m, p, d);
    assert d.Opposite() in Dirs;
  }

  /** The first direction of `ds`, other than `back`, in which a step is possible, with its target. */
  function NextStep(m: Map, cur: CellP, back: Option<Dir>, ds: seq<Dir>): (r: Option<(CellP, Dir)>)
    requires m.Valid()
    ensures r.None? <==> forall i :: 0 <= i < |ds| ==> Some(ds[i]) == back || Step(m, cur, ds[i]).None?
    ensures r.Some? ==> Some(r.value.1) != back && Step(m, cur, r.value.1) == Some(r.value.0)
    ensures r.Some? ==> r.value.1 in ds
  {
    if |ds| == 0 then None
    else if Some(ds[0]) != back && Step(m, cur, ds[0]).Some? then Some((Step(m, cur, ds[0]).value, ds[0]))
    else
      assert forall i :: 1 <= i < |ds| ==> ds[i] == ds[1..][i - 1];
      NextStep(m, cur, back, ds[1..])
  }

  /** The direction `NextStep` picks comes before every other usable one. */
  lemma {:induction false} NextStepIsFirst(m: Map, cur: CellP, back: Option<Dir>, ds: seq<Dir>)
    requires m.Valid() && NextStep(m, cur, back, ds).Some?
    ensures var d := NextStep(m, cur, back, ds).value.1;
      exists k :: 0 <= k < |ds| && ds[k] == d
        && forall i :: 0 <= i < k ==> Some(ds[i]) == back || Step(m, cur, ds[i]).None?
  {
    var d := NextStep(m, cur, back, ds).value.1;
    if Some(ds[0]) != back && Step(m, cur, ds[0]).Some? {
      assert ds[0] == d;
    } else {
      NextStepIsFirst(m, cur, back, ds[1..]);
      var k :| 0 <= k < |ds[1..]| && ds[1..][k] == d
        && forall i :: 0 <= i < k ==> Some(ds[1..][i]) == back || Step(m, cur, ds[1..][i]).None?;
      assert ds[k + 1] == d;
      forall i | 0 < i < k + 1 ensures Some(ds[i]) == back || Step(m, cur, ds[i]).None? {
        assert ds[i] == ds[1..][i - 1];
      }
    }
  }

  /** A path of the walk: it starts inside the map, each cell steps to the next, it never steps
      straight back to the cell before, and it does not come back to its first cell. */
  predicate Chain(m: Map, v: seq<CellP>)
    requires m.Valid()
  {
    && |v| > 0
    && m.IsInside(v[0])
    && (forall i, j :: 0 <= i < |v| && j == i + 1 && j < |v| ==> Adjacent(m, v[i], v[j]))
    && (forall i, k :: 0 <= i < |v| && k == i + 2 && k < |v| ==> v[i] != v[k])
    && (forall i :: 1 <= i < |v| ==> v[i] != v[0])
  }

  /** A closed loop: a chain whose last cell steps to its first without stepping straight back. */
  predicate ClosedLoop(m: Map, l: seq<CellP>)
    requires m.Valid()
  {
    Chain(m, l) && Adjacent(m, l[|l| - 1], l[0]) && (|l| >= 2 ==> l[|l| - 2] != l[0])
  }

  /** Every cell of a chain is on the map. */
  lemma ChainInside(m: Map, v: seq<CellP>)
    requires m.Valid() && Chain(m, v)
    ensures forall i :: 0 <= i < |v| ==> m.IsInside(v[i])
  {
    forall i | 0 < i < |v| ensures m.IsInside(v[i]) {
      var h := i - 1;
      assert Adjacent(m, v[h], v[h + 1]);
    }
  }

  datatype Search = Loop(cells: seq<CellP>) | NoLoop | OutOfFuel

  /** The walk's state: the path so far, and the direction from its last cell back to the cell
      before it (none at the start). */
  predicate WalkState(m: Map, v: seq<CellP>, back: Option<Dir>)
    requires m.Valid()
  {
    Chain(m, v) && (back.None? <==> |v| == 1)
      && (back.Some? ==> Step(m, v[|v| - 1], back.value) == Some(v[|v| - 2]))
  }

  /** The cell the walk moves to never is the cell it came from. */
  lemma NotBack(m: Map, v: seq<CellP>, back: Option<Dir>, q: CellP, d: Dir)
    requires m.Valid() && WalkState(m, v, back)
    requires NextStep(m, v[|v| - 1], back, Dirs) == Some((q, d))
    ensures Adjacent(m, v[|v| - 1], q)
    ensures |v| >= 2 ==> q != v[|v| - 2]
  {
    assert d in Dirs;
    if |v| >= 2 && q == v[|v| - 2] {
      NeighbourInjective(v[|v| - 1], d, back.value);
    }
  }

  /** A chain extended by an adjacent cell that neither steps straight back nor returns to the
      first cell is a chain. */
  lemma ChainSnoc(m: Map, v: seq<CellP>, q: CellP)
    requires m.Valid() && Chain(m, v) && Adjacent(m, v[|v| - 1], q)
    requires (|v| >= 2 ==> q != v[|v| - 2]) && q != v[0]
    ensures Chain(m, v + [q])
  {
    var w := v + [q];
    assert w[0] == v[0];
    forall i, j | 0 <= i < |w| && j == i + 1 && j < |w| ensures Adjacent(m, w[i], w[j]) {
      if j < |v| {
        assert w[i] == v[i] && w[j] == v[j];
      }
    }
    forall i, k | 0 <= i < |w| && k == i + 2 && k < |w| ensures w[i] != w[k] {
      if k < |v| {
        assert w[i] == v[i] && w[k] == v[k];
      }
    }
  }

  /** Moving on to a cell other than the first keeps the walk's state. */
  lemma WalkExtend(m: Map, v: seq<CellP>, back: Option<Dir>, q: CellP, d: Dir)
    requires m.Valid() && WalkState(m, v, back)
    requires NextStep(m, v[|v| - 1], back, Dirs) == Some((q, d)) && q != v[0]
    ensures WalkState(m, v + [q], Some(d.Opposite()))
  {
    NotBack(m, v, back, q, d);
    StepSymmetric(m, v[|v| - 1], d);
    ChainSnoc(m, v, q);
    assert (v + [q])[|v| - 1] == v[|v| - 1];
  }

  /** The `loop` of `find_loop`, at most `fuel` steps. */
  function FindLoopFrom(m: Map, v: seq<CellP>, back: Option<Dir>, fuel: nat): (r: Search)
    requires m.Valid() && WalkState(m, v, back)
    ensures r.Loop? ==> ClosedLoop(m, r.cells) && v <= r.cells
    decreases fuel
  {
    if fuel == 0 then OutOfFuel
    else
      match NextStep(m, v[|v| - 1], back, Dirs)
      case None => NoLoop
      case Some((q, d)) =>
        NotBack(m, v, back, q, d);
        if q == v[0] then Loop(v)
        else
          WalkExtend(m, v, back, q, d);
          FindLoopFrom(m, v + [q], Some(d.Opposite()), fuel - 1)
  }

  /** `find_loop`: from the first 'S', with up to `fuel` steps. */
  function FindLoop(m: Map, fuel: nat): (r: Search)
    requires m.Valid()
    ensures r.Loop? ==> ClosedLoop(m, r.cells) && m.Get(r.cells[0]) == Some('S')
    ensures r.Loop? ==> forall i :: 0 <= i < m.ToIndex(r.cells[0]).value ==> m.m[i] != 'S'
    ensures 'S' !in m.m ==> r == NoLoop
  {
    match G.Find(m, 'S')
    case None => NoLoop
    case Some(s) => FindLoopFrom(m, [s], None, fuel)
  }

  // ---------------------------------------------------------------------------------------------
  // Counting the enclosed tiles

  /** The marks `count_enclosed` keeps per tile: on the loop or not, and for a loop tile whether it
      connects to the north (the bits `ON_LOOP` and `TO_NORTH`). */
  datatype Mark = Off | OnLoop(toNorth: bool)

  /** The mark of storage index `i` after every loop cell has been marked. */
  function MarkOf(m: Map, l: seq<CellP>, i: nat): Mark
    requires m.Valid() && i < |m.m|
  {
    var p := m.ToXy(i).value;
    if p in l then OnLoop(Step(m, p, North).Some?) else Off
  }

  /** The first loop of `count_enclosed`: marks the loop cells in a fresh array. */
  method MarkLoop(m: Map, l: seq<CellP>) returns (pipes: seq<Mark>)
    requires m.Valid() && forall k :: 0 <= k < |l| ==> m.IsInside(l[k])
    ensures |pipes| == |m.m|
    ensures forall i :: 0 <= i < |pipes| ==> pipes[i] == MarkOf(m, l, i)
  {
    pipes := seq(|m.m|, _ => Off);
    var k := 0;
    while k < |l|
      invariant 0 <= k <= |l| && |pipes| == |m.m|
      invariant forall i :: 0 <= i < |pipes| ==> pipes[i] == MarkOf(m, l[..k], i)
    {
      var p := l[k];
      var at := m.ToIndex(p).value;
      ToIndexToXy(m, p);
      pipes := pipes[at := OnLoop(Step(m, p, North).Some?)];
      forall i | 0 <= i < |pipes| ensures pipes[i] == MarkOf(m, l[..k + 1], i) {
        assert l[..k + 1] == l[..k] + [p];
        if i != at {
          ToXyToIndex(m, i);
        }
      }
      k := k + 1;
    }
    assert l[..|l|] == l;
  }

  /** The loop cells that connect to the north among `pipes`. */
  function Crossings(pipes: seq<Mark>): nat
  {
    if |pipes| == 0 then 0
    else Crossings(pipes[..|pipes| - 1]) + if pipes[|pipes| - 1] == OnLoop(true) then 1 else 0
  }

  /** The enclosed tiles: tiles off the loop with an odd number of north-connecting loop cells before
      them in storage order. */
  function EnclosedCount(pipes: seq<Mark>): (r: nat)
    ensures r <= |pipes|
  {
    if |pipes| == 0 then 0
    else
      var k := |pipes| - 1;
      EnclosedCount(pipes[..k]) + if pipes[k] == Off && Crossings(pipes[..k]) % 2 == 1 then 1 else 0
  }

  /** The second loop of `count_enclosed`: one pass toggling `inside` at each north-connecting loop
      cell and counting the tiles off the loop while inside. */
  method Scan(pipes: seq<Mark>) returns (enclosed: nat)
    ensures enclosed == EnclosedCount(pipes)
  {
    var inside := false;
    enclosed := 0;
    var i := 0;
    while i < |pipes|
      invariant 0 <= i <= |pipes|
      invariant inside <==> Crossings(pipes[..i]) % 2 == 1
      invariant enclosed == EnclosedCount(pipes[..i])
    {
      var p := pipes[i];
      assert pipes[..i + 1][..i] == pipes[..i];
      if p.OnLoop? && p.toNorth {
        inside := !inside;
      } else if inside && p == Off {
        enclosed := enclosed + 1;
      }
      i := i + 1;
    }
    assert pipes[..|pipes|] == pipes;
  }

  /** `count_enclosed`. */
  /** The mark of every cell of the map, in index order. */
  function Marks(m: Map, l: seq<CellP>): (r: seq<Mark>)
    requires m.Valid()
    ensures |r| == |m.m| && forall i :: 0 <= i < |m.m| ==> r[i] == MarkOf(m, l, i)
  {
    seq(|m.m|, i requires 0 <= i < |m.m| => MarkOf(m, l, i))
  }

  method CountEnclosed(m: Map, l: seq<CellP>) returns (n: nat)
    requires m.Valid() && forall k :: 0 <= k < |l| ==> m.IsInside(l[k])
    ensures n == EnclosedCount(Marks(m, l))
    ensures n <= |m.m|
  {
    var pipes := MarkLoop(m, l);
    assert pipes == Marks(m, l);
    n := Scan(pipes);
  }

  /** `probl`: half the loop length and the enclosed count; `fuel` bounds the walk. */
  method Probl(input: string, fuel: nat) returns (r: Result<(nat, nat)>)
    requires exists i :: 0 <= i < |Lines(input)| && |Lines(input)[i]| > 0
    ensures r.Ok? ==> Uniform(Lines(input))
    ensures r.Ok? ==> exists m: Map, l: seq<CellP> ::
      && ParseMap(input) == Ok(m)
      && FindLoop(m, fuel) == Loop(l)
      && r.value.0 == |l| / 2
      && r.value.1 == EnclosedCount(Marks(m, l))
    ensures Uniform(Lines(input)) && FindLoop(ParseMap(input).value, fuel).NoLoop? ==> r.Err?
  {
    var pm := ParseMap(input);
    if pm.Err? {
      return Err(pm.msg);
    }
    r := ProblOn(pm.value, fuel);
  }

  /** `probl` once the map is parsed. */
  method ProblOn(m: Map, fuel: nat) returns (r: Result<(nat, nat)>)
    requires m.Valid()
    ensures r.Ok? <==> FindLoop(m, fuel).Loop?
    ensures r.Ok? ==> var l := FindLoop(m, fuel).cells;
      r.value.0 == |l| / 2 && r.value.1 == EnclosedCount(Marks(m, l))
  {
    match FindLoop(m, fuel)
    case NoLoop =>
      return Err("loop not found");
    case OutOfFuel =>
      return Err("out of fuel");
    case Loop(l) =>
      ChainInside(m, l);
      var n := CountEnclosed(m, l);
      var half: nat := |l| / 2;
      return Ok((half, n));
  }
}

=== FILE: day11.dfy ===
/** Day 11 (Cosmic Expansion): every byte that is not '.' is a galaxy; rows and columns without a
    galaxy are stretched to `empty_size`, and the answer sums the Manhattan distances of all pairs of
    galaxies in the stretched coordinates. */
module Day11 {
  import opened Common
  import opened Strings

  type Pos = (int, int)

  /** The width of the widest row, 0 without rows. */
  function MaxLen(gm: seq<string>): (r: nat)
    ensures forall i :: 0 <= i < |gm| ==> |gm[i]| <= r
    ensures |gm| == 0 ==> r == 0
    ensures |gm| > 0 ==> exists i :: 0 <= i < |gm| && |gm[i]| == r
  {
    if |gm| == 0 then 0
    else
      var m := MaxLen(gm[1..]);
      assert forall i :: 1 <= i < |gm| ==> gm[i] == gm[1..][i - 1];
      if |gm[0]| >= m then |gm[0]| else m
  }

  /** No row holds a galaxy in column `c`. */
  ghost predicate ColumnEmpty(gm: seq<string>, c: int)
  {
    forall r :: 0 <= r < |gm| && 0 <= c < |gm[r]| ==> gm[r][c] == '.'
  }

  predicate RowEmpty(row: string)
  {
    forall i :: 0 <= i < |row| ==> row[i] == '.'
  }

  /** The first loop of `dist_sum`: a column starts empty and is cleared by any row holding a
      non-'.' byte in it. */
  method EmptyCols(gm: seq<string>, dx: nat) returns (ec: seq<bool>)
    ensures |ec| == dx
    ensures forall c :: 0 <= c < dx ==> (ec[c] <==> ColumnEmpty(gm, c))
  {
    ec := seq(dx, _ => true);
    var r := 0;
    while r < |gm|
      invariant 0 <= r <= |gm| && |ec| == dx
      invariant forall c :: 0 <= c < dx ==> (ec[c] <==> ColumnEmpty(gm[..r], c))
    {
      var row := gm[r];
      var c := 0;
      while c < |ec| && c < |row|
        invariant 0 <= c <= |ec| && |ec| == dx
        invariant forall k :: 0 <= k < dx ==>
          (ec[k] <==> ColumnEmpty(gm[..r], k) && (k >= c || k >= |row| || row[k] == '.'))
      {
        if row[c] != '.' {
          ec := ec[c := false];
        }
        c := c + 1;
      }
      assert gm[..r + 1] == gm[..r] + [row];
      r := r + 1;
    }
    assert gm[..|gm|] == gm;
  }

  /** How far one row or column stretches. */
  function Width(empty: bool, es: int): int
  {
    if empty then es else 1
  }

  /** The stretched x coordinate of column `c`. */
  function XOf(ec: seq<bool>, c: nat, es: int): int
    requires c <= |ec|
  {
    if c == 0 then 0 else XOf(ec, c - 1, es) + Width(ec[c - 1], es)
  }

  /** The stretched y coordinate of row `r`. */
  function YOf(gm: seq<string>, r: nat, es: int): int
    requires r <= |gm|
  {
    if r == 0 then 0 else YOf(gm, r - 1, es) + Width(RowEmpty(gm[r - 1]), es)
  }

  /** Without stretching, the coordinates are the column and row indices. */
  lemma {:induction false} NoStretch(ec: seq<bool>, gm: seq<string>, c: nat, r: nat)
    requires c <= |ec| && r <= |gm|
    ensures XOf(ec, c, 1) == c && YOf(gm, r, 1) == r
  {
    if c > 0 {
      NoStretch(ec, gm, c - 1, r);
    } else if r > 0 {
      NoStretch(ec, gm, c, r - 1);
    }
  }

  /** With a positive stretch, later columns lie strictly further east. */
  lemma {:induction false} XOfIncreasing(ec: seq<bool>, a: nat, b: nat, es: int)
    requires a < b <= |ec| && es >= 1
    ensures XOf(ec, a, es) + (b - a) <= XOf(ec, b, es)
    decreases b
  {
    if a < b - 1 {
      XOfIncreasing(ec, a, b - 1, es);
    }
  }

  /** The galaxies of `row` (row index `r`) in columns before `c`, as (column, row). */
  function RowGalaxies(row: string, r: int, c: nat): (res: seq<Pos>)
    requires c <= |row|
    ensures forall p :: p in res <==> p.1 == r && 0 <= p.0 < c && row[p.0] != '.'
  {
    if c == 0 then []
    else RowGalaxies(row, r, c - 1) + if row[c - 1] != '.' then [(c - 1, r)] else []
  }

  /** The galaxies of the rows before `r` in reading order, as (column, row). */
  function GalaxiesUpTo(gm: seq<string>, r: nat): (res: seq<Pos>)
    requires r <= |gm|
    ensures forall p :: p in res <==> 0 <= p.1 < r && 0 <= p.0 < |gm[p.1]| && gm[p.1][p.0] != '.'
  {
    if r == 0 then [] else GalaxiesUpTo(gm, r - 1) + RowGalaxies(gm[r - 1], r - 1, |gm[r - 1]|)
  }

  /** Positions that name a cell of `gm` whose column is covered by `ec`. */
  predicate OnMap(gm: seq<string>, ec: seq<bool>, ps: seq<Pos>)
  {
    forall i :: 0 <= i < |ps| ==> 0 <= ps[i].1 < |gm| && 0 <= ps[i].0 < |gm[ps[i].1]| <= |ec|
  }

  /** The stretched coordinates of the given (column, row) positions. */
  function Stretch(gm: seq<string>, ec: seq<bool>, es: int, ps: seq<Pos>): (res: seq<Pos>)
    requires OnMap(gm, ec, ps)
    ensures |res| == |ps|
  {
    seq(|ps|, i requires 0 <= i < |ps| && OnMap(gm, ec, ps) =>
      (XOf(ec, ps[i].0, es), YOf(gm, ps[i].1, es)))
  }

  lemma GalaxiesOnMap(gm: seq<string>, ec: seq<bool>, r: nat)
    requires r <= |gm| && forall k :: 0 <= k < |gm| ==> |gm[k]| <= |ec|
    ensures OnMap(gm, ec, GalaxiesUpTo(gm, r))
  {
    var g := GalaxiesUpTo(gm, r);
    forall i | 0 <= i < |g| ensures 0 <= g[i].1 < |gm| && 0 <= g[i].0 < |gm[g[i].1]| <= |ec| {
      assert g[i] in g;
    }
  }

  /** Stretching one more position appends its stretched coordinates. */
  lemma StretchSnoc(gm: seq<string>, ec: seq<bool>, es: int, ps: seq<Pos>, p: Pos)
    requires OnMap(gm, ec, ps) && 0 <= p.1 < |gm| && 0 <= p.0 < |gm[p.1]| <= |ec|
    ensures OnMap(gm, ec, ps + [p])
    ensures Stretch(gm, ec, es, ps + [p]) == Stretch(gm, ec, es, ps) + [(XOf(ec, p.0, es), YOf(gm, p.1, es))]
  {
    assert forall i :: 0 <= i < |ps| ==> (ps + [p])[i] == ps[i];
  }

  /** One step of the inner loop: the galaxies of row `r` up to column `c + 1`. */
  lemma RowStep(gm: seq<string>, ec: seq<bool>, es: int, before: seq<Pos>, r: nat, c: nat)
    requires r < |gm| && c < |gm[r]| <= |ec|
    requires OnMap(gm, ec, before + RowGalaxies(gm[r], r, c))
    ensures OnMap(gm, ec, before + RowGalaxies(gm[r], r, c + 1))
    ensures Stretch(gm, ec, es, before + RowGalaxies(gm[r], r, c + 1)) ==
      Stretch(gm, ec, es, before + RowGalaxies(gm[r], r, c))
        + if gm[r][c] != '.' then [(XOf(ec, c, es), YOf(gm, r, es))] else []
  {
    var prev := before + RowGalaxies(gm[r], r, c);
    if gm[r][c] != '.' {
      assert before + RowGalaxies(gm[r], r, c + 1) == prev + [(c, r)];
      StretchSnoc(gm, ec, es, prev, (c, r));
    } else {
      assert before + RowGalaxies(gm[r], r, c + 1) == prev;
    }
  }

  /** The second loop of `dist_sum`: walks the rows and columns advancing the stretched coordinates
      and records each galaxy at the coordinates reached. */
  method Galaxies(gm: seq<string>, ec: seq<bool>, es: int) returns (gs: seq<Pos>)
    requires forall k :: 0 <= k < |gm| ==> |gm[k]| <= |ec|
    ensures OnMap(gm, ec, GalaxiesUpTo(gm, |gm|))
    ensures gs == Stretch(gm, ec, es, GalaxiesUpTo(gm, |gm|))
  {
    gs := [];
    var y := 0;
    var r := 0;
    while r < |gm|
      invariant 0 <= r <= |gm| && y == YOf(gm, r, es)
      invariant OnMap(gm, ec, GalaxiesUpTo(gm, r))
      invariant gs == Stretch(gm, ec, es, GalaxiesUpTo(gm, r))
    {
      var emptyRow;
      gs, emptyRow := ScanRow(gm, ec, es, r, y, gs);
      y := y + Width(emptyRow, es);
      r := r + 1;
    }
  }

  /** The inner loop of `dist_sum` over row `r` at stretched row `y`: the row's galaxies are
      appended at their stretched coordinates, and the row is reported empty exactly when it has
      no galaxy. */
  method ScanRow(gm: seq<string>, ec: seq<bool>, es: int, r: nat, y: int, gs0: seq<Pos>)
    returns (gs: seq<Pos>, emptyRow: bool)
    requires r < |gm| && forall k :: 0 <= k < |gm| ==> |gm[k]| <= |ec|
    requires y == YOf(gm, r, es)
    requires OnMap(gm, ec, GalaxiesUpTo(gm, r)) && gs0 == Stretch(gm, ec, es, GalaxiesUpTo(gm, r))
    ensures emptyRow == RowEmpty(gm[r])
    ensures OnMap(gm, ec, GalaxiesUpTo(gm, r + 1))
    ensures gs == Stretch(gm, ec, es, GalaxiesUpTo(gm, r + 1))
  {
    gs := gs0;
    var row := gm[r];
    emptyRow := true;
    var x := 0;
    var c := 0;
    ghost var before := GalaxiesUpTo(gm, r);
    assert before + RowGalaxies(row, r, 0) == before;
    while c < |ec| && c < |row|
      invariant 0 <= c <= |row| && x == XOf(ec, c, es)
      invariant emptyRow <==> |RowGalaxies(row, r, c)| == 0
      invariant OnMap(gm, ec, before + RowGalaxies(row, r, c))
      invariant gs == Stretch(gm, ec, es, before + RowGalaxies(row, r, c))
    {
      RowStep(gm, ec, es, before, r, c);
      if row[c] != '.' {
        gs := gs + [(x, y)];
        emptyRow := false;
      }
      x := x + Width(ec[c], es);
      c := c + 1;
    }
    assert c == |row|;
    assert before + RowGalaxies(row, r, c) == GalaxiesUpTo(gm, r + 1);
    RowGalaxiesNone(row, r);
  }

  /** A row has no galaxy exactly when it is all '.'. */
  lemma RowGalaxiesNone(row: string, r: int)
    ensures |RowGalaxies(row, r, |row|)| == 0 <==> RowEmpty(row)
  {
    if !RowEmpty(row) {
      var i :| 0 <= i < |row| && row[i] != '.';
      assert (i, r) in RowGalaxies(row, r, |row|);
    }
    var g := RowGalaxies(row, r, |row|);
    if |g| > 0 {
      assert g[0] in g;
    }
  }

  /** The Manhattan distance. */
  function Dist(p: Pos, q: Pos): nat
  {
    Abs(p.0 - q.0) + Abs(p.1 - q.1)
  }

  /** The distances from `p` to every position of `t`. */
  function RowSum(p: Pos, t: seq<Pos>): nat
  {
    if |t| == 0 then 0 else RowSum(p, t[..|t| - 1]) + Dist(p, t[|t| - 1])
  }

  /** The distances of the pairs `i < j`. */
  function PairSum(gs: seq<Pos>): nat
  {
    if |gs| == 0 then 0 else RowSum(gs[0], gs[1..]) + PairSum(gs[1..])
  }

  /** The distances of all ordered pairs, a position with itself included. */
  function FullSum(gs: seq<Pos>, hs: seq<Pos>): nat
  {
    if |gs| == 0 then 0 else RowSum(gs[0], hs) + FullSum(gs[1..], hs)
  }

  lemma {:induction false} RowSumCons(p: Pos, a: Pos, t: seq<Pos>)
    ensures RowSum(p, [a] + t) == Dist(p, a) + RowSum(p, t)
  {
    if |t| > 0 {
      assert ([a] + t)[..|t|] == [a] + t[..|t| - 1];
      RowSumCons(p, a, t[..|t| - 1]);
    } else {
      assert ([a] + t)[..0] == [];
    }
  }

  /** The distances from every position of `gs` to `a`. */
  lemma {:induction false} FullSumCons(gs: seq<Pos>, a: Pos, t: seq<Pos>)
    ensures FullSum(gs, [a] + t) == RowSum(a, gs) + FullSum(gs, t)
  {
    if |gs| > 0 {
      RowSumCons(gs[0], a, t);
      FullSumCons(gs[1..], a, t);
      RowSumCons(a, gs[0], gs[1..]);
      assert gs == [gs[0]] + gs[1..];
    }
  }

  /** Every unordered pair is counted once: the pair sum is half the sum over ordered pairs. */
  lemma {:induction false} PairSumHalf(gs: seq<Pos>)
    ensures 2 * PairSum(gs) == FullSum(gs, gs)
  {
    if |gs| > 0 {
      var a := gs[0];
      var t := gs[1..];
      assert gs == [a] + t;
      PairSumHalf(t);
      FullSumCons(t, a, t);
      RowSumCons(a, a, t);
    }
  }

  /** The third loop of `dist_sum`: each galaxy against the ones after it. */
  method SumPairs(gs: seq<Pos>) returns (s: int)
    ensures s == PairSum(gs)
  {
    s := 0;
    var i := 0;
    while i < |gs|
      invariant 0 <= i <= |gs|
      invariant s + PairSum(gs[i..]) == PairSum(gs)
    {
      var j := i + 1;
      ghost var s0 := s;
      while j < |gs|
        invariant i + 1 <= j <= |gs|
        invariant s == s0 + RowSum(gs[i], gs[i + 1..j])
      {
        assert gs[i + 1..j + 1][..j - i - 1] == gs[i + 1..j];
        s := s + Abs(gs[i].0 - gs[j].0) + Abs(gs[i].1 - gs[j].1);
        j := j + 1;
      }
      assert gs[i..][1..] == gs[i + 1..] == gs[i + 1..j];
      i := i + 1;
    }
  }

  /** `r` is the pairwise distance sum of the galaxies of `input`, empty rows and columns stretched by `es`. */
  ghost predicate IsDistSum(input: string, es: int, r: int)
  {
    var gm := Lines(input);
    exists ec: seq<bool> ::
      && |ec| == MaxLen(gm)
      && (forall c :: 0 <= c < |ec| ==> (ec[c] <==> ColumnEmpty(gm, c)))
      && OnMap(gm, ec, GalaxiesUpTo(gm, |gm|))
      && r == PairSum(Stretch(gm, ec, es, GalaxiesUpTo(gm, |gm|)))
  }

  /** `dist_sum`: the sum of the pairwise distances of the galaxies after stretching. */
  method DistSum(input: string, es: int) returns (r: int)
    ensures IsDistSum(input, es, r)
  {
    var gm := Lines(input);
    var ec := EmptyCols(gm, MaxLen(gm));
    var gs := Galaxies(gm, ec, es);
    r := SumPairs(gs);
  }

  /** `run_impl`: the sums for a stretch of 2 and of one million. */
  method RunImpl(input: string) returns (p1: int, p2: int)
    ensures IsDistSum(input, 2, p1) && IsDistSum(input, 1000000, p2)
    ensures p1 >= 0 && p2 >= 0
  {
    p1 := DistSum(input, 2);
    p2 := DistSum(input, 1000000);
  }
}

=== FILE: day12.dfy ===
/** Day 12 (Hot Springs): a row of springs ('.' working, '#' damaged, '?' unknown) and the lengths
    of its runs of damaged springs; the answer counts the ways to place the runs. `num_arrang`
    places the runs left to right, distributing the spare working springs; `p1_line` enumerates
    every distribution of the spare springs with `partitions` and checks the row it builds. The
    two counts agree. */
module Day12 {
  import opened Common
  import opened Strings
  import G = Grid

  datatype Pattern = Pattern(pat: string, runs: seq<nat>)

  /** The run lengths after the separator: comma-separated `usize` numbers. */
  function ParseRuns(r: string): (res: Result<seq<nat>>)
    ensures res.Ok? ==> |res.value| >= 1
  {
    OkOr(MapOption(Split(r, ','), ParseUsize), "invalid number")
  }

  /** The run list parses exactly when every comma-separated piece is a number, one value per piece. */
  lemma ParseRunsSpec(r: string)
    ensures var parts, res := Split(r, ','), ParseRuns(r);
      && (res.Ok? <==> forall i :: 0 <= i < |parts| ==> ParseUsize(parts[i]).Some?)
      && (res.Ok? ==> (|res.value| == |parts| >= 1
          && forall i :: 0 <= i < |parts| ==> res.value[i] == ParseUsize(parts[i]).value))
  {
  }

  /** `Pattern::from`: the row before the first space, the run lengths after it. */
  function ParsePattern(line: string): (res: Result<Pattern>)
    ensures res.Ok? ==> ' ' !in res.value.pat && |res.value.runs| >= 1
  {
    var (l, r) :- OkOr(SplitOnce(line, ' '), "missing separator");
    var runs :- ParseRuns(r);
    Ok(Pattern(l, runs))
  }

  /** A line parses exactly when it has a space and the text after the first space is a run list;
      the row is the text before that space. */
  lemma ParsePatternSpec(line: string)
    ensures var res := ParsePattern(line);
      && (res.Ok? <==> ' ' in line && ParseRuns(SplitOnce(line, ' ').value.1).Ok?)
      && (res.Ok? ==> exists r :: line == res.value.pat + [' '] + r && ParseRuns(r) == Ok(res.value.runs))
  {
  }

  // ---------------------------------------------------------------------------------------------
  // `unfold`

  /** `n` copies of `pat` joined by '?'. */
  function JoinN(pat: string, n: nat): string
  {
    if n <= 1 then (if n == 0 then [] else pat) else JoinN(pat, n - 1) + ['?'] + pat
  }

  /** `n` copies of `runs` one after the other. */
  function RepeatN(runs: seq<nat>, n: nat): seq<nat>
  {
    if n == 0 then [] else RepeatN(runs, n - 1) + runs
  }

  /** `unfold`: the loop appends a '?' before every copy but the first. */
  method Unfold(p: Pattern, n: nat) returns (q: Pattern)
    ensures q.pat == JoinN(p.pat, n) && q.runs == RepeatN(p.runs, n)
    ensures |q.pat| == if n == 0 then 0 else n * |p.pat| + n - 1
    ensures |q.runs| == n * |p.runs|
  {
    var pat := [];
    var runs := [];
    var i := 0;
    while i < n
      invariant 0 <= i <= n && pat == JoinN(p.pat, i) && runs == RepeatN(p.runs, i)
      invariant |pat| == if i == 0 then 0 else i * |p.pat| + i - 1
      invariant |runs| == i * |p.runs|
    {
      if i != 0 {
        pat := pat + ['?'];
      }
      pat := pat + p.pat;
      runs := runs + p.runs;
      i := i + 1;
    }
    q := Pattern(pat, runs);
  }

  /** The k-th run of the repeated list is run `k % |runs|` of the original. */
  lemma {:induction false} RepeatNIndex(runs: seq<nat>, n: nat, k: nat)
    requires k < n * |runs|
    ensures |RepeatN(runs, n)| == n * |runs|
    ensures RepeatN(runs, n)[k] == runs[k % |runs|]
  {
    var w := |runs|;
    assert n > 0;
    RepeatNLength(runs, n - 1);
    if k < (n - 1) * w {
      RepeatNIndex(runs, n - 1, k);
    } else {
      var a := k - (n - 1) * w;
      assert 0 <= a < w;
      G.DivModUnique(a, n - 1, w);
    }
  }

  lemma {:induction false} RepeatNLength(runs: seq<nat>, n: nat)
    ensures |RepeatN(runs, n)| == n * |runs|
  {
    if n > 0 {
      RepeatNLength(runs, n - 1);
    }
  }

  /** The k-th byte of the unfolded row: with period `|pat| + 1`, a '?' closes each copy. */
  lemma {:induction false} JoinNIndex(pat: string, n: nat, k: nat)
    requires n >= 1 && k < n * (|pat| + 1) - 1
    ensures |JoinN(pat, n)| == n * (|pat| + 1) - 1
    ensures JoinN(pat, n)[k] == if k % (|pat| + 1) == |pat| then '?' else pat[k % (|pat| + 1)]
  {
    var w := |pat| + 1;
    JoinNLength(pat, n);
    if n == 1 {
      G.DivModUnique(k, 0, w);
    } else {
      JoinNLength(pat, n - 1);
      var prev := JoinN(pat, n - 1);
      assert JoinN(pat, n) == prev + ['?'] + pat;
      assert n * w == (n - 1) * w + w;
      if k < (n - 1) * w - 1 {
        JoinNIndex(pat, n - 1, k);
        assert JoinN(pat, n)[k] == prev[k];
      } else if k == (n - 1) * w - 1 {
        assert JoinN(pat, n)[k] == '?';
        assert k == (w - 1) + (n - 2) * w;
        G.DivModUnique(w - 1, n - 2, w);
      } else {
        var a := k - (n - 1) * w;
        assert 0 <= a < w - 1;
        assert JoinN(pat, n)[k] == pat[a];
        G.DivModUnique(a, n - 1, w);
      }
    }
  }

  lemma {:induction false} JoinNLength(pat: string, n: nat)
    requires n >= 1
    ensures |JoinN(pat, n)| == n * (|pat| + 1) - 1
  {
    if n > 1 {
      JoinNLength(pat, n - 1);
    }
  }

  // ---------------------------------------------------------------------------------------------
  // `num_arrang` and `PatternCheck`

  /** `is_space`: every byte may be a working spring. */
  predicate IsSpace(s: string)
  {
    forall i :: 0 <= i < |s| ==> s[i] == '.' || s[i] == '?'
  }

  /** `is_word`: every byte may be a damaged spring. */
  predicate IsWord(s: string)
  {
    forall i :: 0 <= i < |s| ==> s[i] == '#' || s[i] == '?'
  }

  /** The separating working spring a run needs, except at the start of the row. */
  function Gap(i_pat: nat): nat
  {
    if i_pat == 0 then 0 else 1
  }

  predicate Positive(runs: seq<nat>)
  {
    forall i :: 0 <= i < |runs| ==> runs[i] > 0
  }

  /** `num_arrang` needs a run (the minimum length `Σruns + |runs| - 1` is a `usize`), a row at
      least that long, and no run of length zero (which can trip its `assert_eq!`, as on `". 0,0"`). */
  predicate Arrangeable(p: Pattern)
  {
    |p.runs| > 0 && Positive(p.runs) && |p.pat| >= Sum(p.runs) + |p.runs| - 1
  }

  /** The bytes runs `i_run..` still need, the separators included. */
  function Need(runs: seq<nat>, i_run: nat, i_pat: nat): int
    requires i_run <= |runs|
  {
    Sum(runs[i_run..]) + (|runs| - i_run) - if i_pat == 0 then 1 else 0
  }

  /** The state `rec` is called in: the bytes consumed, the spare bytes left and the bytes the
      remaining runs need add up to the row. */
  predicate RecState(pat: string, runs: seq<nat>, i_pat: nat, i_run: nat, sl: nat)
  {
    && |runs| > 0 && Positive(runs) && i_run <= |runs|
    && (i_run > 0 ==> i_pat > 0) && i_pat <= |pat|
    && i_pat + sl + Need(runs, i_run, i_pat) == |pat|
  }

  /** `step_then`: `n` bytes from `i` if they satisfy `f`, giving the index after them. */
  function StepThen(pat: string, i: nat, n: nat, f: string -> bool): (r: Option<nat>)
    requires i + n <= |pat|
    ensures r.Some? <==> f(pat[i..i + n])
    ensures r.Some? ==> r.value == i + n
  {
    if f(pat[i..i + n]) then Some(i + n) else None
  }

  /** `step`: `add` spare working springs (plus the separator), then a run of `len`. */
  function PStep(pat: string, i_pat: nat, add: nat, len: nat): (r: Option<nat>)
    requires i_pat + add + Gap(i_pat) + len <= |pat|
    ensures var k := i_pat + add + Gap(i_pat);
      r.Some? <==> IsSpace(pat[i_pat..k]) && IsWord(pat[k..k + len])
    ensures r.Some? ==> r.value == i_pat + add + Gap(i_pat) + len
  {
    var i_run :- StepThen(pat, i_pat, add + Gap(i_pat), IsSpace);
    StepThen(pat, i_run, len, IsWord)
  }

  lemma SumTail(runs: seq<nat>, i: nat)
    requires i < |runs|
    ensures Sum(runs[i..]) == runs[i] + Sum(runs[i + 1..])
    ensures Sum(runs[i + 1..]) >= 0
  {
    assert runs[i..][1..] == runs[i + 1..];
    SumNonNegative(runs[i + 1..]);
  }

  /** `rec`: the number of placements of runs `i_run..` from byte `i_pat` with `sl` spare bytes. */
  function Rec(pat: string, runs: seq<nat>, i_pat: nat, i_run: nat, sl: nat): nat
    requires RecState(pat, runs, i_pat, i_run, sl)
    decreases |runs| - i_run, 2, 0
  {
    if i_run == |runs| then
      assert i_pat + sl == |pat|;
      if IsSpace(pat[i_pat..]) then 1 else 0
    else RecLoop(pat, runs, i_pat, i_run, sl, 0)
  }

  /** The `for add_space in 0..=spaces_left` loop of `rec`, from `add` on. */
  function RecLoop(pat: string, runs: seq<nat>, i_pat: nat, i_run: nat, sl: nat, add: nat): nat
    requires RecState(pat, runs, i_pat, i_run, sl) && i_run < |runs|
    decreases |runs| - i_run, 1, sl + 1 - add
  {
    if add > sl then 0
    else Here(pat, runs, i_pat, i_run, sl, add) + RecLoop(pat, runs, i_pat, i_run, sl, add + 1)
  }

  /** One iteration of that loop: the placements with `add` spare bytes before run `i_run`. */
  function Here(pat: string, runs: seq<nat>, i_pat: nat, i_run: nat, sl: nat, add: nat): nat
    requires RecState(pat, runs, i_pat, i_run, sl) && i_run < |runs| && add <= sl
    decreases |runs| - i_run, 0, 0
  {
    SumTail(runs, i_run);
    match PStep(pat, i_pat, add, runs[i_run])
    case None => 0
    case Some(nx) => Rec(pat, runs, nx, i_run + 1, sl - add)
  }

  /** `num_arrang`. */
  function NumArrang(p: Pattern): nat
    requires Arrangeable(p)
  {
    var min_pat_len := Sum(p.runs) + |p.runs| - 1;
    Rec(p.pat, p.runs, 0, 0, |p.pat| - min_pat_len)
  }

  // ---------------------------------------------------------------------------------------------
  // `p1_line` and `partitions`

  function Dots(n: nat): (r: string)
    ensures |r| == n && forall j :: 0 <= j < n ==> r[j] == '.'
  {
    seq(n, _ => '.')
  }

  function Hashes(n: nat): (r: string)
    ensures |r| == n && forall j :: 0 <= j < n ==> r[j] == '#'
  {
    seq(n, _ => '#')
  }

  /** The bytes `p1_line` writes for one run: `add` spare working springs, plus the separating
      one unless nothing has been written yet (the write index `at` is still 0), then the run. */
  function Piece(add: nat, len: nat, at: nat): (r: string)
    ensures |r| == add + Gap(at) + len
  {
    Dots(add + Gap(at)) + Hashes(len)
  }

  /** The bytes `p1_line` writes before its final fill for the spare-spring vector `v`, from write
      index `at`: one piece per run. The last entry of `v` is not read: `work[i..]` is filled with
      working springs instead. */
  function Build(v: seq<nat>, runs: seq<nat>, at: nat): string
    requires |v| == |runs| + 1
    decreases |runs|
  {
    if |runs| == 0 then []
    else Piece(v[0], runs[0], at) + Build(v[1..], runs[1..], at + v[0] + Gap(at) + runs[0])
  }

  /** The written bytes are the spare springs and the runs plus at most one separator per run,
      exactly one once something has been written. */
  lemma {:induction false} BuildLength(v: seq<nat>, runs: seq<nat>, at: nat)
    requires |v| == |runs| + 1
    ensures |Build(v, runs, at)| <= Sum(v[..|runs|]) + Sum(runs) + |runs|
    ensures at > 0 ==> |Build(v, runs, at)| == Sum(v[..|runs|]) + Sum(runs) + |runs|
    decreases |runs|
  {
    if |runs| > 0 {
      assert v[..|runs|] == [v[0]] + v[1..][..|runs| - 1];
      assert Sum(v[..|runs|]) == v[0] + Sum(v[1..][..|runs| - 1]);
      BuildLength(v[1..], runs[1..], at + v[0] + Gap(at) + runs[0]);
    }
  }

  /** The written row agrees with the pattern wherever the pattern is not '?'. */
  predicate Matches(pat: string, w: string)
  {
    |w| == |pat| && forall j :: 0 <= j < |pat| ==> pat[j] == '?' || w[j] == pat[j]
  }

  /** The row `p1_line` checks, the written bytes `w` followed by working springs up to the end,
      agrees with the pattern `s` byte by byte. */
  predicate RowMatches(s: string, w: string)
    decreases |s|
  {
    if |w| == 0 then IsSpace(s)
    else |s| > 0 && (s[0] == '?' || w[0] == s[0]) && RowMatches(s[1..], w[1..])
  }

  /** Written bytes `a` then `b` match when `a` matches the front of `s` and `b` the rest. */
  lemma {:induction false} RowMatchesSplit(s: string, a: string, b: string)
    ensures RowMatches(s, a + b) <==> |a| <= |s| && Matches(s[..|a|], a) && RowMatches(s[|a|..], b)
    decreases |a|
  {
    if |a| == 0 {
      assert a + b == b && s[0..] == s;
    } else if |s| > 0 {
      assert (a + b)[1..] == a[1..] + b && (a + b)[0] == a[0];
      RowMatchesSplit(s[1..], a[1..], b);
      if |a| <= |s| {
        assert s[1..][|a| - 1..] == s[|a|..];
        MatchesCons(s[..|a|], a);
        assert s[..|a|][1..] == s[1..][..|a| - 1];
      }
    }
  }

  /** Matching splits into the first byte and the rest. */
  lemma MatchesCons(pat: string, w: string)
    requires |pat| > 0 && |w| == |pat|
    ensures Matches(pat, w) <==> (pat[0] == '?' || w[0] == pat[0]) && Matches(pat[1..], w[1..])
  {
    if (pat[0] == '?' || w[0] == pat[0]) && Matches(pat[1..], w[1..]) {
      forall j | 0 <= j < |pat| ensures pat[j] == '?' || w[j] == pat[j] {
        if j > 0 {
          assert pat[1..][j - 1] == pat[j] && w[1..][j - 1] == w[j];
        }
      }
    }
  }

  /** `[x] + p` for every `p` of `ps`. */
  function Prefix(x: nat, ps: seq<seq<nat>>): (r: seq<seq<nat>>)
    ensures |r| == |ps| && forall i :: 0 <= i < |ps| ==> r[i] == [x] + ps[i]
  {
    if |ps| == 0 then []
    else
      var r := [[x] + ps[0]] + Prefix(x, ps[1..]);
      assert forall i :: 1 <= i < |ps| ==> ps[i] == ps[1..][i - 1];
      r
  }

  /** `partitions(n, m)`: the vectors `parts_impl` hands to the callback, in order. */
  function Parts(n: nat, m: nat): seq<seq<nat>>
    requires m >= 1
    decreases m, 1, 0
  {
    if m == 1 then [[n]] else PartsFrom(n, m, 0)
  }

  /** The `for x in 0..=n` loop of `parts_impl`, from `x` on. */
  function PartsFrom(n: nat, m: nat, x: nat): seq<seq<nat>>
    requires m >= 2
    decreases m, 0, n + 1 - x
  {
    if x > n then [] else Prefix(x, Parts(n - x, m - 1)) + PartsFrom(n, m, x + 1)
  }

  lemma {:induction false} CountOfPrefix(x: nat, ps: seq<seq<nat>>, v: seq<nat>)
    ensures CountOf(Prefix(x, ps), v) == if |v| > 0 && v[0] == x then CountOf(ps, v[1..]) else 0
  {
    if |ps| > 0 {
      assert Prefix(x, ps)[1..] == Prefix(x, ps[1..]);
      CountOfPrefix(x, ps[1..], v);
      if |v| > 0 && v[0] == x {
        assert ([x] + ps[0] == v) <==> (ps[0] == v[1..]) by {
          if ps[0] == v[1..] {
            assert v == [v[0]] + v[1..];
          }
        }
      }
    }
  }

  /** `partitions(n, m)` hands every length-`m` vector of naturals summing to `n` to the callback
      exactly once, and nothing else. */
  lemma {:induction false} PartsExactlyOnce(n: nat, m: nat, v: seq<nat>)
    requires m >= 1
    ensures CountOf(Parts(n, m), v) == if |v| == m && Sum(v) == n then 1 else 0
    decreases m, 1, 0
  {
    if m == 1 {
      if |v| == 1 {
        assert Sum(v) == v[0] + Sum(v[1..]);
        assert v == [v[0]];
      }
    } else {
      PartsFromExactlyOnce(n, m, 0, v);
    }
  }

  lemma {:induction false} PartsFromExactlyOnce(n: nat, m: nat, x: nat, v: seq<nat>)
    requires m >= 2
    ensures CountOf(PartsFrom(n, m, x), v) == if |v| == m && x <= v[0] && Sum(v) == n then 1 else 0
    decreases m, 0, n + 1 - x
  {
    if |v| > 0 {
      assert Sum(v) == v[0] + Sum(v[1..]);
      SumNonNegative(v[1..]);
    }
    if x <= n {
      CountOfAppend(Prefix(x, Parts(n - x, m - 1)), PartsFrom(n, m, x + 1), v);
      CountOfPrefix(x, Parts(n - x, m - 1), v);
      PartsFromExactlyOnce(n, m, x + 1, v);
      if |v| > 0 && v[0] == x {
        PartsExactlyOnce(n - x, m - 1, v[1..]);
      }
    }
  }

  /** The vectors of `vs` whose row matches `s`. */
  function CountArr(vs: seq<seq<nat>>, s: string, runs: seq<nat>, at: nat): (r: nat)
    ensures r <= |vs|
  {
    if |vs| == 0 then 0
    else
      var here := if |vs[0]| == |runs| + 1 && RowMatches(s, Build(vs[0], runs, at)) then 1 else 0;
      here + CountArr(vs[1..], s, runs, at)
  }

  /** `p1_line`'s count for a parsed pattern. */
  function P1LineCount(p: Pattern): (r: nat)
    requires |p.runs| > 0 && |p.pat| >= Sum(p.runs) + |p.runs| - 1
    ensures r <= |Parts(|p.pat| - (Sum(p.runs) + |p.runs| - 1), |p.runs| + 1)|
  {
    var min_len := Sum(p.runs) + |p.runs| - 1;
    CountArr(Parts(|p.pat| - min_len, |p.runs| + 1), p.pat, p.runs, 0)
  }

  lemma {:induction false} CountArrAppend(a: seq<seq<nat>>, b: seq<seq<nat>>, s: string, runs: seq<nat>, at: nat)
    ensures CountArr(a + b, s, runs, at) == CountArr(a, s, runs, at) + CountArr(b, s, runs, at)
  {
    if |a| > 0 {
      assert (a + b)[1..] == a[1..] + b;
      CountArrAppend(a[1..], b, s, runs, at);
    } else {
      assert a + b == b;
    }
  }

  /** A row matches a concatenation piece by piece. */
  lemma MatchesSplit(s: string, a: string, b: string)
    ensures Matches(s, a + b) <==> |a| <= |s| && Matches(s[..|a|], a) && Matches(s[|a|..], b)
  {
    if |a| <= |s| && Matches(s[..|a|], a) && Matches(s[|a|..], b) {
      forall j | 0 <= j < |s| ensures s[j] == '?' || (a + b)[j] == s[j] {
        if j < |a| {
          assert s[..|a|][j] == s[j];
        } else {
          assert s[|a|..][j - |a|] == s[j];
        }
      }
    }
    if Matches(s, a + b) {
      forall j | 0 <= j < |a| ensures s[..|a|][j] == '?' || a[j] == s[..|a|][j] {
        assert (a + b)[j] == a[j];
      }
      forall j | 0 <= j < |b| ensures s[|a|..][j] == '?' || b[j] == s[|a|..][j] {
        assert (a + b)[|a| + j] == b[j];
      }
    }
  }

  lemma MatchesDots(s: string, k: nat)
    ensures Matches(s, Dots(k)) <==> |s| == k && IsSpace(s)
  {
  }

  lemma MatchesHashes(s: string, k: nat)
    ensures Matches(s, Hashes(k)) <==> |s| == k && IsWord(s)
  {
  }

  /** The rows of the vectors starting with `x`: the first spare springs and the first run must
      fit, and the rest is counted on the rest of the row. */
  lemma {:induction false} CountArrPrefix(x: nat, ps: seq<seq<nat>>, s: string, runs: seq<nat>, at: nat)
    requires |runs| > 0
    ensures var k := x + Gap(at);
      CountArr(Prefix(x, ps), s, runs, at) ==
        if k + runs[0] <= |s| && IsSpace(s[..k]) && IsWord(s[k..k + runs[0]])
        then CountArr(ps, s[k + runs[0]..], runs[1..], at + k + runs[0]) else 0
  {
    if |ps| > 0 {
      var pre := Prefix(x, ps);
      assert pre[1..] == Prefix(x, ps[1..]);
      CountArrPrefix(x, ps[1..], s, runs, at);
      if |ps[0]| == |runs| {
        PrefixHead(x, ps[0], s, runs, at);
      }
    }
  }

  /** The first vector of the prefixed ones counts a row exactly when its first piece fits and the
      rest of the vector counts a row on the rest of `s`. */
  lemma PrefixHead(x: nat, v: seq<nat>, s: string, runs: seq<nat>, at: nat)
    requires |runs| > 0 && |v| == |runs|
    ensures var k := x + Gap(at);
      RowMatches(s, Build([x] + v, runs, at)) <==>
        k + runs[0] <= |s| && IsSpace(s[..k]) && IsWord(s[k..k + runs[0]]) &&
        RowMatches(s[k + runs[0]..], Build(v, runs[1..], at + k + runs[0]))
  {
    var w := [x] + v;
    assert w[0] == x && w[1..] == v;
    BuildCons(w, x, v, runs, at);
    RowMatchesPiece(s, x, runs[0], at, Build(v, runs[1..], at + x + Gap(at) + runs[0]));
  }

  /** Counting on equal rows for equal runs gives equal counts. */
  lemma SameCount(ps: seq<seq<nat>>, s: string, t: string, rs: seq<nat>, qs: seq<nat>, at: nat)
    requires s == t && rs == qs
    ensures CountArr(ps, s, rs, at) == CountArr(ps, t, qs, at)
  {
  }

  /** The row of a vector is its first piece followed by the row of the rest of the vector. */
  lemma BuildCons(w: seq<nat>, x: nat, v: seq<nat>, runs: seq<nat>, at: nat)
    requires |runs| > 0 && |v| == |runs| && |w| == |runs| + 1 && w[0] == x && w[1..] == v
    ensures Build(w, runs, at) == Piece(x, runs[0], at) + Build(v, runs[1..], at + x + Gap(at) + runs[0])
  {
  }

  /** A piece followed by the rest of a row matches `s` when the first bytes of `s` can be working
      and then damaged and the rest matches the remaining bytes. */
  lemma RowMatchesPiece(s: string, add: nat, len: nat, at: nat, rest: string)
    ensures var k := add + Gap(at);
      RowMatches(s, Piece(add, len, at) + rest) <==>
        k + len <= |s| && IsSpace(s[..k]) && IsWord(s[k..k + len]) && RowMatches(s[k + len..], rest)
  {
    var k := add + Gap(at);
    var p := Piece(add, len, at);
    assert |p| == k + len;
    RowMatchesSplit(s, p, rest);
    if k + len <= |s| {
      PieceMatches(s, k, len);
      assert p == Dots(k) + Hashes(len);
      assert Matches(s[..|p|], p) <==> IsSpace(s[..k]) && IsWord(s[k..k + len]);
    }
  }

  /** Spare springs then a run match the front of `s` when those bytes can be working and then
      damaged. */
  lemma PieceMatches(s: string, k: nat, n: nat)
    requires k + n <= |s|
    ensures Matches(s[..k + n], Dots(k) + Hashes(n)) <==> IsSpace(s[..k]) && IsWord(s[k..k + n])
  {
    var t := s[..k + n];
    MatchesSplit(t, Dots(k), Hashes(n));
    assert t[..k] == s[..k];
    assert t[k..] == s[k..k + n];
    MatchesDots(s[..k], k);
    MatchesHashes(s[k..k + n], n);
  }

  /** `rec` counts exactly the matching rows of the spare-spring vectors for the remaining runs. */
  lemma {:induction false} RecCountsRows(pat: string, runs: seq<nat>, i_pat: nat, i_run: nat, sl: nat)
    requires RecState(pat, runs, i_pat, i_run, sl)
    ensures Rec(pat, runs, i_pat, i_run, sl) ==
      CountArr(Parts(sl, |runs| - i_run + 1), pat[i_pat..], runs[i_run..], i_pat)
    decreases |runs| - i_run, 2, 0
  {
    if i_run == |runs| {
      var s := pat[i_pat..];
      assert runs[i_run..] == [] && Build([sl], [], i_pat) == [];
      assert s[..0] == [] && s[0..] == s;
    } else {
      RecLoopCountsRows(pat, runs, i_pat, i_run, sl, 0);
    }
  }

  lemma {:induction false} RecLoopCountsRows(pat: string, runs: seq<nat>, i_pat: nat, i_run: nat, sl: nat, add: nat)
    requires RecState(pat, runs, i_pat, i_run, sl) && i_run < |runs|
    ensures RecLoop(pat, runs, i_pat, i_run, sl, add) ==
      CountArr(PartsFrom(sl, |runs| - i_run + 1, add), pat[i_pat..], runs[i_run..], i_pat)
    decreases |runs| - i_run, 1, sl + 1 - add
  {
    if add <= sl {
      var m := |runs| - i_run + 1;
      var s, rs := pat[i_pat..], runs[i_run..];
      var here, later := Prefix(add, Parts(sl - add, m - 1)), PartsFrom(sl, m, add + 1);
      assert PartsFrom(sl, m, add) == here + later;
      assert RecLoop(pat, runs, i_pat, i_run, sl, add) ==
        Here(pat, runs, i_pat, i_run, sl, add) + RecLoop(pat, runs, i_pat, i_run, sl, add + 1);
      RecLoopCountsRows(pat, runs, i_pat, i_run, sl, add + 1);
      CountArrAppend(here, later, s, rs, i_pat);
      HereCountsRows(pat, runs, i_pat, i_run, sl, add);
    }
  }

  /** One iteration of the loop of `rec` counts the rows of the vectors starting with `add`. */
  lemma {:induction false} HereCountsRows(pat: string, runs: seq<nat>, i_pat: nat, i_run: nat, sl: nat, add: nat)
    requires RecState(pat, runs, i_pat, i_run, sl) && i_run < |runs| && add <= sl
    ensures Here(pat, runs, i_pat, i_run, sl, add) == CountArr(Prefix(add, Parts(sl - add, |runs| - i_run)), pat[i_pat..], runs[i_run..], i_pat)
    decreases |runs| - i_run, 0, 1
  {
    var s, rs, k := pat[i_pat..], runs[i_run..], add + Gap(i_pat);
    var ps := Parts(sl - add, |runs| - i_run);
    HereStep(pat, runs, i_pat, i_run, sl, add);
    CountArrPrefix(add, ps, s, rs, i_pat);
    HereFits(pat, runs, i_pat, i_run, add);
    if PStep(pat, i_pat, add, runs[i_run]).Some? {
      HereSome(pat, runs, i_pat, i_run, sl, add);
      var nx := i_pat + k + rs[0];
      SameCount(ps, s[k + rs[0]..], pat[nx..], rs[1..], runs[i_run + 1..], nx);
      assert CountArr(Prefix(add, ps), s, rs, i_pat) == CountArr(ps, s[k + rs[0]..], rs[1..], i_pat + k + rs[0]);
    } else {
      assert CountArr(Prefix(add, ps), s, rs, i_pat) == 0;
    }
  }

  /** When the step succeeds, the iteration counts the rows of the rest of the vector on the rest
      of the row. */
  lemma {:induction false} HereSome(pat: string, runs: seq<nat>, i_pat: nat, i_run: nat, sl: nat, add: nat)
    requires RecState(pat, runs, i_pat, i_run, sl) && i_run < |runs| && add <= sl
    requires i_pat + add + Gap(i_pat) + runs[i_run] <= |pat| && PStep(pat, i_pat, add, runs[i_run]).Some?
    ensures var nx := i_pat + add + Gap(i_pat) + runs[i_run];
      Here(pat, runs, i_pat, i_run, sl, add) == CountArr(Parts(sl - add, |runs| - i_run), pat[nx..], runs[i_run + 1..], nx)
    decreases |runs| - i_run, 0, 0
  {
    var nx := i_pat + add + Gap(i_pat) + runs[i_run];
    HereStep(pat, runs, i_pat, i_run, sl, add);
    RecCountsRows(pat, runs, nx, i_run + 1, sl - add);
    assert |runs| - (i_run + 1) + 1 == |runs| - i_run;
  }

  /** An iteration counts nothing when the step fails, and the placements after it otherwise. */
  lemma HereStep(pat: string, runs: seq<nat>, i_pat: nat, i_run: nat, sl: nat, add: nat)
    requires RecState(pat, runs, i_pat, i_run, sl) && i_run < |runs| && add <= sl
    ensures var nx := i_pat + add + Gap(i_pat) + runs[i_run];
      && nx <= |pat|
      && (PStep(pat, i_pat, add, runs[i_run]).Some? ==>
            RecState(pat, runs, nx, i_run + 1, sl - add) &&
            Here(pat, runs, i_pat, i_run, sl, add) == Rec(pat, runs, nx, i_run + 1, sl - add))
      && (PStep(pat, i_pat, add, runs[i_run]).None? ==> Here(pat, runs, i_pat, i_run, sl, add) == 0)
  {
    SumTail(runs, i_run);
  }

  /** The step of `rec` reads the same bytes as the first piece of a written row. */
  lemma HereFits(pat: string, runs: seq<nat>, i_pat: nat, i_run: nat, add: nat)
    requires i_run < |runs| && i_pat + add + Gap(i_pat) + runs[i_run] <= |pat|
    ensures var s, rs, k := pat[i_pat..], runs[i_run..], add + Gap(i_pat);
      && k == add + (if i_pat == 0 then 0 else 1)
      && rs[0] == runs[i_run] && rs[1..] == runs[i_run + 1..] && k + rs[0] <= |s|
      && (PStep(pat, i_pat, add, runs[i_run]).Some? <==> IsSpace(s[..k]) && IsWord(s[k..k + rs[0]]))
      && s[k + rs[0]..] == pat[i_pat + k + runs[i_run]..]
  {
    var s, rs, k := pat[i_pat..], runs[i_run..], add + Gap(i_pat);
    var nx := i_pat + k + runs[i_run];
    assert s[..k] == pat[i_pat..i_pat + k];
    assert s[k..k + rs[0]] == pat[i_pat + k..nx];
  }

  /** `num_arrang` and `p1_line` count the same arrangements. */
  lemma NumArrangIsP1Line(p: Pattern)
    requires Arrangeable(p)
    ensures NumArrang(p) == P1LineCount(p)
  {
    var min_pat_len := Sum(p.runs) + |p.runs| - 1;
    RecCountsRows(p.pat, p.runs, 0, 0, |p.pat| - min_pat_len);
    assert p.pat[0..] == p.pat && p.runs[0..] == p.runs;
  }

  /** `p1_line` on one line. */
  function P1Line(line: string): (r: Result<nat>)
    requires ParsePattern(line).Ok? ==> var p := ParsePattern(line).value;
      |p.pat| >= Sum(p.runs) + |p.runs| - 1
    ensures r.Ok? <==> ParsePattern(line).Ok?
  {
    var p :- ParsePattern(line);
    Ok(P1LineCount(p))
  }

  /** On a line `num_arrang` can handle, `p1_line` gives the same count. */
  lemma P1LineIsNumArrang(line: string)
    requires ParsePattern(line).Ok? && Arrangeable(ParsePattern(line).value)
    ensures P1Line(line) == Ok(NumArrang(ParsePattern(line).value))
  {
    NumArrangIsP1Line(ParsePattern(line).value);
  }

  /** Every line up to the first one that does not parse can be arranged. */
  predicate CanArrange(lines: seq<string>)
  {
    |lines| == 0 ||
    (ParsePattern(lines[0]).Ok? ==> Arrangeable(ParsePattern(lines[0]).value) && CanArrange(lines[1..]))
  }

  /** The `try_fold` of `p1` over the remaining lines. */
  function P1Lines(lines: seq<string>): (r: Result<nat>)
    requires CanArrange(lines)
  {
    if |lines| == 0 then Ok(0)
    else
      var p :- ParsePattern(lines[0]);
      var rest :- P1Lines(lines[1..]);
      Ok(NumArrang(p) + rest)
  }

  /** The commented-out alternative of `p1`: the same `try_fold` with `p1_line`. */
  function P1LineFold(lines: seq<string>): (r: Result<nat>)
    requires CanArrange(lines)
  {
    if |lines| == 0 then Ok(0)
    else
      var n :- P1Line(lines[0]);
      var rest :- P1LineFold(lines[1..]);
      Ok(n + rest)
  }

  /** Both folds stop at the same line with the same error or reach the same sum: `num_arrang`
      and `p1_line` are interchangeable in `p1`. */
  lemma {:induction false} P1LinesIsP1LineFold(lines: seq<string>)
    requires CanArrange(lines)
    ensures P1Lines(lines) == P1LineFold(lines)
  {
    if |lines| > 0 && ParsePattern(lines[0]).Ok? {
      P1LineIsNumArrang(lines[0]);
      P1LinesIsP1LineFold(lines[1..]);
      if P1Lines(lines[1..]).Ok? {
        FoldsAgreeOk(lines);
      } else {
        FoldsAgreeErr(lines);
      }
    }
  }

  /** The two folds add the same count of the first line to the same sum of the rest. */
  lemma FoldsAgreeOk(lines: seq<string>)
    requires CanArrange(lines) && |lines| > 0 && ParsePattern(lines[0]).Ok?
    requires P1Lines(lines[1..]) == P1LineFold(lines[1..]) && P1Lines(lines[1..]).Ok?
    requires NumArrang(ParsePattern(lines[0]).value) == P1LineCount(ParsePattern(lines[0]).value)
    ensures P1Lines(lines) == P1LineFold(lines)
  {
    assert P1Lines(lines).value == P1LineFold(lines).value;
  }

  /** The two folds pass on the same error from the rest. */
  lemma FoldsAgreeErr(lines: seq<string>)
    requires CanArrange(lines) && |lines| > 0 && ParsePattern(lines[0]).Ok?
    requires P1Lines(lines[1..]) == P1LineFold(lines[1..]) && P1Lines(lines[1..]).Err?
    ensures P1Lines(lines) == P1LineFold(lines)
  {
    assert P1Lines(lines) == P1Lines(lines[1..]);
  }

  /** The fold fails exactly when some line does not parse. */
  lemma {:induction false} P1LinesParses(lines: seq<string>)
    requires CanArrange(lines)
    ensures P1Lines(lines).Ok? <==> forall i :: 0 <= i < |lines| ==> ParsePattern(lines[i]).Ok?
  {
    if |lines| > 0 {
      if ParsePattern(lines[0]).Ok? {
        P1LinesParses(lines[1..]);
        assert P1Lines(lines).Ok? <==> P1Lines(lines[1..]).Ok?;
        assert forall i :: 1 <= i < |lines| ==> lines[i] == lines[1..][i - 1];
      } else {
        assert P1Lines(lines).Err?;
      }
    }
  }

  /** `p1`: the sum of `num_arrang` over the lines; with `p1_line` instead, the same sum. */
  function P1(input: string): (r: Result<nat>)
    requires CanArrange(Lines(input))
    ensures r.Ok? <==> forall i :: 0 <= i < |Lines(input)| ==> ParsePattern(Lines(input)[i]).Ok?
    ensures r == P1LineFold(Lines(input))
  {
    P1LinesParses(Lines(input));
    P1LinesIsP1LineFold(Lines(input));
    P1Lines(Lines(input))
  }

  /** A row of three unknowns with a single run of one: the run can take any of the three places. */
  lemma ExampleSingleRun()
    ensures NumArrang(Pattern("???", [1])) == 3
  {
    var pat, runs := "???", [1];
    SingleRunAt(0);
    SingleRunAt(1);
    SingleRunAt(2);
    assert RecLoop(pat, runs, 0, 0, 2, 2) == 1;
    assert RecLoop(pat, runs, 0, 0, 2, 1) == 2;
    assert RecLoop(pat, runs, 0, 0, 2, 0) == 3;
  }

  /** With `add` spare springs first, the run of one fits in exactly one way. */
  lemma SingleRunAt(add: nat)
    requires add <= 2
    ensures Here("???", [1], 0, 0, 2, add) == 1
  {
    var pat, runs := "???", [1];
    assert IsSpace(pat[0..add]) && IsWord(pat[add..add + 1]);
    assert PStep(pat, 0, add, 1) == Some(add + 1);
    assert IsSpace(pat[add + 1..]);
    assert Rec(pat, runs, add + 1, 1, 2 - add) == 1;
  }

  /** With no spare springs and three gaps there is one vector, all zeros. */
  lemma PartsZeroThree()
    ensures Parts(0, 3) == [[0, 0, 0]]
  {
    var v: seq<nat> := [0, 0, 0];
    assert Parts(0, 1) == [[0]];
    assert PartsFrom(0, 2, 1) == [] && PartsFrom(0, 3, 1) == [];
    assert [0] + [0] == [0, 0] && [0] + [0, 0] == v;
    assert Prefix(0, [[0]]) == [[0, 0]];
    assert Parts(0, 2) == [[0, 0]];
    assert Prefix(0, [[0, 0]]) == [v];
  }

  /** Runs 0,1 with no spare springs write the single byte '#'. */
  lemma ZeroRunRow()
    ensures Build([0, 0, 0], [0, 1], 0) == "#"
  {
    var v: seq<nat> := [0, 0, 0];
    var runs: seq<nat> := [0, 1];
    assert v[1..] == [0, 0] && runs[1..] == [1];
    assert Piece(0, 0, 0) == [];
    assert Piece(0, 1, 0) == "#";
    assert Build([0], [], 1) == [];
    assert Build([0, 0], [1], 0) == "#";
  }

  /** A leading run of length zero writes nothing, so the next run gets no separator: on "?#" with
      runs 0,1 the only vector writes "#" at the start and leaves '.' under the '#'. */
  lemma ExampleZeroRun()
    ensures P1LineCount(Pattern("?#", [0, 1])) == 0
  {
    var runs: seq<nat> := [0, 1];
    assert Sum(runs) == 1 by {
      assert runs[1..] == [1];
      assert Sum([1]) == 1 + Sum([]);
    }
    var v: seq<nat> := [0, 0, 0];
    PartsZeroThree();
    ZeroRunRow();
    var w := Build(v, runs, 0);
    assert |w| == 1 && "?#"[|w|..] == "#" && "#"[0] == '#';
    assert !IsSpace("?#"[|w|..]);
    assert !RowMatches("?#", w);
    assert CountArr([v], "?#", runs, 0) == 0;
  }
}

=== FILE: day13.dfy ===
/** Day 13 (Point of Incidence): blocks of lines are mirrors; each mirror has a horizontal axis
    between two rows or a vertical axis between two columns about which the rows (columns) reflect
    as far as the mirror extends. The summary adds 100 times the rows above a horizontal axis, or
    the columns left of a vertical one. */
module Day13 {
  import opened Common
  import opened Strings

  type Mirror = seq<string>

  /** The rows pair up about the axis after row `y` as far as the shorter side reaches: row `i`
      above the axis equals row `j` below it whenever both are `y - i` and `j - y + 1` rows away. */
  predicate RowsReflect(m: Mirror, y: nat)
  {
    forall i, j :: 0 <= i < y <= j < |m| && i + j == 2 * y - 1 ==> m[i] == m[j]
  }

  /** `eq_cols`: every row has the same byte in the two columns. */
  predicate EqCols(m: Mirror, x0: nat, x1: nat)
  {
    forall r :: 0 <= r < |m| && x0 < |m[r]| && x1 < |m[r]| ==> m[r][x0] == m[r][x1]
  }

  /** The columns pair up about the axis after column `x` of a mirror `mx` columns wide. */
  predicate ColsReflect(m: Mirror, mx: nat, x: nat)
  {
    forall a, b :: 0 <= a < x <= b < mx && a + b == 2 * x - 1 ==> EqCols(m, a, b)
  }

  /** The least `y` in `lo..|m|` about which the rows reflect. */
  function FirstRowsAxis(m: Mirror, lo: nat): (r: Option<nat>)
    ensures r.Some? ==> lo <= r.value < |m| && RowsReflect(m, r.value)
    ensures r.Some? ==> forall y :: lo <= y < r.value ==> !RowsReflect(m, y)
    ensures r.None? <==> forall y :: lo <= y < |m| ==> !RowsReflect(m, y)
    decreases |m| - lo
  {
    if lo >= |m| then None else if RowsReflect(m, lo) then Some(lo) else FirstRowsAxis(m, lo + 1)
  }

  /** `refl_vert`: 100 times the least `y` in `1..|m|` about which the rows reflect. */
  function ReflVert(m: Mirror): (r: Option<nat>)
    ensures r.None? <==> forall y :: 1 <= y < |m| ==> !RowsReflect(m, y)
    ensures r.Some? ==> exists y ::
      && 1 <= y < |m| && r.value == 100 * y && RowsReflect(m, y)
      && forall y' :: 1 <= y' < y ==> !RowsReflect(m, y')
  {
    match FirstRowsAxis(m, 1)
    case None => None
    case Some(y) => Some(100 * y)
  }

  /** The least `x` in `lo..mx` about which the columns reflect. */
  function FirstColsAxis(m: Mirror, mx: nat, lo: nat): (r: Option<nat>)
    ensures r.Some? ==> lo <= r.value < mx && ColsReflect(m, mx, r.value)
    ensures r.Some? ==> forall x :: lo <= x < r.value ==> !ColsReflect(m, mx, x)
    ensures r.None? <==> forall x :: lo <= x < mx ==> !ColsReflect(m, mx, x)
    decreases mx - lo
  {
    if lo >= mx then None else if ColsReflect(m, mx, lo) then Some(lo) else FirstColsAxis(m, mx, lo + 1)
  }

  /** `refl_horz`: the least `x` in `1..mx` about which the columns reflect, `mx` the width of the
      first row. */
  function ReflHorz(m: Mirror): (r: Option<nat>)
    requires WideRows(m)
    ensures r.None? <==> forall x :: 1 <= x < |m[0]| ==> !ColsReflect(m, |m[0]|, x)
    ensures r.Some? ==> 1 <= r.value < |m[0]| && ColsReflect(m, |m[0]|, r.value)
    ensures r.Some? ==> forall x :: 1 <= x < r.value ==> !ColsReflect(m, |m[0]|, x)
  {
    FirstColsAxis(m, |m[0]|, 1)
  }

  /** `reflection`: a horizontal axis if there is one, otherwise a vertical one. */
  function Reflection(m: Mirror): (r: Option<nat>)
    requires ReflVert(m).None? ==> WideRows(m)
    ensures ReflVert(m).Some? ==> r == ReflVert(m)
    ensures ReflVert(m).None? ==> r == ReflHorz(m)
  {
    match ReflVert(m)
    case Some(v) => Some(v)
    case None => ReflHorz(m)
  }

  /** A mirror of one row has no horizontal axis, and a mirror one column wide no vertical one: the
      full size is never a candidate. */
  lemma NoAxisInOneLine(m: Mirror)
    requires WideRows(m)
    ensures |m| == 1 ==> ReflVert(m).None?
    ensures |m[0]| == 1 ==> ReflHorz(m).None?
  {
  }

  /** The columns of a mirror as rows. */
  function Transpose(m: Mirror): (t: Mirror)
    requires WideRows(m)
    ensures |t| == |m[0]| && forall x :: 0 <= x < |t| ==> |t[x]| == |m|
    ensures forall x, r :: 0 <= x < |t| && 0 <= r < |m| ==> t[x][r] == m[r][x]
  {
    seq(|m[0]|, x requires 0 <= x < |m[0]| => seq(|m|, r requires 0 <= r < |m| => m[r][x]))
  }

  /** Two columns agree in every row exactly when they are equal rows of the transposed mirror. */
  lemma EqColsTranspose(m: Mirror, a: nat, b: nat)
    requires WideRows(m) && a < |m[0]| && b < |m[0]|
    ensures EqCols(m, a, b) <==> Transpose(m)[a] == Transpose(m)[b]
  {
    var t := Transpose(m);
    if EqCols(m, a, b) {
      assert t[a] == t[b];
    }
    if t[a] == t[b] {
      forall r | 0 <= r < |m| ensures m[r][a] == m[r][b] {
        assert t[a][r] == t[b][r];
      }
    }
  }

  lemma ColsReflectTranspose(m: Mirror, x: nat)
    requires WideRows(m)
    ensures ColsReflect(m, |m[0]|, x) == RowsReflect(Transpose(m), x)
  {
    var t := Transpose(m);
    forall a, b | 0 <= a < x <= b < |m[0]| && a + b == 2 * x - 1 ensures EqCols(m, a, b) == (t[a] == t[b]) {
      EqColsTranspose(m, a, b);
    }
  }

  lemma {:induction false} FirstColsIsFirstRows(m: Mirror, lo: nat)
    requires WideRows(m)
    ensures FirstColsAxis(m, |m[0]|, lo) == FirstRowsAxis(Transpose(m), lo)
    decreases |m[0]| - lo
  {
    if lo < |m[0]| {
      ColsReflectTranspose(m, lo);
      FirstColsIsFirstRows(m, lo + 1);
    }
  }

  /** Looking for a vertical axis is looking for a horizontal one in the transposed mirror. */
  lemma ReflHorzIsTransposedVert(m: Mirror)
    requires WideRows(m)
    ensures ReflHorz(m) == match ReflVert(Transpose(m)) case None => None case Some(v) => Some(v / 100)
  {
    FirstColsIsFirstRows(m, 1);
  }

  // ---------------------------------------------------------------------------------------------
  // `parse_valley`

  /** One line of `parse_valley`: a blank line starts a new mirror, any other line goes to the last
      mirror (starting one if there is none). */
  function AddLine(ms: seq<Mirror>, line: string): (r: seq<Mirror>)
    ensures |r| > 0
  {
    if line == [] then ms + [[]]
    else if |ms| == 0 then [[line]]
    else ms[..|ms| - 1] + [ms[|ms| - 1] + [line]]
  }

  /** `parse_valley` over the lines. */
  function ParseValley(lines: seq<string>): (r: seq<Mirror>)
    ensures |r| == 0 <==> |lines| == 0
    ensures forall i, j :: 0 <= i < |r| && 0 <= j < |r[i]| ==> r[i][j] != []
  {
    if |lines| == 0 then [] else AddLine(ParseValley(lines[..|lines| - 1]), lines[|lines| - 1])
  }

  /** The mirrors written back with one blank line between them. */
  function Unparse(ms: seq<Mirror>): seq<string>
  {
    if |ms| == 0 then [] else if |ms| == 1 then ms[0] else Unparse(ms[..|ms| - 1]) + [[]] + ms[|ms| - 1]
  }

  lemma UnparseLastGrows(ms: seq<Mirror>, line: string)
    requires |ms| > 0
    ensures Unparse(ms[..|ms| - 1] + [ms[|ms| - 1] + [line]]) == Unparse(ms) + [line]
  {
    var k := |ms| - 1;
    var ms' := ms[..k] + [ms[k] + [line]];
    assert ms'[..k] == ms[..k];
  }

  /** One more line of the input is one more line of the written-back mirrors, except that the
      first line only opens the first mirror when it is blank. */
  lemma UnparseAddLine(ms: seq<Mirror>, line: string)
    ensures Unparse(AddLine(ms, line)) ==
      if |ms| > 0 then Unparse(ms) + [line] else if line == [] then [] else [line]
  {
    if line == [] {
      if |ms| > 0 {
        assert (ms + [[]])[..|ms|] == ms;
      }
    } else if |ms| > 0 {
      UnparseLastGrows(ms, line);
    }
  }

  /** The lines a parse gives back: all of them, but for a blank first line. */
  function Unblanked(lines: seq<string>): seq<string>
  {
    if |lines| > 0 && lines[0] == [] then lines[1..] else lines
  }

  lemma UnblankedSnoc(init: seq<string>, line: string)
    requires |init| > 0
    ensures Unblanked(init + [line]) == Unblanked(init) + [line]
  {
    if init[0] == [] {
      assert (init + [line])[1..] == init[1..] + [line];
    }
  }

  /** Writing the mirrors back gives the lines, except for a blank first line, which only opens the
      first mirror. */
  lemma {:induction false} UnparseParseValley(lines: seq<string>)
    ensures Unparse(ParseValley(lines)) == if |lines| > 0 && lines[0] == [] then lines[1..] else lines
  {
    if |lines| > 0 {
      var n := |lines| - 1;
      var init := lines[..n];
      var line := lines[n];
      assert lines == init + [line];
      UnparseParseValley(init);
      UnparseAddLine(ParseValley(init), line);
      if n > 0 {
        UnblankedSnoc(init, line);
      }
    }
  }

  /** The mirrors of the input, and the ones the summary can handle: a mirror without a horizontal
      axis must have rows at least as wide as its first (an empty mirror makes `refl_horz` panic). */
  predicate Summarizable(ms: seq<Mirror>)
  {
    forall i :: 0 <= i < |ms| ==> ReflVert(ms[i]).None? ==> WideRows(ms[i])
  }

  /** Every mirror has an axis. */
  predicate AllReflect(ms: seq<Mirror>)
    requires Summarizable(ms)
  {
    forall i :: 0 <= i < |ms| ==> Reflection(ms[i]).Some?
  }

  /** The axis value of every mirror, in input order. */
  function AxisValues(ms: seq<Mirror>): (r: seq<int>)
    requires Summarizable(ms) && AllReflect(ms)
    ensures |r| == |ms|
  {
    seq(|ms|, i requires 0 <= i < |ms| => Reflection(ms[i]).value)
  }

  /** The sum of the reflections, or None if a mirror has none (where `run` unwraps). */
  function SumReflections(ms: seq<Mirror>): (r: Option<nat>)
    requires Summarizable(ms)
    ensures r.Some? <==> AllReflect(ms)
  {
    if |ms| == 0 then Some(0)
    else
      var v :- Reflection(ms[0]);
      assert forall i :: 1 <= i < |ms| ==> ms[i] == ms[1..][i - 1];
      var rest :- SumReflections(ms[1..]);
      Some(v + rest)
  }

  /** When every mirror has an axis, the summary is the sum of their axis values. */
  lemma {:induction false} SumReflectionsValue(ms: seq<Mirror>)
    requires Summarizable(ms) && AllReflect(ms)
    ensures SumReflections(ms) == Some(Sum(AxisValues(ms)))
  {
    if |ms| > 0 {
      var tail := ms[1..];
      assert forall i :: 0 <= i < |tail| ==> tail[i] == ms[i + 1];
      SumReflectionsValue(tail);
      assert AxisValues(ms)[1..] == AxisValues(tail);
    }
  }

  /** `run`: the summary over the mirrors of the input. */
  function Run(input: string): (r: Option<nat>)
    requires Summarizable(ParseValley(Lines(input)))
    ensures r.Some? <==> AllReflect(ParseValley(Lines(input)))
    ensures r.Some? ==> r.value == Sum(AxisValues(ParseValley(Lines(input))))
  {
    var ms := ParseValley(Lines(input));
    if AllReflect(ms) then SumReflectionsValue(ms); SumReflections(ms)
    else SumReflections(ms)
  }

  const SampleFirst: Mirror := ["#.##..##.", "..#.##.#.", "##......#", "##......#", "..#.##.#.", "..##..##.", "#.#.##.#."]

  lemma ExampleFirstLowRows()
    ensures !RowsReflect(SampleFirst, 1) && !RowsReflect(SampleFirst, 2) && !RowsReflect(SampleFirst, 3)
  {
    var m := SampleFirst;
    assert !RowsReflect(m, 1) by { assert m[0][0] != m[1][0]; }
    assert !RowsReflect(m, 2) by { assert m[1][0] != m[2][0]; }
    assert !RowsReflect(m, 3) by { assert m[0][0] != m[5][0]; }
  }

  lemma ExampleFirstHighRows()
    ensures !RowsReflect(SampleFirst, 4) && !RowsReflect(SampleFirst, 5) && !RowsReflect(SampleFirst, 6)
  {
    var m := SampleFirst;
    assert !RowsReflect(m, 4) by { assert m[3][0] != m[4][0]; }
    assert !RowsReflect(m, 5) by { assert m[4][3] != m[5][3]; }
    assert !RowsReflect(m, 6) by { assert m[5][0] != m[6][0]; }
  }

  /** The rows of the first sample mirror reflect nowhere. */
  lemma ExampleFirstRows()
    ensures ReflVert(SampleFirst).None?
  {
    var m := SampleFirst;
    ExampleFirstLowRows();
    ExampleFirstHighRows();
    assert |m| == 7;
    forall y | 1 <= y < |m| ensures !RowsReflect(m, y) {
      assert y in {1, 2, 3, 4, 5, 6};
    }
    NoRowAxis(m);
  }

  lemma NoRowAxis(m: Mirror)
    requires forall y :: 1 <= y < |m| ==> !RowsReflect(m, y)
    ensures ReflVert(m).None?
  {
  }

  /** The columns of the first sample mirror reflect about the axis after column 5. */
  lemma ExampleFirstAxis()
    ensures ColsReflect(SampleFirst, 9, 5)
  {
    var m := SampleFirst;
    assert EqCols(m, 4, 5) && EqCols(m, 3, 6) && EqCols(m, 2, 7) && EqCols(m, 1, 8);
  }

  lemma ExampleFirstLowCols()
    ensures forall x :: 1 <= x < 5 ==> !ColsReflect(SampleFirst, 9, x)
  {
    var m := SampleFirst;
    assert !ColsReflect(m, 9, 1) by { assert !EqCols(m, 0, 1) by { assert m[0][0] != m[0][1]; } }
    assert !ColsReflect(m, 9, 2) by { assert !EqCols(m, 1, 2) by { assert m[0][1] != m[0][2]; } }
    assert !ColsReflect(m, 9, 3) by { assert !EqCols(m, 2, 3) by { assert m[1][2] != m[1][3]; } }
    assert !ColsReflect(m, 9, 4) by { assert !EqCols(m, 3, 4) by { assert m[0][3] != m[0][4]; } }
    forall x | 1 <= x < 5 ensures !ColsReflect(m, 9, x) {
      assert x in {1, 2, 3, 4};
    }
  }

  /** The first axis found from `lo` on is one that reflects with none before it. */
  lemma {:induction false} FirstColsAxisIs(m: Mirror, mx: nat, lo: nat, x: nat)
    requires lo <= x < mx && ColsReflect(m, mx, x)
    requires forall k :: lo <= k < x ==> !ColsReflect(m, mx, k)
    ensures FirstColsAxis(m, mx, lo) == Some(x)
    decreases x - lo
  {
    if lo < x {
      FirstColsAxisIs(m, mx, lo + 1, x);
    }
  }

  /** The first sample mirror reflects about the vertical axis after column 5. */
  lemma ExampleFirst()
    ensures Reflection(SampleFirst) == Some(5)
  {
    var m := SampleFirst;
    ExampleFirstRows();
    ExampleFirstAxis();
    ExampleFirstLowCols();
    assert |m[0]| == 9;
    FirstColsAxisIs(m, 9, 1, 5);
  }
}

=== FILE: day14.dfy ===
/** Day 14 (Parabolic Reflector Dish): rounded rocks `O` roll north until they hit a cube rock `#`,
    the edge, or another rock; a rock's load is its distance from the south edge. The solver never
    moves a rock: it counts the rocks after each cube rock and adds their loads in closed form. */
module Day14 {
  import opened Common
  import opened Strings

  /** `LoadAcc`: the loads of finished ranges, and the rocks seen since the last cube rock, which
      will come to rest from row `firstFree` on. */
  datatype LoadAcc = LoadAcc(size: nat, firstFree: nat, nRocks: nat, loadsSoFar: nat)

  /** `LoadAcc::new`. */
  function NewAcc(size: nat): (a: LoadAcc)
    ensures a.size == size && a.firstFree == 0 && a.nRocks == 0 && a.loadsSoFar == 0
  {
    LoadAcc(size, 0, 0, 0)
  }

  /** The pending rocks fit below row `firstFree`, as they do while every index is below `size`. */
  predicate Fits(a: LoadAcc)
  {
    a.firstFree + a.nRocks <= a.size
  }

  /** The loads `hi, hi - 1, ...` of `n` rocks stacked from a row of load `hi` down. */
  function StackLoad(hi: nat, n: nat): nat
    requires n <= hi
  {
    if n == 0 then 0 else StackLoad(hi, n - 1) + (hi - (n - 1))
  }

  lemma {:induction false} TwiceStackLoad(hi: nat, n: nat)
    requires n <= hi
    ensures 2 * StackLoad(hi, n) == (2 * hi - n + 1) * n
  {
    if n > 0 {
      TwiceStackLoad(hi, n - 1);
      assert (2 * hi - n + 2) * (n - 1) + 2 * (hi - n + 1) == (2 * hi - n + 1) * n;
    }
  }

  /** `sum_last_range`: the arithmetic series `(hi + lo) * n / 2` is the load of the pending
      rocks once they have rolled up against row `firstFree`. */
  function SumLastRange(a: LoadAcc): (r: nat)
    requires Fits(a)
    ensures r == StackLoad(a.size - a.firstFree, a.nRocks)
  {
    if a.nRocks == 0 then 0
    else
      var hi := a.size - a.firstFree;
      var lo := hi - a.nRocks + 1;
      TwiceStackLoad(hi, a.nRocks);
      (hi + lo) * a.nRocks / 2
  }

  /** `LoadAcc::add` for the tile `c` at index `i`: a rounded rock joins the pending range, a cube
      rock banks it and starts a new one below itself, anything else is empty ground. */
  function Add(a: LoadAcc, i: nat, c: char): (r: LoadAcc)
    requires a.firstFree + a.nRocks <= i < a.size
    ensures r.size == a.size && r.firstFree + r.nRocks <= i + 1
    ensures c == 'O' ==> r == a.(nRocks := a.nRocks + 1)
    ensures c == '#' ==> (r.firstFree == i + 1 && r.nRocks == 0
                          && r.loadsSoFar == a.loadsSoFar + StackLoad(a.size - a.firstFree, a.nRocks))
    ensures c != 'O' && c != '#' ==> r == a
  {
    match c
    case 'O' => a.(nRocks := a.nRocks + 1)
    case '#' => a.(loadsSoFar := a.loadsSoFar + SumLastRange(a), firstFree := i + 1, nRocks := 0)
    case _ => a
  }

  /** The fold of `total_load` over the tiles of a column, top to bottom. */
  function Accumulate(size: nat, tiles: seq<char>): (a: LoadAcc)
    requires |tiles| <= size
    ensures a.size == size && a.firstFree + a.nRocks <= |tiles|
  {
    if |tiles| == 0 then NewAcc(size)
    else
      var n := |tiles| - 1;
      Add(Accumulate(size, tiles[..n]), n, tiles[n])
  }

  /** `LoadAcc::total`. */
  function Total(a: LoadAcc): (r: nat)
    requires Fits(a)
    ensures r == a.loadsSoFar + StackLoad(a.size - a.firstFree, a.nRocks)
  {
    a.loadsSoFar + SumLastRange(a)
  }

  /** `total_load`: the load of one column of `size` tiles. */
  function TotalLoad(size: nat, tiles: seq<char>): (r: nat)
    requires |tiles| <= size
    ensures r == TiltedLoad(size, tiles)
  {
    AccumulateTilted(size, tiles);
    Total(Accumulate(size, tiles))
  }

  // ---------------------------------------------------------------------------------------------
  // The load of the tilted column, rock by rock

  /** The row just below the last cube rock of `p`, or the top row. */
  function Start(p: seq<char>): (r: nat)
    ensures r <= |p|
  {
    if |p| == 0 then 0 else if p[|p| - 1] == '#' then |p| else Start(p[..|p| - 1])
  }

  /** The row where a rock following `p` comes to rest: below the last cube rock and below the
      rocks that rolled there before it. */
  function RestingRow(p: seq<char>): nat
  {
    Start(p) + CountOf(p[Start(p)..], 'O')
  }

  /** The load of the column after tilting it north: each rounded rock adds the distance from its
      resting row to the south edge. */
  function TiltedLoad(size: nat, tiles: seq<char>): int
  {
    if |tiles| == 0 then 0
    else
      var n := |tiles| - 1;
      TiltedLoad(size, tiles[..n]) + (if tiles[n] == 'O' then size - RestingRow(tiles[..n]) else 0)
  }

  /** What the accumulator holds after the prefix `q` of a column: the pending range starts after
      the last cube rock and holds the rocks after it, and banked plus pending loads are the tilted
      load of the prefix. */
  predicate StateOk(size: nat, q: seq<char>, a: LoadAcc)
  {
    && a.firstFree == Start(q)
    && a.nRocks == CountOf(q[Start(q)..], 'O')
    && a.firstFree + a.nRocks <= size
    && a.loadsSoFar + StackLoad(size - a.firstFree, a.nRocks) == TiltedLoad(size, q)
  }

  /** The fold over a prefix of the column leaves the accumulator in the state `StateOk` describes. */
  lemma {:induction false} AccumulateState(size: nat, p: seq<char>)
    requires |p| <= size
    ensures StateOk(size, p, Accumulate(size, p))
  {
    if |p| > 0 {
      var n := |p| - 1;
      var q, c := p[..n], p[n];
      assert p == q + [c];
      AccumulateState(size, q);
      AccumulateSnoc(size, q, c);
      StepState(size, q, c, Accumulate(size, q));
    }
  }

  /** One tile extends the state `StateOk` describes. */
  lemma StepState(size: nat, q: seq<char>, c: char, a: LoadAcc)
    requires |q| < size && a.size == size && a.firstFree + a.nRocks <= |q| && StateOk(size, q, a)
    ensures StateOk(size, q + [c], Add(a, |q|, c))
  {
    StartSnoc(q, c);
    TiltedLoadSnoc(size, q, c);
    if c == 'O' {
      StepRock(size, q, a);
    } else if c == '#' {
      StepCube(size, q, a);
    } else {
      StepEmpty(size, q, c, a);
    }
  }

  lemma StepRock(size: nat, q: seq<char>, a: LoadAcc)
    requires |q| < size && a.firstFree + a.nRocks <= |q| && StateOk(size, q, a)
    requires Start(q + ['O']) == Start(q)
    requires TiltedLoad(size, q + ['O']) == TiltedLoad(size, q) + (size - RestingRow(q))
    ensures StateOk(size, q + ['O'], a.(nRocks := a.nRocks + 1))
  {
    var s := Start(q);
    assert (q + ['O'])[s..] == q[s..] + ['O'];
    CountOfAppend(q[s..], ['O'], 'O');
    assert CountOf(['O'], 'O') == 1;
    assert RestingRow(q) == a.firstFree + a.nRocks;
    assert StackLoad(size - a.firstFree, a.nRocks + 1) == StackLoad(size - a.firstFree, a.nRocks) + (size - RestingRow(q));
  }

  lemma StepCube(size: nat, q: seq<char>, a: LoadAcc)
    requires |q| < size && a.size == size && a.firstFree + a.nRocks <= |q| && StateOk(size, q, a)
    requires Start(q + ['#']) == |q| + 1
    requires TiltedLoad(size, q + ['#']) == TiltedLoad(size, q)
    ensures StateOk(size, q + ['#'], Add(a, |q|, '#'))
  {
    assert (q + ['#'])[|q| + 1..] == [];
  }

  lemma StepEmpty(size: nat, q: seq<char>, c: char, a: LoadAcc)
    requires c != 'O' && c != '#' && |q| < size && StateOk(size, q, a)
    requires Start(q + [c]) == Start(q)
    requires TiltedLoad(size, q + [c]) == TiltedLoad(size, q)
    ensures StateOk(size, q + [c], a)
  {
    var s := Start(q);
    assert (q + [c])[s..] == q[s..] + [c];
    CountOfAppend(q[s..], [c], 'O');
    assert CountOf([c], 'O') == 0;
  }

  lemma AccumulateSnoc(size: nat, q: seq<char>, c: char)
    requires |q| < size
    ensures Accumulate(size, q + [c]) == Add(Accumulate(size, q), |q|, c)
  {
    assert (q + [c])[..|q|] == q;
  }

  lemma StartSnoc(q: seq<char>, c: char)
    ensures Start(q + [c]) == if c == '#' then |q| + 1 else Start(q)
  {
    assert (q + [c])[..|q|] == q;
  }

  lemma TiltedLoadSnoc(size: nat, q: seq<char>, c: char)
    ensures TiltedLoad(size, q + [c]) == TiltedLoad(size, q) + (if c == 'O' then size - RestingRow(q) else 0)
  {
    assert (q + [c])[..|q|] == q;
  }

  /** The closed-form accumulator gives the load of the tilted column. */
  lemma AccumulateTilted(size: nat, tiles: seq<char>)
    requires |tiles| <= size
    ensures Total(Accumulate(size, tiles)) == TiltedLoad(size, tiles)
  {
    AccumulateState(size, tiles);
  }

  /** Two rocks around a cube rock: the first rolls to the top (load 5), the second up against the
      cube rock (load 2). */
  lemma ExampleTilted()
    ensures TiltedLoad(5, ".O#.O") == 7
  {
    assert TiltedLoad(5, ".") == 0 by { TiltedLoadSnoc(5, "", '.'); assert "" + ['.'] == "."; }
    assert RestingRow(".") == 0 by {
      StartSnoc("", '.');
      assert "" + ['.'] == ".";
      assert (".")[0..] == ".";
    }
    assert TiltedLoad(5, ".O") == 5 by { TiltedLoadSnoc(5, ".", 'O'); assert "." + ['O'] == ".O"; }
    assert TiltedLoad(5, ".O#") == 5 by { TiltedLoadSnoc(5, ".O", '#'); assert ".O" + ['#'] == ".O#"; }
    assert TiltedLoad(5, ".O#.") == 5 by { TiltedLoadSnoc(5, ".O#", '.'); assert ".O#" + ['.'] == ".O#."; }
    assert Start(".O#") == 3 by { StartSnoc(".O", '#'); assert ".O" + ['#'] == ".O#"; }
    assert RestingRow(".O#.") == 3 by {
      StartSnoc(".O#", '.');
      assert ".O#" + ['.'] == ".O#.";
      assert (".O#.")[3..] == ".";
    }
    TiltedLoadSnoc(5, ".O#.", 'O');
    assert ".O#." + ['O'] == ".O#.O";
  }

  lemma ExampleColumn()
    ensures TotalLoad(5, ".O#.O") == 7
  {
    ExampleTilted();
  }

  // ---------------------------------------------------------------------------------------------
  // `p1`

  /** The tiles of column `col`, top to bottom. */
  function Column(rows: seq<string>, col: nat): (t: seq<char>)
    requires forall r :: 0 <= r < |rows| ==> col < |rows[r]|
    ensures |t| == |rows| && forall r :: 0 <= r < |rows| ==> t[r] == rows[r][col]
  {
    seq(|rows|, r requires 0 <= r < |rows| => rows[r][col])
  }

  /** The column loads summed from column `col` on. */
  function LoadsFrom(rows: seq<string>, col: nat): nat
    requires WideRows(rows)
    decreases |rows[0]| - col
  {
    if col >= |rows[0]| then 0 else TotalLoad(|rows|, Column(rows, col)) + LoadsFrom(rows, col + 1)
  }

  /** The tilted loads summed from column `col` on. */
  function TiltedLoadsFrom(rows: seq<string>, col: nat): int
    requires WideRows(rows)
    decreases |rows[0]| - col
  {
    if col >= |rows[0]| then 0 else TiltedLoad(|rows|, Column(rows, col)) + TiltedLoadsFrom(rows, col + 1)
  }

  lemma {:induction false} LoadsFromTilted(rows: seq<string>, col: nat)
    requires WideRows(rows)
    ensures LoadsFrom(rows, col) == TiltedLoadsFrom(rows, col)
    decreases |rows[0]| - col
  {
    if col < |rows[0]| {
      LoadsFromTilted(rows, col + 1);
    }
  }

  /** `p1`: the total load on the north beams after tilting the platform north, column by column
      over the width of the first row (the source indexes every row up to that width). */
  function P1(input: string): (r: nat)
    requires WideRows(Lines(input))
    ensures r == TiltedLoadsFrom(Lines(input), 0)
  {
    LoadsFromTilted(Lines(input), 0);
    LoadsFrom(Lines(input), 0)
  }
}

=== FILE: day15.dfy ===
/** Day 15 (Lens Library): the HASH algorithm over the comma-separated steps of the initialization
    sequence. */
module Day15 {
  import opened Common
  import opened Strings

  /** One round of HASH: add the byte, multiply by 17, keep the remainder modulo 256. */
  function Round(acc: int, c: char): int
  {
    ((acc + c as int) * 17) % 256
  }

  /** `xhash`: the fold of `Round` over the bytes, from 0. */
  function XHash(s: string): (r: nat)
    ensures r < 256
  {
    if |s| == 0 then 0 else Round(XHash(s[..|s| - 1]), s[|s| - 1])
  }

  /** The hash as a polynomial in 17 without reduction: byte `i` of `n` has weight `17^(n - i)`. */
  function Poly(s: string): int
  {
    if |s| == 0 then 0 else (Poly(s[..|s| - 1]) + s[|s| - 1] as int) * 17
  }

  lemma ModOfSum(a: int, c: int)
    ensures ((a % 256 + c) * 17) % 256 == ((a + c) * 17) % 256
  {
    var q := a / 256;
    assert a == q * 256 + a % 256;
    assert (a + c) * 17 == (a % 256 + c) * 17 + (q * 17) * 256;
  }

  /** Reducing after every round is reducing the polynomial once at the end. */
  lemma {:induction false} XHashIsPolyMod(s: string)
    ensures XHash(s) == Poly(s) % 256
  {
    if |s| > 0 {
      var init := s[..|s| - 1];
      XHashIsPolyMod(init);
      ModOfSum(Poly(init), s[|s| - 1] as int);
    }
  }

  /** The hash of the empty string is 0. */
  lemma XHashEmpty()
    ensures XHash("") == 0
  {
  }

  /** The example from the puzzle: HASH of "HASH" is 52. */
  lemma ExampleHash()
    ensures XHash("HASH") == 52
  {
    assert "HASH"[..3] == "HAS" && "HAS"[..2] == "HA" && "HA"[..1] == "H" && "H"[..0] == "";
    assert XHash("H") == 200;
    assert XHash("HA") == 153;
    assert XHash("HAS") == 172;
  }

  /** The sum of the hashes of the steps. */
  function SumHashes(steps: seq<string>): (r: nat)
    ensures r <= 255 * |steps|
  {
    if |steps| == 0 then 0 else XHash(steps[0]) + SumHashes(steps[1..])
  }

  /** `run`: the sum of the hashes of the steps of the trimmed input. */
  function Run(input: string): (r: nat)
    ensures r <= 255 * |Split(Trim(input), ',')|
  {
    SumHashes(Split(Trim(input), ','))
  }

  /** Steps without commas, joined with commas, are hashed one by one. */
  lemma RunOfSteps(steps: seq<string>)
    requires |steps| > 0 && forall i :: 0 <= i < |steps| ==> NoneIn(steps[i], {','})
    requires Trim(Join(steps, ",")) == Join(steps, ",")
    ensures Run(Join(steps, ",")) == SumHashes(steps)
  {
    JoinSplit(steps, ',');
  }
}

=== FILE: day16.dfy ===
/** Day 16 (The Floor Will Be Lava): a beam enters the top-left tile heading right; mirrors `/` and
    `\` turn it, splitters `|` and `-` split a beam that hits them flat into two, and everything else
    lets it through. The answer is the number of tiles some beam passes. */
module Day16 {
  import opened Common
  import opened Strings
  import G = Grid

  datatype Dir = Left | Right | Up | Down

  /** `Dir::idx`: the bit of the direction in a tile's mask. */
  function Idx(d: Dir): (r: nat)
    ensures r < 4
  {
    match d
    case Left => 0
    case Right => 1
    case Up => 2
    case Down => 3
  }

  /** Every bit of the mask belongs to exactly one direction. */
  lemma IdxBijective()
    ensures forall a: Dir, b: Dir :: Idx(a) == Idx(b) ==> a == b
    ensures {Idx(Left), Idx(Right), Idx(Up), Idx(Down)} == {0, 1, 2, 3}
  {
  }

  /** `Dir::delta`: the unit step, `y` growing downwards. */
  function Delta(d: Dir): (r: (int, int))
    ensures Abs(r.0) + Abs(r.1) == 1
  {
    match d
    case Left => (-1, 0)
    case Right => (1, 0)
    case Up => (0, -1)
    case Down => (0, 1)
  }

  lemma DeltaInjective(a: Dir, b: Dir)
    ensures Delta(a) == Delta(b) ==> a == b
  {
  }

  predicate Horizontal(d: Dir)
  {
    d == Left || d == Right
  }

  /** The mirror `/`. */
  function Slash(d: Dir): Dir
  {
    match d
    case Left => Down
    case Right => Up
    case Up => Right
    case Down => Left
  }

  /** The mirror `\`. */
  function Backslash(d: Dir): Dir
  {
    match d
    case Left => Up
    case Right => Down
    case Up => Left
    case Down => Right
  }

  function Dot(a: (int, int), b: (int, int)): int
  {
    a.0 * b.0 + a.1 * b.1
  }

  /** Both mirrors turn a beam by a right angle, undo themselves, and turn the opposite beam into
      the opposite beam. */
  lemma MirrorsTurn(d: Dir)
    ensures Dot(Delta(d), Delta(Slash(d))) == 0 && Dot(Delta(d), Delta(Backslash(d))) == 0
    ensures Slash(Slash(d)) == d && Backslash(Backslash(d)) == d
    ensures Delta(Slash(d)).0 == -Delta(Backslash(d)).0 && Delta(Slash(d)).1 == -Delta(Backslash(d)).1
  {
  }

  // ---------------------------------------------------------------------------------------------
  // `Map::parse`

  /** The contraption: `dx` by `dy` tiles stored row by row. */
  datatype Map = Map(dx: nat, dy: nat, w: string)
  {
    predicate Valid()
    {
      |w| == dx * dy
    }
  }

  /** The `try_fold` of `Map::parse` with the width `dx` (set by the first line while no tile has
      been read) and the tiles `w` read so far. */
  function ParseFold(lines: seq<string>, dx: nat, w: string): (r: Result<(nat, string)>)
    ensures r.Ok? <==> G.Uniform(lines) && (|w| > 0 ==> forall j :: 0 <= j < |lines| ==> |lines[j]| == dx)
    ensures r.Ok? ==> r.value.1 == w + Concat(lines)
    ensures r.Ok? && |w| > 0 ==> r.value.0 == dx
    ensures r.Ok? ==> forall j :: 0 <= j < |lines| && |lines[j]| > 0 ==> r.value.0 == |lines[j]|
  {
    if |lines| == 0 then Ok((dx, w))
    else
      var dx' := if |w| == 0 then |lines[0]| else dx;
      if |w| > 0 && |lines[0]| != dx then Err("invalid line")
      else
        var rest := ParseFold(lines[1..], dx', w + lines[0]);
        G.UniformCons(lines);
        assert forall j :: 1 <= j < |lines| ==> lines[j] == lines[1..][j - 1];
        assert Concat(lines) == lines[0] + Concat(lines[1..]);
        rest
  }

  /** `Map::parse`: rows of equal length. An input with no non-empty line divides by zero. */
  function ParseLines(lines: seq<string>): (r: Result<Map>)
    requires exists i :: 0 <= i < |lines| && |lines[i]| > 0
    ensures r.Ok? <==> G.Uniform(lines)
    ensures r.Ok? ==> r.value.Valid() && r.value.dx > 0 && r.value.w == Concat(lines)
    ensures r.Ok? ==> r.value.dy == G.CountNonEmpty(lines) > 0
    ensures r.Ok? ==> forall i :: 0 <= i < |lines| && |lines[i]| > 0 ==> r.value.dx == |lines[i]|
  {
    var (dx, w) :- ParseFold(lines, 0, []);
    var k :| 0 <= k < |lines| && |lines[k]| > 0;
    assert dx == |lines[k]|;
    var n := G.CountNonEmpty(lines);
    G.CountNonEmptyPositive(lines, k);
    G.ConcatUniformLength(lines, dx);
    assert |w| == dx * n;
    G.DivModUnique(0, n, dx);
    Ok(Map(dx, |w| / dx, w))
  }

  /** The contraption reads the same as the shared grid reader would read it. */
  lemma ParseLinesIsGridParse(lines: seq<string>)
    requires exists i :: 0 <= i < |lines| && |lines[i]| > 0
    ensures ParseLines(lines).Ok? <==> G.ParseLines(lines).Ok?
    ensures ParseLines(lines).Ok? ==> var m, g := ParseLines(lines).value, G.ParseLines(lines).value;
      m.dx == g.dx && m.dy == g.dy && m.w == g.m
  {
    if ParseLines(lines).Ok? {
      var k :| 0 <= k < |lines| && |lines[k]| > 0;
      var m, g := ParseLines(lines).value, G.ParseLines(lines).value;
      assert m.dx == g.dx;
    }
  }

  // ---------------------------------------------------------------------------------------------
  // `Map::fire`

  /** A beam: a tile position and the direction it travels in. */
  datatype Beam = Beam(x: int, y: int, d: Dir)

  predicate Inside(m: Map, b: Beam)
  {
    0 <= b.x < m.dx && 0 <= b.y < m.dy
  }

  function TileAt(m: Map, b: Beam): char
    requires m.Valid() && Inside(m, b)
  {
    assert b.x + b.y * m.dx < |m.w| by {
      assert b.y * m.dx <= (m.dy - 1) * m.dx;
    }
    m.w[b.x + b.y * m.dx]
  }

  /** The beam one step on from `b`'s tile in direction `d`. */
  function Go(b: Beam, d: Dir): (r: Beam)
    ensures r.d == d && r.x == b.x + Delta(d).0 && r.y == b.y + Delta(d).1
    ensures (if r.x >= b.x then r.x - b.x else b.x - r.x) + (if r.y >= b.y then r.y - b.y else b.y - r.y) == 1
    ensures Horizontal(d) <==> r.y == b.y
  {
    Beam(b.x + Delta(d).0, b.y + Delta(d).1, d)
  }

  /** Where a beam goes from its tile: one beam, or two for a splitter hit flat (the `fire`
      recursion takes the first, the loop goes on with the second). */
  function Next(m: Map, b: Beam): (r: seq<Beam>)
    requires m.Valid() && Inside(m, b)
    ensures |r| == 1 || |r| == 2
    ensures |r| == 2 <==> (TileAt(m, b) == '|' && Horizontal(b.d)) || (TileAt(m, b) == '-' && !Horizontal(b.d))
  {
    match TileAt(m, b)
    case '/' => [Go(b, Slash(b.d))]
    case '\\' => [Go(b, Backslash(b.d))]
    case '|' => if Horizontal(b.d) then [Go(b, Up), Go(b, Down)] else [Go(b, b.d)]
    case '-' => if !Horizontal(b.d) then [Go(b, Left), Go(b, Right)] else [Go(b, b.d)]
    case _ => [Go(b, b.d)]
  }

  /** A beam crossing empty ground or a splitter edge-on keeps its direction; a splitter hit flat
      sends beams both ways along it. */
  lemma NextCases(m: Map, b: Beam)
    requires m.Valid() && Inside(m, b)
    ensures TileAt(m, b) !in {'/', '\\', '|', '-'} ==> Next(m, b) == [Go(b, b.d)]
    ensures TileAt(m, b) == '|' && Horizontal(b.d) ==> Next(m, b) == [Go(b, Up), Go(b, Down)]
    ensures TileAt(m, b) == '-' && !Horizontal(b.d) ==> Next(m, b) == [Go(b, Left), Go(b, Right)]
  {
  }

  /** Every beam inside the contraption. */
  function Universe(m: Map): set<Beam>
  {
    set x: int, y: int, d: Dir | 0 <= x < m.dx && 0 <= y < m.dy && d in {Left, Right, Up, Down} :: Beam(x, y, d)
  }

  lemma InUniverse(m: Map, b: Beam)
    ensures b in Universe(m) <==> Inside(m, b)
  {
    if Inside(m, b) {
      assert b.d in {Left, Right, Up, Down} by {
        match b.d
        case Left =>
        case Right =>
        case Up =>
        case Down =>
      }
      assert Beam(b.x, b.y, b.d) == b;
    }
  }

  /** Every beam passed since `lit` whose next beams are inside has them passed too. */
  ghost predicate ClosedSince(m: Map, r: set<Beam>, lit: set<Beam>)
    requires m.Valid()
    requires forall b :: b in r ==> Inside(m, b)
  {
    forall b, k :: b in r && b !in lit && 0 <= k < |Next(m, b)| && Inside(m, Next(m, b)[k]) ==> Next(m, b)[k] in r
  }

  /** `fire`: the beams passed starting from `b`, given those in `lit` (the direction bits already
      set). A beam leaving the contraption or repeating a passed beam stops; bits are only ever set,
      so the unset beams of the contraption decrease. */
  function Fire(m: Map, lit: set<Beam>, b: Beam): (r: set<Beam>)
    requires m.Valid()
    requires forall c :: c in lit ==> Inside(m, c)
    ensures lit <= r
    ensures forall c :: c in r ==> Inside(m, c)
    ensures Inside(m, b) ==> b in r
    ensures ClosedSince(m, r, lit)
    decreases |Universe(m) - lit|
  {
    if !Inside(m, b) || b in lit then lit
    else
      var lit' := lit + {b};
      Shrinks(m, lit, b);
      var ns := Next(m, b);
      if |ns| == 1 then
        var r := Fire(m, lit', ns[0]);
        assert ClosedSince(m, r, lit) by { ClosedStep(m, lit, b, r, r); }
        r
      else
        var r1 := Fire(m, lit', ns[0]);
        Subset(m, lit', r1);
        var r := Fire(m, r1, ns[1]);
        assert ClosedSince(m, r, lit) by { ClosedStep(m, lit, b, r1, r); }
        r
  }

  /** Setting the bit of an unset beam shrinks the unset beams. */
  lemma Shrinks(m: Map, lit: set<Beam>, b: Beam)
    requires Inside(m, b) && b !in lit
    ensures |Universe(m) - (lit + {b})| < |Universe(m) - lit|
  {
    InUniverse(m, b);
    var u := Universe(m) - lit;
    assert Universe(m) - (lit + {b}) == u - {b};
    assert u == (u - {b}) + {b};
  }

  lemma Subset(m: Map, a: set<Beam>, b: set<Beam>)
    requires a <= b
    ensures |Universe(m) - b| <= |Universe(m) - a|
  {
    var u, v := Universe(m) - b, Universe(m) - a;
    assert u <= v;
    assert v == u + (v - u) && u * (v - u) == {};
  }

  /** The closure facts of the recursive calls make the beam's own result closed. */
  lemma ClosedStep(m: Map, lit: set<Beam>, b: Beam, r1: set<Beam>, r: set<Beam>)
    requires m.Valid() && Inside(m, b) && b !in lit
    requires lit + {b} <= r1 <= r
    requires forall c :: c in r ==> Inside(m, c)
    requires ClosedSince(m, r1, lit + {b}) && ClosedSince(m, r, r1)
    requires forall k :: 0 <= k < |Next(m, b)| && Inside(m, Next(m, b)[k]) ==> Next(m, b)[k] in r
    ensures ClosedSince(m, r, lit)
  {
  }

  /** Every beam a closed set could stop at: the set holds the next beams inside of its beams. */
  ghost predicate Closed(m: Map, s: set<Beam>)
    requires m.Valid()
  {
    forall c, k :: c in s && Inside(m, c) && 0 <= k < |Next(m, c)| && Inside(m, Next(m, c)[k]) ==> Next(m, c)[k] in s
  }

  /** `fire` passes no beam that is not forced: its result lies within any closed set that holds
      the starting beam. */
  lemma {:induction false} FireLeast(m: Map, lit: set<Beam>, b: Beam, s: set<Beam>)
    requires m.Valid()
    requires forall c :: c in lit ==> Inside(m, c)
    requires Closed(m, s) && (Inside(m, b) ==> b in s)
    ensures Fire(m, lit, b) <= lit + s
    decreases |Universe(m) - lit|
  {
    if Inside(m, b) && b !in lit {
      var lit' := lit + {b};
      Shrinks(m, lit, b);
      var ns := Next(m, b);
      FireLeast(m, lit', ns[0], s);
      if |ns| == 2 {
        var r1 := Fire(m, lit', ns[0]);
        Subset(m, lit', r1);
        FireLeast(m, r1, ns[1], s);
      }
    }
  }

  /** The beams of the whole run from the top-left corner heading right. */
  function Energized(m: Map): (r: set<Beam>)
    requires m.Valid()
    ensures forall c :: c in r ==> Inside(m, c)
  {
    Fire(m, {}, Beam(0, 0, Right))
  }

  /** The run holds its start, is closed, and is the least such set. */
  lemma EnergizedIsLeastClosed(m: Map, s: set<Beam>)
    requires m.Valid()
    ensures Closed(m, Energized(m))
    ensures Inside(m, Beam(0, 0, Right)) ==> Beam(0, 0, Right) in Energized(m)
    ensures Closed(m, s) && (Inside(m, Beam(0, 0, Right)) ==> Beam(0, 0, Right) in s) ==> Energized(m) <= s
  {
    if Closed(m, s) && (Inside(m, Beam(0, 0, Right)) ==> Beam(0, 0, Right) in s) {
      FireLeast(m, {}, Beam(0, 0, Right), s);
    }
  }

  // ---------------------------------------------------------------------------------------------
  // `count_energized`

  /** Some beam passes the tile at index `i`. */
  predicate LitTile(m: Map, lit: set<Beam>, i: nat)
    requires m.dx > 0
  {
    var x, y := i % m.dx, i / m.dx;
    Beam(x, y, Left) in lit || Beam(x, y, Right) in lit || Beam(x, y, Up) in lit || Beam(x, y, Down) in lit
  }

  /** The tiles among the first `n` with a bit set. */
  function CountLit(m: Map, lit: set<Beam>, n: nat): (r: nat)
    requires m.dx > 0
    ensures r <= n
  {
    if n == 0 then 0 else CountLit(m, lit, n - 1) + (if LitTile(m, lit, n - 1) then 1 else 0)
  }

  /** More beams light at least as many tiles. */
  lemma {:induction false} CountLitMonotone(m: Map, a: set<Beam>, b: set<Beam>, n: nat)
    requires m.dx > 0 && a <= b
    ensures CountLit(m, a, n) <= CountLit(m, b, n)
  {
    if n > 0 {
      CountLitMonotone(m, a, b, n - 1);
    }
  }

  /** A lit tile among the first `n` is counted. */
  lemma {:induction false} CountLitPositive(m: Map, lit: set<Beam>, n: nat, i: nat)
    requires m.dx > 0 && i < n && LitTile(m, lit, i)
    ensures CountLit(m, lit, n) >= 1
  {
    if i < n - 1 {
      CountLitPositive(m, lit, n - 1, i);
    }
  }

  /** `count_energized`: the tiles with some direction bit set; at most every tile. */
  function CountEnergized(m: Map, lit: set<Beam>): (r: nat)
    requires m.Valid() && m.dx > 0
    ensures r <= m.dx * m.dy
  {
    CountLit(m, lit, |m.w|)
  }

  /** `part1`: the energized tiles of the contraption. */
  function Part1(input: string): (r: Result<nat>)
    requires exists i :: 0 <= i < |Lines(input)| && |Lines(input)[i]| > 0
    ensures r.Ok? <==> G.Uniform(Lines(input))
    ensures r.Ok? ==> var m := ParseLines(Lines(input)).value;
      1 <= r.value <= m.dx * m.dy && r.value == CountEnergized(m, Energized(m))
  {
    var m :- ParseLines(Lines(input));
    var lit := Energized(m);
    StartLit(m);
    Ok(CountEnergized(m, lit))
  }

  /** The top-left tile is always energized. */
  lemma StartLit(m: Map)
    requires m.Valid() && m.dx > 0 && m.dy > 0
    ensures CountEnergized(m, Energized(m)) >= 1
  {
    var lit := Energized(m);
    StartTileLit(m, lit);
    TilesPositive(m);
    CountLitPositive(m, lit, |m.w|, 0);
  }

  /** A map of positive width and height has tiles. */
  lemma TilesPositive(m: Map)
    requires m.Valid() && m.dx > 0 && m.dy > 0
    ensures |m.w| > 0
  {
    G.MulAtLeast(m.dy, m.dx);
  }

  /** The run from the top-left corner lights the first tile. */
  lemma StartTileLit(m: Map, lit: set<Beam>)
    requires m.Valid() && m.dx > 0 && m.dy > 0 && lit == Energized(m)
    ensures LitTile(m, lit, 0)
  {
    assert Beam(0, 0, Right) in lit;
    assert 0 % m.dx == 0 && 0 / m.dx == 0;
  }
}

=== FILE: day17.dfy ===
/** Day 17 (Clumsy Crucible): the crucible moves between the digit cells of the city grid, never
    reversing and never going more than three cells straight; entering a cell costs its digit. The
    search for the cheapest path is a library A* call; what is modelled is the move rule it is
    given and its distance heuristic. */
module Day17 {
  import opened Common
  import opened G = Grid

  /** A search node: where the crucible is, its last step and how many steps it has gone that way. */
  datatype Node = Node(pos: CellP, lastDir: CellP, lastCount: nat)

  /** `Node::pt`: a node at `(x, y)` with no last step. */
  function Pt(x: int, y: int): (n: Node)
    ensures n.pos == (x, y) && n.lastDir == (0, 0) && n.lastCount == 0
  {
    Node((x, y), (0, 0), 0)
  }

  /** `back`: the reverse of a step. */
  function Back(d: CellP): (r: CellP)
    ensures r.0 + d.0 == 0 && r.1 + d.1 == 0
  {
    (-d.0, -d.1)
  }

  lemma BackInvolution(d: CellP)
    ensures Back(Back(d)) == d
    ensures Back(d) == d <==> d == (0, 0)
  {
  }

  /** The four unit steps, in the order `successors` tries them. */
  const Adj: seq<CellP> := [(-1, 0), (1, 0), (0, 1), (0, -1)]

  /** The node reached by stepping `d` from `n`: the straight count goes on in the same direction
      and restarts at 1 otherwise. */
  function Cand(n: Node, d: CellP): (c: Node)
    ensures c.pos == (n.pos.0 + d.0, n.pos.1 + d.1) && c.lastDir == d
    ensures c.lastCount == if d == n.lastDir then n.lastCount + 1 else 1
  {
    Node((n.pos.0 + d.0, n.pos.1 + d.1), d, if d == n.lastDir then n.lastCount + 1 else 1)
  }

  /** A step `successors` keeps: not back, onto the grid, at most three in a row. */
  predicate Allowed(g: Grid<char>, n: Node, d: CellP)
  {
    d != Back(n.lastDir) && g.IsInside(Cand(n, d).pos) && Cand(n, d).lastCount <= 3
  }

  /** The cost of entering a cell, `c - b'0'`; below `'0'` the byte subtraction overflows. */
  function Cost(c: char): Option<nat>
  {
    if c >= '0' then Some(c as int - '0' as int) else None
  }

  function CellAt(g: Grid<char>, p: CellP): char
    requires g.Valid() && g.IsInside(p)
  {
    g.Get(p).value
  }

  /** `successors` over the steps `ds`: the kept steps in order, each with the cost of its cell. */
  function SuccFrom(g: Grid<char>, n: Node, ds: seq<CellP>): (r: Result<seq<(Node, nat)>>)
    requires g.Valid()
    ensures r.Ok? <==> forall i :: 0 <= i < |ds| && Allowed(g, n, ds[i]) ==> Cost(CellAt(g, Cand(n, ds[i]).pos)).Some?
    ensures r.Ok? ==> forall s :: s in r.value ==>
      exists i :: (0 <= i < |ds| && Allowed(g, n, ds[i]) && s == (Cand(n, ds[i]), Cost(CellAt(g, Cand(n, ds[i]).pos)).value))
    ensures r.Ok? ==> forall i :: 0 <= i < |ds| && Allowed(g, n, ds[i]) ==> (Cand(n, ds[i]), Cost(CellAt(g, Cand(n, ds[i]).pos)).value) in r.value
    ensures r.Ok? ==> |r.value| + CountOf(ds, Back(n.lastDir)) <= |ds|
  {
    if |ds| == 0 then Ok([])
    else
      assert forall i :: 1 <= i < |ds| ==> ds[i] == ds[1..][i - 1];
      var rest :- SuccFrom(g, n, ds[1..]);
      if !Allowed(g, n, ds[0]) then Ok(rest)
      else
        var c := Cand(n, ds[0]);
        var cost :- OkOr(Cost(CellAt(g, c.pos)), "cell below '0'");
        Ok([(c, cost)] + rest)
  }

  /** `Node::successors`: at most four successors, and at most three after a step, since the step
      back is never offered. */
  function Successors(g: Grid<char>, n: Node): (r: Result<seq<(Node, nat)>>)
    requires g.Valid()
    ensures r.Ok? ==> |r.value| <= 4
    ensures r.Ok? && n.lastDir in Adj ==> |r.value| <= 3
  {
    var r := SuccFrom(g, n, Adj);
    assert n.lastDir in Adj ==> CountOf(Adj, Back(n.lastDir)) >= 1 by {
      if n.lastDir in Adj {
        assert Back(n.lastDir) in Adj;
        CountOfIsMultiplicity(Adj, Back(n.lastDir));
      }
    }
    r
  }

  /** Every successor is one unit step from the node, not back along its last step, inside the
      grid, at most three steps straight, with the straight count carried on or restarted, and costs
      the digit of the cell it enters. */
  lemma SuccessorsSound(g: Grid<char>, n: Node, s: (Node, nat))
    requires g.Valid() && Successors(g, n).Ok? && s in Successors(g, n).value
    ensures s.0.lastDir in Adj && s.0.lastDir != Back(n.lastDir)
    ensures s.0.pos == (n.pos.0 + s.0.lastDir.0, n.pos.1 + s.0.lastDir.1) && g.IsInside(s.0.pos)
    ensures s.0.lastCount == (if s.0.lastDir == n.lastDir then n.lastCount + 1 else 1) && s.0.lastCount <= 3
    ensures CellAt(g, s.0.pos) >= '0' && s.1 == CellAt(g, s.0.pos) as int - '0' as int
  {
  }

  /** Every step the rule allows is among the successors. */
  lemma SuccessorsComplete(g: Grid<char>, n: Node, d: CellP)
    requires g.Valid() && Successors(g, n).Ok? && d in Adj && Allowed(g, n, d)
    ensures exists s :: s in Successors(g, n).value && s.0.lastDir == d
  {
    var i :| 0 <= i < |Adj| && Adj[i] == d;
    assert (Cand(n, d), Cost(CellAt(g, Cand(n, d).pos)).value) in Successors(g, n).value;
  }

  /** After three steps in one direction the fourth is never offered. */
  lemma NoFourthStep(g: Grid<char>, n: Node, s: (Node, nat))
    requires g.Valid() && n.lastCount >= 3 && Successors(g, n).Ok? && s in Successors(g, n).value
    ensures s.0.lastDir != n.lastDir
  {
    SuccessorsSound(g, n, s);
  }

  /** The start node, with no last step, may step in all four directions that stay on the grid. */
  lemma StartMoves(g: Grid<char>, x: int, y: int, d: CellP)
    requires d in Adj
    ensures Allowed(g, Pt(x, y), d) <==> g.IsInside((x + d.0, y + d.1))
  {
  }

  /** `Node::distance`: the Manhattan distance to the goal. */
  function Distance(n: Node, goal: CellP): (r: nat)
    ensures r == 0 <==> n.pos == goal
  {
    Abs(n.pos.0 - goal.0) + Abs(n.pos.1 - goal.1)
  }

  /** The heuristic is consistent when every cell costs at least 1: one step changes the distance by
      exactly one, and so by no more than its cost. */
  lemma DistanceConsistent(g: Grid<char>, n: Node, s: (Node, nat), goal: CellP)
    requires g.Valid() && Successors(g, n).Ok? && s in Successors(g, n).value
    ensures Distance(s.0, goal) == Distance(n, goal) + 1 || Distance(s.0, goal) + 1 == Distance(n, goal)
    ensures s.1 >= 1 ==> Distance(n, goal) <= s.1 + Distance(s.0, goal)
  {
    SuccessorsSound(g, n, s);
  }
}

=== FILE: day18.dfy ===
/** Day 18 (Lavaduct Lagoon): the dig plan is a list of straight trench segments. The solver traces
    the corners, compresses the plane onto the coordinates where something changes (a sparse grid
    whose cells are rectangles of varying size), and adds up the areas of the cells inside. */
module Day18 {
  import opened Common
  import opened Strings
  import opened Sorting
  import opened G = Grid

  /** One instruction of the dig plan. */
  datatype Plan = Plan(dir: Dir, len: nat, rgb: nat)

  // ---------------------------------------------------------------------------------------------
  // `Plan::parse`, `Plan::parse_fix`

  function DirOf(s: string): Option<Dir>
  {
    if s == "L" then Some(West)
    else if s == "R" then Some(East)
    else if s == "U" then Some(North)
    else if s == "D" then Some(South)
    else None
  }

  function Letter(d: Dir): string
  {
    match d
    case West => "L"
    case East => "R"
    case North => "U"
    case South => "D"
  }

  /** The letters name the four directions one to one. */
  lemma DirOfLetter(d: Dir, s: string)
    ensures DirOf(Letter(d)) == Some(d)
    ensures DirOf(s).Some? ==> Letter(DirOf(s).value) == s
  {
  }

  /** The colour token `(#rrggbb)`: hexadecimal digits between `(#` and `)`, as a `u32`. */
  function Colour(tok: string): (r: Option<nat>)
    ensures r.Some? ==> exists c :: tok == "(#" + c + ")" && r == ParseUnsigned(c, 16, U32_MAX)
  {
    var inner :- StripPrefix(tok, "(#");
    var c :- StripSuffix(inner, ")");
    assert tok == "(#" + c + ")";
    ParseUnsigned(c, 16, U32_MAX)
  }

  /** Whatever sits between `(#` and `)` is parsed as the colour. */
  lemma ColourOfWrapped(c: string)
    ensures Colour("(#" + c + ")") == ParseUnsigned(c, 16, U32_MAX)
  {
    var tok := "(#" + c + ")";
    assert "(#" <= tok;
    var inner := StripPrefix(tok, "(#").value;
    assert inner == c + ")";
    assert EndsWith(inner, ")");
  }

  /** `Plan::parse`: a direction letter, a decimal length and a colour, and nothing more. */
  function ParsePlan(s: string): (r: Option<Plan>)
    ensures var t := SplitWhitespace(s);
      r.Some? <==> |t| == 3 && DirOf(t[0]).Some? && ParseUsize(t[1]).Some? && Colour(t[2]).Some?
    ensures var t := SplitWhitespace(s);
      r.Some? ==> r.value == Plan(DirOf(t[0]).value, ParseUsize(t[1]).value, Colour(t[2]).value)
  {
    var t := SplitWhitespace(s);
    if |t| < 1 then None
    else
      var dir :- DirOf(t[0]);
      if |t| < 2 then None
      else
        var len :- ParseUsize(t[1]);
        if |t| < 3 then None
        else
          var rgb :- Colour(t[2]);
          if |t| == 3 then Some(Plan(dir, len, rgb)) else None
  }

  /** The direction in the low hex digit of the colour. */
  function FixDir(nibble: nat): Option<Dir>
  {
    if nibble == 0 then Some(East)
    else if nibble == 1 then Some(South)
    else if nibble == 2 then Some(West)
    else if nibble == 3 then Some(North)
    else None
  }

  /** `Plan::parse_fix`: the real instruction is hidden in the colour, its low hex digit naming the
      direction and the five above it (`(rgb & 0xFFFFF0) >> 4`) the length. */
  function ParseFix(s: string): (r: Option<Plan>)
    ensures r.Some? <==> ParsePlan(s).Some? && ParsePlan(s).value.rgb % 16 < 4
    ensures r.Some? ==> var rgb := ParsePlan(s).value.rgb;
      && r.value.rgb == rgb && Some(r.value.dir) == FixDir(rgb % 16)
      && r.value.len == (rgb / 16) % 0x10_0000 && r.value.len < 0x10_0000
  {
    var p :- ParsePlan(s);
    var dir :- FixDir(p.rgb % 16);
    Some(Plan(dir, (p.rgb / 16) % 0x10_0000, p.rgb))
  }

  /** The low 24 bits of the colour are the length's five hex digits followed by the direction's
      digit. */
  lemma FixSplitsColour(s: string)
    requires ParseFix(s).Some?
    ensures var p, rgb := ParseFix(s).value, ParsePlan(s).value.rgb;
      rgb % 0x100_0000 == p.len * 16 + rgb % 16
  {
    var rgb := ParsePlan(s).value.rgb;
    var q := rgb / 16;
    assert rgb == q * 16 + rgb % 16;
    var h := q / 0x10_0000;
    assert q == h * 0x10_0000 + q % 0x10_0000;
    assert rgb == h * 0x100_0000 + ((q % 0x10_0000) * 16 + rgb % 16);
    DivModUnique((q % 0x10_0000) * 16 + rgb % 16, h, 0x100_0000);
  }

  /** `Plan::parse` or `Plan::parse_fix`. */
  function ReadPlan(line: string, fix: bool): Option<Plan>
  {
    if fix then ParseFix(line) else ParsePlan(line)
  }

  /** The plan of every line; the first line that does not read is an error. */
  function ParsePlans(input: string, fix: bool): (r: Result<seq<Plan>>)
    ensures r.Ok? <==> forall i :: 0 <= i < |Lines(input)| ==> ReadPlan(Lines(input)[i], fix).Some?
    ensures r.Ok? ==> (|r.value| == |Lines(input)|
      && forall i :: 0 <= i < |r.value| ==> Some(r.value[i]) == ReadPlan(Lines(input)[i], fix))
  {
    var lines := Lines(input);
    var r := if fix then MapResult(lines, ReadFixLine) else MapResult(lines, ReadPlainLine);
    assert forall i :: 0 <= i < |lines| ==> ReadLine(lines[i], fix).Ok? == ReadPlan(lines[i], fix).Some?;
    r
  }

  /** A line read with `Plan::parse`, or the error `calc_sparse` reports. */
  function ReadPlainLine(line: string): Result<Plan>
  {
    OkOr(ParsePlan(line), "invalid line")
  }

  /** A line read with `Plan::parse_fix`, or the error `calc_sparse` reports. */
  function ReadFixLine(line: string): Result<Plan>
  {
    OkOr(ParseFix(line), "invalid line")
  }

  function ReadLine(line: string, fix: bool): Result<Plan>
  {
    if fix then ReadFixLine(line) else ReadPlainLine(line)
  }

  // ---------------------------------------------------------------------------------------------
  // Tracing the corners

  /** The offset of one instruction: its whole length in its direction. */
  function Offset(cmd: Plan): CellP
  {
    cmd.dir.Step(cmd.len)
  }

  /** The offset is what `calc_sparse` computes, `dir.step(1)` scaled by the length, and spans
      exactly the length. */
  lemma OffsetIsStep(cmd: Plan)
    ensures var d := cmd.dir.Step(1); Offset(cmd) == (d.0 * cmd.len, d.1 * cmd.len)
    ensures Abs(Offset(cmd).0) + Abs(Offset(cmd).1) == cmd.len
  {
  }

  /** The corner before instruction `i`: the sum of the offsets before it. */
  function Vertex(plan: seq<Plan>, i: nat): CellP
    requires i <= |plan|
  {
    if i == 0 then (0, 0) else Advance(Vertex(plan, i - 1), plan[i - 1])
  }

  /** The corner reached from `p` by one instruction. */
  function Advance(p: CellP, cmd: Plan): CellP
  {
    var d := Offset(cmd);
    (p.0 + d.0, p.1 + d.1)
  }

  /** The first `k` corners. */
  function Vertices(plan: seq<Plan>, k: nat): (r: seq<CellP>)
    requires k <= |plan|
    ensures |r| == k
  {
    if k == 0 then [] else Vertices(plan, k - 1) + [Vertex(plan, k - 1)]
  }

  lemma {:induction false} VerticesAt(plan: seq<Plan>, k: nat)
    requires k <= |plan|
    ensures forall i :: 0 <= i < k ==> Vertices(plan, k)[i] == Vertex(plan, i)
  {
    if k > 0 {
      VerticesAt(plan, k - 1);
    }
  }

  /** The first loop of `calc_sparse`: the corner where each instruction starts. */
  method TraceVertices(plan: seq<Plan>) returns (pts: seq<CellP>)
    ensures |pts| == |plan|
    ensures forall i :: 0 <= i < |plan| ==> pts[i] == Vertex(plan, i)
  {
    pts := [];
    var p := (0, 0);
    var k := 0;
    while k < |plan|
      invariant k <= |plan| && pts == Vertices(plan, k) && p == Vertex(plan, k)
    {
      pts := pts + [p];
      p := Advance(p, plan[k]);
      k := k + 1;
    }
    VerticesAt(plan, |plan|);
  }

  /** The trench length of the first `i` instructions. */
  function TrenchLength(plan: seq<Plan>, i: nat): nat
    requires i <= |plan|
  {
    if i == 0 then 0 else TrenchLength(plan, i - 1) + plan[i - 1].len
  }

  /** A corner is no further from the start, in steps, than the trench dug to reach it. */
  lemma {:induction false} VertexWithinTrench(plan: seq<Plan>, i: nat)
    requires i <= |plan|
    ensures Abs(Vertex(plan, i).0) + Abs(Vertex(plan, i).1) <= TrenchLength(plan, i)
  {
    if i > 0 {
      VertexWithinTrench(plan, i - 1);
      OffsetIsStep(plan[i - 1]);
    }
  }

  // ---------------------------------------------------------------------------------------------
  // `SparseGrid`

  /** Each coordinate and the one after it, in the order the points come. */
  function Pairs(xs: seq<int>): (r: seq<int>)
    ensures |r| == 2 * |xs|
    ensures forall v :: v in r <==> exists i :: 0 <= i < |xs| && (v == xs[i] || v == xs[i] + 1)
  {
    if |xs| == 0 then []
    else
      var n := |xs| - 1;
      var r := Pairs(xs[..n]) + [xs[n], xs[n] + 1];
      assert forall i :: 0 <= i < n ==> xs[..n][i] == xs[i];
      r
  }

  /** Sorting without repeats keeps the members and makes them strictly increasing. */
  function SortedUnique(s: seq<int>): (r: seq<int>)
    ensures StrictlyIncreasing(r)
    ensures forall v :: v in r <==> v in s
  {
    IntLeTotal();
    var sorted := SortBy(s, IntLe);
    assert forall v :: v in sorted <==> v in s by {
      forall v ensures v in sorted <==> v in s {
        assert v in multiset(sorted) <==> v in multiset(s);
      }
    }
    Dedup(sorted)
  }

  /** `extend`: one more breakpoint below the least and one above the greatest. */
  function Extend(d: seq<int>): (r: seq<int>)
    requires |d| > 0 && StrictlyIncreasing(d)
    ensures |r| == |d| + 2 && StrictlyIncreasing(r)
    ensures r[1..|r| - 1] == d && r[0] == d[0] - 1 && r[|r| - 1] == d[|d| - 1] + 1
  {
    var r := [d[0] - 1] + d + [d[|d| - 1] + 1];
    assert StrictlyIncreasing(r) by {
      forall i, j | 0 <= i < j < |r| ensures r[i] < r[j] {
        if 0 < i && j < |r| - 1 {
          assert r[i] == d[i - 1] && r[j] == d[j - 1];
        } else if i == 0 && j < |r| - 1 {
          assert r[j] == d[j - 1] && d[0] <= d[j - 1];
        } else if 0 < i {
          assert r[i] == d[i - 1] && d[i - 1] <= d[|d| - 1];
        }
      }
    }
    assert r[1..|r| - 1] == d;
    r
  }

  /** The breakpoints of one axis in `from_control_points`: every `p` and `p + 1` sorted without
      repeats, then extended, so that the cells between consecutive breakpoints cover the trench with
      a ring of empty cells around it. */
  function Breakpoints(xs: seq<int>): (r: seq<int>)
    requires |xs| > 0
    ensures |r| >= 4 && StrictlyIncreasing(r)
    ensures forall v :: v in r[1..|r| - 1] <==> v in Pairs(xs)
    ensures forall i :: 0 <= i < |xs| ==> r[0] < xs[i] && xs[i] + 1 < r[|r| - 1]
    ensures r[0] == r[1] - 1 && r[|r| - 1] == r[|r| - 2] + 1
  {
    var d := SortedUnique(Pairs(xs));
    assert xs[0] in Pairs(xs) && xs[0] + 1 in Pairs(xs);
    assert xs[0] in d && xs[0] + 1 in d;
    assert |d| >= 2;
    var r := Extend(d);
    forall i | 0 <= i < |xs| ensures r[0] < xs[i] && xs[i] + 1 < r[|r| - 1] {
      assert xs[i] in Pairs(xs) && xs[i] + 1 in Pairs(xs);
      BetweenEnds(d, xs[i]);
      BetweenEnds(d, xs[i] + 1);
    }
    r
  }

  /** A member of an increasing sequence lies between its ends. */
  lemma BetweenEnds(d: seq<int>, v: int)
    requires StrictlyIncreasing(d) && v in d
    ensures d[0] <= v <= d[|d| - 1]
  {
    var a :| 0 <= a < |d| && d[a] == v;
  }

  function Xs(pts: seq<CellP>): (r: seq<int>)
    ensures |r| == |pts| && forall i :: 0 <= i < |pts| ==> r[i] == pts[i].0
  {
    seq(|pts|, i requires 0 <= i < |pts| => pts[i].0)
  }

  function Ys(pts: seq<CellP>): (r: seq<int>)
    ensures |r| == |pts| && forall i :: 0 <= i < |pts| ==> r[i] == pts[i].1
  {
    seq(|pts|, i requires 0 <= i < |pts| => pts[i].1)
  }

  /** `SparseGrid`: the breakpoints of both axes and one grid cell per rectangle between them. */
  datatype SparseGrid = SparseGrid(vx: seq<int>, vy: seq<int>, grid: Grid<char>)
  {
    predicate Valid()
    {
      |vx| >= 2 && |vy| >= 2 && StrictlyIncreasing(vx) && StrictlyIncreasing(vy)
      && grid.Valid() && grid.dx == |vx| - 1 && grid.dy == |vy| - 1
    }
  }

  /** `from_control_points`: the breakpoints of the corners and a grid of `fillc` with one cell per
      rectangle between consecutive breakpoints. */
  function FromControlPoints(fillc: char, pts: seq<CellP>): (s: SparseGrid)
    requires |pts| > 0
    ensures s.Valid() && |s.vx| >= 4 && |s.vy| >= 4
    ensures s.vx == Breakpoints(Xs(pts)) && s.vy == Breakpoints(Ys(pts))
    ensures forall i :: 0 <= i < |s.grid.m| ==> s.grid.m[i] == fillc
  {
    var vx := Breakpoints(Xs(pts));
    var vy := Breakpoints(Ys(pts));
    SparseGrid(vx, vy, New((|vx| - 1, |vy| - 1), fillc))
  }

  /** `map_range`: the cells covering `x0..x1` on an axis, as the numbers of breakpoints below
      either end. */
  function MapRange(v: seq<int>, x0: int, x1: int): (r: (nat, nat))
    requires StrictlyIncreasing(v)
    ensures r.0 <= |v| && r.1 <= |v|
    ensures forall k :: 0 <= k < |v| ==> (v[k] < x0 <==> k < r.0)
    ensures forall k :: 0 <= k < |v| ==> (v[k] < x1 <==> k < r.1)
    ensures x0 <= x1 ==> r.0 <= r.1
  {
    var i0 := PartitionPoint(v, (x: int) => x < x0);
    var i1 := PartitionPoint(v, (x: int) => x < x1);
    assert forall k :: i0 <= k < |v| ==> v[i0] <= v[k];
    assert forall k :: i1 <= k < |v| ==> v[i1] <= v[k];
    (i0, i1)
  }

  // ---------------------------------------------------------------------------------------------
  // `count_areas`

  function CellAt(s: SparseGrid, x: nat, y: nat): char
    requires s.Valid() && x < s.grid.dx && y < s.grid.dy
  {
    s.grid.Get((x, y)).value
  }

  /** The area of the rectangle behind cell `(x, y)`. */
  function CellArea(s: SparseGrid, x: nat, y: nat): (r: nat)
    requires s.Valid() && x < s.grid.dx && y < s.grid.dy
  {
    assert s.vx[x] < s.vx[x + 1] && s.vy[y] < s.vy[y + 1];
    (s.vx[x + 1] - s.vx[x]) * (s.vy[y + 1] - s.vy[y])
  }

  /** The kept area of the first `n` cells of column `x`. */
  function ColumnArea(s: SparseGrid, pred: char -> bool, x: nat, n: nat): nat
    requires s.Valid() && x < s.grid.dx && n <= s.grid.dy
  {
    if n == 0 then 0
    else ColumnArea(s, pred, x, n - 1) + (if pred(CellAt(s, x, n - 1)) then CellArea(s, x, n - 1) else 0)
  }

  /** The kept area of the first `n` columns. */
  function Area(s: SparseGrid, pred: char -> bool, n: nat): nat
    requires s.Valid() && n <= s.grid.dx
  {
    if n == 0 then 0 else Area(s, pred, n - 1) + ColumnArea(s, pred, n - 1, s.grid.dy)
  }

  /** `count_areas`: the total area of the cells whose content `pred` keeps. */
  method CountAreas(s: SparseGrid, pred: char -> bool) returns (total: nat)
    requires s.Valid()
    ensures total == Area(s, pred, s.grid.dx)
  {
    var mx := |s.vx| - 1;
    total := 0;
    var x := 0;
    while x < mx
      invariant x <= mx && total == Area(s, pred, x)
    {
      total := AddColumn(s, pred, x, total);
      x := x + 1;
    }
  }

  /** The inner loop of `count_areas`: the kept cells of column `x` added to `base`. */
  method AddColumn(s: SparseGrid, pred: char -> bool, x: nat, base: nat) returns (total: nat)
    requires s.Valid() && x < s.grid.dx
    ensures total == base + ColumnArea(s, pred, x, s.grid.dy)
  {
    var my := |s.vy| - 1;
    var bx := s.vx[x + 1] - s.vx[x];
    var y := 0;
    total := base;
    while y < my
      invariant y <= my && total == base + ColumnArea(s, pred, x, y)
    {
      var bh := s.vy[y + 1] - s.vy[y];
      if pred(s.grid.Get((x, y)).value) {
        total := total + bx * bh;
      }
      y := y + 1;
    }
  }

  lemma MulDistrib(a: int, b: int, c: int)
    ensures a * b + a * c == a * (b + c)
  {
  }

  /** A column keeps at most the height it spans, and exactly that when every cell is kept. */
  lemma {:induction false} ColumnAreaBound(s: SparseGrid, pred: char -> bool, x: nat, n: nat)
    requires s.Valid() && x < s.grid.dx && n <= s.grid.dy
    ensures ColumnArea(s, pred, x, n) <= (s.vx[x + 1] - s.vx[x]) * (s.vy[n] - s.vy[0])
    ensures (forall c :: pred(c)) ==> ColumnArea(s, pred, x, n) == (s.vx[x + 1] - s.vx[x]) * (s.vy[n] - s.vy[0])
  {
    if n > 0 {
      ColumnAreaBound(s, pred, x, n - 1);
      MulDistrib(s.vx[x + 1] - s.vx[x], s.vy[n - 1] - s.vy[0], s.vy[n] - s.vy[n - 1]);
    }
  }

  /** The kept area lies within the bounding rectangle of the breakpoints, and fills it when every
      cell is kept. */
  lemma {:induction false} AreaBound(s: SparseGrid, pred: char -> bool, n: nat)
    requires s.Valid() && n <= s.grid.dx
    ensures Area(s, pred, n) <= (s.vx[n] - s.vx[0]) * (s.vy[s.grid.dy] - s.vy[0])
    ensures (forall c :: pred(c)) ==> Area(s, pred, n) == (s.vx[n] - s.vx[0]) * (s.vy[s.grid.dy] - s.vy[0])
  {
    if n > 0 {
      AreaBound(s, pred, n - 1);
      ColumnAreaBound(s, pred, n - 1, s.grid.dy);
      var h := s.vy[s.grid.dy] - s.vy[0];
      MulDistrib(h, s.vx[n - 1] - s.vx[0], s.vx[n] - s.vx[n - 1]);
      assert (s.vx[n - 1] - s.vx[0]) * h + (s.vx[n] - s.vx[n - 1]) * h == (s.vx[n] - s.vx[0]) * h;
    }
  }
}

=== FILE: day19.dfy ===
/** Day 19 (Aplenty): parts with four ratings x, m, a, s pass through workflows of rules; each rule
    either applies unconditionally or compares one rating with a value, and sends the part on to
    another workflow, to acceptance or to rejection. Part two counts the accepted parts of a whole
    box of ratings by splitting the box at every comparison. */
module Day19 {
  import opened Common
  import opened Strings

  /** Which of the four ratings: 0 for x, 1 for m, 2 for a, 3 for s. */
  type RatingIndex = i: nat | i < 4

  /** The letter of a rating. */
  function RatingChar(i: RatingIndex): char
  {
    "xmas"[i]
  }

  /** `rating_index`: the index of a one-letter rating name. */
  function RatingIndexOf(s: string): (r: Option<RatingIndex>)
    ensures r.Some? <==> |s| == 1 && s[0] in "xmas"
    ensures r.Some? ==> s == [RatingChar(r.value)]
  {
    if s == "x" then Some(0)
    else if s == "m" then Some(1)
    else if s == "a" then Some(2)
    else if s == "s" then Some(3)
    else None
  }

  /** Every rating letter reads back as its own index. */
  lemma RatingIndexOfChar(i: RatingIndex)
    ensures RatingIndexOf([RatingChar(i)]) == Some(i)
  {
  }

  /** One value per rating; `[T; 4]` in the source. */
  datatype Quad<T> = Quad(x: T, m: T, a: T, s: T)
  {
    function At(i: RatingIndex): T
    {
      if i == 0 then x else if i == 1 then m else if i == 2 then a else s
    }

    /** The same four values with the one at `i` replaced. */
    function With(i: RatingIndex, v: T): (r: Quad<T>)
      ensures r.At(i) == v
      ensures forall k: RatingIndex :: k != i ==> r.At(k) == At(k)
    {
      if i == 0 then this.(x := v) else if i == 1 then this.(m := v) else if i == 2 then this.(a := v) else this.(s := v)
    }
  }

  /** A part: its four ratings. */
  type Part = Quad<nat>

  // ---------------------------------------------------------------------------------------------
  // Conditions, targets and rules

  /** The comparison of a condition. The parser only ever produces these two; `split` panics on
      the third `Ordering`, which therefore cannot arise. */
  datatype Ord = Less | Greater

  function OrdChar(o: Ord): char
  {
    if o == Less then '<' else '>'
  }

  /** `Condition`: compare rating `rating` with `value`, a `u16`. */
  datatype Condition = Condition(rating: RatingIndex, ord: Ord, value: nat)

  /** `Condition::parse`: a rating letter, `<` or `>`, then a `u16`, split at the first `<` or `>`. */
  function ParseCondition(def: string): (r: Option<Condition>)
    ensures r.Some? ==> r.value.value <= U16_MAX
    ensures r.Some? ==> exists sval :: def == [RatingChar(r.value.rating), OrdChar(r.value.ord)] + sval
                                      && ParseU16(sval) == Some(r.value.value)
  {
    var irel := FirstIn(def, {'<', '>'});
    if irel == |def| then None
    else
      var rating :- RatingIndexOf(def[..irel]);
      var ord := if def[irel] == '<' then Less else Greater;
      var value :- ParseU16(def[irel + 1..]);
      assert def == def[..irel] + [def[irel]] + def[irel + 1..];
      Some(Condition(rating, ord, value))
  }

  /** Every condition written out as letter, comparison and a decimal text of its value parses back. */
  lemma ParseConditionOf(c: Condition, sval: string)
    requires ParseU16(sval) == Some(c.value)
    ensures ParseCondition([RatingChar(c.rating), OrdChar(c.ord)] + sval) == Some(c)
  {
    var def := [RatingChar(c.rating), OrdChar(c.ord)] + sval;
    var irel := FirstIn(def, {'<', '>'});
    assert def[0] !in {'<', '>'} && def[1] in {'<', '>'};
    assert irel != 0;
    assert def[..1] == [RatingChar(c.rating)];
    assert def[2..] == sval;
  }

  /** `Target`: accept, reject, or go on to a workflow named by a label or, once resolved, by an
      index. */
  datatype Target<T> = Accept | Reject | Workflow(dest: T)

  /** A label fits a `TinyAsciiStr<4>`: at most four ASCII characters other than NUL. */
  predicate IsLabel(s: string)
  {
    |s| <= 4 && forall k :: 0 <= k < |s| ==> 0 < s[k] as int < 128
  }

  /** `Target::parse`: `A` accepts, `R` rejects, any other label names a workflow. */
  function ParseTarget(def: string): (r: Option<Target<string>>)
    ensures r.Some? <==> def == "A" || def == "R" || IsLabel(def)
    ensures r == Some(Accept) <==> def == "A"
    ensures r == Some(Reject) <==> def == "R"
    ensures r.Some? && r.value.Workflow? ==> r.value.dest == def
  {
    if def == "A" then Some(Accept)
    else if def == "R" then Some(Reject)
    else if IsLabel(def) then Some(Workflow(def))
    else None
  }

  /** How a target is written in a rule. */
  function ShowTarget(t: Target<string>): string
  {
    match t
    case Accept => "A"
    case Reject => "R"
    case Workflow(l) => l
  }

  /** Every target whose label is a label other than `A` and `R` reads back from its text. */
  lemma ParseShowTarget(t: Target<string>)
    requires t.Workflow? ==> IsLabel(t.dest) && t.dest != "A" && t.dest != "R"
    ensures ParseTarget(ShowTarget(t)) == Some(t)
  {
  }

  /** `Target::map_workflow`: resolve a workflow label through `index`. */
  function MapWorkflow(t: Target<string>, index: map<string, nat>): (r: Option<Target<nat>>)
    ensures r.Some? <==> (t.Workflow? ==> t.dest in index)
    ensures r.Some? ==> (r.value.Accept? <==> t.Accept?) && (r.value.Reject? <==> t.Reject?)
    ensures r.Some? && t.Workflow? ==> r.value == Workflow(index[t.dest])
  {
    match t
    case Accept => Some(Accept)
    case Reject => Some(Reject)
    case Workflow(l) => if l in index then Some(Workflow(index[l])) else None
  }

  /** `Rule`: an optional condition and where the part goes when it holds. */
  datatype Rule<T> = Rule(cond: Option<Condition>, target: Target<T>)

  /** `Rule::parse`: `cond:target`, split at the first `:`, or a bare target. */
  function ParseRule(def: string): (r: Option<Rule<string>>)
    ensures r.Some? && r.value.cond.Some? ==>
      exists l, t :: (def == l + [':'] + t && ParseCondition(l) == r.value.cond && ParseTarget(t) == Some(r.value.target))
    ensures r.Some? && r.value.cond.None? ==> ':' !in def && ParseTarget(def) == Some(r.value.target)
    ensures ':' !in def ==> (r.Some? <==> ParseTarget(def).Some?)
  {
    match SplitOnce(def, ':')
    case Some((l, t)) =>
      var cond :- ParseCondition(l);
      var target :- ParseTarget(t);
      Some(Rule(Some(cond), target))
    case None =>
      var target :- ParseTarget(def);
      Some(Rule(None, target))
  }

  /** `Condition::match_part`: the part's rating compares with the value as the condition says. */
  predicate MatchPart(c: Condition, p: Part)
  {
    if c.ord == Less then p.At(c.rating) < c.value else p.At(c.rating) > c.value
  }

  /** `Rule::consider`: the target, unless the rule has a condition the part fails. */
  function Consider<T>(rule: Rule<T>, p: Part): (r: Option<Target<T>>)
    ensures r.Some? <==> rule.cond.None? || MatchPart(rule.cond.value, p)
    ensures r.Some? ==> r.value == rule.target
  {
    match rule.cond
    case Some(c) => if MatchPart(c, p) then Some(rule.target) else None
    case None => Some(rule.target)
  }

  /** `find_map(consider)`: the target of the first rule that applies to the part. */
  function FirstTarget<T(==)>(rules: seq<Rule<T>>, p: Part): (r: Option<Target<T>>)
    ensures r.None? <==> forall i :: 0 <= i < |rules| ==> Consider(rules[i], p).None?
    ensures r.Some? ==> exists i :: 0 <= i < |rules| && Consider(rules[i], p) == r
                                 && forall k :: 0 <= k < i ==> Consider(rules[k], p).None?
  {
    if |rules| == 0 then None
    else
      match Consider(rules[0], p)
      case Some(t) => Some(t)
      case None =>
        var r := FirstTarget(rules[1..], p);
        assert forall i :: 1 <= i < |rules| ==> rules[i] == rules[1..][i - 1];
        if r.Some? then
          var i :| 0 <= i < |rules| - 1 && Consider(rules[1..][i], p) == r
                   && forall k :: 0 <= k < i ==> Consider(rules[1..][k], p).None?;
          assert Consider(rules[i + 1], p) == r;
          r
        else r
  }

  // ---------------------------------------------------------------------------------------------
  // The plan and its walk

  /** `Workflow`: a label and its rules, with targets resolved to workflow indices. */
  datatype WorkflowDef = WorkflowDef(name: string, rules: seq<Rule<nat>>)

  /** `Plan`: the workflows in input order and the index of the one labelled `in`. */
  datatype Plan = Plan(wf: seq<WorkflowDef>, start: nat)

  /** A rule points at one of `n` workflows, and a `>` comparison has room for `value + 1` in a
      `u16`, which `split` computes. */
  predicate RuleOk(rule: Rule<nat>, n: nat)
  {
    (rule.target.Workflow? ==> rule.target.dest < n)
    && (rule.cond.Some? && rule.cond.value.ord == Greater ==> rule.cond.value.value < U16_MAX)
  }

  predicate RulesOk(rules: seq<Rule<nat>>, n: nat)
  {
    forall k :: 0 <= k < |rules| ==> RuleOk(rules[k], n)
  }

  /** What `Plan::load` guarantees: every index it stores names a workflow. */
  predicate ValidPlan(plan: Plan)
  {
    plan.start < |plan.wf| && forall i :: 0 <= i < |plan.wf| ==> RulesOk(plan.wf[i].rules, |plan.wf|)
  }

  /** How a walk through the workflows ends: accepted, rejected or stuck (`Some(true)`,
      `Some(false)`, `None` in the source), or not within the allowed number of hops. */
  datatype Walk = Finished(verdict: Option<bool>) | Unfinished

  /** `is_accepted_impl` from workflow `i`: follow the first rule that applies in each workflow;
      with no such rule the walk is stuck. The source loops without bound on a cyclic plan; here at
      most `fuel` workflows are visited. */
  function IsAcceptedImpl(plan: Plan, i: nat, p: Part, fuel: nat): (r: Walk)
    requires ValidPlan(plan) && i < |plan.wf|
    ensures r.Finished? ==> fuel > 0
    ensures r == Finished(None) ==> FirstTarget(plan.wf[i].rules, p).None?
                                    || FirstTarget(plan.wf[i].rules, p).value.Workflow?
    ensures FirstTarget(plan.wf[i].rules, p) == Some(Accept) ==> r == (if fuel > 0 then Finished(Some(true)) else Unfinished)
    ensures FirstTarget(plan.wf[i].rules, p) == Some(Reject) ==> r == (if fuel > 0 then Finished(Some(false)) else Unfinished)
    decreases fuel
  {
    if fuel == 0 then Unfinished
    else
      match FirstTarget(plan.wf[i].rules, p)
      case None => Finished(None)
      case Some(Accept) => Finished(Some(true))
      case Some(Reject) => Finished(Some(false))
      case Some(Workflow(j)) =>
        FirstTargetOk(plan.wf[i].rules, p, |plan.wf|);
        IsAcceptedImpl(plan, j, p, fuel - 1)
  }

  /** The target a rule list picks is one of its own targets, so it is in range. */
  lemma FirstTargetOk(rules: seq<Rule<nat>>, p: Part, n: nat)
    requires RulesOk(rules, n) && FirstTarget(rules, p).Some?
    ensures FirstTarget(rules, p).value.Workflow? ==> FirstTarget(rules, p).value.dest < n
  {
    var i :| 0 <= i < |rules| && Consider(rules[i], p) == FirstTarget(rules, p)
             && forall k :: 0 <= k < i ==> Consider(rules[k], p).None?;
    assert RuleOk(rules[i], n);
  }

  /** A walk that ends within some number of hops ends the same way with more. */
  lemma {:induction false} WalkFuelMonotone(plan: Plan, i: nat, p: Part, fuel: nat, more: nat)
    requires ValidPlan(plan) && i < |plan.wf| && fuel <= more
    requires IsAcceptedImpl(plan, i, p, fuel).Finished?
    ensures IsAcceptedImpl(plan, i, p, more) == IsAcceptedImpl(plan, i, p, fuel)
    decreases fuel
  {
    match FirstTarget(plan.wf[i].rules, p)
    case None =>
    case Some(Accept) =>
    case Some(Reject) =>
    case Some(Workflow(j)) =>
      FirstTargetOk(plan.wf[i].rules, p, |plan.wf|);
      WalkFuelMonotone(plan, j, p, fuel - 1, more - 1);
  }

  /** `Plan::is_accepted`: the walk from `in` accepts the part. */
  predicate IsAccepted(plan: Plan, p: Part, fuel: nat)
    requires ValidPlan(plan)
  {
    IsAcceptedImpl(plan, plan.start, p, fuel) == Finished(Some(true))
  }

  // ---------------------------------------------------------------------------------------------
  // `PartSpace`: a box of parts, one half-open interval `[lo, hi)` per rating

  type PartSpace = Quad<(nat, nat)>

  /** `PartSpace::empty`. */
  const EmptySpace: PartSpace := Quad((0, 0), (0, 0), (0, 0), (0, 0))

  /** The part lies in the box. */
  predicate In(p: Part, ps: PartSpace)
  {
    forall i: RatingIndex :: ps.At(i).0 <= p.At(i) < ps.At(i).1
  }

  /** `PartSpace::range`: every rating from `lo` to `hi` inclusive; `hi + 1` must fit a `u16`. */
  function RangeSpace(lo: nat, hi: nat): (ps: PartSpace)
    requires hi < U16_MAX
    ensures forall p: Part :: In(p, ps) <==> forall i: RatingIndex :: lo <= p.At(i) <= hi
  {
    Quad((lo, hi + 1), (lo, hi + 1), (lo, hi + 1), (lo, hi + 1))
  }

  /** The box holding just the part `p`. */
  function Point(p: Part): (ps: PartSpace)
    ensures forall q: Part :: In(q, ps) <==> q == p
  {
    var ps: PartSpace := Quad((p.x, p.x + 1), (p.m, p.m + 1), (p.a, p.a + 1), (p.s, p.s + 1));
    assert forall q: Part :: In(q, ps) ==> q == p by {
      forall q: Part | In(q, ps) ensures q == p {
        assert ps.At(0).0 <= q.At(0) < ps.At(0).1;
        assert ps.At(1).0 <= q.At(1) < ps.At(1).1;
        assert ps.At(2).0 <= q.At(2) < ps.At(2).1;
        assert ps.At(3).0 <= q.At(3) < ps.At(3).1;
      }
    }
    ps
  }

  /** `PartSpace::is_empty`: some interval has `lo >= hi`. */
  predicate IsEmpty(ps: PartSpace)
  {
    exists i: RatingIndex :: ps.At(i).0 >= ps.At(i).1
  }

  /** An empty box holds no part, and a box that is not empty holds its lower corner. */
  lemma EmptyHasNoParts(ps: PartSpace)
    ensures IsEmpty(ps) <==> forall p: Part :: !In(p, ps)
  {
    if !IsEmpty(ps) {
      var corner: Part := Quad(ps.x.0, ps.m.0, ps.a.0, ps.s.0);
      assert corner.At(0) == ps.At(0).0 && corner.At(1) == ps.At(1).0;
      assert corner.At(2) == ps.At(2).0 && corner.At(3) == ps.At(3).0;
      assert In(corner, ps);
    }
  }

  /** The number of values in an interval, `hi.checked_sub(lo).unwrap_or(0)`. */
  function Width(iv: (nat, nat)): nat
  {
    if iv.1 >= iv.0 then iv.1 - iv.0 else 0
  }

  /** `PartSpace::total_count`: the product of the widths, which is zero exactly when the box is
      empty. */
  function TotalCount(ps: PartSpace): (r: nat)
    ensures r == 0 <==> IsEmpty(ps)
  {
    var r := Width(ps.x) * Width(ps.m) * Width(ps.a) * Width(ps.s);
    assert r == 0 <==> Width(ps.x) == 0 || Width(ps.m) == 0 || Width(ps.a) == 0 || Width(ps.s) == 0 by {
      ProductZero(Width(ps.x), Width(ps.m), Width(ps.a), Width(ps.s));
    }
    assert Width(ps.At(0)) == 0 ==> IsEmpty(ps);
    assert Width(ps.At(1)) == 0 ==> IsEmpty(ps);
    assert Width(ps.At(2)) == 0 ==> IsEmpty(ps);
    assert Width(ps.At(3)) == 0 ==> IsEmpty(ps);
    r
  }

  lemma ProductZero(a: nat, b: nat, c: nat, d: nat)
    ensures a * b * c * d == 0 <==> a == 0 || b == 0 || c == 0 || d == 0
  {
    if a != 0 && b != 0 && c != 0 && d != 0 {
      MulPositive(a, b);
      MulPositive(a * b, c);
      MulPositive(a * b * c, d);
    }
  }

  lemma MulPositive(a: nat, b: nat)
    requires a > 0 && b > 0
    ensures a * b > 0
  {
  }

  /** The box of `range(lo, hi)` holds `(hi - lo + 1)^4` parts. */
  lemma RangeCount(lo: nat, hi: nat)
    requires hi < U16_MAX && lo <= hi + 1
    ensures var w := hi + 1 - lo; TotalCount(RangeSpace(lo, hi)) == w * w * w * w
  {
  }

  /** A one-part box counts one. */
  lemma PointCount(p: Part)
    ensures TotalCount(Point(p)) == 1
  {
  }

  /** The count of a box is the width along rating `i` times the product of the other widths. */
  function OtherWidths(ps: PartSpace, i: RatingIndex): nat
  {
    if i == 0 then Width(ps.m) * Width(ps.a) * Width(ps.s)
    else if i == 1 then Width(ps.x) * Width(ps.a) * Width(ps.s)
    else if i == 2 then Width(ps.x) * Width(ps.m) * Width(ps.s)
    else Width(ps.x) * Width(ps.m) * Width(ps.a)
  }

  lemma TotalCountFactor(ps: PartSpace, i: RatingIndex, iv: (nat, nat))
    ensures TotalCount(ps) == Width(ps.At(i)) * OtherWidths(ps, i)
    ensures OtherWidths(ps.With(i, iv), i) == OtherWidths(ps, i)
  {
    var a, b, c, d := Width(ps.x), Width(ps.m), Width(ps.a), Width(ps.s);
    Reorder(a, b, c, d);
  }

  lemma Reorder(a: nat, b: nat, c: nat, d: nat)
    ensures a * b * c * d == a * (b * c * d)
    ensures a * b * c * d == b * (a * c * d)
    ensures a * b * c * d == c * (a * b * d)
    ensures a * b * c * d == d * (a * b * c)
  {
  }

  /** Cutting one interval at `v` inside it splits the count of the box in two. */
  lemma CutCount(ps: PartSpace, i: RatingIndex, v: nat)
    requires ps.At(i).0 <= v < ps.At(i).1
    ensures TotalCount(ps.With(i, (ps.At(i).0, v))) + TotalCount(ps.With(i, (v, ps.At(i).1))) == TotalCount(ps)
  {
    var lo, hi := ps.At(i).0, ps.At(i).1;
    var k := OtherWidths(ps, i);
    var below, above := ps.With(i, (lo, v)), ps.With(i, (v, hi));
    TotalCountFactor(ps, i, (lo, v));
    TotalCountFactor(below, i, (lo, v));
    TotalCountFactor(ps, i, (v, hi));
    TotalCountFactor(above, i, (v, hi));
    assert Width(below.At(i)) == v - lo && Width(above.At(i)) == hi - v && Width(ps.At(i)) == hi - lo;
    Distribute(v - lo, hi - v, k);
  }

  lemma Distribute(a: nat, b: nat, k: nat)
    ensures a * k + b * k == (a + b) * k
  {
  }

  /** Cutting one interval at `v` inside it: the parts below `v` and the rest. */
  lemma CutMembers(ps: PartSpace, i: RatingIndex, v: nat, p: Part)
    requires ps.At(i).0 <= v < ps.At(i).1
    ensures In(p, ps.With(i, (ps.At(i).0, v))) <==> In(p, ps) && p.At(i) < v
    ensures In(p, ps.With(i, (v, ps.At(i).1))) <==> In(p, ps) && p.At(i) >= v
  {
  }

  // ---------------------------------------------------------------------------------------------
  // Splitting a box at a condition

  /** `split_impl` as the source writes it: the parts with rating `i` below `value` should come
      first, but when the whole interval lies on one side of the cut the box is handed to the other
      side. */
  function SplitImplAsWritten(ps: PartSpace, i: RatingIndex, value: nat): (r: (PartSpace, PartSpace))
    ensures TotalCount(r.0) + TotalCount(r.1) == TotalCount(ps)
    ensures ps.At(i).0 <= value < ps.At(i).1 ==>
      && (forall p: Part :: In(p, r.0) <==> In(p, ps) && p.At(i) < value)
      && (forall p: Part :: In(p, r.1) <==> In(p, ps) && p.At(i) >= value)
    ensures ps.At(i).0 <= value < ps.At(i).1 ==> r == SplitImpl(ps, i, value)
  {
    var iv := ps.At(i);
    if iv.1 <= value then (EmptySpace, ps)
    else if iv.0 <= value then
      CutCount(ps, i, value);
      forall p: Part ensures (In(p, ps.With(i, (iv.0, value))) <==> In(p, ps) && p.At(i) < value)
        && (In(p, ps.With(i, (value, iv.1))) <==> In(p, ps) && p.At(i) >= value) {
        CutMembers(ps, i, value, p);
      }
      (ps.With(i, (iv.0, value)), ps.With(i, (value, iv.1)))
    else (ps, EmptySpace)
  }

  /** The cut `split_impl` makes for `c` falls inside the box's interval of the rating, the one
      case the code as written handles as intended. */
  predicate CutInside(c: Condition, ps: PartSpace)
  {
    var cut := if c.ord == Less then c.value else c.value + 1;
    ps.At(c.rating).0 <= cut < ps.At(c.rating).1
  }

  /** `Condition::split` as written: `<` keeps the order of `split_impl`, `>` cuts at `value + 1`
      and swaps the halves. */
  function SplitAsWritten(c: Condition, ps: PartSpace): (r: (PartSpace, PartSpace))
    requires c.ord == Greater ==> c.value < U16_MAX
    ensures TotalCount(r.0) + TotalCount(r.1) == TotalCount(ps)
    ensures CutInside(c, ps) ==>
      && (forall p: Part :: In(p, r.0) <==> In(p, ps) && MatchPart(c, p))
      && (forall p: Part :: In(p, r.1) <==> In(p, ps) && !MatchPart(c, p))
    ensures CutInside(c, ps) ==> r == Split(c, ps)
  {
    if c.ord == Less then SplitImplAsWritten(ps, c.rating, c.value)
    else
      var (lo, hi) := SplitImplAsWritten(ps, c.rating, c.value + 1);
      (hi, lo)
  }

  /** The box with x in 1..49 under `x<100`: every part in it matches, yet the matching half the
      source returns is empty. */
  lemma SplitAsWrittenLosesMatches()
    ensures var c := Condition(0, Less, 100);
            var ps: PartSpace := Quad((1, 50), (1, 2), (1, 2), (1, 2));
            var p: Part := Quad(1, 1, 1, 1);
            In(p, ps) && MatchPart(c, p) && !In(p, SplitAsWritten(c, ps).0) && TotalCount(SplitAsWritten(c, ps).0) == 0
  {
    var ps: PartSpace := Quad((1, 50), (1, 2), (1, 2), (1, 2));
    var p: Part := Quad(1, 1, 1, 1);
    assert In(p, ps) by {
      assert forall i: RatingIndex :: ps.At(i).0 <= p.At(i) < ps.At(i).1;
    }
    assert SplitAsWritten(Condition(0, Less, 100), ps).0 == EmptySpace;
    assert EmptySpace.At(0) == (0, 0);
  }

  /** `split_impl` with the one-sided cases the right way round: first the parts whose rating `i`
      is below `value`, then the rest. */
  function SplitImpl(ps: PartSpace, i: RatingIndex, value: nat): (r: (PartSpace, PartSpace))
    ensures forall p: Part :: In(p, r.0) <==> In(p, ps) && p.At(i) < value
    ensures forall p: Part :: In(p, r.1) <==> In(p, ps) && p.At(i) >= value
    ensures TotalCount(r.0) + TotalCount(r.1) == TotalCount(ps)
  {
    var iv := ps.At(i);
    if iv.1 <= value then
      EmptyHasNoParts(EmptySpace);
      (ps, EmptySpace)
    else if iv.0 <= value then
      CutCount(ps, i, value);
      forall p: Part ensures (In(p, ps.With(i, (iv.0, value))) <==> In(p, ps) && p.At(i) < value)
        && (In(p, ps.With(i, (value, iv.1))) <==> In(p, ps) && p.At(i) >= value) {
        CutMembers(ps, i, value, p);
      }
      (ps.With(i, (iv.0, value)), ps.With(i, (value, iv.1)))
    else
      EmptyHasNoParts(EmptySpace);
      (EmptySpace, ps)
  }

  /** `Condition::split`: the parts of the box that match the condition, then those that do not;
      together they are the box. */
  function Split(c: Condition, ps: PartSpace): (r: (PartSpace, PartSpace))
    requires c.ord == Greater ==> c.value < U16_MAX
    ensures forall p: Part :: In(p, r.0) <==> In(p, ps) && MatchPart(c, p)
    ensures forall p: Part :: In(p, r.1) <==> In(p, ps) && !MatchPart(c, p)
    ensures TotalCount(r.0) + TotalCount(r.1) == TotalCount(ps)
  {
    if c.ord == Less then SplitImpl(ps, c.rating, c.value)
    else
      var (lo, hi) := SplitImpl(ps, c.rating, c.value + 1);
      (hi, lo)
  }

  /** A one-part box goes whole to the side its part belongs to, and the other side counts zero. */
  lemma SplitPoint(c: Condition, p: Part)
    requires c.ord == Greater ==> c.value < U16_MAX
    ensures var (l, r) := Split(c, Point(p));
            if MatchPart(c, p) then l == Point(p) && TotalCount(r) == 0
            else TotalCount(l) == 0 && r == Point(p)
  {
    var (l, r) := Split(c, Point(p));
    PointCount(p);
    if MatchPart(c, p) {
      assert In(p, l);
      assert forall q: Part :: !In(q, r);
      EmptyHasNoParts(r);
      UnitBox(l, p);
    } else {
      assert In(p, r);
      assert forall q: Part :: !In(q, l);
      EmptyHasNoParts(l);
      UnitBox(r, p);
    }
  }

  /** A box that counts one and holds `p` is the box of `p`. */
  lemma UnitBox(ps: PartSpace, p: Part)
    requires TotalCount(ps) == 1 && In(p, ps)
    ensures ps == Point(p)
  {
    var a, b, c, d := Width(ps.x), Width(ps.m), Width(ps.a), Width(ps.s);
    UnitProduct(a, b, c, d);
    assert ps.At(0).0 <= p.At(0) < ps.At(0).1 && ps.At(1).0 <= p.At(1) < ps.At(1).1;
    assert ps.At(2).0 <= p.At(2) < ps.At(2).1 && ps.At(3).0 <= p.At(3) < ps.At(3).1;
  }

  lemma UnitProduct(a: nat, b: nat, c: nat, d: nat)
    requires a * b * c * d == 1
    ensures a == 1 && b == 1 && c == 1 && d == 1
  {
    ProductZero(a, b, c, d);
    UnitFactors(a * b * c, d);
    UnitFactors(a * b, c);
    UnitFactors(a, b);
  }

  /** Two naturals whose product is one are both one. */
  lemma UnitFactors(x: nat, y: nat)
    requires x * y == 1
    ensures x == 1 && y == 1
  {
    assert x >= 1 && y >= 1;
    assert x * y == x + x * (y - 1) && x * y == y + (x - 1) * y;
  }

  // ---------------------------------------------------------------------------------------------
  // `CountAccepted`

  /** `CountAccepted::count` in workflow `i`: the accepted parts of the box. The source recurses
      without bound on a cyclic plan; here at most `fuel` workflows are entered along any path. */
  function Count(plan: Plan, i: nat, ps: PartSpace, fuel: nat): (r: nat)
    requires ValidPlan(plan) && i < |plan.wf|
    ensures r <= TotalCount(ps)
    decreases fuel, 2, 0
  {
    if fuel == 0 then 0 else CountRules(plan, plan.wf[i].rules, ps, fuel)
  }

  /** The fold over the rules: each conditional rule hands its matching half to its target and
      passes the rest on; an unconditional rule takes everything that is left. */
  function CountRules(plan: Plan, rules: seq<Rule<nat>>, acc: PartSpace, fuel: nat): (r: nat)
    requires ValidPlan(plan) && RulesOk(rules, |plan.wf|) && fuel > 0
    ensures r <= TotalCount(acc)
    decreases fuel, 1, |rules|
  {
    if |rules| == 0 then 0
    else
      assert RuleOk(rules[0], |plan.wf|);
      match rules[0].cond
      case Some(c) =>
        var (l, r) := Split(c, acc);
        Handle(plan, rules[0].target, l, fuel) + CountRules(plan, rules[1..], r, fuel)
      case None =>
        var rest := CountRules(plan, rules[1..], EmptySpace, fuel);
        Handle(plan, rules[0].target, acc, fuel) + rest
  }

  /** `CountAccepted::handle`: an accepted box counts whole, a rejected one nothing, and a box sent
      on to a workflow is counted there unless it is empty. */
  function Handle(plan: Plan, t: Target<nat>, ps: PartSpace, fuel: nat): (r: nat)
    requires ValidPlan(plan) && (t.Workflow? ==> t.dest < |plan.wf|) && fuel > 0
    ensures r <= TotalCount(ps)
    ensures t.Accept? ==> r == TotalCount(ps)
    ensures t.Reject? || IsEmpty(ps) ==> r == 0
    decreases fuel, 0, 0
  {
    match t
    case Accept => TotalCount(ps)
    case Reject => 0
    case Workflow(j) => if !IsEmpty(ps) then Count(plan, j, ps, fuel - 1) else 0
  }

  /** Counting a one-part box agrees with walking the part: once the walk from workflow `i` ends,
      the count is 1 if it ended in acceptance and 0 otherwise. */
  lemma {:induction false} CountPoint(plan: Plan, i: nat, p: Part, fuel: nat)
    requires ValidPlan(plan) && i < |plan.wf| && IsAcceptedImpl(plan, i, p, fuel).Finished?
    ensures Count(plan, i, Point(p), fuel) == if IsAcceptedImpl(plan, i, p, fuel) == Finished(Some(true)) then 1 else 0
    decreases fuel
  {
    var rules := plan.wf[i].rules;
    var t := FirstTarget(rules, p);
    CountRulesPoint(plan, rules, p, fuel);
    assert Count(plan, i, Point(p), fuel) == CountRules(plan, rules, Point(p), fuel);
    PointCount(p);
    if t.Some? && t.value.Workflow? {
      var j := t.value.dest;
      assert IsAcceptedImpl(plan, i, p, fuel) == IsAcceptedImpl(plan, j, p, fuel - 1);
      assert Handle(plan, t.value, Point(p), fuel) == Count(plan, j, Point(p), fuel - 1);
      CountPoint(plan, j, p, fuel - 1);
    }
  }

  /** Over a one-part box the fold counts what the first applicable rule's target counts. */
  lemma {:induction false} CountRulesPoint(plan: Plan, rules: seq<Rule<nat>>, p: Part, fuel: nat)
    requires ValidPlan(plan) && RulesOk(rules, |plan.wf|) && fuel > 0
    ensures var t := FirstTarget(rules, p); t.Some? && t.value.Workflow? ==> t.value.dest < |plan.wf|
    ensures var t := FirstTarget(rules, p); t.Some? ==> CountRules(plan, rules, Point(p), fuel) == Handle(plan, t.value, Point(p), fuel)
    ensures FirstTarget(rules, p).None? ==> CountRules(plan, rules, Point(p), fuel) == 0
  {
    if FirstTarget(rules, p).Some? {
      FirstTargetOk(rules, p, |plan.wf|);
    }
    if |rules| > 0 {
      var t0 := Consider(rules[0], p);
      assert FirstTarget(rules, p) == if t0.Some? then t0 else FirstTarget(rules[1..], p);
      CountRulesPoint(plan, rules[1..], p, fuel);
      FirstRulePoint(plan, rules, p, fuel);
    }
  }

  /** The first rule over a one-part box: it takes the box when it applies to the part, and passes
      it on whole otherwise. */
  lemma FirstRulePoint(plan: Plan, rules: seq<Rule<nat>>, p: Part, fuel: nat)
    requires ValidPlan(plan) && RulesOk(rules, |plan.wf|) && fuel > 0 && |rules| > 0
    ensures rules[0].target.Workflow? ==> rules[0].target.dest < |plan.wf|
    ensures Consider(rules[0], p).Some? ==> CountRules(plan, rules, Point(p), fuel) == Handle(plan, rules[0].target, Point(p), fuel)
    ensures Consider(rules[0], p).None? ==> CountRules(plan, rules, Point(p), fuel) == CountRules(plan, rules[1..], Point(p), fuel)
  {
    assert RuleOk(rules[0], |plan.wf|);
    match rules[0].cond
    case Some(c) =>
      SplitPoint(c, p);
      var (l, r) := Split(c, Point(p));
      assert CountRules(plan, rules, Point(p), fuel)
          == Handle(plan, rules[0].target, l, fuel) + CountRules(plan, rules[1..], r, fuel);
      if MatchPart(c, p) {
        assert CountRules(plan, rules[1..], r, fuel) == 0;
      } else {
        assert Handle(plan, rules[0].target, l, fuel) == 0;
      }
    case None =>
      assert CountRules(plan, rules[1..], EmptySpace, fuel) == 0;
  }

  /** `Plan::count_accepted(lo, hi)`: the accepted parts with every rating in `lo..=hi`, at most
      all `(hi - lo + 1)^4` of them. */
  function CountAccepted(plan: Plan, lo: nat, hi: nat, fuel: nat): (r: nat)
    requires ValidPlan(plan) && hi < U16_MAX && lo <= hi + 1
    ensures var w := hi + 1 - lo; r <= w * w * w * w
  {
    RangeCount(lo, hi);
    Count(plan, plan.start, RangeSpace(lo, hi), fuel)
  }

  // ---------------------------------------------------------------------------------------------
  // The count part by part: the reference the count of a whole box is held to

  /** One for a part that is counted, zero otherwise. */
  function Ind(b: bool): nat
  {
    if b then 1 else 0
  }

  /** `g(lo) + g(lo + 1) + ... + g(hi - 1)`, zero on an empty range. */
  function RangeSum(lo: nat, hi: nat, g: nat -> nat): nat
    decreases hi
  {
    if hi <= lo then 0 else RangeSum(lo, hi - 1, g) + g(hi - 1)
  }

  /** A range sum splits at any point of the range. */
  lemma {:induction false} RangeSumCut(lo: nat, v: nat, hi: nat, g: nat -> nat)
    requires lo <= v <= hi
    ensures RangeSum(lo, hi, g) == RangeSum(lo, v, g) + RangeSum(v, hi, g)
    decreases hi
  {
    if hi > v {
      RangeSumCut(lo, v, hi - 1, g);
    }
  }

  /** The range sum of a pointwise sum is the sum of the range sums. */
  lemma {:induction false} RangeSumAdd(lo: nat, hi: nat, g: nat -> nat, h: nat -> nat, k: nat -> nat)
    requires forall x :: lo <= x < hi ==> g(x) == h(x) + k(x)
    ensures RangeSum(lo, hi, g) == RangeSum(lo, hi, h) + RangeSum(lo, hi, k)
    decreases hi
  {
    if hi > lo {
      RangeSumAdd(lo, hi - 1, g, h, k);
    }
  }

  /** A range sum depends only on the values inside the range. */
  lemma {:induction false} RangeSumExt(lo: nat, hi: nat, g: nat -> nat, h: nat -> nat)
    requires forall x :: lo <= x < hi ==> g(x) == h(x)
    ensures RangeSum(lo, hi, g) == RangeSum(lo, hi, h)
    decreases hi
  {
    if hi > lo {
      RangeSumExt(lo, hi - 1, g, h);
    }
  }

  /** A constant summed over a range: the width of the range times the constant. */
  lemma {:induction false} RangeSumConst(lo: nat, hi: nat, g: nat -> nat, c: nat)
    requires forall x :: lo <= x < hi ==> g(x) == c
    ensures RangeSum(lo, hi, g) == Width((lo, hi)) * c
    decreases hi
  {
    if hi > lo {
      RangeSumConst(lo, hi - 1, g, c);
      assert (hi - lo) * c == (hi - 1 - lo) * c + c;
    }
  }

  /** A one-value range sums to the value. */
  lemma RangeSumOne(lo: nat, g: nat -> nat)
    ensures RangeSum(lo, lo + 1, g) == g(lo)
  {
  }

  /** The parts `(x, m, a, s)` of the box that `f` holds of, for fixed x, m and a. */
  function SSum(f: Part -> bool, x: nat, m: nat, a: nat, si: (nat, nat)): nat
  {
    RangeSum(si.0, si.1, s => Ind(f(Quad(x, m, a, s))))
  }

  /** The same for fixed x and m, over the a and s intervals. */
  function ASum(f: Part -> bool, x: nat, m: nat, ai: (nat, nat), si: (nat, nat)): nat
  {
    RangeSum(ai.0, ai.1, a => SSum(f, x, m, a, si))
  }

  /** The same for fixed x, over the m, a and s intervals. */
  function MSum(f: Part -> bool, x: nat, mi: (nat, nat), ai: (nat, nat), si: (nat, nat)): nat
  {
    RangeSum(mi.0, mi.1, m => ASum(f, x, m, ai, si))
  }

  /** The number of parts of the box that `f` holds of, counted one part at a time. */
  function Tally(ps: PartSpace, f: Part -> bool): nat
  {
    RangeSum(ps.x.0, ps.x.1, x => MSum(f, x, ps.m, ps.a, ps.s))
  }

  /** A part whose four ratings lie in the four intervals is in the box. */
  lemma InQuad(x: nat, m: nat, a: nat, s: nat, ps: PartSpace)
    requires ps.x.0 <= x < ps.x.1 && ps.m.0 <= m < ps.m.1
    requires ps.a.0 <= a < ps.a.1 && ps.s.0 <= s < ps.s.1
    ensures In(Quad(x, m, a, s), ps)
  {
    var p: Part := Quad(x, m, a, s);
    assert p.At(0) == x && p.At(1) == m && p.At(2) == a && p.At(3) == s;
  }

  /** The tally depends only on what `f` says of the parts in the box. */
  lemma TallyExt(ps: PartSpace, f: Part -> bool, g: Part -> bool)
    requires forall p :: In(p, ps) ==> f(p) == g(p)
    ensures Tally(ps, f) == Tally(ps, g)
  {
    forall x | ps.x.0 <= x < ps.x.1 ensures MSum(f, x, ps.m, ps.a, ps.s) == MSum(g, x, ps.m, ps.a, ps.s) {
      forall m | ps.m.0 <= m < ps.m.1 ensures ASum(f, x, m, ps.a, ps.s) == ASum(g, x, m, ps.a, ps.s) {
        forall a | ps.a.0 <= a < ps.a.1 ensures SSum(f, x, m, a, ps.s) == SSum(g, x, m, a, ps.s) {
          forall s | ps.s.0 <= s < ps.s.1 ensures f(Quad(x, m, a, s)) == g(Quad(x, m, a, s)) {
            InQuad(x, m, a, s, ps);
          }
          RangeSumExt(ps.s.0, ps.s.1, s => Ind(f(Quad(x, m, a, s))), s => Ind(g(Quad(x, m, a, s))));
        }
        RangeSumExt(ps.a.0, ps.a.1, a => SSum(f, x, m, a, ps.s), a => SSum(g, x, m, a, ps.s));
      }
      RangeSumExt(ps.m.0, ps.m.1, m => ASum(f, x, m, ps.a, ps.s), m => ASum(g, x, m, ps.a, ps.s));
    }
    RangeSumExt(ps.x.0, ps.x.1, x => MSum(f, x, ps.m, ps.a, ps.s), x => MSum(g, x, ps.m, ps.a, ps.s));
  }

  /** When `f` says the same of every part in the box, the tally is every part or none. */
  lemma TallyConst(ps: PartSpace, f: Part -> bool, b: bool)
    requires forall p :: In(p, ps) ==> f(p) == b
    ensures Tally(ps, f) == if b then TotalCount(ps) else 0
  {
    var c := Ind(b);
    var ws := Width(ps.s) * c;
    var was := Width(ps.a) * ws;
    var wmas := Width(ps.m) * was;
    forall x | ps.x.0 <= x < ps.x.1 ensures MSum(f, x, ps.m, ps.a, ps.s) == wmas {
      forall m | ps.m.0 <= m < ps.m.1 ensures ASum(f, x, m, ps.a, ps.s) == was {
        forall a | ps.a.0 <= a < ps.a.1 ensures SSum(f, x, m, a, ps.s) == ws {
          forall s | ps.s.0 <= s < ps.s.1 ensures f(Quad(x, m, a, s)) == b {
            InQuad(x, m, a, s, ps);
          }
          RangeSumConst(ps.s.0, ps.s.1, s => Ind(f(Quad(x, m, a, s))), c);
        }
        RangeSumConst(ps.a.0, ps.a.1, a => SSum(f, x, m, a, ps.s), ws);
      }
      RangeSumConst(ps.m.0, ps.m.1, m => ASum(f, x, m, ps.a, ps.s), was);
    }
    RangeSumConst(ps.x.0, ps.x.1, x => MSum(f, x, ps.m, ps.a, ps.s), wmas);
    NestedProduct(Width(ps.x), Width(ps.m), Width(ps.a), Width(ps.s));
  }

  lemma NestedProduct(a: nat, b: nat, c: nat, d: nat)
    ensures a * (b * (c * (d * 1))) == a * b * c * d
    ensures a * (b * (c * (d * 0))) == 0
  {
  }

  /** The tally of a one-part box is one exactly when `f` holds of the part. */
  lemma TallyPoint(p: Part, f: Part -> bool)
    ensures Tally(Point(p), f) == Ind(f(p))
  {
    var ps := Point(p);
    RangeSumOne(p.s, s => Ind(f(Quad(p.x, p.m, p.a, s))));
    RangeSumOne(p.a, a => SSum(f, p.x, p.m, a, ps.s));
    RangeSumOne(p.m, m => ASum(f, p.x, m, ps.a, ps.s));
    RangeSumOne(p.x, x => MSum(f, x, ps.m, ps.a, ps.s));
  }

  /** Cutting the x interval at `v` splits the tally in two. */
  lemma TallyCutX(ps: PartSpace, f: Part -> bool, v: nat)
    requires ps.x.0 <= v <= ps.x.1
    ensures Tally(ps, f) == Tally(ps.(x := (ps.x.0, v)), f) + Tally(ps.(x := (v, ps.x.1)), f)
  {
    RangeSumCut(ps.x.0, v, ps.x.1, x => MSum(f, x, ps.m, ps.a, ps.s));
  }

  /** Cutting the m interval at `v` splits the tally in two. */
  lemma TallyCutM(ps: PartSpace, f: Part -> bool, v: nat)
    requires ps.m.0 <= v <= ps.m.1
    ensures Tally(ps, f) == Tally(ps.(m := (ps.m.0, v)), f) + Tally(ps.(m := (v, ps.m.1)), f)
  {
    var lo, hi := (ps.m.0, v), (v, ps.m.1);
    forall x | ps.x.0 <= x < ps.x.1
      ensures MSum(f, x, ps.m, ps.a, ps.s) == MSum(f, x, lo, ps.a, ps.s) + MSum(f, x, hi, ps.a, ps.s)
    {
      RangeSumCut(ps.m.0, v, ps.m.1, m => ASum(f, x, m, ps.a, ps.s));
    }
    RangeSumAdd(ps.x.0, ps.x.1, x => MSum(f, x, ps.m, ps.a, ps.s),
                x => MSum(f, x, lo, ps.a, ps.s), x => MSum(f, x, hi, ps.a, ps.s));
  }

  /** Cutting the a interval at `v` splits the tally in two. */
  lemma TallyCutA(ps: PartSpace, f: Part -> bool, v: nat)
    requires ps.a.0 <= v <= ps.a.1
    ensures Tally(ps, f) == Tally(ps.(a := (ps.a.0, v)), f) + Tally(ps.(a := (v, ps.a.1)), f)
  {
    var lo, hi := (ps.a.0, v), (v, ps.a.1);
    forall x | ps.x.0 <= x < ps.x.1
      ensures MSum(f, x, ps.m, ps.a, ps.s) == MSum(f, x, ps.m, lo, ps.s) + MSum(f, x, ps.m, hi, ps.s)
    {
      forall m | ps.m.0 <= m < ps.m.1
        ensures ASum(f, x, m, ps.a, ps.s) == ASum(f, x, m, lo, ps.s) + ASum(f, x, m, hi, ps.s)
      {
        RangeSumCut(ps.a.0, v, ps.a.1, a => SSum(f, x, m, a, ps.s));
      }
      RangeSumAdd(ps.m.0, ps.m.1, m => ASum(f, x, m, ps.a, ps.s),
                  m => ASum(f, x, m, lo, ps.s), m => ASum(f, x, m, hi, ps.s));
    }
    RangeSumAdd(ps.x.0, ps.x.1, x => MSum(f, x, ps.m, ps.a, ps.s),
                x => MSum(f, x, ps.m, lo, ps.s), x => MSum(f, x, ps.m, hi, ps.s));
  }

  /** Cutting the s interval at `v` splits the tally in two. */
  lemma TallyCutS(ps: PartSpace, f: Part -> bool, v: nat)
    requires ps.s.0 <= v <= ps.s.1
    ensures Tally(ps, f) == Tally(ps.(s := (ps.s.0, v)), f) + Tally(ps.(s := (v, ps.s.1)), f)
  {
    var lo, hi := (ps.s.0, v), (v, ps.s.1);
    forall x | ps.x.0 <= x < ps.x.1
      ensures MSum(f, x, ps.m, ps.a, ps.s) == MSum(f, x, ps.m, ps.a, lo) + MSum(f, x, ps.m, ps.a, hi)
    {
      forall m | ps.m.0 <= m < ps.m.1
        ensures ASum(f, x, m, ps.a, ps.s) == ASum(f, x, m, ps.a, lo) + ASum(f, x, m, ps.a, hi)
      {
        forall a | ps.a.0 <= a < ps.a.1
          ensures SSum(f, x, m, a, ps.s) == SSum(f, x, m, a, lo) + SSum(f, x, m, a, hi)
        {
          RangeSumCut(ps.s.0, v, ps.s.1, s => Ind(f(Quad(x, m, a, s))));
        }
        RangeSumAdd(ps.a.0, ps.a.1, a => SSum(f, x, m, a, ps.s),
                    a => SSum(f, x, m, a, lo), a => SSum(f, x, m, a, hi));
      }
      RangeSumAdd(ps.m.0, ps.m.1, m => ASum(f, x, m, ps.a, ps.s),
                  m => ASum(f, x, m, ps.a, lo), m => ASum(f, x, m, ps.a, hi));
    }
    RangeSumAdd(ps.x.0, ps.x.1, x => MSum(f, x, ps.m, ps.a, ps.s),
                x => MSum(f, x, ps.m, ps.a, lo), x => MSum(f, x, ps.m, ps.a, hi));
  }

  /** Cutting any interval at a point inside it splits the tally in two. */
  lemma TallyCut(ps: PartSpace, f: Part -> bool, i: RatingIndex, v: nat)
    requires ps.At(i).0 <= v <= ps.At(i).1
    ensures Tally(ps, f) == Tally(ps.With(i, (ps.At(i).0, v)), f) + Tally(ps.With(i, (v, ps.At(i).1)), f)
  {
    if i == 0 {
      TallyCutX(ps, f, v);
    } else if i == 1 {
      TallyCutM(ps, f, v);
    } else if i == 2 {
      TallyCutA(ps, f, v);
    } else {
      TallyCutS(ps, f, v);
    }
  }

  /** The two halves of `SplitImpl` tally to the whole box. */
  lemma SplitImplTally(ps: PartSpace, i: RatingIndex, value: nat, f: Part -> bool)
    ensures Tally(ps, f) == Tally(SplitImpl(ps, i, value).0, f) + Tally(SplitImpl(ps, i, value).1, f)
  {
    var iv := ps.At(i);
    if iv.1 <= value {
      assert SplitImpl(ps, i, value) == (ps, EmptySpace);
    } else if iv.0 <= value {
      TallyCut(ps, f, i, value);
    } else {
      assert SplitImpl(ps, i, value) == (EmptySpace, ps);
    }
  }

  /** The two halves of `Split` tally to the whole box. */
  lemma SplitTally(c: Condition, ps: PartSpace, f: Part -> bool)
    requires c.ord == Greater ==> c.value < U16_MAX
    ensures Tally(ps, f) == Tally(Split(c, ps).0, f) + Tally(Split(c, ps).1, f)
  {
    if c.ord == Less {
      SplitImplTally(ps, c.rating, c.value, f);
    } else {
      SplitImplTally(ps, c.rating, c.value + 1, f);
    }
  }

  /** The parts the walk from workflow `i` accepts within `fuel` hops. */
  function Accepts(plan: Plan, i: nat, fuel: nat): Part -> bool
    requires ValidPlan(plan) && i < |plan.wf|
  {
    p => IsAcceptedImpl(plan, i, p, fuel) == Finished(Some(true))
  }

  /** The parts a target accepts: all, none, or those the walk from its workflow accepts. */
  function TargetAccepts(plan: Plan, t: Target<nat>, fuel: nat): Part -> bool
    requires ValidPlan(plan) && fuel > 0
  {
    p => match t
         case Accept => true
         case Reject => false
         case Workflow(j) => j < |plan.wf| && IsAcceptedImpl(plan, j, p, fuel - 1) == Finished(Some(true))
  }

  /** The parts a rule list accepts: those whose first applicable rule's target accepts them. */
  function RulesAccept(plan: Plan, rules: seq<Rule<nat>>, fuel: nat): Part -> bool
    requires ValidPlan(plan) && fuel > 0
  {
    p => FirstTarget(rules, p).Some? && TargetAccepts(plan, FirstTarget(rules, p).value, fuel)(p)
  }

  /** The walk that a target starts for the part ends within the hops left. */
  predicate TargetFinishes(plan: Plan, t: Target<nat>, p: Part, fuel: nat)
    requires ValidPlan(plan) && fuel > 0
  {
    t.Workflow? && t.dest < |plan.wf| ==> IsAcceptedImpl(plan, t.dest, p, fuel - 1).Finished?
  }

  /** The walk that a rule list starts for the part ends within the hops left. */
  predicate RulesFinish(plan: Plan, rules: seq<Rule<nat>>, p: Part, fuel: nat)
    requires ValidPlan(plan) && fuel > 0
  {
    FirstTarget(rules, p).Some? ==> TargetFinishes(plan, FirstTarget(rules, p).value, p, fuel)
  }

  /** The corrected count of any box is the number of its parts that the walk from workflow `i`
      accepts, once the walk of every part of the box ends within `fuel` hops. */
  lemma {:induction false} CountTally(plan: Plan, i: nat, ps: PartSpace, fuel: nat)
    requires ValidPlan(plan) && i < |plan.wf|
    requires forall p :: In(p, ps) ==> IsAcceptedImpl(plan, i, p, fuel).Finished?
    ensures Count(plan, i, ps, fuel) == Tally(ps, Accepts(plan, i, fuel))
    decreases fuel, 2, 0
  {
    if fuel == 0 {
      TallyConst(ps, Accepts(plan, i, fuel), false);
    } else {
      var rules := plan.wf[i].rules;
      forall p | In(p, ps)
        ensures RulesFinish(plan, rules, p, fuel)
        ensures Accepts(plan, i, fuel)(p) == RulesAccept(plan, rules, fuel)(p)
      {
        var t := FirstTarget(rules, p);
        assert Accepts(plan, i, fuel)(p) == (IsAcceptedImpl(plan, i, p, fuel) == Finished(Some(true)));
        assert RulesAccept(plan, rules, fuel)(p) == (t.Some? && TargetAccepts(plan, t.value, fuel)(p));
        if t.Some? {
          FirstTargetOk(rules, p, |plan.wf|);
          if t.value.Workflow? {
            assert IsAcceptedImpl(plan, i, p, fuel) == IsAcceptedImpl(plan, t.value.dest, p, fuel - 1);
          }
        }
      }
      CountRulesTally(plan, rules, ps, fuel);
      TallyExt(ps, RulesAccept(plan, rules, fuel), Accepts(plan, i, fuel));
    }
  }

  /** The fold over the rules counts the parts of the box the rule list accepts. */
  lemma {:induction false} CountRulesTally(plan: Plan, rules: seq<Rule<nat>>, acc: PartSpace, fuel: nat)
    requires ValidPlan(plan) && RulesOk(rules, |plan.wf|) && fuel > 0
    requires forall p :: In(p, acc) ==> RulesFinish(plan, rules, p, fuel)
    ensures CountRules(plan, rules, acc, fuel) == Tally(acc, RulesAccept(plan, rules, fuel))
    decreases fuel, 1, |rules|
  {
    var f := RulesAccept(plan, rules, fuel);
    if |rules| == 0 {
      TallyConst(acc, f, false);
    } else {
      assert RuleOk(rules[0], |plan.wf|);
      var t := rules[0].target;
      var g := TargetAccepts(plan, t, fuel);
      var rest := RulesAccept(plan, rules[1..], fuel);
      match rules[0].cond
      case Some(c) =>
        var (l, r) := Split(c, acc);
        forall p | In(p, l) ensures TargetFinishes(plan, t, p, fuel) && g(p) == f(p) {
          assert FirstTarget(rules, p) == Some(t);
        }
        forall p | In(p, r) ensures RulesFinish(plan, rules[1..], p, fuel) && rest(p) == f(p) {
          assert FirstTarget(rules, p) == FirstTarget(rules[1..], p);
        }
        HandleTally(plan, t, l, fuel);
        CountRulesTally(plan, rules[1..], r, fuel);
        TallyExt(l, g, f);
        TallyExt(r, rest, f);
        SplitTally(c, acc, f);
      case None =>
        forall p | In(p, acc) ensures TargetFinishes(plan, t, p, fuel) && g(p) == f(p) {
          assert FirstTarget(rules, p) == Some(t);
        }
        HandleTally(plan, t, acc, fuel);
        TallyExt(acc, g, f);
    }
  }

  /** `handle` counts the parts of the box its target accepts. */
  lemma {:induction false} HandleTally(plan: Plan, t: Target<nat>, ps: PartSpace, fuel: nat)
    requires ValidPlan(plan) && (t.Workflow? ==> t.dest < |plan.wf|) && fuel > 0
    requires forall p :: In(p, ps) ==> TargetFinishes(plan, t, p, fuel)
    ensures Handle(plan, t, ps, fuel) == Tally(ps, TargetAccepts(plan, t, fuel))
    decreases fuel, 0, 0
  {
    var g := TargetAccepts(plan, t, fuel);
    match t
    case Accept => TallyConst(ps, g, true);
    case Reject => TallyConst(ps, g, false);
    case Workflow(j) =>
      if IsEmpty(ps) {
        EmptyHasNoParts(ps);
        TallyConst(ps, g, false);
      } else {
        CountTally(plan, j, ps, fuel - 1);
        TallyExt(ps, Accepts(plan, j, fuel - 1), g);
      }
  }

  /** `count_accepted(lo, hi)` is the number of parts with every rating in `lo..=hi` that the walk
      from `in` accepts, once every such walk ends within `fuel` hops. */
  lemma CountAcceptedTally(plan: Plan, lo: nat, hi: nat, fuel: nat)
    requires ValidPlan(plan) && hi < U16_MAX && lo <= hi + 1
    requires forall p :: In(p, RangeSpace(lo, hi)) ==> IsAcceptedImpl(plan, plan.start, p, fuel).Finished?
    ensures CountAccepted(plan, lo, hi, fuel) == Tally(RangeSpace(lo, hi), Accepts(plan, plan.start, fuel))
  {
    CountTally(plan, plan.start, RangeSpace(lo, hi), fuel);
  }

  // ---------------------------------------------------------------------------------------------
  // The count as the source writes it

  /** `CountAccepted::count` as written: the same fold, but each conditional rule splits the box
      with `SplitAsWritten`. */
  function CountAsWritten(plan: Plan, i: nat, ps: PartSpace, fuel: nat): (r: nat)
    requires ValidPlan(plan) && i < |plan.wf|
    ensures r <= TotalCount(ps)
    decreases fuel, 2, 0
  {
    if fuel == 0 then 0 else CountRulesAsWritten(plan, plan.wf[i].rules, ps, fuel)
  }

  function CountRulesAsWritten(plan: Plan, rules: seq<Rule<nat>>, acc: PartSpace, fuel: nat): (r: nat)
    requires ValidPlan(plan) && RulesOk(rules, |plan.wf|) && fuel > 0
    ensures r <= TotalCount(acc)
    decreases fuel, 1, |rules|
  {
    if |rules| == 0 then 0
    else
      assert RuleOk(rules[0], |plan.wf|);
      match rules[0].cond
      case Some(c) =>
        var (l, r) := SplitAsWritten(c, acc);
        HandleAsWritten(plan, rules[0].target, l, fuel) + CountRulesAsWritten(plan, rules[1..], r, fuel)
      case None =>
        var rest := CountRulesAsWritten(plan, rules[1..], EmptySpace, fuel);
        HandleAsWritten(plan, rules[0].target, acc, fuel) + rest
  }

  function HandleAsWritten(plan: Plan, t: Target<nat>, ps: PartSpace, fuel: nat): (r: nat)
    requires ValidPlan(plan) && (t.Workflow? ==> t.dest < |plan.wf|) && fuel > 0
    ensures r <= TotalCount(ps)
    ensures t.Accept? ==> r == TotalCount(ps)
    ensures t.Reject? || IsEmpty(ps) ==> r == 0
    decreases fuel, 0, 0
  {
    match t
    case Accept => TotalCount(ps)
    case Reject => 0
    case Workflow(j) => if !IsEmpty(ps) then CountAsWritten(plan, j, ps, fuel - 1) else 0
  }

  /** Rules that all accept, ending in an unconditional one, count the whole box, whichever way
      the conditions split it: both splits conserve the count. */
  lemma {:induction false} AllAcceptCounts(plan: Plan, rules: seq<Rule<nat>>, acc: PartSpace, fuel: nat)
    requires ValidPlan(plan) && RulesOk(rules, |plan.wf|) && fuel > 0
    requires |rules| > 0 && rules[|rules| - 1].cond.None?
    requires forall k :: 0 <= k < |rules| ==> rules[k].target == Accept
    ensures CountRulesAsWritten(plan, rules, acc, fuel) == TotalCount(acc)
    ensures CountRules(plan, rules, acc, fuel) == TotalCount(acc)
  {
    assert RuleOk(rules[0], |plan.wf|);
    match rules[0].cond
    case Some(c) =>
      var (l, r) := SplitAsWritten(c, acc);
      var (l', r') := Split(c, acc);
      AllAcceptCounts(plan, rules[1..], r, fuel);
      AllAcceptCounts(plan, rules[1..], r', fuel);
    case None =>
      if |rules| > 1 {
        AllAcceptCounts(plan, rules[1..], EmptySpace, fuel);
      } else {
        assert CountRulesAsWritten(plan, rules[1..], EmptySpace, fuel) == 0;
        assert CountRules(plan, rules[1..], EmptySpace, fuel) == 0;
      }
  }

  /** `count_accepted` as written. */
  function CountAcceptedAsWritten(plan: Plan, lo: nat, hi: nat, fuel: nat): (r: nat)
    requires ValidPlan(plan) && hi < U16_MAX && lo <= hi + 1
    ensures var w := hi + 1 - lo; r <= w * w * w * w
  {
    RangeCount(lo, hi);
    CountAsWritten(plan, plan.start, RangeSpace(lo, hi), fuel)
  }

  /** The plan `in{x<100:A,R}`: walking the part (1, 1, 1, 1) accepts it, and the corrected count
      of its one-part box is 1, but the count as written gives 0, because `split_impl` hands the
      box, whose x lies wholly below 100, to the non-matching side. */
  lemma CountAsWrittenDisagrees()
    ensures var plan := Plan([WorkflowDef("in", [Rule(Some(Condition(0, Less, 100)), Accept), Rule(None, Reject)])], 0);
            var p: Part := Quad(1, 1, 1, 1);
            && ValidPlan(plan)
            && IsAcceptedImpl(plan, 0, p, 1) == Finished(Some(true))
            && Count(plan, 0, Point(p), 1) == 1
            && CountAsWritten(plan, 0, Point(p), 1) == 0
  {
    var rules := [Rule(Some(Condition(0, Less, 100)), Accept), Rule(None, Reject)];
    var plan := Plan([WorkflowDef("in", rules)], 0);
    var p: Part := Quad(1, 1, 1, 1);
    assert RuleOk(rules[0], 1) && RuleOk(rules[1], 1);
    assert ValidPlan(plan);
    assert MatchPart(Condition(0, Less, 100), p);
    assert FirstTarget(rules, p) == Some(Accept);
    assert IsAcceptedImpl(plan, 0, p, 1) == Finished(Some(true));
    CountPoint(plan, 0, p, 1);
    assert SplitAsWritten(Condition(0, Less, 100), Point(p)) == (EmptySpace, Point(p));
    assert CountRulesAsWritten(plan, rules[1..], Point(p), 1) == 0;
    assert CountAsWritten(plan, 0, Point(p), 1) == CountRulesAsWritten(plan, rules, Point(p), 1);
  }
}

=== FILE: day20.dfy ===
/** Day 20 (Pulse Propagation): modules joined by cables pass high and low pulses. A broadcaster
    repeats what it receives, a flip-flop toggles on a low pulse and sends its new state, and a
    conjunction remembers the last pulse from each input and sends low only when all of them were
    high. The circuit keeps every module's memory in one bit vector; pulses are handled in the order
    they are sent. */
module Day20 {
  import opened Common
  import opened Strings

  datatype Kind = Broadcaster | FlipFlop | Conjunction

  /** `SourceLink`: one line of the input, before names are turned into indices. */
  datatype SourceLink = SourceLink(kind: Kind, name: string, targets: seq<string>)

  function KindPrefix(k: Kind): string
  {
    match k
    case Broadcaster => ""
    case FlipFlop => "%"
    case Conjunction => "&"
  }

  /** `SourceLink::parse`: `name -> t1, t2, ...`, split at the first ` -> `; a leading `%` or `&`
      makes the module a flip-flop or a conjunction, anything else a broadcaster. With nothing
      before the arrow the source slices out of range; that is an error here. */
  function ParseSourceLink(line: string): (r: Option<SourceLink>)
    ensures r.None? <==> Find(line, " -> ").None? || Find(line, " -> ") == Some(0)
    ensures r.Some? ==> line == KindPrefix(r.value.kind) + r.value.name + " -> " + Join(r.value.targets, ", ")
    ensures r.Some? ==> (r.value.kind == FlipFlop <==> line[0] == '%') && (r.value.kind == Conjunction <==> line[0] == '&')
    ensures r.Some? ==> |r.value.targets| >= 1
  {
    var lr :- SplitOnceStr(line, " -> ");
    var l, rest := lr.0, lr.1;
    if |l| == 0 then None
    else
      var kind := if l[0] == '%' then FlipFlop else if l[0] == '&' then Conjunction else Broadcaster;
      var name := if kind == Broadcaster then l else l[1..];
      assert l == KindPrefix(kind) + name;
      Some(SourceLink(kind, name, SplitStr(rest, ", ")))
  }

  /** How a module is written in the input. */
  function ShowSourceLink(sl: SourceLink): string
  {
    KindPrefix(sl.kind) + sl.name + " -> " + Join(sl.targets, ", ")
  }

  /** A module whose name has no spaces, whose targets have no commas, and which, as a
      broadcaster, does not look like another kind, reads back from its line. */
  lemma ParseShowSourceLink(sl: SourceLink)
    requires NoneIn(sl.name, {' '}) && |sl.targets| > 0
    requires forall i :: 0 <= i < |sl.targets| ==> NoneIn(sl.targets[i], {','})
    requires sl.kind == Broadcaster ==> |sl.name| > 0 && sl.name[0] != '%' && sl.name[0] != '&'
    ensures ParseSourceLink(ShowSourceLink(sl)) == Some(sl)
  {
    var l := KindPrefix(sl.kind) + sl.name;
    var rest := Join(sl.targets, ", ");
    assert ShowSourceLink(sl) == l + " -> " + rest;
    assert NoneIn(l, {' '});
    SplitShown(l, rest);
    JoinSplitStr(sl.targets, ", ");
    match sl.kind
    case Broadcaster => assert l == sl.name && l[0] != '%' && l[0] != '&';
    case FlipFlop => assert l[0] == '%' && l[1..] == sl.name;
    case Conjunction => assert l[0] == '&' && l[1..] == sl.name;
  }

  /** A line whose left side has no space splits at the arrow right after that side. */
  lemma SplitShown(l: string, rest: string)
    requires NoneIn(l, {' '})
    ensures SplitOnceStr(l + " -> " + rest, " -> ") == Some((l, rest))
  {
    var line := l + " -> " + rest;
    assert OccursAt(line, " -> ", |l|) by {
      assert line[|l|..|l| + 4] == " -> ";
    }
    var lr := SplitOnceStr(line, " -> ");
    var k := |lr.value.0|;
    assert line[..k] == lr.value.0;
    assert line[k..k + 4] == " -> ";
    assert line[k] == ' ';
    assert k >= |l| by {
      assert forall j :: 0 <= j < |l| ==> line[j] == l[j] && line[j] != ' ';
    }
    assert k == |l|;
    assert line[..|l|] == l;
    assert line[|l| + 4..] == rest;
  }

  // ---------------------------------------------------------------------------------------------
  // Naming: dense indices in order of first appearance

  predicate Distinct<T(==)>(s: seq<T>)
  {
    forall i, j :: 0 <= i < j < |s| ==> s[i] != s[j]
  }

  /** The `add_name` closure: a new name gets the next index, a known one keeps its own. */
  function AddName(names: seq<string>, n: string): (r: seq<string>)
    ensures n in names ==> r == names
    ensures n !in names ==> r == names + [n]
  {
    if n in names then names else names + [n]
  }

  /** The names of `all` in order of first appearance, each once. */
  function AssignNames(all: seq<string>): (names: seq<string>)
    ensures Distinct(names)
    ensures forall n :: n in names <==> n in all
    ensures forall i, j :: 0 <= i < j < |names| ==> FirstIndex(all, names[i]).value < FirstIndex(all, names[j]).value
  {
    if |all| == 0 then []
    else
      var init := all[..|all| - 1];
      var x := all[|all| - 1];
      assert all == init + [x];
      var names := AssignNames(init);
      forall n ensures FirstIndex(all, n) == if n in init then FirstIndex(init, n) else if n == x then Some(|init|) else None {
        FirstIndexSnoc(init, x, n);
      }
      AddName(names, x)
  }

  /** The index of a known name. */
  function Idx(names: seq<string>, n: string): (r: nat)
    requires n in names
    ensures r < |names| && names[r] == n
  {
    FirstIndex(names, n).value
  }

  lemma IdxOfDistinct(names: seq<string>, k: nat)
    requires Distinct(names) && k < |names|
    ensures Idx(names, names[k]) == k
  {
  }

  /** The module names in line order. */
  function DefNames(srcs: seq<SourceLink>): (r: seq<string>)
    ensures |r| == |srcs| && forall i :: 0 <= i < |srcs| ==> r[i] == srcs[i].name
  {
    seq(|srcs|, i requires 0 <= i < |srcs| => srcs[i].name)
  }

  /** The target names of all lines, flattened in order. */
  function TargetNames(srcs: seq<SourceLink>): (r: seq<string>)
    ensures forall t :: t in r <==> exists i :: 0 <= i < |srcs| && t in srcs[i].targets
  {
    if |srcs| == 0 then []
    else
      var n := |srcs| - 1;
      assert forall i :: 0 <= i < n ==> srcs[..n][i] == srcs[i];
      TargetNames(srcs[..n]) + srcs[n].targets
  }

  /** `Circuit::load` numbers the defined modules first, then the targets, each at its first
      appearance. */
  function CircuitNames(srcs: seq<SourceLink>): seq<string>
  {
    AssignNames(DefNames(srcs) + TargetNames(srcs))
  }

  /** A defined module is numbered before any name that occurs only as a target. */
  lemma DefinitionsFirst(srcs: seq<SourceLink>, d: string, t: string)
    requires d in DefNames(srcs) && t in TargetNames(srcs) && t !in DefNames(srcs)
    ensures d in CircuitNames(srcs) && t in CircuitNames(srcs)
    ensures Idx(CircuitNames(srcs), d) < Idx(CircuitNames(srcs), t)
  {
    var all := DefNames(srcs) + TargetNames(srcs);
    FirstInFront(DefNames(srcs), TargetNames(srcs), d, t);
    EarlierFirstEarlierIndex(all, d, t);
  }

  /** In `front + back`, a name of `front` first appears before a name found only in `back`. */
  lemma FirstInFront(front: seq<string>, back: seq<string>, d: string, t: string)
    requires d in front && t in back && t !in front
    ensures FirstIndex(front + back, d).value < |front| <= FirstIndex(front + back, t).value
  {
    var all := front + back;
    var k :| 0 <= k < |front| && front[k] == d;
    assert all[k] == d;
  }

  /** Names that appear earlier are numbered lower. */
  lemma EarlierFirstEarlierIndex(all: seq<string>, d: string, t: string)
    requires d in all && t in all && FirstIndex(all, d).value < FirstIndex(all, t).value
    ensures d in AssignNames(all) && t in AssignNames(all)
    ensures Idx(AssignNames(all), d) < Idx(AssignNames(all), t)
  {
  }

  // ---------------------------------------------------------------------------------------------
  // Links

  /** `Link`: a module with its targets and the modules that have it as a target (both as
      indices), and where its memory starts in the state vector. */
  datatype Link = Link(name: string, kind: Kind, offset: nat, sources: seq<nat>, targets: seq<nat>)

  /** The number of state bits a module uses: none, one, or one per input. */
  function Size(l: Link): nat
  {
    match l.kind
    case Broadcaster => 0
    case FlipFlop => 1
    case Conjunction => |l.sources|
  }

  /** Every name of every line is among `names`. */
  predicate Covers(names: seq<string>, srcs: seq<SourceLink>)
  {
    (forall i :: 0 <= i < |srcs| ==> srcs[i].name in names)
    && forall i, t :: 0 <= i < |srcs| && t in srcs[i].targets ==> t in names
  }

  lemma CircuitNamesCover(srcs: seq<SourceLink>)
    ensures Covers(CircuitNames(srcs), srcs)
  {
    var defs := DefNames(srcs);
    forall i | 0 <= i < |srcs| ensures srcs[i].name in CircuitNames(srcs) {
      assert defs[i] == srcs[i].name;
    }
  }

  /** The last line that defines `name`: `Circuit::load` overwrites a module defined twice. */
  function LastDef(srcs: seq<SourceLink>, name: string): (r: Option<SourceLink>)
    ensures r.Some? <==> exists i :: 0 <= i < |srcs| && srcs[i].name == name
    ensures r.Some? ==> exists i :: (0 <= i < |srcs| && srcs[i] == r.value && srcs[i].name == name
                                     && forall j :: i < j < |srcs| ==> srcs[j].name != name)
  {
    if |srcs| == 0 then None
    else
      var n := |srcs| - 1;
      if srcs[n].name == name then Some(srcs[n])
      else
        var r := LastDef(srcs[..n], name);
        assert forall i :: 0 <= i < n ==> srcs[..n][i] == srcs[i];
        r
  }

  /** The indices of some names. */
  function Indices(names: seq<string>, ts: seq<string>): (r: seq<nat>)
    requires forall t :: t in ts ==> t in names
    ensures |r| == |ts| && forall k :: 0 <= k < |ts| ==> r[k] < |names| && names[r[k]] == ts[k]
  {
    seq(|ts|, k requires 0 <= k < |ts| => Idx(names, ts[k]))
  }

  function Repeat(x: nat, n: nat): (r: seq<nat>)
    ensures |r| == n && forall k :: 0 <= k < n ==> r[k] == x
  {
    seq(n, _ => x)
  }

  /** `vsrc[t]`: for each line in order, the index of its module once for every time it lists `t`
      as a target. */
  function SourcesOf(srcs: seq<SourceLink>, names: seq<string>, t: string): (r: seq<nat>)
    requires Covers(names, srcs)
    ensures forall i :: i in r <==> exists j :: 0 <= j < |srcs| && Idx(names, srcs[j].name) == i && t in srcs[j].targets
    ensures forall i :: i in r ==> i < |names|
  {
    if |srcs| == 0 then []
    else
      var n := |srcs| - 1;
      var sl := srcs[n];
      assert forall j :: 0 <= j < n ==> srcs[..n][j] == srcs[j];
      var c := CountOf(sl.targets, t);
      CountOfIsMultiplicity(sl.targets, t);
      var prev := SourcesOf(srcs[..n], names, t);
      var r := prev + Repeat(Idx(names, sl.name), c);
      forall i ensures i in r <==> exists j :: 0 <= j < |srcs| && Idx(names, srcs[j].name) == i && t in srcs[j].targets {
        if i in r && i !in prev {
          assert i == Idx(names, sl.name) && c > 0;
          assert Idx(names, srcs[n].name) == i && t in srcs[n].targets;
        }
        if exists j :: 0 <= j < |srcs| && Idx(names, srcs[j].name) == i && t in srcs[j].targets {
          var j :| 0 <= j < |srcs| && Idx(names, srcs[j].name) == i && t in srcs[j].targets;
          if j == n {
            assert r[|prev|] == i;
          } else {
            assert srcs[..n][j] == srcs[j];
          }
        }
      }
      r
  }

  /** The link of module `k` before offsets are assigned: kind and targets from its last line, or
      a broadcaster without targets when it only occurs as a target. */
  function BareLink(srcs: seq<SourceLink>, names: seq<string>, k: nat): (l: Link)
    requires Covers(names, srcs) && k < |names|
    ensures l.offset == 0 && l.sources == SourcesOf(srcs, names, names[k])
    ensures forall t :: t in l.targets ==> t < |names|
  {
    var sources := SourcesOf(srcs, names, names[k]);
    match LastDef(srcs, names[k])
    case Some(sl) =>
      var i :| 0 <= i < |srcs| && srcs[i] == sl && srcs[i].name == names[k]
               && forall j :: i < j < |srcs| ==> srcs[j].name != names[k];
      Link(sl.name, sl.kind, 0, sources, Indices(names, sl.targets))
    case None => Link("", Broadcaster, 0, sources, [])
  }

  /** The state bits used by a run of links. */
  function SizeSum(ls: seq<Link>): nat
  {
    if |ls| == 0 then 0 else SizeSum(ls[..|ls| - 1]) + Size(ls[|ls| - 1])
  }

  lemma {:induction false} SizeSumMonotone(ls: seq<Link>, a: nat, b: nat)
    requires a <= b <= |ls|
    ensures SizeSum(ls[..a]) <= SizeSum(ls[..b])
    decreases b
  {
    if a < b {
      SizeSumMonotone(ls, a, b - 1);
      assert ls[..b][..b - 1] == ls[..b - 1];
    }
  }

  /** The state-length fold: each link gets the number of bits used by the links before it as
      its offset. */
  function WithOffsets(ls: seq<Link>): (r: seq<Link>)
    ensures |r| == |ls|
  {
    if |ls| == 0 then []
    else
      var n := |ls| - 1;
      WithOffsets(ls[..n]) + [ls[n].(offset := SizeSum(ls[..n]))]
  }

  /** Link `k` keeps everything but its offset, which is the size of the links before it. */
  lemma {:induction false} WithOffsetsAt(ls: seq<Link>, k: nat)
    requires k < |ls|
    ensures WithOffsets(ls)[k] == ls[k].(offset := SizeSum(ls[..k]))
    decreases |ls|
  {
    var n := |ls| - 1;
    if k < n {
      WithOffsetsAt(ls[..n], k);
      assert ls[..n][k] == ls[k] && ls[..n][..k] == ls[..k];
    }
  }

  lemma WithOffsetsAll(ls: seq<Link>)
    ensures forall k :: 0 <= k < |ls| ==> WithOffsets(ls)[k] == ls[k].(offset := SizeSum(ls[..k]))
  {
    forall k | 0 <= k < |ls| ensures WithOffsets(ls)[k] == ls[k].(offset := SizeSum(ls[..k])) {
      WithOffsetsAt(ls, k);
    }
  }

  /** `Circuit`: the names, the links indexed like them, and the length of the state vector. */
  datatype Circuit = Circuit(names: seq<string>, links: seq<Link>, stateLen: nat)

  predicate LinkOk(l: Link, n: nat, stateLen: nat)
  {
    (forall t :: t in l.targets ==> t < n) && (forall s :: s in l.sources ==> s < n) && l.offset + Size(l) <= stateLen
  }

  /** Indices name modules and every module's memory lies in the state vector. */
  predicate Valid(c: Circuit)
  {
    |c.links| == |c.names| && forall k :: 0 <= k < |c.links| ==> LinkOk(c.links[k], |c.links|, c.stateLen)
  }

  /** Every module that sends to `t` is among `t`'s sources. */
  predicate SendersListed(c: Circuit)
  {
    forall k, t :: 0 <= k < |c.links| && t in c.links[k].targets && t < |c.links| ==> k in c.links[t].sources
  }

  /** The memories of different modules do not overlap. */
  predicate Disjoint(c: Circuit)
  {
    forall k1, k2 :: 0 <= k1 < k2 < |c.links| ==> c.links[k1].offset + Size(c.links[k1]) <= c.links[k2].offset
  }

  /** The circuit `Circuit::load` builds from the parsed lines. */
  function Build(srcs: seq<SourceLink>): (c: Circuit)
    ensures c.names == CircuitNames(srcs) && Valid(c) && SendersListed(c) && Disjoint(c)
    ensures forall k :: 0 <= k < |c.links| ==> c.links[k].sources == SourcesOf(srcs, c.names, c.names[k])
    ensures forall k :: 0 <= k < |c.links| ==> c.links[k].offset == SizeSum(c.links[..k])
    ensures c.stateLen == SizeSum(c.links)
  {
    var names := CircuitNames(srcs);
    CircuitNamesCover(srcs);
    var bare := BareLinks(srcs, names);
    var links := WithOffsets(bare);
    var c := Circuit(names, links, SizeSum(bare));
    OffsetsLayout(bare);
    BuiltValid(srcs, names, bare, links);
    BuiltSendersListed(srcs, names, bare, links);
    BuiltSources(srcs, names, bare, links);
    c
  }

  lemma BuiltValid(srcs: seq<SourceLink>, names: seq<string>, bare: seq<Link>, links: seq<Link>)
    requires Covers(names, srcs) && bare == BareLinks(srcs, names) && links == WithOffsets(bare)
    requires forall k :: 0 <= k < |links| ==> links[k].offset + Size(links[k]) <= SizeSum(bare)
    ensures Valid(Circuit(names, links, SizeSum(bare)))
  {
    WithOffsetsAll(bare);
    forall k | 0 <= k < |links| ensures LinkOk(links[k], |links|, SizeSum(bare)) {
      assert links[k].sources == bare[k].sources && links[k].targets == bare[k].targets;
    }
  }

  lemma BuiltSources(srcs: seq<SourceLink>, names: seq<string>, bare: seq<Link>, links: seq<Link>)
    requires Covers(names, srcs) && bare == BareLinks(srcs, names) && links == WithOffsets(bare)
    ensures forall k :: 0 <= k < |links| ==> links[k].sources == SourcesOf(srcs, names, names[k])
  {
    forall k | 0 <= k < |links| ensures links[k].sources == SourcesOf(srcs, names, names[k]) {
      WithOffsetsAt(bare, k);
    }
  }

  lemma BuiltSendersListed(srcs: seq<SourceLink>, names: seq<string>, bare: seq<Link>, links: seq<Link>)
    requires names == CircuitNames(srcs) && Covers(names, srcs) && bare == BareLinks(srcs, names)
    requires links == WithOffsets(bare)
    ensures SendersListed(Circuit(names, links, SizeSum(bare)))
  {
    WithOffsetsAll(bare);
    forall k, t | 0 <= k < |links| && t in links[k].targets && t < |links| ensures k in links[t].sources {
      SenderListed(srcs, names, k, t);
    }
  }

  /** Every module's link before offsets are assigned. */
  function BareLinks(srcs: seq<SourceLink>, names: seq<string>): (r: seq<Link>)
    requires Covers(names, srcs)
    ensures |r| == |names| && forall k :: 0 <= k < |names| ==> r[k] == BareLink(srcs, names, k)
  {
    seq(|names|, k requires 0 <= k < |names| => BareLink(srcs, names, k))
  }

  /** The offsets of `WithOffsets` lay the memories out one after the other inside the total. */
  lemma OffsetsLayout(bare: seq<Link>)
    ensures var links := WithOffsets(bare);
      && SizeSum(links) == SizeSum(bare)
      && (forall k :: 0 <= k < |links| ==> links[k].offset == SizeSum(links[..k]))
      && (forall k :: 0 <= k < |links| ==> links[k].offset + Size(links[k]) <= SizeSum(bare))
      && (forall k1, k2 :: 0 <= k1 < k2 < |links| ==> links[k1].offset + Size(links[k1]) <= links[k2].offset)
  {
    var links := WithOffsets(bare);
    WithOffsetsAll(bare);
    SizeSumSameSizes(bare, links);
    OffsetsArePrefixSums(bare, links);
    OffsetsWithin(bare, links);
    OffsetsDisjoint(bare, links);
  }

  lemma OffsetsArePrefixSums(bare: seq<Link>, links: seq<Link>)
    requires links == WithOffsets(bare)
    ensures forall k :: 0 <= k < |links| ==> links[k].offset == SizeSum(links[..k])
  {
    WithOffsetsAll(bare);
    forall k | 0 <= k < |links| ensures links[k].offset == SizeSum(links[..k]) {
      SizeSumSameSizes(bare[..k], links[..k]);
    }
  }

  lemma OffsetsWithin(bare: seq<Link>, links: seq<Link>)
    requires links == WithOffsets(bare)
    ensures forall k :: 0 <= k < |links| ==> links[k].offset + Size(links[k]) <= SizeSum(bare)
  {
    forall k | 0 <= k < |links| ensures links[k].offset + Size(links[k]) <= SizeSum(bare) {
      LinkWithin(bare, links, k);
    }
  }

  lemma LinkWithin(bare: seq<Link>, links: seq<Link>, k: nat)
    requires links == WithOffsets(bare) && k < |links|
    ensures links[k].offset + Size(links[k]) <= SizeSum(bare)
  {
    WithOffsetsAt(bare, k);
    assert Size(links[k]) == Size(bare[k]);
    OneWithin(bare, k);
  }

  lemma OneWithin(bare: seq<Link>, k: nat)
    requires k < |bare|
    ensures SizeSum(bare[..k]) + Size(bare[k]) <= SizeSum(bare)
  {
    SizeSumMonotone(bare, k + 1, |bare|);
    assert bare[..k + 1][..k] == bare[..k];
    assert bare[..|bare|] == bare;
  }

  lemma OffsetsDisjoint(bare: seq<Link>, links: seq<Link>)
    requires links == WithOffsets(bare)
    ensures forall k1, k2 :: 0 <= k1 < k2 < |links| ==> links[k1].offset + Size(links[k1]) <= links[k2].offset
  {
    forall k1, k2 | 0 <= k1 < k2 < |links| ensures links[k1].offset + Size(links[k1]) <= links[k2].offset {
      WithOffsetsAt(bare, k1);
      WithOffsetsAt(bare, k2);
      OneBefore(bare, k1, k2);
    }
  }

  lemma OneBefore(bare: seq<Link>, k1: nat, k2: nat)
    requires k1 < k2 <= |bare|
    ensures SizeSum(bare[..k1]) + Size(bare[k1]) <= SizeSum(bare[..k2])
  {
    SizeSumMonotone(bare, k1 + 1, k2);
    assert bare[..k1 + 1][..k1] == bare[..k1];
  }

  /** Links that differ only in their offsets use the same number of bits. */
  lemma {:induction false} SizeSumSameSizes(a: seq<Link>, b: seq<Link>)
    requires |a| == |b| && forall k :: 0 <= k < |a| ==> b[k] == a[k].(offset := b[k].offset)
    ensures SizeSum(a) == SizeSum(b)
  {
    if |a| > 0 {
      SizeSumSameSizes(a[..|a| - 1], b[..|b| - 1]);
    }
  }

  /** A module listed as a target by the last line of module `k` has `k` among its sources. */
  lemma SenderListed(srcs: seq<SourceLink>, names: seq<string>, k: nat, t: nat)
    requires names == CircuitNames(srcs) && Covers(names, srcs) && k < |names| && t < |names|
    requires t in BareLink(srcs, names, k).targets
    ensures k in SourcesOf(srcs, names, names[t])
  {
    var sl := LastDef(srcs, names[k]).value;
    var i :| 0 <= i < |srcs| && srcs[i] == sl && srcs[i].name == names[k]
             && forall j :: i < j < |srcs| ==> srcs[j].name != names[k];
    var ts := Indices(names, sl.targets);
    var m :| 0 <= m < |ts| && ts[m] == t;
    assert names[t] in srcs[i].targets;
    IdxOfDistinct(names, k);
  }

  /** `Circuit::load`: every line parsed, then the circuit built; the first line that does not
      parse is an error. */
  function Load(input: string): (r: Result<Circuit>)
    ensures r.Ok? <==> AllParse(Lines(input))
    ensures r.Ok? ==> Valid(r.value) && SendersListed(r.value) && Disjoint(r.value)
    ensures r.Ok? ==> r.value == Build(ParsedLinks(Lines(input)))
  {
    var lines := Lines(input);
    var srcs :- MapResult(lines, ParseLink);
    ParsedLinksAre(lines, srcs);
    Ok(Build(srcs))
  }

  /** One line as a link, or the error `Circuit::load` reports for it. */
  function ParseLink(line: string): (r: Result<SourceLink>)
    ensures r.Ok? <==> ParseSourceLink(line).Some?
    ensures r.Ok? ==> Some(r.value) == ParseSourceLink(line)
  {
    OkOr(ParseSourceLink(line), "error parsing line")
  }

  /** Links read one per line are the parsed links of the lines. */
  lemma ParsedLinksAre(lines: seq<string>, srcs: seq<SourceLink>)
    requires |srcs| == |lines| && forall i :: 0 <= i < |lines| ==> Some(srcs[i]) == ParseSourceLink(lines[i])
    ensures AllParse(lines) && srcs == ParsedLinks(lines)
  {
  }

  /** Every line is a module definition. */
  predicate AllParse(lines: seq<string>)
  {
    forall i :: 0 <= i < |lines| ==> ParseSourceLink(lines[i]).Some?
  }

  /** The links of lines that all parse, in line order. */
  function ParsedLinks(lines: seq<string>): (r: seq<SourceLink>)
    requires AllParse(lines)
    ensures |r| == |lines| && forall i :: 0 <= i < |lines| ==> Some(r[i]) == ParseSourceLink(lines[i])
  {
    seq(|lines|, i requires 0 <= i < |lines| => ParseSourceLink(lines[i]).value)
  }

  /** Each module of the built circuit has the kind, name and targets of the last line that
      defines it, and a module that is only a target is a broadcaster without targets. */
  lemma BuiltLinkDef(srcs: seq<SourceLink>, k: nat)
    requires k < |Build(srcs).links|
    ensures var c := Build(srcs); var l := c.links[k];
      match LastDef(srcs, c.names[k])
      case Some(sl) =>
        l.name == sl.name && l.kind == sl.kind && |l.targets| == |sl.targets|
        && forall j :: 0 <= j < |l.targets| ==> l.targets[j] < |c.names| && c.names[l.targets[j]] == sl.targets[j]
      case None => l.name == "" && l.kind == Broadcaster && l.targets == []
  {
    var names := CircuitNames(srcs);
    CircuitNamesCover(srcs);
    var bare := BareLinks(srcs, names);
    WithOffsetsAt(bare, k);
  }

  // ---------------------------------------------------------------------------------------------
  // Pulses

  /** A pulse from module `src` to module `dst`; `high` is the pulse value. */
  datatype Pulse = Pulse(src: nat, dst: nat, high: bool)

  /** Every stored bit in `state[off..off + len]` is high. */
  predicate AllHigh(state: seq<bool>, off: nat, len: nat)
    requires off + len <= |state|
  {
    forall k :: off <= k < off + len ==> state[k]
  }

  /** One module receives a pulse: the new state and the pulse it sends to all its targets, if
      any. A conjunction that does not list the sender among its sources makes the source's
      `unwrap` panic, which is an error here. */
  function Receive(c: Circuit, state: seq<bool>, p: Pulse): (r: Result<(seq<bool>, Option<bool>)>)
    requires Valid(c) && |state| == c.stateLen && p.dst < |c.links|
    ensures r.Ok? ==> |r.value.0| == |state|
    ensures c.links[p.dst].kind == Broadcaster ==> r == Ok((state, Some(p.high)))
    ensures c.links[p.dst].kind == FlipFlop && p.high ==> r == Ok((state, None))
    ensures var off := c.links[p.dst].offset;
      c.links[p.dst].kind == FlipFlop && !p.high ==> r == Ok((state[off := !state[off]], Some(!state[off])))
    ensures c.links[p.dst].kind == Conjunction ==> (r.Ok? <==> p.src in c.links[p.dst].sources)
    ensures var l := c.links[p.dst];
      l.kind == Conjunction && r.Ok? ==> (
        && r.value.0 == state[l.offset + FirstIndex(l.sources, p.src).value := p.high]
        && r.value.1 == Some(!AllHigh(r.value.0, l.offset, |l.sources|)))
  {
    var l := c.links[p.dst];
    assert LinkOk(l, |c.links|, c.stateLen);
    match l.kind
    case Broadcaster => Ok((state, Some(p.high)))
    case FlipFlop =>
      if !p.high then
        var b := !state[l.offset];
        Ok((state[l.offset := b], Some(b)))
      else Ok((state, None))
    case Conjunction =>
      match FirstIndex(l.sources, p.src)
      case None => Err("pulse from a module that is not an input")
      case Some(slot) =>
        var st := state[l.offset + slot := p.high];
        Ok((st, Some(!AllHigh(st, l.offset, |l.sources|))))
  }

  /** Two low pulses leave a flip-flop as it was, and it sends on, then off, or the reverse. */
  lemma FlipFlopTwoLows(c: Circuit, state: seq<bool>, p: Pulse)
    requires Valid(c) && |state| == c.stateLen && p.dst < |c.links| && c.links[p.dst].kind == FlipFlop && !p.high
    ensures var (s1, o1) := Receive(c, state, p).value;
            var (s2, o2) := Receive(c, s1, p).value;
            s2 == state && o1.Some? && o2.Some? && o1.value != o2.value
  {
    var off := c.links[p.dst].offset;
    assert LinkOk(c.links[p.dst], |c.links|, c.stateLen);
    assert state[off := !state[off]][off := state[off]] == state;
  }

  /** A conjunction with a single input inverts it. */
  lemma ConjunctionOfOneInverts(c: Circuit, state: seq<bool>, p: Pulse)
    requires Valid(c) && |state| == c.stateLen && p.dst < |c.links|
    requires c.links[p.dst].kind == Conjunction && c.links[p.dst].sources == [p.src]
    ensures Receive(c, state, p).Ok? && Receive(c, state, p).value.1 == Some(!p.high)
  {
    var l := c.links[p.dst];
    assert LinkOk(l, |c.links|, c.stateLen);
    assert FirstIndex(l.sources, p.src) == Some(0);
    var st := state[l.offset := p.high];
    assert AllHigh(st, l.offset, 1) <==> st[l.offset];
  }

  /** The pulses module `from` sends: one to each target, in order. */
  function Sent(from: nat, targets: seq<nat>, high: bool): (r: seq<Pulse>)
    ensures |r| == |targets| && forall k :: 0 <= k < |targets| ==> r[k] == Pulse(from, targets[k], high)
  {
    seq(|targets|, k requires 0 <= k < |targets| => Pulse(from, targets[k], high))
  }

  predicate QueueOk(c: Circuit, q: seq<Pulse>)
  {
    forall k :: 0 <= k < |q| ==> q[k].dst < |c.links|
  }

  /** How a run ends: with the new state and the low and high pulses counted, after a panic, or
      not within the allowed number of pulses. */
  datatype Outcome = Done(state: seq<bool>, lo: nat, hi: nat) | Panicked | OutOfFuel

  /** The loop of `Circuit::run`: take the oldest pulse, count it, deliver it, and queue what the
      receiver sends. The source runs until the queue is empty, which a circuit with a cycle of
      broadcasters never reaches; here at most `fuel` pulses are handled. */
  function Process(c: Circuit, state: seq<bool>, queue: seq<Pulse>, lo: nat, hi: nat, fuel: nat): (r: Outcome)
    requires Valid(c) && |state| == c.stateLen && QueueOk(c, queue)
    ensures r.Done? ==> |r.state| == |state| && r.lo >= lo && r.hi >= hi && r.lo + r.hi >= lo + hi + |queue|
    ensures |queue| == 0 ==> r == Done(state, lo, hi)
    decreases fuel
  {
    if |queue| == 0 then Done(state, lo, hi)
    else if fuel == 0 then OutOfFuel
    else
      var p := queue[0];
      var (lo', hi') := if p.high then (lo, hi + 1) else (lo + 1, hi);
      match Receive(c, state, p)
      case Err(_) => Panicked
      case Ok((st, out)) => Process(c, st, After(c, queue, out), lo', hi', fuel - 1)
  }

  /** The queue once its oldest pulse is delivered: the rest, then the pulses the receiver sends
      to its targets, if it sends one. */
  function After(c: Circuit, queue: seq<Pulse>, out: Option<bool>): (q: seq<Pulse>)
    requires Valid(c) && QueueOk(c, queue) && |queue| > 0
    ensures QueueOk(c, q)
  {
    var p := queue[0];
    var l := c.links[p.dst];
    var q := queue[1..] + (if out.Some? then Sent(p.dst, l.targets, out.value) else []);
    AfterParts(c, queue, out);
    assert QueueOk(c, q) by {
      assert LinkOk(l, |c.links|, c.stateLen);
      forall k | 0 <= k < |q| ensures q[k].dst < |c.links| {
        if k < |queue| - 1 {
          assert q[k] == queue[k + 1];
        }
      }
    }
    q
  }

  /** The queue after a delivery keeps the undelivered pulses in order and then holds only pulses
      from the receiver to its targets. */
  lemma AfterParts(c: Circuit, queue: seq<Pulse>, out: Option<bool>)
    requires |queue| > 0 && queue[0].dst < |c.links|
    ensures var p := queue[0]; var l := c.links[p.dst];
      var q := queue[1..] + (if out.Some? then Sent(p.dst, l.targets, out.value) else []);
      && |q| >= |queue| - 1 && q[..|queue| - 1] == queue[1..]
      && forall k :: |queue| - 1 <= k < |q| ==> q[k].src == p.dst && q[k].dst in l.targets
  {
    var p := queue[0];
    var l := c.links[p.dst];
    var sent := if out.Some? then Sent(p.dst, l.targets, out.value) else [];
    var q := queue[1..] + sent;
    forall k | |queue| - 1 <= k < |q| ensures q[k].src == p.dst && q[k].dst in l.targets {
      assert q[k] == sent[k - (|queue| - 1)];
    }
  }

  /** The pulse may be delivered without the conjunction lookup failing. */
  predicate Deliverable(c: Circuit, p: Pulse)
    requires p.dst < |c.links|
  {
    c.links[p.dst].kind == Conjunction ==> p.src in c.links[p.dst].sources
  }

  /** Pulses sent along the circuit's own cables never make a conjunction's lookup fail, so a
      queue of them never panics. */
  lemma {:induction false} ProcessNoPanic(c: Circuit, state: seq<bool>, queue: seq<Pulse>, lo: nat, hi: nat, fuel: nat)
    requires Valid(c) && SendersListed(c) && |state| == c.stateLen && QueueOk(c, queue)
    requires forall k :: 0 <= k < |queue| ==> Deliverable(c, queue[k])
    ensures Process(c, state, queue, lo, hi, fuel) != Panicked
    decreases fuel
  {
    if |queue| > 0 && fuel > 0 {
      var p := queue[0];
      assert Deliverable(c, p);
      var (lo', hi') := if p.high then (lo, hi + 1) else (lo + 1, hi);
      var (st, out) := Receive(c, state, p).value;
      var l := c.links[p.dst];
      assert LinkOk(l, |c.links|, c.stateLen);
      var q := After(c, queue, out);
      AfterParts(c, queue, out);
      forall k | 0 <= k < |q| ensures Deliverable(c, q[k]) {
        if k < |queue| - 1 {
          assert q[k] == queue[1..][k] == queue[k + 1];
        }
      }
      ProcessNoPanic(c, st, q, lo', hi', fuel - 1);
    }
  }

  /** The broadcaster's index, or 0 when there is none. */
  function BroadcasterIndex(c: Circuit): nat
  {
    match FirstIndex(c.names, "broadcaster")
    case Some(i) => i
    case None => 0
  }

  /** `Circuit::run`: one button press, a low pulse from the broadcaster to itself, processed to
      the end. An empty circuit has no module 0 to index. */
  function Run(c: Circuit, state: seq<bool>, fuel: nat): (r: Outcome)
    requires Valid(c) && |state| == c.stateLen
    ensures r.Done? ==> |r.state| == |state| && r.lo >= 1
  {
    var brc := BroadcasterIndex(c);
    if brc >= |c.links| then Panicked
    else Process(c, state, [Pulse(brc, brc, false)], 0, 0, fuel)
  }

  /** With a broadcaster to start from, a button press never panics. */
  lemma RunNoPanic(c: Circuit, state: seq<bool>, fuel: nat)
    requires Valid(c) && SendersListed(c) && |state| == c.stateLen && "broadcaster" in c.names
    requires c.links[BroadcasterIndex(c)].kind == Broadcaster
    ensures Run(c, state, fuel) != Panicked
  {
    var brc := BroadcasterIndex(c);
    ProcessNoPanic(c, state, [Pulse(brc, brc, false)], 0, 0, fuel);
  }

  /** `n` presses sharing the state, with the pulses of each press added up. */
  function Presses(c: Circuit, state: seq<bool>, n: nat, fuel: nat): (r: Outcome)
    requires Valid(c) && |state| == c.stateLen
    ensures r.Done? ==> |r.state| == |state| && r.lo >= n
  {
    if n == 0 then Done(state, 0, 0)
    else
      match Presses(c, state, n - 1, fuel)
      case Done(s, lo, hi) =>
        (match Run(c, s, fuel)
         case Done(s', lo', hi') => Done(s', lo + lo', hi + hi')
         case other => other)
      case other => other
  }

  /** A press that leaves the state as it found it makes every press alike: `n` presses send `n`
      times its pulses. */
  lemma {:induction false} PressesSteady(c: Circuit, s: seq<bool>, n: nat, fuel: nat, lo: nat, hi: nat)
    requires Valid(c) && |s| == c.stateLen && Run(c, s, fuel) == Done(s, lo, hi)
    ensures var o := Presses(c, s, n, fuel); o.Done? && o.state == s && o.lo == n * lo && o.hi == n * hi
  {
    if n > 0 {
      PressesSteady(c, s, n - 1, fuel, lo, hi);
      var o := Presses(c, s, n - 1, fuel);
      PressesStep(c, s, n, fuel, o.lo, o.hi);
      MulSucc(n, lo);
      MulSucc(n, hi);
    }
  }

  /** A press after `n - 1` presses that left the state alone adds its own pulses. */
  lemma PressesStep(c: Circuit, s: seq<bool>, n: nat, fuel: nat, lo: nat, hi: nat)
    requires Valid(c) && |s| == c.stateLen && n > 0 && Presses(c, s, n - 1, fuel) == Done(s, lo, hi)
    requires Run(c, s, fuel).Done?
    ensures Presses(c, s, n, fuel) == Done(Run(c, s, fuel).state, lo + Run(c, s, fuel).lo, hi + Run(c, s, fuel).hi)
  {
  }

  lemma MulSucc(n: nat, x: nat)
    requires n > 0
    ensures (n - 1) * x + x == n * x
  {
  }

  // ---------------------------------------------------------------------------------------------
  // The delivered pulses, as a reference for the counts

  /** How a delivery ends: the new state and every pulse delivered, oldest first; a panic; or
      running out of pulses. */
  datatype Trace = Delivered(state: seq<bool>, pulses: seq<Pulse>) | TracePanicked | TraceOutOfFuel

  /** The pulses delivered from `queue` on, in delivery order: each pulse is handed to `Receive`
      and what the receiver sends joins the back of the queue. */
  function Deliver(c: Circuit, state: seq<bool>, queue: seq<Pulse>, fuel: nat): (r: Trace)
    requires Valid(c) && |state| == c.stateLen && QueueOk(c, queue)
    ensures r.Delivered? ==> |r.state| == |state|
    decreases fuel
  {
    if |queue| == 0 then Delivered(state, [])
    else if fuel == 0 then TraceOutOfFuel
    else
      match Receive(c, state, queue[0])
      case Err(_) => TracePanicked
      case Ok((st, out)) => Prepend(queue[0], Deliver(c, st, After(c, queue, out), fuel - 1))
  }

  /** A trace with one more pulse delivered first. */
  function Prepend(p: Pulse, t: Trace): Trace
  {
    match t
    case Delivered(s, ps) => Delivered(s, [p] + ps)
    case other => other
  }

  /** Pulses are delivered in the order they are queued: the queue is the front of the trace. */
  lemma {:induction false} DeliverInOrder(c: Circuit, state: seq<bool>, queue: seq<Pulse>, fuel: nat)
    requires Valid(c) && |state| == c.stateLen && QueueOk(c, queue)
    ensures var r := Deliver(c, state, queue, fuel); r.Delivered? ==> queue <= r.pulses
    decreases fuel
  {
    if |queue| > 0 && fuel > 0 && Receive(c, state, queue[0]).Ok? {
      var st, out := Receive(c, state, queue[0]).value.0, Receive(c, state, queue[0]).value.1;
      var q := After(c, queue, out);
      var r := Deliver(c, st, q, fuel - 1);
      StepUnfolds(c, state, queue, 0, 0, fuel, st, out);
      DeliverInOrder(c, st, q, fuel - 1);
      AfterParts(c, queue, out);
      assert queue[1..] <= q;
      PrependInOrder(queue, q, r);
    }
  }

  /** Delivering the oldest pulse first keeps the queue at the front of the trace. */
  lemma PrependInOrder(queue: seq<Pulse>, q: seq<Pulse>, t: Trace)
    requires |queue| > 0 && queue[1..] <= q && (t.Delivered? ==> q <= t.pulses)
    ensures var r := Prepend(queue[0], t); r.Delivered? ==> queue <= r.pulses
  {
    if t.Delivered? {
      var ps := [queue[0]] + t.pulses;
      forall k | 0 <= k < |queue| ensures queue[k] == ps[k] {
        if k > 0 {
          assert queue[k] == queue[1..][k - 1] == t.pulses[k - 1];
        }
      }
    }
  }

  /** The low pulses of a trace. */
  function Lows(ps: seq<Pulse>): (r: nat)
    ensures r <= |ps|
  {
    if |ps| == 0 then 0 else (if ps[0].high then 0 else 1) + Lows(ps[1..])
  }

  /** The high pulses of a trace. */
  function Highs(ps: seq<Pulse>): (r: nat)
    ensures r <= |ps|
  {
    if |ps| == 0 then 0 else (if ps[0].high then 1 else 0) + Highs(ps[1..])
  }

  /** Every pulse is low or high. */
  lemma {:induction false} LowsHighs(ps: seq<Pulse>)
    ensures Lows(ps) + Highs(ps) == |ps|
  {
    if |ps| > 0 {
      LowsHighs(ps[1..]);
    }
  }

  /** Counting over two traces one after the other adds up. */
  lemma {:induction false} CountsAppend(a: seq<Pulse>, b: seq<Pulse>)
    ensures Lows(a + b) == Lows(a) + Lows(b) && Highs(a + b) == Highs(a) + Highs(b)
  {
    if |a| > 0 {
      assert (a + b)[0] == a[0] && (a + b)[1..] == a[1..] + b;
      CountsAppend(a[1..], b);
    } else {
      assert a + b == b;
    }
  }

  /** The outcome a trace stands for, with `lo` and `hi` pulses already counted. */
  function Counted(t: Trace, lo: nat, hi: nat): Outcome
  {
    match t
    case Delivered(s, ps) => Done(s, lo + Lows(ps), hi + Highs(ps))
    case TracePanicked => Panicked
    case TraceOutOfFuel => OutOfFuel
  }

  /** The loop of `Circuit::run` counts exactly the low and the high pulses it delivers, and
      panics or runs out exactly when the delivery does. */
  lemma {:induction false} ProcessCounts(c: Circuit, state: seq<bool>, queue: seq<Pulse>, lo: nat, hi: nat, fuel: nat)
    requires Valid(c) && |state| == c.stateLen && QueueOk(c, queue)
    ensures Process(c, state, queue, lo, hi, fuel) == Counted(Deliver(c, state, queue, fuel), lo, hi)
    decreases fuel
  {
    if |queue| > 0 && fuel > 0 && Receive(c, state, queue[0]).Ok? {
      var p := queue[0];
      var st, out := Receive(c, state, p).value.0, Receive(c, state, p).value.1;
      var q := After(c, queue, out);
      var lo', hi' := if p.high then lo else lo + 1, if p.high then hi + 1 else hi;
      StepUnfolds(c, state, queue, lo, hi, fuel, st, out);
      ProcessCounts(c, st, q, lo', hi', fuel - 1);
      CountedPrepend(p, Deliver(c, st, q, fuel - 1), lo, hi);
    }
  }

  /** One delivery step of the loop and of the trace, for a pulse the receiver accepts. */
  lemma StepUnfolds(c: Circuit, state: seq<bool>, queue: seq<Pulse>, lo: nat, hi: nat, fuel: nat,
                    st: seq<bool>, out: Option<bool>)
    requires Valid(c) && |state| == c.stateLen && QueueOk(c, queue) && |queue| > 0 && fuel > 0
    requires Receive(c, state, queue[0]) == Ok((st, out))
    ensures var q := After(c, queue, out); var p := queue[0];
      && Process(c, state, queue, lo, hi, fuel)
         == Process(c, st, q, if p.high then lo else lo + 1, if p.high then hi + 1 else hi, fuel - 1)
      && Deliver(c, state, queue, fuel) == Prepend(p, Deliver(c, st, q, fuel - 1))
  {
  }

  /** Counting a trace with one more pulse in front counts that pulse first. */
  lemma CountedPrepend(p: Pulse, t: Trace, lo: nat, hi: nat)
    ensures Counted(Prepend(p, t), lo, hi) == Counted(t, if p.high then lo else lo + 1, if p.high then hi + 1 else hi)
  {
    if t.Delivered? {
      var ps := [p] + t.pulses;
      assert ps[0] == p && ps[1..] == t.pulses;
    }
  }

  /** The pulses of one button press: a low pulse from the broadcaster to itself, delivered to the
      end. */
  function PressTrace(c: Circuit, state: seq<bool>, fuel: nat): (r: Trace)
    requires Valid(c) && |state| == c.stateLen
    ensures r.Delivered? ==> |r.state| == |state|
  {
    var brc := BroadcasterIndex(c);
    if brc >= |c.links| then TracePanicked
    else Deliver(c, state, [Pulse(brc, brc, false)], fuel)
  }

  /** A press counts the low and the high pulses it delivers; the first is the broadcaster's low
      pulse to itself. */
  lemma RunCounts(c: Circuit, state: seq<bool>, fuel: nat)
    requires Valid(c) && |state| == c.stateLen
    ensures Run(c, state, fuel) == Counted(PressTrace(c, state, fuel), 0, 0)
    ensures var t := PressTrace(c, state, fuel); var brc := BroadcasterIndex(c);
      t.Delivered? ==> |t.pulses| >= 1 && t.pulses[0] == Pulse(brc, brc, false)
  {
    var brc := BroadcasterIndex(c);
    if brc < |c.links| {
      ProcessCounts(c, state, [Pulse(brc, brc, false)], 0, 0, fuel);
      DeliverInOrder(c, state, [Pulse(brc, brc, false)], fuel);
    }
  }

  /** The pulses of `n` presses sharing the state, one press after the other. */
  function PressesTrace(c: Circuit, state: seq<bool>, n: nat, fuel: nat): (r: Trace)
    requires Valid(c) && |state| == c.stateLen
    ensures r.Delivered? ==> |r.state| == |state|
  {
    if n == 0 then Delivered(state, [])
    else
      match PressesTrace(c, state, n - 1, fuel)
      case Delivered(s, ps) =>
        (match PressTrace(c, s, fuel)
         case Delivered(s', ps') => Delivered(s', ps + ps')
         case other => other)
      case other => other
  }

  /** The totals of `n` presses are the low and the high pulses delivered over all of them. */
  lemma {:induction false} PressesCounts(c: Circuit, state: seq<bool>, n: nat, fuel: nat)
    requires Valid(c) && |state| == c.stateLen
    ensures Presses(c, state, n, fuel) == Counted(PressesTrace(c, state, n, fuel), 0, 0)
  {
    if n > 0 {
      PressesCounts(c, state, n - 1, fuel);
      var t := PressesTrace(c, state, n - 1, fuel);
      if t.Delivered? {
        RunCounts(c, t.state, fuel);
        PressAfter(c, state, n, fuel, t, PressTrace(c, t.state, fuel));
      } else {
        assert PressesTrace(c, state, n, fuel) == t;
      }
    }
  }

  /** One more press after `n - 1` delivered presses adds the pulses it delivers. */
  lemma PressAfter(c: Circuit, state: seq<bool>, n: nat, fuel: nat, t: Trace, u: Trace)
    requires Valid(c) && |state| == c.stateLen && n > 0
    requires t == PressesTrace(c, state, n - 1, fuel) && t.Delivered?
    requires Presses(c, state, n - 1, fuel) == Counted(t, 0, 0)
    requires u == PressTrace(c, t.state, fuel) && Run(c, t.state, fuel) == Counted(u, 0, 0)
    ensures Presses(c, state, n, fuel) == Counted(PressesTrace(c, state, n, fuel), 0, 0)
  {
    if u.Delivered? {
      CountsAppend(t.pulses, u.pulses);
      assert PressesTrace(c, state, n, fuel) == Delivered(u.state, t.pulses + u.pulses);
    } else {
      assert PressesTrace(c, state, n, fuel) == u;
    }
  }

  /** `Circuit::new_state`: every memory bit low. */
  function NewState(c: Circuit): (s: seq<bool>)
    ensures |s| == c.stateLen && forall k :: 0 <= k < |s| ==> !s[k]
  {
    seq(c.stateLen, _ => false)
  }

  /** `button_pulses_result`: the product of the low and high pulse totals over `npress` presses
      from the initial state. */
  function ButtonPulsesResult(c: Circuit, npress: nat, fuel: nat): (r: Option<nat>)
    requires Valid(c)
    ensures r.Some? <==> Presses(c, NewState(c), npress, fuel).Done?
    ensures r.Some? ==> var o := Presses(c, NewState(c), npress, fuel); r.value == o.lo * o.hi && o.lo >= npress
  {
    match Presses(c, NewState(c), npress, fuel)
    case Done(_, lo, hi) => Some(lo * hi)
    case _ => None
  }
}

=== FILE: day21.dfy ===
/** Day 21 (Step Counter): a breadth-first flood fill from the start cell `S` over the cells that
    are not rocks (`#`), stopping at a step budget, followed by a count of the cells whose distance
    is even: the cells the gardener can stand on after exactly that many steps. */
module Day21 {
  import opened Common
  import opened Strings
  import opened G = Grid

  /** The four unit steps, in the order the cells around a cell are tried. */
  const Steps: seq<CellP> := [(0, -1), (0, 1), (-1, 0), (1, 0)]

  function Add(p: CellP, d: CellP): CellP
  {
    (p.0 + d.0, p.1 + d.1)
  }

  /** A cell may be entered: it is inside the grid and not a rock; outside counts as rock. */
  predicate Open(g: Grid<char>, p: CellP)
    requires g.Valid()
  {
    g.Get(p).Some? && g.Get(p).value != '#'
  }

  /** The cells that may be entered. */
  function OpenCells(g: Grid<char>): (r: set<CellP>)
    requires g.Valid()
    ensures forall p :: p in r <==> Open(g, p)
  {
    set x, y | 0 <= x < g.dx && 0 <= y < g.dy && Open(g, (x, y)) :: (x, y)
  }

  // ---------------------------------------------------------------------------------------------
  // Reference: the cells reachable within `k` steps

  function Sub(p: CellP, d: CellP): CellP
  {
    (p.0 - d.0, p.1 - d.1)
  }

  /** `c` is reachable from `s` in at most `k` steps through open cells. */
  predicate Reached(open: set<CellP>, s: CellP, c: CellP, k: nat)
    decreases k
  {
    if k == 0 then c == s
    else Reached(open, s, c, k - 1) || (c in open && exists i :: 0 <= i < |Steps| && Reached(open, s, Sub(c, Steps[i]), k - 1))
  }

  lemma {:induction false} ReachMonotone(open: set<CellP>, s: CellP, c: CellP, i: nat, j: nat)
    requires i <= j && Reached(open, s, c, i)
    ensures Reached(open, s, c, j)
    decreases j
  {
    if i < j {
      ReachMonotone(open, s, c, i, j - 1);
    }
  }

  /** One more step from a cell reached in `k` steps onto an open cell. */
  lemma ReachStep(open: set<CellP>, s: CellP, p: CellP, i: nat, k: nat)
    requires i < |Steps| && Reached(open, s, p, k) && Add(p, Steps[i]) in open
    ensures Reached(open, s, Add(p, Steps[i]), k + 1)
  {
    assert Sub(Add(p, Steps[i]), Steps[i]) == p;
  }

  /** Only the start and cells that may be entered are reached. */
  lemma {:induction false} ReachedOpen(open: set<CellP>, s: CellP, c: CellP, k: nat)
    requires Reached(open, s, c, k)
    ensures c == s || c in open
  {
    if k > 0 && Reached(open, s, c, k - 1) {
      ReachedOpen(open, s, c, k - 1);
    }
  }

  /** `k` is the shortest distance from `s` to `c`. */
  predicate FirstReached(open: set<CellP>, s: CellP, c: CellP, k: nat)
  {
    Reached(open, s, c, k) && (k == 0 || !Reached(open, s, c, k - 1))
  }

  /** The cells whose shortest distance from `s` is even and at most `nsteps`. */
  function EvenReach(open: set<CellP>, s: CellP, nsteps: nat): set<CellP>
  {
    set c | c in open + {s} && exists k: nat :: k <= nsteps && k % 2 == 0 && FirstReached(open, s, c, k)
  }

  /** A larger budget keeps every cell at even distance and may add more. */
  lemma EvenReachMonotone(open: set<CellP>, s: CellP, a: nat, b: nat)
    requires a <= b
    ensures EvenReach(open, s, a) <= EvenReach(open, s, b)
  {
  }

  // ---------------------------------------------------------------------------------------------
  // The flood fill of `part1`

  /** Every cell in the queue is visited, with the distance it was queued with. */
  predicate QueueVisited(vis: map<CellP, nat>, queue: seq<(nat, CellP)>)
  {
    forall i :: 0 <= i < |queue| ==> queue[i].1 in vis && vis[queue[i].1] == queue[i].0
  }

  predicate QueueDistinct(queue: seq<(nat, CellP)>)
  {
    forall i, j :: 0 <= i < j < |queue| ==> queue[i].1 != queue[j].1
  }

  /** Queued distances never decrease and span at most two values. */
  predicate QueueLayered(queue: seq<(nat, CellP)>)
  {
    && (forall i, j :: 0 <= i < j < |queue| ==> queue[i].0 <= queue[j].0)
    && (|queue| > 0 ==> queue[|queue| - 1].0 <= queue[0].0 + 1)
  }

  predicate InQueue(queue: seq<(nat, CellP)>, c: CellP)
  {
    exists i :: 0 <= i < |queue| && queue[i].1 == c
  }

  /** Every visited cell is inside, within the budget, and reachable in its recorded distance. */
  predicate Sound(open: set<CellP>, s: CellP, nsteps: nat, vis: map<CellP, nat>)
  {
    forall c :: c in vis ==> (c == s || c in open) && vis[c] <= nsteps && Reached(open, s, c, vis[c])
  }

  /** Every open cell next to `c` is visited, at most one further than `c`. */
  predicate NeighboursVisited(open: set<CellP>, vis: map<CellP, nat>, c: CellP)
    requires c in vis
  {
    forall i :: 0 <= i < |Steps| && Add(c, Steps[i]) in open ==>
      Add(c, Steps[i]) in vis && vis[Add(c, Steps[i])] <= vis[c] + 1
  }

  /** Every cell expanded so far (visited and no longer queued, under the budget) has its
      neighbours visited. */
  predicate ExpandedClosed(open: set<CellP>, nsteps: nat, vis: map<CellP, nat>, queue: seq<(nat, CellP)>)
  {
    forall c :: c in vis && vis[c] < nsteps && !InQueue(queue, c) ==> NeighboursVisited(open, vis, c)
  }

  /** The state of the fill between two pops. */
  predicate Inv(open: set<CellP>, s: CellP, nsteps: nat, vis: map<CellP, nat>, queue: seq<(nat, CellP)>)
  {
    && s in vis && vis[s] == 0
    && Sound(open, s, nsteps, vis)
    && QueueVisited(vis, queue) && QueueDistinct(queue) && QueueLayered(queue)
    && (|queue| > 0 ==> forall c :: c in vis ==> vis[c] <= queue[0].0 + 1)
    && ExpandedClosed(open, nsteps, vis, queue)
  }

  /** `vis` holds every cell of `before` with the same distance. */
  predicate Extends(before: map<CellP, nat>, vis: map<CellP, nat>)
  {
    forall c :: c in before ==> c in vis && vis[c] == before[c]
  }

  /** The inner `for &d in STEPS` loop for the cell `p` popped at distance `n`, from step `k` on:
      every open, unvisited cell next to `p` gets distance `n + 1` and joins the back of the queue. */
  function Expand(open: set<CellP>, vis: map<CellP, nat>, queue: seq<(nat, CellP)>, n: nat, p: CellP, k: nat)
    : (r: (map<CellP, nat>, seq<(nat, CellP)>))
    requires k <= |Steps|
    ensures |r.1| >= |queue|
    decreases |Steps| - k
  {
    if k == |Steps| then (vis, queue)
    else
      var st := Visit(open, vis, queue, n, Add(p, Steps[k]));
      Expand(open, st.0, st.1, n, p, k + 1)
  }

  /** One step of the inner loop: `q` is visited at distance `n + 1` and queued when it may be
      entered and has not been visited. */
  function Visit(open: set<CellP>, vis: map<CellP, nat>, queue: seq<(nat, CellP)>, n: nat, q: CellP)
    : (r: (map<CellP, nat>, seq<(nat, CellP)>))
    ensures |r.1| >= |queue|
  {
    if q in open && q !in vis then (vis[q := n + 1], queue + [(n + 1, q)]) else (vis, queue)
  }

  /** `(vis, queue)` is what the first `k` steps around `p` make of `(vis0, queue0)`: the old
      distances kept, the open cells among those steps visited, and each newly visited cell one
      step from `p`, at distance `n + 1`, queued once behind the old queue. */
  predicate Grown(open: set<CellP>, p: CellP, n: nat, k: nat, vis0: map<CellP, nat>, queue0: seq<(nat, CellP)>,
                  vis: map<CellP, nat>, queue: seq<(nat, CellP)>)
    requires k <= |Steps|
  {
    && Extends(vis0, vis)
    && (forall c :: c in vis && c !in vis0 ==> vis[c] == n + 1 && c in open && Sub(c, p) in Steps)
    && (forall i :: 0 <= i < k && Add(p, Steps[i]) in open ==> Add(p, Steps[i]) in vis)
    && |queue| >= |queue0| && (forall j :: 0 <= j < |queue0| ==> queue[j] == queue0[j])
    && (forall j :: |queue0| <= j < |queue| ==> queue[j].0 == n + 1 && queue[j].1 in vis && queue[j].1 !in vis0)
    && (forall j1, j2 :: |queue0| <= j1 < j2 < |queue| ==> queue[j1].1 != queue[j2].1)
    && (forall c :: c in vis && c !in vis0 ==> exists j :: |queue0| <= j < |queue| && queue[j].1 == c)
  }

  /** Trying one more step keeps `Grown`. */
  lemma GrowStep(open: set<CellP>, p: CellP, n: nat, k: nat, vis0: map<CellP, nat>, queue0: seq<(nat, CellP)>,
                 vis: map<CellP, nat>, queue: seq<(nat, CellP)>)
    requires k < |Steps| && Grown(open, p, n, k, vis0, queue0, vis, queue)
    ensures var st := Visit(open, vis, queue, n, Add(p, Steps[k])); Grown(open, p, n, k + 1, vis0, queue0, st.0, st.1)
  {
    var q := Add(p, Steps[k]);
    assert Sub(q, p) == Steps[k];
    if q in open && q !in vis {
      var vis', queue' := vis[q := n + 1], queue + [(n + 1, q)];
      assert queue'[|queue|] == (n + 1, q);
      assert forall j :: 0 <= j < |queue| ==> queue'[j] == queue[j];
    }
  }

  /** The whole inner loop, from step `k` on, keeps `Grown` up to all the steps. */
  lemma GrowAll(open: set<CellP>, p: CellP, n: nat, k: nat, vis0: map<CellP, nat>, queue0: seq<(nat, CellP)>,
                vis: map<CellP, nat>, queue: seq<(nat, CellP)>)
    requires k <= |Steps| && Grown(open, p, n, k, vis0, queue0, vis, queue)
    ensures var r := Expand(open, vis, queue, n, p, k); Grown(open, p, n, |Steps|, vis0, queue0, r.0, r.1)
  {
    var v, q, i := vis, queue, k;
    while i < |Steps|
      invariant k <= i <= |Steps| && Grown(open, p, n, i, vis0, queue0, v, q)
      invariant Expand(open, v, q, n, p, i) == Expand(open, vis, queue, n, p, k)
    {
      GrowStep(open, p, n, i, vis0, queue0, v, q);
      var st := Visit(open, v, q, n, Add(p, Steps[i]));
      v, q, i := st.0, st.1, i + 1;
    }
  }

  /** Nothing that is already visited lies in the set of cells still unvisited. */
  lemma UnvisitedShrinks(all: set<CellP>, a: set<CellP>, b: set<CellP>, c: CellP)
    requires a <= b <= all && c in b && c !in a
    ensures |all - b| < |all - a|
  {
    var x, y := all - b, all - a;
    assert x <= y && c in y && c !in x;
    assert y == x + (y - x);
    assert |y| == |x| + |y - x|;
  }

  /** The `while let Some((n, p)) = fifo.pop_front()` loop: the distances of all cells within the
      budget, once the queue runs dry. */
  function Fill(open: set<CellP>, s: CellP, nsteps: nat, vis: map<CellP, nat>, queue: seq<(nat, CellP)>)
    : (r: map<CellP, nat>)
    requires Inv(open, s, nsteps, vis, queue)
    ensures Extends(vis, r) && s in r && r[s] == 0 && Sound(open, s, nsteps, r)
    ensures forall c :: c in r && r[c] < nsteps ==> NeighboursVisited(open, r, c)
    decreases |(open + {s}) - vis.Keys|, |queue|
  {
    if |queue| == 0 then vis
    else
      var (n, p) := queue[0];
      if n < nsteps then
        var (vis', queue') := Expand(open, vis, queue[1..], n, p, 0);
        ExpandInv(open, s, nsteps, vis, queue, vis', queue');
        ExpandProgress(open, s, nsteps, vis, queue, vis', queue');
        Fill(open, s, nsteps, vis', queue')
      else
        PopInv(open, s, nsteps, vis, queue);
        Fill(open, s, nsteps, vis, queue[1..])
  }

  /** Popping a cell at the budget keeps the invariant: it is not expanded, and need not be. */
  lemma PopInv(open: set<CellP>, s: CellP, nsteps: nat, vis: map<CellP, nat>, queue: seq<(nat, CellP)>)
    requires Inv(open, s, nsteps, vis, queue) && |queue| > 0 && queue[0].0 >= nsteps
    ensures Inv(open, s, nsteps, vis, queue[1..])
  {
    var rest := queue[1..];
    forall c | c in vis && vis[c] < nsteps && !InQueue(rest, c) ensures NeighboursVisited(open, vis, c) {
      assert !InQueue(queue, c) by {
        forall i | 0 <= i < |queue| ensures queue[i].1 != c {
          if i > 0 {
            assert rest[i - 1] == queue[i];
          }
        }
      }
    }
    if |rest| > 0 {
      assert rest[0] == queue[1];
    }
  }

  /** Expanding the popped cell keeps the invariant. */
  lemma ExpandInv(open: set<CellP>, s: CellP, nsteps: nat, vis: map<CellP, nat>, queue: seq<(nat, CellP)>,
                  vis': map<CellP, nat>, queue': seq<(nat, CellP)>)
    requires Inv(open, s, nsteps, vis, queue) && |queue| > 0 && queue[0].0 < nsteps
    requires (vis', queue') == Expand(open, vis, queue[1..], queue[0].0, queue[0].1, 0)
    ensures Inv(open, s, nsteps, vis', queue') && Extends(vis, vis')
  {
    var (n, p) := queue[0];
    var rest := queue[1..];
    GrowAll(open, p, n, 0, vis, rest, vis, rest);
    ExpandSound(open, s, nsteps, vis, n, p, vis');
    ExpandQueue(vis, queue, vis', queue');
    ExpandClosed(open, nsteps, vis, queue, vis', queue');
  }

  /** Expanding the popped cell either visits a new cell or shortens the queue. */
  lemma ExpandProgress(open: set<CellP>, s: CellP, nsteps: nat, vis: map<CellP, nat>, queue: seq<(nat, CellP)>,
                       vis': map<CellP, nat>, queue': seq<(nat, CellP)>)
    requires Inv(open, s, nsteps, vis, queue) && |queue| > 0 && queue[0].0 < nsteps
    requires (vis', queue') == Expand(open, vis, queue[1..], queue[0].0, queue[0].1, 0)
    ensures |(open + {s}) - vis'.Keys| < |(open + {s}) - vis.Keys| || (vis'.Keys == vis.Keys && |queue'| < |queue|)
  {
    var (n, p) := queue[0];
    var rest := queue[1..];
    GrowAll(open, p, n, 0, vis, rest, vis, rest);
    ExpandSound(open, s, nsteps, vis, n, p, vis');
    if vis'.Keys != vis.Keys {
      var c :| c in vis' && c !in vis;
      UnvisitedShrinks(open + {s}, vis.Keys, vis'.Keys, c);
    }
  }

  lemma ExpandSound(open: set<CellP>, s: CellP, nsteps: nat, vis: map<CellP, nat>, n: nat, p: CellP, vis': map<CellP, nat>)
    requires Sound(open, s, nsteps, vis) && p in vis && vis[p] == n && n < nsteps
    requires Extends(vis, vis')
    requires forall c :: c in vis' && c !in vis ==> vis'[c] == n + 1 && c in open && Sub(c, p) in Steps
    ensures Sound(open, s, nsteps, vis') && vis'.Keys <= open + {s}
  {
    forall c | c in vis' && c !in vis ensures (c == s || c in open) && vis'[c] <= nsteps && Reached(open, s, c, vis'[c]) {
      var i :| 0 <= i < |Steps| && Steps[i] == Sub(c, p);
      assert Add(p, Steps[i]) == c;
      ReachStep(open, s, p, i, n);
    }
  }

  lemma ExpandQueue(vis: map<CellP, nat>, queue: seq<(nat, CellP)>, vis': map<CellP, nat>, queue': seq<(nat, CellP)>)
    requires |queue| > 0 && QueueVisited(vis, queue) && QueueDistinct(queue) && QueueLayered(queue)
    requires forall c :: c in vis ==> vis[c] <= queue[0].0 + 1
    requires Extends(vis, vis')
    requires forall c :: c in vis' && c !in vis ==> vis'[c] == queue[0].0 + 1
    requires |queue'| >= |queue| - 1 && forall j :: 0 <= j < |queue| - 1 ==> queue'[j] == queue[1..][j]
    requires forall j :: |queue| - 1 <= j < |queue'| ==> queue'[j].0 == queue[0].0 + 1 && queue'[j].1 in vis' && queue'[j].1 !in vis
    requires forall j1, j2 :: |queue| - 1 <= j1 < j2 < |queue'| ==> queue'[j1].1 != queue'[j2].1
    ensures QueueVisited(vis', queue') && QueueDistinct(queue') && QueueLayered(queue')
    ensures |queue'| > 0 ==> forall c :: c in vis' ==> vis'[c] <= queue'[0].0 + 1
  {
    var n, m := queue[0].0, |queue| - 1;
    assert forall j :: 0 <= j < m ==> queue'[j] == queue[j + 1];
    assert forall j :: 0 <= j < m ==> n <= queue'[j].0 <= n + 1;
    if |queue'| > 0 {
      assert queue'[0].0 >= n;
    }
  }

  lemma ExpandClosed(open: set<CellP>, nsteps: nat, vis: map<CellP, nat>, queue: seq<(nat, CellP)>,
                     vis': map<CellP, nat>, queue': seq<(nat, CellP)>)
    requires |queue| > 0 && queue[0].1 in vis && vis[queue[0].1] == queue[0].0
    requires ExpandedClosed(open, nsteps, vis, queue)
    requires forall c :: c in vis ==> vis[c] <= queue[0].0 + 1
    requires Extends(vis, vis')
    requires forall c :: c in vis' && c !in vis ==> vis'[c] == queue[0].0 + 1
    requires forall i :: 0 <= i < |Steps| && Add(queue[0].1, Steps[i]) in open ==> Add(queue[0].1, Steps[i]) in vis'
    requires |queue'| >= |queue| - 1 && forall j :: 0 <= j < |queue| - 1 ==> queue'[j] == queue[1..][j]
    requires forall c :: c in vis' && c !in vis ==> exists j :: |queue| - 1 <= j < |queue'| && queue'[j].1 == c
    ensures ExpandedClosed(open, nsteps, vis', queue')
  {
    var p := queue[0].1;
    forall c | c in vis' && vis'[c] < nsteps && !InQueue(queue', c) ensures NeighboursVisited(open, vis', c) {
      if c in vis && c != p {
        assert !InQueue(queue, c) by {
          forall i | 0 <= i < |queue| ensures queue[i].1 != c {
            if i > 0 {
              assert queue'[i - 1] == queue[i];
            }
          }
        }
        assert NeighboursVisited(open, vis, c);
      }
    }
  }

  /** After the fill every cell within `k <= nsteps` steps is visited with a distance of at most
      `k`. */
  lemma {:induction false} FillComplete(open: set<CellP>, s: CellP, nsteps: nat, r: map<CellP, nat>, k: nat)
    requires k <= nsteps && s in r && r[s] == 0
    requires forall c :: c in r && r[c] < nsteps ==> NeighboursVisited(open, r, c)
    ensures forall c :: Reached(open, s, c, k) ==> c in r && r[c] <= k
  {
    if k > 0 {
      FillComplete(open, s, nsteps, r, k - 1);
      forall c | Reached(open, s, c, k) && !Reached(open, s, c, k - 1) ensures c in r && r[c] <= k {
        var i :| 0 <= i < |Steps| && Reached(open, s, Sub(c, Steps[i]), k - 1);
        var p := Sub(c, Steps[i]);
        assert Add(p, Steps[i]) == c;
        assert NeighboursVisited(open, r, p);
      }
    }
  }

  /** The distances the fill records are exactly the shortest distances within the budget. */
  lemma FillShortest(open: set<CellP>, s: CellP, nsteps: nat, c: CellP)
    ensures var r := Start(open, s, nsteps);
      && (c in r <==> Reached(open, s, c, nsteps))
      && (forall k: nat :: k <= nsteps ==> (FirstReached(open, s, c, k) <==> c in r && r[c] == k))
  {
    var r := Start(open, s, nsteps);
    FillComplete(open, s, nsteps, r, nsteps);
    if c in r {
      ReachMonotone(open, s, c, r[c], nsteps);
    }
    forall k: nat | k <= nsteps ensures FirstReached(open, s, c, k) <==> c in r && r[c] == k {
      FillFirst(open, s, nsteps, c, k);
    }
  }

  lemma FillFirst(open: set<CellP>, s: CellP, nsteps: nat, c: CellP, k: nat)
    requires k <= nsteps
    ensures var r := Start(open, s, nsteps); FirstReached(open, s, c, k) <==> c in r && r[c] == k
  {
    var r := Start(open, s, nsteps);
    if FirstReached(open, s, c, k) {
      FirstIsRecorded(open, s, nsteps, r, c, k);
    }
    if c in r && r[c] == k {
      RecordedIsFirst(open, s, nsteps, r, c);
    }
  }

  /** A cell first reached in `k` steps is recorded with distance `k`. */
  lemma FirstIsRecorded(open: set<CellP>, s: CellP, nsteps: nat, r: map<CellP, nat>, c: CellP, k: nat)
    requires k <= nsteps && s in r && r[s] == 0 && Sound(open, s, nsteps, r)
    requires forall c :: c in r && r[c] < nsteps ==> NeighboursVisited(open, r, c)
    requires FirstReached(open, s, c, k)
    ensures c in r && r[c] == k
  {
    FillComplete(open, s, nsteps, r, k);
    if r[c] < k {
      ReachMonotone(open, s, c, r[c], k - 1);
    }
  }

  /** A recorded distance is the first at which the cell is reached. */
  lemma RecordedIsFirst(open: set<CellP>, s: CellP, nsteps: nat, r: map<CellP, nat>, c: CellP)
    requires s in r && r[s] == 0 && Sound(open, s, nsteps, r)
    requires forall c :: c in r && r[c] < nsteps ==> NeighboursVisited(open, r, c)
    requires c in r
    ensures FirstReached(open, s, c, r[c])
  {
    if r[c] > 0 {
      FillComplete(open, s, nsteps, r, r[c] - 1);
    }
  }

  /** The fill from a start cell with the queue holding only it. */
  function Start(open: set<CellP>, s: CellP, nsteps: nat): (r: map<CellP, nat>)
    ensures s in r && r[s] == 0 && Sound(open, s, nsteps, r)
    ensures forall c :: c in r && r[c] < nsteps ==> NeighboursVisited(open, r, c)
  {
    var vis := map[s := 0];
    var queue := [(0, s)];
    assert InQueue(queue, s);
    Fill(open, s, nsteps, vis, queue)
  }

  /** The visited cells at even distance. */
  function EvenCells(vis: map<CellP, nat>): set<CellP>
  {
    set c | c in vis && vis[c] % 2 == 0
  }

  lemma EvenCellsAreEvenReach(open: set<CellP>, s: CellP, nsteps: nat)
    ensures EvenCells(Start(open, s, nsteps)) == EvenReach(open, s, nsteps)
  {
    var r := Start(open, s, nsteps);
    forall c ensures c in EvenCells(r) <==> c in EvenReach(open, s, nsteps) {
      FillShortest(open, s, nsteps, c);
      if c in r {
        assert FirstReached(open, s, c, r[c]);
      }
    }
  }

  /** `part1`: parse the grid, find `S` (the first in reading order), fill, and count the cells
      at even distance. An input with no `S` is an error. */
  function Part1(input: string, nsteps: nat): (r: Result<nat>)
    requires exists i :: 0 <= i < |Lines(input)| && |Lines(input)[i]| > 0
    ensures r.Ok? <==> Parse(input).Ok? && 'S' in Parse(input).value.m
    ensures r.Ok? ==> var g := Parse(input).value; var s := G.Find(g, 'S').value;
      r.value == |EvenReach(OpenCells(g), s, nsteps)|
  {
    var g :- Parse(input);
    var s :- OkOr(G.Find(g, 'S'), "no starting position");
    EvenCellsAreEvenReach(OpenCells(g), s, nsteps);
    Ok(|EvenCells(Start(OpenCells(g), s, nsteps))|)
  }

  lemma SubsetCard(a: set<CellP>, b: set<CellP>)
    requires a <= b
    ensures |a| <= |b|
  {
    assert b == a + (b - a);
  }

  /** A larger budget never counts fewer cells. */
  lemma Part1Monotone(input: string, a: nat, b: nat)
    requires exists i :: 0 <= i < |Lines(input)| && |Lines(input)[i]| > 0
    requires a <= b && Part1(input, a).Ok?
    ensures Part1(input, b).Ok? && Part1(input, a).value <= Part1(input, b).value
  {
    var g := Parse(input).value;
    var s := G.Find(g, 'S').value;
    EvenReachMonotone(OpenCells(g), s, a, b);
    SubsetCard(EvenReach(OpenCells(g), s, a), EvenReach(OpenCells(g), s, b));
  }

  /** With no steps to take only the start cell counts. */
  lemma Part1NoSteps(input: string)
    requires exists i :: 0 <= i < |Lines(input)| && |Lines(input)[i]| > 0
    requires Part1(input, 0).Ok?
    ensures Part1(input, 0).value == 1
  {
    var g := Parse(input).value;
    EvenReachNoSteps(OpenCells(g), G.Find(g, 'S').value);
  }

  lemma EvenReachNoSteps(open: set<CellP>, s: CellP)
    ensures EvenReach(open, s, 0) == {s}
  {
    assert FirstReached(open, s, s, 0);
  }
}

=== FILE: day22.dfy ===
/** Day 22 (Sand Slabs): bricks given by two corners fall, lowest first, until they rest on the
    ground or on an earlier brick. The height map under the bricks is a total map defaulting to
    "ground, no brick"; settling records which brick rests on which. */
module Day22 {
  import opened Common
  import opened Strings
  import opened Sorting

  datatype Vec3 = Vec3(x: int, y: int, z: int)

  /** A brick from corner `l` to corner `r`. */
  datatype Brick = Brick(l: Vec3, r: Vec3) {
    function Top(): int { r.z }
    function Bottom(): int { l.z }
  }

  type CellP = (int, int)

  // ---------------------------------------------------------------------------------------------
  // Parsing

  /** `Vec3::parse_impl`: the first three comma-separated pieces as `i32`s; a fourth piece makes
      the parse fail only when it is itself an `i32`, since `coord()` also yields nothing for a
      piece that does not parse. */
  function ParseVec3(s: string): (r: Option<Vec3>)
    ensures r.Some? ==> var parts := Split(s, ',');
      && |parts| >= 3
      && ParseI32(parts[0]).Some? && ParseI32(parts[1]).Some? && ParseI32(parts[2]).Some?
      && r.value == Vec3(ParseI32(parts[0]).value, ParseI32(parts[1]).value, ParseI32(parts[2]).value)
      && (|parts| == 3 || ParseI32(parts[3]).None?)
    ensures r.Some? ==> I32_MIN <= r.value.x <= I32_MAX && I32_MIN <= r.value.y <= I32_MAX
                        && I32_MIN <= r.value.z <= I32_MAX
  {
    var parts := Split(s, ',');
    if |parts| < 3 then None
    else
      var x :- ParseI32(parts[0]);
      var y :- ParseI32(parts[1]);
      var z :- ParseI32(parts[2]);
      if |parts| > 3 && ParseI32(parts[3]).Some? then None else Some(Vec3(x, y, z))
  }

  /** Three comma-free `i32` texts joined by commas parse to their values, and a fourth `i32`
      piece after them is refused. */
  lemma ParseVec3Joined(a: string, b: string, c: string, x: int, y: int, z: int)
    requires NoneIn(a, {','}) && NoneIn(b, {','}) && NoneIn(c, {','})
    requires ParseI32(a) == Some(x) && ParseI32(b) == Some(y) && ParseI32(c) == Some(z)
    ensures ParseVec3(Join([a, b, c], ",")) == Some(Vec3(x, y, z))
    ensures forall d :: NoneIn(d, {','}) && ParseI32(d).Some? ==> ParseVec3(Join([a, b, c, d], ",")) == None
    ensures forall d :: NoneIn(d, {','}) && ParseI32(d).None? ==>
      ParseVec3(Join([a, b, c, d], ",")) == Some(Vec3(x, y, z))
  {
    JoinSplit([a, b, c], ',');
    forall d | NoneIn(d, {','}) ensures Split(Join([a, b, c, d], ","), ',') == [a, b, c, d] {
      JoinSplit([a, b, c, d], ',');
    }
  }


  /** `Brick::parse`: the corners before and after the first '~'. */
  function ParseBrick(s: string): (r: Result<Brick>)
    ensures r.Ok? <==> SplitOnce(s, '~').Some? && ParseVec3(SplitOnce(s, '~').value.0).Some?
                       && ParseVec3(SplitOnce(s, '~').value.1).Some?
    ensures r.Ok? ==> exists a, b :: s == a + ['~'] + b && '~' !in a
                                     && ParseVec3(a) == Some(r.value.l) && ParseVec3(b) == Some(r.value.r)
  {
    var halves :- OkOr(SplitOnce(s, '~'), "missing `~` separator");
    var l :- OkOr(ParseVec3(halves.0), "invalid Vec3");
    var r :- OkOr(ParseVec3(halves.1), "invalid Vec3");
    Ok(Brick(l, r))
  }

  /** A brick's two corner texts around one '~' parse back to the brick. */
  lemma ParseBrickJoined(a: string, b: string, l: Vec3, r: Vec3)
    requires '~' !in a && ParseVec3(a) == Some(l) && ParseVec3(b) == Some(r)
    ensures ParseBrick(a + ['~'] + b) == Ok(Brick(l, r))
  {
    var h := SplitOnce(a + ['~'] + b, '~');
    SplitOnceUnique(a + ['~'] + b, '~', a, b, h.value.0, h.value.1);
  }

  // ---------------------------------------------------------------------------------------------
  // The footprint of a brick

  /** The cells `(x, y)` for `x` in `x0..=x1` and `y` in `y0..=y1`, `x` outermost. */
  function Cells(x0: int, x1: int, y0: int, y1: int): (r: seq<CellP>)
    ensures forall p :: p in r <==> x0 <= p.0 <= x1 && y0 <= p.1 <= y1
    decreases x1 - x0 + 1
  {
    if x0 > x1 then []
    else
      var col := Column(x0, y0, y1);
      col + Cells(x0 + 1, x1, y0, y1)
  }

  /** The cells `(x, y)` for `y` in `y0..=y1`. */
  function Column(x: int, y0: int, y1: int): (r: seq<CellP>)
    ensures forall p :: p in r <==> p.0 == x && y0 <= p.1 <= y1
    ensures forall k :: 0 <= k < |r| ==> r[k] == (x, y0 + k)
  {
    var col := if y0 <= y1 then seq(y1 - y0 + 1, k => (x, y0 + k)) else [];
    assert forall p: CellP | p.0 == x && y0 <= p.1 <= y1 :: p in col by {
      forall p: CellP | p.0 == x && y0 <= p.1 <= y1 ensures p in col { assert col[p.1 - y0] == p; }
    }
    col
  }

  /** No cell is listed twice. */
  lemma {:induction false} CellsDistinct(x0: int, x1: int, y0: int, y1: int)
    ensures NoRepeats(Cells(x0, x1, y0, y1))
    decreases x1 - x0 + 1
  {
    if x0 <= x1 {
      var col := Column(x0, y0, y1);
      var rest := Cells(x0 + 1, x1, y0, y1);
      CellsDistinct(x0 + 1, x1, y0, y1);
      assert NoRepeats(col) by {
        forall a, b | 0 <= a < b < |col| ensures col[a] != col[b] {
          assert col[a].1 == y0 + a && col[b].1 == y0 + b;
        }
      }
      forall p | p in col ensures p !in rest {
        assert p.0 == x0;
      }
      NoRepeatsConcat(col, rest);
    }
  }

  predicate NoRepeats(s: seq<CellP>)
  {
    forall a, b :: 0 <= a < b < |s| ==> s[a] != s[b]
  }

  /** Two runs without repeats and without common cells make a run without repeats. */
  lemma NoRepeatsConcat(u: seq<CellP>, v: seq<CellP>)
    requires NoRepeats(u) && NoRepeats(v) && forall p :: p in u ==> p !in v
    ensures NoRepeats(u + v)
  {
    var r := u + v;
    forall a, b | 0 <= a < b < |r| ensures r[a] != r[b] {
      if b >= |u| {
        assert r[b] == v[b - |u|];
        if a >= |u| {
          assert r[a] == v[a - |u|];
        } else {
          assert r[a] == u[a] && r[a] in u;
        }
      }
    }
  }

  /** The cells under a brick (`brk_flat`). */
  function Footprint(b: Brick): seq<CellP>
  {
    Cells(b.l.x, b.r.x, b.l.y, b.r.y)
  }

  /** The brick stands over cell `p`. */
  predicate Covers(b: Brick, p: CellP)
  {
    b.l.x <= p.0 <= b.r.x && b.l.y <= p.1 <= b.r.y
  }

  /** The brick stands over some cell: its corners are in ascending order. */
  predicate Flat(b: Brick)
  {
    b.l.x <= b.r.x && b.l.y <= b.r.y
  }

  lemma FootprintCovers(b: Brick)
    ensures forall p :: p in Footprint(b) <==> Covers(b, p)
    ensures |Footprint(b)| > 0 <==> Flat(b)
    ensures forall a, c :: 0 <= a < c < |Footprint(b)| ==> Footprint(b)[a] != Footprint(b)[c]
  {
    if |Footprint(b)| > 0 {
      assert Footprint(b)[0] in Footprint(b);
    }
    if Flat(b) {
      assert (b.l.x, b.l.y) in Footprint(b);
    }
    CellsDistinct(b.l.x, b.r.x, b.l.y, b.r.y);
  }

  // ---------------------------------------------------------------------------------------------
  // The height map (`quadmap::Map::new((0, None))`)

  /** For each cell, the top of the last brick settled over it and that brick's index; cells not in
      the map are ground. */
  type Heights = map<CellP, (int, Option<nat>)>

  function Highest(h: Heights, p: CellP): (int, Option<nat>)
  {
    if p in h then h[p] else (0, None)
  }

  /** `.max().unwrap()` over the heights under `ps`. */
  function MaxHeight(h: Heights, ps: seq<CellP>): (r: Option<int>)
    ensures r.Some? <==> |ps| > 0
    ensures r.Some? ==> forall t :: 0 <= t < |ps| ==> Highest(h, ps[t]).0 <= r.value
    ensures r.Some? ==> exists t :: 0 <= t < |ps| && Highest(h, ps[t]).0 == r.value
  {
    if |ps| == 0 then None
    else if |ps| == 1 then Some(Highest(h, ps[0]).0)
    else
      var m := MaxHeight(h, ps[1..]).value;
      assert forall t :: 1 <= t < |ps| ==> ps[t] == ps[1..][t - 1];
      Some(Max(Highest(h, ps[0]).0, m))
  }

  /** The brick moved so its bottom is at `nb`, keeping its height. */
  function Place(b: Brick, nb: int): (r: Brick)
    ensures r.Bottom() == nb && r.Top() - r.Bottom() == b.Top() - b.Bottom()
    ensures r.l.x == b.l.x && r.l.y == b.l.y && r.r.x == b.r.x && r.r.y == b.r.y
  {
    var drop := b.Bottom() - nb;
    Brick(b.l.(z := nb), b.r.(z := b.r.z - drop))
  }

  lemma PlaceAgain(b: Brick, nb: int)
    ensures Footprint(Place(b, nb)) == Footprint(b)
    ensures Place(Place(b, nb), nb) == Place(b, nb)
    ensures Place(b, b.Bottom()) == b
  {
  }

  // ---------------------------------------------------------------------------------------------
  // Settling one brick after another (`drop_bricks`)

  /** The state of `drop_bricks`: the height map, the two support maps (`supports[j]` holds the
      bricks resting on `j`, `supportedBy[i]` the bricks under `i`), the count of bricks that
      moved down, and the bricks settled so far. */
  datatype State = State(h: Heights, supports: map<nat, set<nat>>, supportedBy: map<nat, set<nat>>,
                         nFallen: nat, placed: seq<Brick>)

  /** `entry(k).or_default().insert(v)`. */
  function AddTo(m: map<nat, set<nat>>, k: nat, v: nat): map<nat, set<nat>>
  {
    m[k := (if k in m then m[k] else {}) + {v}]
  }

  /** Adding `v` under `k` keeps every pair and adds exactly `(k, v)`. */
  lemma AddToPairs(m: map<nat, set<nat>>, k: nat, v: nat)
    ensures forall a, b :: (a in AddTo(m, k, v) && b in AddTo(m, k, v)[a]) <==> (a in m && b in m[a]) || (a == k && b == v)
  {
    var r := AddTo(m, k, v);
    forall a, b ensures (a in r && b in r[a]) <==> (a in m && b in m[a]) || (a == k && b == v) {
      if a == k {
        assert r[a] == (if k in m then m[k] else {}) + {v};
      } else {
        assert a in r <==> a in m;
      }
    }
  }

  /** Brick `i` rests on brick `j`: `i` is in `supports[j]`. */
  predicate Edge(s: State, j: nat, i: nat)
  {
    j in s.supports && i in s.supports[j]
  }

  /** Brick `j` is under brick `i`: `j` is in `supportedBy[i]`. */
  predicate BackEdge(s: State, i: nat, j: nat)
  {
    i in s.supportedBy && j in s.supportedBy[i]
  }

  /** One footprint cell of the settled brick `b` (index `i`): a brick whose top is just under `b`
      there supports it, and the cell's height becomes `b`'s top. */
  function Touch(s: State, i: nat, b: Brick, p: CellP): State
  {
    var m := Highest(s.h, p);
    var s1 := if m.0 + 1 == b.Bottom() && m.1.Some? then
                s.(supports := AddTo(s.supports, m.1.value, i), supportedBy := AddTo(s.supportedBy, i, m.1.value))
              else s;
    s1.(h := s1.h[p := (b.Top(), Some(i))])
  }

  /** `Touch` over every cell of `ps` in order. */
  function Settle(s: State, i: nat, b: Brick, ps: seq<CellP>): (r: State)
    ensures r.nFallen == s.nFallen && r.placed == s.placed
    decreases |ps|
  {
    if |ps| == 0 then s else Settle(Touch(s, i, b, ps[0]), i, b, ps[1..])
  }

  /** One cell: it now shows `b`'s top and index, and the brick recorded there just under `b`,
      if any, gains the edge to `i` in both support maps. */
  lemma TouchSpec(s: State, i: nat, b: Brick, p: CellP)
    ensures var s1 := Touch(s, i, b, p);
      && (forall q :: Highest(s1.h, q) == if q == p then (b.Top(), Some(i)) else Highest(s.h, q))
      && (forall j: nat, k: nat :: Edge(s1, j, k) <==> Edge(s, j, k) || (k == i && Highest(s.h, p) == (b.Bottom() - 1, Some(j))))
      && (forall j: nat, k: nat :: BackEdge(s1, k, j) <==> BackEdge(s, k, j) || (k == i && Highest(s.h, p) == (b.Bottom() - 1, Some(j))))
  {
    var m := Highest(s.h, p);
    if m.0 + 1 == b.Bottom() && m.1.Some? {
      AddToPairs(s.supports, m.1.value, i);
      AddToPairs(s.supportedBy, i, m.1.value);
    }
  }

  /** Some cell of `ps` shows brick `j` just under `b`. */
  predicate RestsOn(h: Heights, ps: seq<CellP>, b: Brick, j: nat)
  {
    exists t :: 0 <= t < |ps| && Highest(h, ps[t]) == (b.Bottom() - 1, Some(j))
  }

  /** Over distinct cells, settling writes `b`'s top and index under exactly the cells of `ps`, and
      adds the edges `j -> i` for the bricks `j` whose recorded top is just under `b` at one of
      them, in both support maps. */
  lemma {:induction false} SettleSpec(s: State, i: nat, b: Brick, ps: seq<CellP>)
    requires forall a, c :: 0 <= a < c < |ps| ==> ps[a] != ps[c]
    decreases |ps|
    ensures forall p :: Highest(Settle(s, i, b, ps).h, p) == if p in ps then (b.Top(), Some(i)) else Highest(s.h, p)
    ensures forall j: nat, k: nat :: Edge(Settle(s, i, b, ps), j, k) <==>
      Edge(s, j, k) || (k == i && exists t :: 0 <= t < |ps| && Highest(s.h, ps[t]) == (b.Bottom() - 1, Some(j)))
    ensures forall j: nat, k: nat :: BackEdge(Settle(s, i, b, ps), k, j) <==>
      BackEdge(s, k, j) || (k == i && exists t :: 0 <= t < |ps| && Highest(s.h, ps[t]) == (b.Bottom() - 1, Some(j)))
  {
    if |ps| > 0 {
      var s1 := Touch(s, i, b, ps[0]);
      var rest := ps[1..];
      assert forall t :: 1 <= t < |ps| ==> ps[t] == rest[t - 1];
      TouchSpec(s, i, b, ps[0]);
      SettleSpec(s1, i, b, rest);
      assert forall t :: 0 <= t < |rest| ==> Highest(s1.h, rest[t]) == Highest(s.h, rest[t]);
      forall j: nat ensures RestsOn(s.h, ps, b, j) <==>
        Highest(s.h, ps[0]) == (b.Bottom() - 1, Some(j)) || RestsOn(s1.h, rest, b, j)
      {
        RestsOnStep(s.h, s1.h, ps, b, j);
      }
    }
  }

  /** `ps` shows `j` under `b` exactly when its first cell does or, in the heights `h1` that agree
      with `h` on the rest, the rest does. */
  lemma RestsOnStep(h: Heights, h1: Heights, ps: seq<CellP>, b: Brick, j: nat)
    requires |ps| > 0 && forall t :: 1 <= t < |ps| ==> Highest(h1, ps[t]) == Highest(h, ps[t])
    ensures RestsOn(h, ps, b, j) <==> Highest(h, ps[0]) == (b.Bottom() - 1, Some(j)) || RestsOn(h1, ps[1..], b, j)
  {
    var rest := ps[1..];
    if RestsOn(h, ps, b, j) {
      var t :| 0 <= t < |ps| && Highest(h, ps[t]) == (b.Bottom() - 1, Some(j));
      if t > 0 { assert rest[t - 1] == ps[t]; }
    }
    if RestsOn(h1, rest, b, j) {
      var t :| 0 <= t < |rest| && Highest(h1, rest[t]) == (b.Bottom() - 1, Some(j));
      assert ps[t + 1] == rest[t];
    }
  }

  /** One iteration of `drop_bricks`: the brick's new bottom is one above the highest recorded
      top under it, it keeps its height, and it counts as fallen when it moved down. A brick with
      an empty footprint makes `max().unwrap()` panic, modelled as an error. */
  function DropOne(s: State, b: Brick): (r: Result<State>)
    ensures r.Ok? <==> Flat(b)
    ensures r.Ok? ==> |r.value.placed| == |s.placed| + 1 && r.value.placed[..|s.placed|] == s.placed
    ensures r.Ok? ==> var nb := r.value.placed[|s.placed|].Bottom();
      && r.value.placed[|s.placed|] == Place(b, nb)
      && r.value.nFallen == s.nFallen + (if nb < b.Bottom() then 1 else 0)
  {
    var ps := Footprint(b);
    FootprintCovers(b);
    var top :- OkOr(MaxHeight(s.h, ps), "empty brick");
    var nb := top + 1;
    var placed := Place(b, nb);
    var s1 := Settle(s, |s.placed|, placed, ps);
    assert (s.placed + [placed])[..|s.placed|] == s.placed;
    Ok(s1.(nFallen := s.nFallen + (if b.Bottom() - nb > 0 then 1 else 0), placed := s.placed + [placed]))
  }

  /** The new bottom is one above the highest recorded top under the brick. */
  lemma DropOneHeight(s: State, b: Brick)
    requires DropOne(s, b).Ok?
    ensures var nb := DropOne(s, b).value.placed[|s.placed|].Bottom();
      && (forall p :: Covers(b, p) ==> Highest(s.h, p).0 < nb)
      && (exists p :: Covers(b, p) && Highest(s.h, p).0 + 1 == nb)
  {
    FootprintCovers(b);
    var m := MaxHeight(s.h, Footprint(b)).value;
    assert DropOne(s, b).value.placed[|s.placed|].Bottom() == m + 1;
  }

  /** `drop_bricks` from the state `s` on: the bricks from index `|s.placed|` on are settled in
      order. */
  function DropFrom(bricks: seq<Brick>, s: State): (r: Result<State>)
    requires |s.placed| <= |bricks|
    ensures r.Ok? ==> |r.value.placed| == |bricks|
    decreases |bricks| - |s.placed|
  {
    if |s.placed| == |bricks| then Ok(s)
    else
      var s1 :- DropOne(s, bricks[|s.placed|]);
      DropFrom(bricks, s1)
  }

  /** Settling fails exactly when a brick still to be settled has an empty footprint. */
  lemma {:induction false} DropFromOk(bricks: seq<Brick>, s: State)
    requires |s.placed| <= |bricks|
    ensures DropFrom(bricks, s).Ok? <==> forall i :: |s.placed| <= i < |bricks| ==> Flat(bricks[i])
    decreases |bricks| - |s.placed|
  {
    var n := |s.placed|;
    if n < |bricks| {
      var d := DropOne(s, bricks[n]);
      DropFromStep(bricks, s);
      if d.Ok? {
        DropFromOk(bricks, d.value);
        FlatFromStep(bricks, n);
      }
    }
  }

  lemma FlatFromStep(bricks: seq<Brick>, n: nat)
    requires n < |bricks|
    ensures (forall i :: n <= i < |bricks| ==> Flat(bricks[i])) <==>
      Flat(bricks[n]) && forall i :: n + 1 <= i < |bricks| ==> Flat(bricks[i])
  {
  }

  /** One step of `DropFrom`: settle the next brick, or stop with its error. */
  lemma DropFromStep(bricks: seq<Brick>, s: State)
    requires |s.placed| < |bricks|
    ensures var d := DropOne(s, bricks[|s.placed|]);
      && (d.Ok? <==> Flat(bricks[|s.placed|]))
      && (d.Ok? ==> |d.value.placed| == |s.placed| + 1 && DropFrom(bricks, s) == DropFrom(bricks, d.value))
      && (d.Err? ==> DropFrom(bricks, s).Err?)
  {
  }

  const Empty: State := State(map[], map[], map[], 0, [])

  /** `drop_bricks`: the settled bricks, the support maps and the count of bricks that fell. */
  function DropBricks(bricks: seq<Brick>): (r: Result<State>)
    ensures r.Ok? <==> forall i :: 0 <= i < |bricks| ==> Flat(bricks[i])
    ensures r.Ok? ==> |r.value.placed| == |bricks|
  {
    DropFromOk(bricks, Empty);
    DropFrom(bricks, Empty)
  }

  // ---------------------------------------------------------------------------------------------
  // What settling means: a reference definition in terms of the settled bricks alone

  /** The height entry at `p` once `placed` is settled: the top and index of the last brick of
      `placed` over `p`, or ground. */
  function RefHeight(placed: seq<Brick>, p: CellP): (int, Option<nat>)
  {
    if |placed| == 0 then (0, None)
    else if Covers(placed[|placed| - 1], p) then (placed[|placed| - 1].Top(), Some(|placed| - 1))
    else RefHeight(placed[..|placed| - 1], p)
  }

  /** `b` settled as `b'` on top of `below`: one above the highest brick top under it. */
  ghost predicate Lands(below: seq<Brick>, b: Brick, b': Brick)
  {
    && b' == Place(b, b'.Bottom())
    && (forall p :: Covers(b, p) ==> RefHeight(below, p).0 < b'.Bottom())
    && (exists p :: Covers(b, p) && RefHeight(below, p).0 + 1 == b'.Bottom())
  }

  /** Brick `j` supports settled brick `i`: at some cell of `i`, `j` is the last earlier brick
      there and its top is just under `i`. */
  ghost predicate Supports(placed: seq<Brick>, j: nat, i: nat)
  {
    && i < |placed|
    && exists p :: Covers(placed[i], p) && RefHeight(placed[..i], p) == (placed[i].Bottom() - 1, Some(j))
  }

  /** The number of settled bricks that ended below where they started. */
  function FallenCount(bricks: seq<Brick>, placed: seq<Brick>): (n: nat)
    requires |placed| <= |bricks|
    ensures n <= |placed|
  {
    if |placed| == 0 then 0
    else
      var i := |placed| - 1;
      FallenCount(bricks, placed[..i]) + if placed[i].Bottom() < bricks[i].Bottom() then 1 else 0
  }

  /** The invariant of `drop_bricks` after `|s.placed|` bricks of `bricks`. */
  ghost predicate Consistent(bricks: seq<Brick>, s: State)
  {
    && |s.placed| <= |bricks|
    && (forall i :: 0 <= i < |s.placed| ==> Lands(s.placed[..i], bricks[i], s.placed[i]))
    && (forall p :: Highest(s.h, p) == RefHeight(s.placed, p))
    && (forall j: nat, i: nat :: Edge(s, j, i) <==> Supports(s.placed, j, i))
    && (forall j: nat, i: nat :: BackEdge(s, i, j) <==> Supports(s.placed, j, i))
    && s.nFallen == FallenCount(bricks, s.placed)
  }

  lemma ConsistentEmpty(bricks: seq<Brick>)
    ensures Consistent(bricks, Empty)
  {
  }

  /** Extending the settled bricks leaves the earlier bricks' support relation alone. */
  lemma SupportsPrefix(placed: seq<Brick>, b: Brick, j: nat, i: nat)
    requires i < |placed|
    ensures Supports(placed + [b], j, i) <==> Supports(placed, j, i)
  {
    assert (placed + [b])[..i] == placed[..i];
    assert (placed + [b])[i] == placed[i];
  }

  /** What `DropOne` does to the maps: `Settle` over the brick's footprint at its new height. */
  lemma DropOneShape(s: State, b: Brick)
    requires DropOne(s, b).Ok?
    ensures var r := DropOne(s, b).value; var b' := r.placed[|s.placed|];
      && r.placed == s.placed + [b']
      && Footprint(b') == Footprint(b)
      && r.h == Settle(s, |s.placed|, b', Footprint(b)).h
      && r.supports == Settle(s, |s.placed|, b', Footprint(b)).supports
      && r.supportedBy == Settle(s, |s.placed|, b', Footprint(b)).supportedBy
  {
    var r := DropOne(s, b).value;
    PlaceAgain(b, r.placed[|s.placed|].Bottom());
  }

  lemma DropOneLands(bricks: seq<Brick>, s: State)
    requires |s.placed| < |bricks| && DropOne(s, bricks[|s.placed|]).Ok?
    requires forall i :: 0 <= i < |s.placed| ==> Lands(s.placed[..i], bricks[i], s.placed[i])
    requires forall p :: Highest(s.h, p) == RefHeight(s.placed, p)
    ensures var r := DropOne(s, bricks[|s.placed|]).value;
      forall i :: 0 <= i < |r.placed| ==> Lands(r.placed[..i], bricks[i], r.placed[i])
  {
    var n := |s.placed|;
    var r := DropOne(s, bricks[n]).value;
    DropOneHeight(s, bricks[n]);
    assert r.placed[..n] == s.placed;
    forall i | 0 <= i < |r.placed| ensures Lands(r.placed[..i], bricks[i], r.placed[i]) {
      if i < n {
        assert r.placed[..i] == s.placed[..i];
      }
    }
  }

  lemma DropOneHeights(s: State, b: Brick)
    requires DropOne(s, b).Ok?
    requires forall p :: Highest(s.h, p) == RefHeight(s.placed, p)
    ensures var r := DropOne(s, b).value; forall p :: Highest(r.h, p) == RefHeight(r.placed, p)
  {
    var n := |s.placed|;
    var r := DropOne(s, b).value;
    DropOneShape(s, b);
    var b' := r.placed[n];
    FootprintCovers(b');
    SettleSpec(s, n, b', Footprint(b));
    assert r.placed[..n] == s.placed;
  }

  /** With the height map matching the settled bricks, the supporters of the next brick are the
      bricks recorded just under it at one of its cells. */
  lemma NextSupports(s: State, b': Brick)
    requires forall p :: Highest(s.h, p) == RefHeight(s.placed, p)
    ensures forall j: nat :: Supports(s.placed + [b'], j, |s.placed|) <==>
      exists t :: 0 <= t < |Footprint(b')| && Highest(s.h, Footprint(b')[t]) == (b'.Bottom() - 1, Some(j))
  {
    var n := |s.placed|;
    var ps := Footprint(b');
    FootprintCovers(b');
    assert (s.placed + [b'])[..n] == s.placed;
    forall j: nat ensures Supports(s.placed + [b'], j, n) <==>
      exists t :: 0 <= t < |ps| && Highest(s.h, ps[t]) == (b'.Bottom() - 1, Some(j))
    {
      if Supports(s.placed + [b'], j, n) {
        var p :| Covers(b', p) && RefHeight(s.placed, p) == (b'.Bottom() - 1, Some(j));
        var t :| 0 <= t < |ps| && ps[t] == p;
      }
      if exists t :: 0 <= t < |ps| && Highest(s.h, ps[t]) == (b'.Bottom() - 1, Some(j)) {
        var t :| 0 <= t < |ps| && Highest(s.h, ps[t]) == (b'.Bottom() - 1, Some(j));
        assert Covers(b', ps[t]);
      }
    }
  }

  lemma DropOneEdges(s: State, b: Brick)
    requires DropOne(s, b).Ok?
    requires forall p :: Highest(s.h, p) == RefHeight(s.placed, p)
    requires forall j: nat, i: nat :: Edge(s, j, i) <==> Supports(s.placed, j, i)
    requires forall j: nat, i: nat :: BackEdge(s, i, j) <==> Supports(s.placed, j, i)
    ensures var r := DropOne(s, b).value; forall j: nat, i: nat :: Edge(r, j, i) <==> Supports(r.placed, j, i)
    ensures var r := DropOne(s, b).value; forall j: nat, i: nat :: BackEdge(r, i, j) <==> Supports(r.placed, j, i)
  {
    var n := |s.placed|;
    var r := DropOne(s, b).value;
    DropOneShape(s, b);
    var b' := r.placed[n];
    FootprintCovers(b');
    var st := Settle(s, n, b', Footprint(b'));
    SettleSpec(s, n, b', Footprint(b'));
    NextSupports(s, b');
    forall j: nat, i: nat ensures Edge(r, j, i) <==> Supports(r.placed, j, i) {
      assert Edge(r, j, i) == Edge(st, j, i);
      if i < n {
        SupportsPrefix(s.placed, b', j, i);
      }
    }
    forall j: nat, i: nat ensures BackEdge(r, i, j) <==> Supports(r.placed, j, i) {
      assert BackEdge(r, i, j) == BackEdge(st, i, j);
      if i < n {
        SupportsPrefix(s.placed, b', j, i);
      }
    }
  }

  lemma DropOneFallen(bricks: seq<Brick>, s: State)
    requires |s.placed| < |bricks| && DropOne(s, bricks[|s.placed|]).Ok?
    requires s.nFallen == FallenCount(bricks, s.placed)
    ensures var r := DropOne(s, bricks[|s.placed|]).value; r.nFallen == FallenCount(bricks, r.placed)
  {
    var r := DropOne(s, bricks[|s.placed|]).value;
    assert r.placed[..|s.placed|] == s.placed;
  }

  lemma DropOneConsistent(bricks: seq<Brick>, s: State)
    requires Consistent(bricks, s) && |s.placed| < |bricks| && DropOne(s, bricks[|s.placed|]).Ok?
    ensures Consistent(bricks, DropOne(s, bricks[|s.placed|]).value)
  {
    var b := bricks[|s.placed|];
    DropOneLands(bricks, s);
    DropOneHeights(s, b);
    DropOneEdges(s, b);
    DropOneFallen(bricks, s);
  }

  lemma {:induction false} DropFromConsistent(bricks: seq<Brick>, s: State)
    requires Consistent(bricks, s) && DropFrom(bricks, s).Ok?
    ensures Consistent(bricks, DropFrom(bricks, s).value)
    decreases |bricks| - |s.placed|
  {
    if |s.placed| < |bricks| {
      DropOneConsistent(bricks, s);
      DropFromConsistent(bricks, DropOne(s, bricks[|s.placed|]).value);
    }
  }

  /** `drop_bricks` settles every brick one above the highest earlier brick under it, keeping its
      footprint and height; `supports` and `supported_by` hold exactly the resting-on relation,
      each the mirror of the other; and `n_fallen` counts the bricks that moved down. */
  lemma DropBricksConsistent(bricks: seq<Brick>)
    requires DropBricks(bricks).Ok?
    ensures Consistent(bricks, DropBricks(bricks).value)
  {
    ConsistentEmpty(bricks);
    DropFromConsistent(bricks, Empty);
  }

  /** Every brick is settled in order on the ones before it. */
  ghost predicate SettledAs(bricks: seq<Brick>, placed: seq<Brick>)
  {
    |placed| == |bricks| && forall i :: 0 <= i < |bricks| ==> LandsAt(bricks, placed, i)
  }

  /** Brick `i` of `bricks` settled as brick `i` of `placed` on the bricks placed before it. */
  ghost predicate LandsAt(bricks: seq<Brick>, placed: seq<Brick>, i: nat)
  {
    i < |bricks| && i < |placed| && Lands(placed[..i], bricks[i], placed[i])
  }

  lemma DropBricksSettles(bricks: seq<Brick>)
    requires DropBricks(bricks).Ok?
    ensures SettledAs(bricks, DropBricks(bricks).value.placed)
    ensures DropBricks(bricks).value.nFallen == FallenCount(bricks, DropBricks(bricks).value.placed)
  {
    DropBricksConsistent(bricks);
  }

  lemma DropBricksSupports(bricks: seq<Brick>)
    requires DropBricks(bricks).Ok?
    ensures var r := DropBricks(bricks).value; forall j: nat, i: nat :: Edge(r, j, i) <==> Supports(r.placed, j, i)
    ensures var r := DropBricks(bricks).value; forall j: nat, i: nat :: Edge(r, j, i) <==> BackEdge(r, i, j)
  {
    DropBricksConsistent(bricks);
  }

  lemma DropBricksFlat(bricks: seq<Brick>)
    requires DropBricks(bricks).Ok?
    ensures var placed := DropBricks(bricks).value.placed; forall k :: 0 <= k < |placed| ==> Flat(placed[k])
  {
    var placed := DropBricks(bricks).value.placed;
    DropBricksSettles(bricks);
    forall k | 0 <= k < |placed| ensures Flat(placed[k]) {
      assert LandsAt(bricks, placed, k);
      LandsSettled(placed[..k], bricks[k], placed[k]);
    }
  }

  /** A settled brick keeps its footprint and is settled where it is. */
  lemma LandsSettled(below: seq<Brick>, b: Brick, b': Brick)
    requires Lands(below, b, b')
    ensures Lands(below, b', b') && (Flat(b) <==> Flat(b'))
  {
    PlaceAgain(b, b'.Bottom());
  }

  /** The recorded entry of a cell names the last settled brick over it and that brick's top; a
      ground entry means no settled brick covers the cell. */
  lemma {:induction false} RefHeightMeaning(placed: seq<Brick>, p: CellP)
    ensures RefHeight(placed, p).1.None? ==>
      RefHeight(placed, p).0 == 0 && forall k :: 0 <= k < |placed| ==> !Covers(placed[k], p)
    ensures RefHeight(placed, p).1.Some? ==> var j := RefHeight(placed, p).1.value;
      && j < |placed| && Covers(placed[j], p) && RefHeight(placed, p).0 == placed[j].Top()
      && forall k :: j < k < |placed| ==> !Covers(placed[k], p)
  {
    if |placed| > 0 {
      var n := |placed| - 1;
      RefHeightMeaning(placed[..n], p);
      assert forall k :: 0 <= k < n ==> placed[..n][k] == placed[k];
    }
  }

  /** A supporting brick is an earlier one that shares a cell with the brick it supports and whose
      top is exactly one below that brick's bottom. */
  lemma SupportsMeaning(placed: seq<Brick>, j: nat, i: nat)
    requires Supports(placed, j, i)
    ensures j < i < |placed|
    ensures exists p :: Covers(placed[i], p) && Covers(placed[j], p)
    ensures placed[j].Top() + 1 == placed[i].Bottom()
  {
    var p :| Covers(placed[i], p) && RefHeight(placed[..i], p) == (placed[i].Bottom() - 1, Some(j));
    RefHeightMeaning(placed[..i], p);
    assert placed[..i][j] == placed[j];
  }

  /** Two settlings of the same bricks on the same bricks below agree. */
  lemma LandsUnique(below: seq<Brick>, b: Brick, b1: Brick, b2: Brick)
    requires Lands(below, b, b1) && Lands(below, b, b2)
    ensures b1 == b2
  {
    var p1 :| Covers(b, p1) && RefHeight(below, p1).0 + 1 == b1.Bottom();
    var p2 :| Covers(b, p2) && RefHeight(below, p2).0 + 1 == b2.Bottom();
    assert RefHeight(below, p2).0 < b1.Bottom();
    assert RefHeight(below, p1).0 < b2.Bottom();
  }

  /** Settled bricks stay where they are when dropped again, and none of them falls. */
  lemma DropSettledAgain(bricks: seq<Brick>)
    requires DropBricks(bricks).Ok?
    ensures var placed := DropBricks(bricks).value.placed;
      DropBricks(placed).Ok? && DropBricks(placed).value.placed == placed && DropBricks(placed).value.nFallen == 0
  {
    var placed := DropBricks(bricks).value.placed;
    DropBricksSettles(bricks);
    DropBricksFlat(bricks);
    var again := DropBricks(placed).value.placed;
    DropBricksSettles(placed);
    SameSettling(bricks, placed, again, |placed|);
    assert again == again[..|placed|];
    assert placed == placed[..|placed|];
    FallenNone(placed, |placed|);
  }

  /** Settling the settled bricks again reproduces them, prefix by prefix. */
  lemma {:induction false} SameSettling(bricks: seq<Brick>, placed: seq<Brick>, again: seq<Brick>, n: nat)
    requires n <= |placed|
    requires SettledAs(bricks, placed) && SettledAs(placed, again)
    ensures again[..n] == placed[..n]
  {
    if n > 0 {
      var i := n - 1;
      SameSettling(bricks, placed, again, i);
      SameStep(bricks, placed, again, i);
      assert again[..n] == again[..i] + [again[i]];
      assert placed[..n] == placed[..i] + [placed[i]];
    }
  }

  lemma SameStep(bricks: seq<Brick>, placed: seq<Brick>, again: seq<Brick>, i: nat)
    requires i < |placed| && SettledAs(bricks, placed) && SettledAs(placed, again)
    requires again[..i] == placed[..i]
    ensures again[i] == placed[i]
  {
    var below := placed[..i];
    assert LandsAt(placed, again, i);
    assert LandsAt(bricks, placed, i);
    LandsSettled(below, bricks[i], placed[i]);
    LandsUnique(below, placed[i], again[i], placed[i]);
  }

  lemma {:induction false} FallenNone(placed: seq<Brick>, n: nat)
    requires n <= |placed|
    ensures FallenCount(placed, placed[..n]) == 0
  {
    if n > 0 {
      FallenNone(placed, n - 1);
      assert placed[..n][..n - 1] == placed[..n - 1];
    }
  }

  // ---------------------------------------------------------------------------------------------
  // Counting safe bricks and chain reactions (`sim`)

  /** Brick `i` can go without another brick losing its last support: every brick it supports has
      more than one supporter. */
  predicate Safe(s: State, i: nat)
  {
    i in s.supports ==> forall k :: k in s.supports[i] ==> k in s.supportedBy && |s.supportedBy[k]| > 1
  }

  /** The bricks that fall when brick `i` is taken out: none when it is safe, otherwise the count
      of a fresh drop of the settled bricks without it. */
  function FallenWithout(s: State, i: nat): (r: Result<nat>)
    requires i < |s.placed|
    ensures Safe(s, i) ==> r == Ok(0)
    ensures (forall k :: 0 <= k < |s.placed| ==> Flat(s.placed[k])) ==> r.Ok?
  {
    if Safe(s, i) then Ok(0)
    else
      var rest := s.placed[..i] + s.placed[i + 1..];
      assert forall k :: 0 <= k < |rest| ==> rest[k] == if k < i then s.placed[k] else s.placed[k + 1];
      var again :- DropBricks(rest);
      Ok(again.nFallen)
  }

  /** The fold of `sim` over the bricks from `i` on: bricks whose removal drops none, and the sum
      of the bricks dropped. */
  function Tally(s: State, i: nat): (r: Result<(nat, nat)>)
    requires i <= |s.placed|
    ensures r.Ok? ==> r.value.0 <= |s.placed| - i
    ensures (forall k :: 0 <= k < |s.placed| ==> Flat(s.placed[k])) ==> r.Ok?
    decreases |s.placed| - i
  {
    if i == |s.placed| then Ok((0, 0))
    else
      var n :- FallenWithout(s, i);
      var rest :- Tally(s, i + 1);
      Ok((rest.0 + if n == 0 then 1 else 0, rest.1 + n))
  }

  /** The number of safe bricks from `i` on. */
  function SafeCount(s: State, i: nat): nat
    requires i <= |s.placed|
    decreases |s.placed| - i
  {
    if i == |s.placed| then 0 else SafeCount(s, i + 1) + if Safe(s, i) then 1 else 0
  }

  /** Every safe brick counts towards the first answer. */
  lemma {:induction false} SafeCounted(s: State, i: nat)
    requires i <= |s.placed| && Tally(s, i).Ok?
    ensures SafeCount(s, i) <= Tally(s, i).value.0
    decreases |s.placed| - i
  {
    if i < |s.placed| {
      SafeCounted(s, i + 1);
    }
  }

  // ---------------------------------------------------------------------------------------------
  // Taking an unsafe brick out makes another fall

  /** The brick's corners are in ascending height order, so its top is not below its bottom. */
  predicate Upright(b: Brick)
  {
    b.Bottom() <= b.Top()
  }

  predicate AllUpright(bricks: seq<Brick>)
  {
    forall k :: 0 <= k < |bricks| ==> Upright(bricks[k])
  }

  /** Settled upright bricks stay upright and rest at height one or more. */
  lemma {:induction false} SettledAbove(bricks: seq<Brick>, placed: seq<Brick>, m: nat)
    requires SettledAs(bricks, placed) && AllUpright(bricks) && m < |placed|
    ensures placed[m].Bottom() >= 1 && Upright(placed[m])
    decreases m
  {
    assert LandsAt(bricks, placed, m);
    var p :| Covers(bricks[m], p) && RefHeight(placed[..m], p).0 + 1 == placed[m].Bottom();
    RefHeightMeaning(placed[..m], p);
    if RefHeight(placed[..m], p).1.Some? {
      var j := RefHeight(placed[..m], p).1.value;
      assert placed[..m][j] == placed[j];
      SettledAbove(bricks, placed, j);
    }
  }

  /** Among settled upright bricks over the same cell, an earlier one lies wholly below a later
      one. */
  lemma {:induction false} Stacked(bricks: seq<Brick>, placed: seq<Brick>, j: nat, m: nat, p: CellP)
    requires SettledAs(bricks, placed) && AllUpright(bricks)
    requires j < m < |placed| && Covers(placed[j], p) && Covers(placed[m], p)
    ensures placed[j].Top() < placed[m].Bottom()
    decreases m
  {
    assert LandsAt(bricks, placed, m);
    assert Covers(bricks[m], p);
    RefHeightMeaning(placed[..m], p);
    assert placed[..m][j] == placed[j];
    var l := RefHeight(placed[..m], p).1.value;
    assert placed[..m][l] == placed[l];
    if j < l {
      Stacked(bricks, placed, j, l, p);
      SettledAbove(bricks, placed, l);
    }
  }

  /** An earlier settled brick over a cell of `k` whose top is just under `k` supports `k`. */
  lemma LastUnder(bricks: seq<Brick>, placed: seq<Brick>, j: nat, k: nat, p: CellP)
    requires SettledAs(bricks, placed) && AllUpright(bricks)
    requires j < k < |placed| && Covers(placed[j], p) && Covers(placed[k], p)
    requires placed[j].Top() + 1 == placed[k].Bottom()
    ensures Supports(placed, j, k)
  {
    assert LandsAt(bricks, placed, k);
    assert Covers(bricks[k], p);
    RefHeightMeaning(placed[..k], p);
    assert placed[..k][j] == placed[j];
    var l := RefHeight(placed[..k], p).1.value;
    assert placed[..k][l] == placed[l];
    if j < l {
      Stacked(bricks, placed, j, l, p);
      SettledAbove(bricks, placed, l);
      assert false;
    }
    assert RefHeight(placed[..k], p) == (placed[k].Bottom() - 1, Some(j));
  }

  /** The settled bricks without brick `i`, in order. */
  function Without(placed: seq<Brick>, i: nat): (r: seq<Brick>)
    requires i < |placed|
    ensures |r| == |placed| - 1
    ensures forall m :: 0 <= m < |r| ==> r[m] == placed[if m < i then m else m + 1]
  {
    placed[..i] + placed[i + 1..]
  }

  /** Settling the bricks again without one of them lowers every brick or leaves it in place. */
  lemma {:induction false} AgainLower(bricks: seq<Brick>, placed: seq<Brick>, i: nat, again: seq<Brick>, m: nat)
    requires SettledAs(bricks, placed) && AllUpright(bricks) && i < |placed|
    requires SettledAs(Without(placed, i), again) && m < |again|
    ensures again[m].Bottom() <= Without(placed, i)[m].Bottom()
    decreases m
  {
    var rest := Without(placed, i);
    var mi := if m < i then m else m + 1;
    assert rest[m] == placed[mi];
    assert LandsAt(rest, again, m);
    var p := LandsOn(again[..m], rest[m], again[m]);
    RefHeightMeaning(again[..m], p);
    SettledAbove(bricks, placed, mi);
    if RefHeight(again[..m], p).1.Some? {
      var j := RefHeight(again[..m], p).1.value;
      var ji := if j < i then j else j + 1;
      assert again[..m][j] == again[j];
      assert rest[j] == placed[ji];
      AgainLower(bricks, placed, i, again, j);
      assert LandsAt(rest, again, j);
      LandsShape(again[..j], rest[j], again[j], p);
      Stacked(bricks, placed, ji, mi, p);
      assert again[j].Top() <= placed[ji].Top();
    }
  }

  /** A settled brick rests one above the highest brick under some cell of it. */
  lemma LandsOn(below: seq<Brick>, b: Brick, b': Brick) returns (p: CellP)
    requires Lands(below, b, b')
    ensures Covers(b, p) && RefHeight(below, p).0 + 1 == b'.Bottom()
  {
    p :| Covers(b, p) && RefHeight(below, p).0 + 1 == b'.Bottom();
  }

  /** A settled brick keeps its height and its cells. */
  lemma LandsShape(below: seq<Brick>, b: Brick, b': Brick, p: CellP)
    requires Lands(below, b, b')
    ensures b'.Top() - b'.Bottom() == b.Top() - b.Bottom() && (Covers(b', p) <==> Covers(b, p))
  {
  }

  /** A brick whose only support is brick `i` falls when the bricks settle again without `i`. */
  lemma OnlySupportFalls(bricks: seq<Brick>, placed: seq<Brick>, i: nat, k: nat, again: seq<Brick>)
    requires SettledAs(bricks, placed) && AllUpright(bricks)
    requires i < k < |placed| && Supports(placed, i, k) && forall j: nat :: Supports(placed, j, k) ==> j == i
    requires SettledAs(Without(placed, i), again)
    ensures again[k - 1].Bottom() < Without(placed, i)[k - 1].Bottom()
  {
    var rest := Without(placed, i);
    var m := k - 1;
    assert rest[m] == placed[k];
    SupportsMeaning(placed, i, k);
    SettledAbove(bricks, placed, i);
    assert LandsAt(rest, again, m);
    var p := LandsOn(again[..m], rest[m], again[m]);
    RefHeightMeaning(again[..m], p);
    if RefHeight(again[..m], p).1.Some? {
      var j := RefHeight(again[..m], p).1.value;
      var ji := if j < i then j else j + 1;
      assert again[..m][j] == again[j];
      assert rest[j] == placed[ji];
      AgainLower(bricks, placed, i, again, j);
      assert LandsAt(rest, again, j);
      LandsShape(again[..j], rest[j], again[j], p);
      Stacked(bricks, placed, ji, k, p);
      assert again[j].Top() <= placed[ji].Top();
      if placed[ji].Top() + 1 == placed[k].Bottom() {
        LastUnder(bricks, placed, ji, k, p);
        assert false;
      }
    }
  }

  /** A settled brick below where it started counts as fallen. */
  lemma {:induction false} FallenPositive(bricks: seq<Brick>, placed: seq<Brick>, m: nat)
    requires |placed| <= |bricks| && m < |placed| && placed[m].Bottom() < bricks[m].Bottom()
    ensures FallenCount(bricks, placed) >= 1
  {
    var n := |placed| - 1;
    if m < n {
      FallenPositive(bricks, placed[..n], m);
      assert placed[..n][m] == placed[m];
    }
  }

  /** A set with at most one element that holds `i` holds nothing else. */
  lemma Single(s: set<nat>, i: nat, j: nat)
    requires i in s && j in s && |s| <= 1
    ensures i == j
  {
    if i != j {
      assert {i, j} <= s;
      SubsetCard({i, j}, s);
    }
  }

  lemma SubsetCard(a: set<nat>, b: set<nat>)
    requires a <= b
    ensures |a| <= |b|
  {
    assert b == a + (b - a);
  }

  /** With upright bricks, taking out a brick that is not safe makes at least one other fall. */
  lemma UnsafeFalls(bricks: seq<Brick>, i: nat)
    requires DropBricks(bricks).Ok? && AllUpright(bricks)
    requires i < |DropBricks(bricks).value.placed| && !Safe(DropBricks(bricks).value, i)
    ensures FallenWithout(DropBricks(bricks).value, i).Ok?
    ensures FallenWithout(DropBricks(bricks).value, i).value >= 1
  {
    var s := DropBricks(bricks).value;
    var k := LoneSupported(bricks, i);
    DropBricksSettles(bricks);
    DropBricksFlat(bricks);
    LoneSupportFalls(bricks, s.placed, i, k);
    assert s.placed[..i] + s.placed[i + 1..] == Without(s.placed, i);
  }

  /** A brick that is not safe is the only support of some later brick. */
  lemma LoneSupported(bricks: seq<Brick>, i: nat) returns (k: nat)
    requires DropBricks(bricks).Ok?
    requires i < |DropBricks(bricks).value.placed| && !Safe(DropBricks(bricks).value, i)
    ensures var placed := DropBricks(bricks).value.placed;
      Supports(placed, i, k) && forall j: nat :: Supports(placed, j, k) ==> j == i
  {
    var s := DropBricks(bricks).value;
    DropBricksSupports(bricks);
    k :| k in s.supports[i] && !(k in s.supportedBy && |s.supportedBy[k]| > 1);
    assert Edge(s, i, k);
    assert BackEdge(s, k, i);
    forall j: nat | Supports(s.placed, j, k) ensures j == i {
      assert BackEdge(s, k, j);
      Single(s.supportedBy[k], i, j);
    }
  }

  /** Settling again without the only support of a brick makes at least one brick fall. */
  lemma LoneSupportFalls(bricks: seq<Brick>, placed: seq<Brick>, i: nat, k: nat)
    requires SettledAs(bricks, placed) && AllUpright(bricks) && i < |placed|
    requires forall m :: 0 <= m < |placed| ==> Flat(placed[m])
    requires Supports(placed, i, k) && forall j: nat :: Supports(placed, j, k) ==> j == i
    ensures DropBricks(Without(placed, i)).Ok? && DropBricks(Without(placed, i)).value.nFallen >= 1
  {
    var rest := Without(placed, i);
    SupportsMeaning(placed, i, k);
    assert DropBricks(rest).Ok?;
    DropBricksSettles(rest);
    FallsAgain(bricks, placed, i, k, DropBricks(rest).value.placed);
  }

  lemma FallsAgain(bricks: seq<Brick>, placed: seq<Brick>, i: nat, k: nat, again: seq<Brick>)
    requires SettledAs(bricks, placed) && AllUpright(bricks) && i < k
    requires Supports(placed, i, k) && forall j: nat :: Supports(placed, j, k) ==> j == i
    requires SettledAs(Without(placed, i), again)
    ensures FallenCount(Without(placed, i), again) >= 1
  {
    SupportsMeaning(placed, i, k);
    OnlySupportFalls(bricks, placed, i, k, again);
    FallenPositive(Without(placed, i), again, k - 1);
  }

  /** With upright bricks, the first answer counts exactly the safe bricks, and every brick that is
      not safe adds at least one to the second. */
  lemma TallyCounts(bricks: seq<Brick>, i: nat)
    requires DropBricks(bricks).Ok? && AllUpright(bricks)
    requires var s := DropBricks(bricks).value; i <= |s.placed| && Tally(s, i).Ok?
    ensures var s := DropBricks(bricks).value; var t := Tally(s, i).value;
      && t.0 == SafeCount(s, i)
      && t.1 >= |s.placed| - i - SafeCount(s, i)
      && (t.1 == 0 <==> SafeCount(s, i) == |s.placed| - i)
  {
    var s := DropBricks(bricks).value;
    forall k | i <= k < |s.placed| && !Safe(s, k) ensures FallenWithout(s, k).Ok? && FallenWithout(s, k).value >= 1 {
      UnsafeFalls(bricks, k);
    }
    TallyFold(s, i);
  }

  /** The fold of `sim` once every brick that is not safe is known to drop another. */
  lemma {:induction false} TallyFold(s: State, i: nat)
    requires i <= |s.placed| && Tally(s, i).Ok?
    requires forall k :: i <= k < |s.placed| && !Safe(s, k) ==> FallenWithout(s, k).Ok? && FallenWithout(s, k).value >= 1
    ensures var t := Tally(s, i).value;
      && t.0 == SafeCount(s, i)
      && t.1 >= |s.placed| - i - SafeCount(s, i)
      && (t.1 == 0 <==> SafeCount(s, i) == |s.placed| - i)
    decreases |s.placed| - i
  {
    if i < |s.placed| {
      TallyFold(s, i + 1);
      SafeCountBound(s, i + 1);
    }
  }

  lemma {:induction false} SafeCountBound(s: State, i: nat)
    requires i <= |s.placed|
    ensures SafeCount(s, i) <= |s.placed| - i
    decreases |s.placed| - i
  {
    if i < |s.placed| {
      SafeCountBound(s, i + 1);
    }
  }

  /** In a settled state the lookup `supported_by.get(k).unwrap()` of the safety test never fails:
      every brick in `supports[i]` has an entry in `supportedBy`, which lists `i`. */
  lemma SupportedListed(bricks: seq<Brick>, i: nat, k: nat)
    requires DropBricks(bricks).Ok?
    requires var s := DropBricks(bricks).value; i in s.supports && k in s.supports[i]
    ensures var s := DropBricks(bricks).value; k in s.supportedBy && i in s.supportedBy[k]
  {
    DropBricksSupports(bricks);
    assert Edge(DropBricks(bricks).value, i, k);
  }

  /** Bottoms in ascending order (`sort_unstable_by_key(Brick::bottom)`). */
  function BottomLe(a: Brick, b: Brick): bool { a.Bottom() <= b.Bottom() }

  lemma BottomLeTotal()
    ensures TotalPreorder(BottomLe)
  {
  }

  /** Equal multisets of bricks are all flat together. */
  lemma SameBricksFlat(a: seq<Brick>, b: seq<Brick>)
    requires multiset(a) == multiset(b)
    requires forall i :: 0 <= i < |a| ==> Flat(a[i])
    ensures forall i :: 0 <= i < |b| ==> Flat(b[i])
  {
    forall i | 0 <= i < |b| ensures Flat(b[i]) {
      assert b[i] in multiset(a);
    }
  }

  /** Equal multisets of bricks are all upright together. */
  lemma SameBricksUpright(a: seq<Brick>, b: seq<Brick>)
    requires multiset(a) == multiset(b) && AllUpright(a)
    ensures AllUpright(b)
  {
    forall i | 0 <= i < |b| ensures Upright(b[i]) {
      assert b[i] in multiset(a);
    }
  }

  /** The bricks sorted by bottom (`sort_unstable_by_key`) and settled. */
  function SettleSorted(bricks: seq<Brick>): (r: Result<State>)
    ensures r.Ok? <==> forall i :: 0 <= i < |bricks| ==> Flat(bricks[i])
    ensures r.Ok? ==> exists sorted ::
      multiset(sorted) == multiset(bricks) && SortedBy(sorted, BottomLe) && DropBricks(sorted) == r
    ensures r.Ok? ==> forall k :: 0 <= k < |r.value.placed| ==> Flat(r.value.placed[k])
  {
    BottomLeTotal();
    var sorted := SortBy(bricks, BottomLe);
    if (forall i :: 0 <= i < |bricks| ==> Flat(bricks[i])) then
      SameBricksFlat(bricks, sorted);
      DropBricksFlat(sorted);
      DropBricks(sorted)
    else
      assert DropBricks(sorted).Err? by {
        if DropBricks(sorted).Ok? {
          SameBricksFlat(sorted, bricks);
        }
      }
      DropBricks(sorted)
  }

  /** `sim`: parse every line, sort by bottom, settle, then count the bricks whose removal drops
      none and the total dropped over all removals. */
  function Sim(input: string): Result<(nat, nat)>
  {
    var bricks :- MapResult(Lines(input), ParseBrick);
    var s :- SettleSorted(bricks);
    Tally(s, 0)
  }

  /** `sim` answers exactly when every line is a flat brick; the answer is the tally over the
      settled bricks and counts at least every safe brick. */
  lemma SimSpec(input: string)
    ensures Sim(input).Ok? <==> forall i :: 0 <= i < |Lines(input)| ==>
                                  ParseBrick(Lines(input)[i]).Ok? && Flat(ParseBrick(Lines(input)[i]).value)
    ensures Sim(input).Ok? ==> var s := SettleSorted(MapResult(Lines(input), ParseBrick).value).value;
      Sim(input) == Tally(s, 0) && SafeCount(s, 0) <= Sim(input).value.0
  {
    var lines := Lines(input);
    var pr := MapResult(lines, ParseBrick);
    if pr.Ok? {
      MapResultAll(lines, ParseBrick, pr.value, Flat);
      var sr := SettleSorted(pr.value);
      if sr.Ok? {
        assert Sim(input) == Tally(sr.value, 0);
        SafeCounted(sr.value, 0);
      } else {
        assert Sim(input).Err?;
      }
    } else {
      assert Sim(input).Err?;
      assert exists i :: 0 <= i < |lines| && ParseBrick(lines[i]).Err?;
    }
  }

  /** With upright bricks `sim` answers with exactly the number of safe bricks, and its second
      answer is at least the number of bricks that are not safe, and zero exactly when all are. */
  lemma SimCounts(input: string, bricks: seq<Brick>, s: State)
    requires MapResult(Lines(input), ParseBrick) == Ok(bricks) && AllUpright(bricks)
    requires SettleSorted(bricks) == Ok(s)
    ensures Sim(input).Ok? && Sim(input).value.0 == SafeCount(s, 0)
    ensures Sim(input).Ok? && Sim(input).value.1 >= |s.placed| - SafeCount(s, 0)
    ensures Sim(input).Ok? && (Sim(input).value.1 == 0 <==> SafeCount(s, 0) == |s.placed|)
  {
    var sorted :| multiset(sorted) == multiset(bricks) && SortedBy(sorted, BottomLe) && DropBricks(sorted) == Ok(s);
    SameBricksUpright(bricks, sorted);
    assert Sim(input) == Tally(s, 0);
    TallyCounts(sorted, 0);
  }
}

=== FILE: day25.dfy ===
/** Day 25 (Snowverload): the wiring diagram lists, per line, a component and the components it is
    connected to. Loading it gives every name a dense index in order of first appearance and builds
    a symmetric adjacency list. */
module Day25 {
  import opened Common
  import opened Strings

  /** `NameMap`: the index given to each name seen so far. */
  type NameMap = map<string, nat>

  /** The indices are exactly `0..|names|`, one per name. */
  ghost predicate Dense(names: NameMap)
  {
    && (forall n :: n in names ==> names[n] < |names|)
    && (forall i :: 0 <= i < |names| ==> i in names.Values)
    && (forall n, n' :: n in names && n' in names && n != n' ==> names[n] != names[n'])
  }

  /** `NameMap::idx`: a known name keeps its index; a new one gets the next index, the number of
      names known so far. */
  function Idx(names: NameMap, s: string): (r: (NameMap, nat))
    ensures r.0.Keys == names.Keys + {s} && s in r.0 && r.0[s] == r.1
    ensures forall n :: n in names ==> r.0[n] == names[n]
    ensures s in names && Dense(names) ==> r.1 < |names|
    ensures s !in names ==> r.1 == |names| && |r.0| == |names| + 1
  {
    if s in names then (names, names[s]) else (names[s := |names|], |names|)
  }

  /** Looking up a name keeps the indices dense. */
  lemma IdxDense(names: NameMap, s: string)
    requires Dense(names)
    ensures Dense(Idx(names, s).0)
  {
    var (m, i) := Idx(names, s);
    if s !in names {
      forall k | 0 <= k < |m| ensures k in m.Values {
        if k < |names| {
          assert k in names.Values;
          var n :| n in names && names[n] == k;
          assert m[n] == k;
        } else {
          assert m[s] == k;
        }
      }
    }
  }

  /** Looking up the same name twice gives the same index and changes nothing the second time. */
  lemma IdxIdempotent(names: NameMap, s: string)
    ensures var (m, i) := Idx(names, s); Idx(m, s) == (m, i)
  {
  }

  // ---------------------------------------------------------------------------------------------
  // The adjacency list

  /** `cxn.resize(n, vec![])` when `cxn` is shorter than `n`. */
  function Resize(cxn: seq<seq<nat>>, n: nat): (r: seq<seq<nat>>)
    ensures |r| == Max(|cxn|, n)
    ensures forall a :: 0 <= a < |cxn| ==> r[a] == cxn[a]
    ensures forall a :: |cxn| <= a < |r| ==> r[a] == []
  {
    if |cxn| <= n - 1 then cxn + seq(n - |cxn|, _ => []) else cxn
  }

  /** The loader's state: the names seen and the adjacency list. */
  datatype Load = Load(names: NameMap, cxn: seq<seq<nat>>)

  /** Dense indices, one adjacency entry per index, and only indices in the entries. */
  ghost predicate Wf(ld: Load)
  {
    && Dense(ld.names)
    && |ld.cxn| == |ld.names|
    && forall a, k :: 0 <= a < |ld.cxn| && 0 <= k < |ld.cxn[a]| ==> ld.cxn[a][k] < |ld.cxn|
  }

  /** An index beyond every entry occurs nowhere. */
  lemma CountAbsent(s: seq<nat>, y: nat)
    requires forall k :: 0 <= k < |s| ==> s[k] < y
    ensures CountOf(s, y) == 0
  {
    CountOfIsMultiplicity(s, y);
    assert y !in multiset(s);
  }

  /** Pushing `y`'s index onto `x`'s list and `x`'s onto `y`'s. */
  function Push(cxn: seq<seq<nat>>, l: nat, ri: nat): (r: seq<seq<nat>>)
    requires l < |cxn| && ri < |cxn|
    ensures |r| == |cxn|
    ensures forall a: nat, b: nat :: a < |cxn| ==>
      CountOf(r[a], b) == CountOf(cxn[a], b) + (if a == l && b == ri then 1 else 0) + (if a == ri && b == l then 1 else 0)
    ensures forall a, k :: 0 <= a < |r| && 0 <= k < |r[a]| ==> r[a][k] in cxn[a] || r[a][k] == l || r[a][k] == ri
  {
    var c1 := cxn[l := cxn[l] + [ri]];
    var c2 := c1[ri := c1[ri] + [l]];
    forall a: nat, b: nat | a < |cxn|
      ensures CountOf(c2[a], b) == CountOf(cxn[a], b) + (if a == l && b == ri then 1 else 0) + (if a == ri && b == l then 1 else 0)
    {
      if a == l { CountSnoc(cxn[l], ri, b); }
      if a == ri { CountSnoc(c1[ri], l, b); }
    }
    c2
  }

  /** One listed neighbour `r` of the component with index `l`: look `r` up, make room for it, and
      push each onto the other's list. */
  function Connect(ld: Load, l: nat, r: string): (res: Load)
    requires l < |ld.cxn|
    ensures |res.cxn| >= |ld.cxn|
  {
    var (names, ri) := Idx(ld.names, r);
    var c := Resize(ld.cxn, ri + 1);
    Load(names, Push(c, l, ri))
  }

  /** `Connect` for each neighbour in order. */
  function ConnectAll(ld: Load, l: nat, rs: seq<string>): (res: Load)
    requires l < |ld.cxn|
    ensures |res.cxn| >= |ld.cxn|
    decreases |rs|
  {
    if |rs| == 0 then ld else ConnectAll(Connect(ld, l, rs[0]), l, rs[1..])
  }

  /** The text of a line around its first ": ". */
  function Halves(line: string): Option<(string, string)>
  {
    SplitOnceStr(line, ": ")
  }

  /** One line of `load_input`: the component before ": ", then each whitespace-separated name
      after it. A line without ": " is an error. */
  function LoadLine(ld: Load, line: string): (r: Result<Load>)
    ensures r.Ok? <==> Halves(line).Some?
  {
    var h :- OkOr(Halves(line), "invalid line");
    var (names, l) := Idx(ld.names, h.0);
    var c := Resize(ld.cxn, l + 1);
    Ok(ConnectAll(Load(names, c), l, SplitWhitespace(h.1)))
  }

  function LoadLines(ld: Load, lines: seq<string>): (r: Result<Load>)
    ensures r.Ok? <==> forall k :: 0 <= k < |lines| ==> Halves(lines[k]).Some?
    decreases |lines|
  {
    if |lines| == 0 then Ok(ld)
    else
      var ld1 :- LoadLine(ld, lines[0]);
      assert forall k :: 1 <= k < |lines| ==> lines[k] == lines[1..][k - 1];
      LoadLines(ld1, lines[1..])
  }

  /** `load_input`: the adjacency list of the whole diagram. */
  function LoadInput(input: string): (r: Result<seq<seq<nat>>>)
    ensures r.Ok? <==> forall k :: 0 <= k < |Lines(input)| ==> Halves(Lines(input)[k]).Some?
  {
    var ld :- LoadLines(Load(map[], []), Lines(input));
    Ok(ld.cxn)
  }

  // ---------------------------------------------------------------------------------------------
  // What the adjacency list holds: every listed connection, once in each direction

  /** The connections `(component, neighbour)` a line lists. */
  function LinePairs(line: string): seq<(string, string)>
    requires Halves(line).Some?
  {
    var h := Halves(line).value;
    PairsWith(h.0, SplitWhitespace(h.1))
  }

  function PairsWith(a: string, rs: seq<string>): (r: seq<(string, string)>)
    ensures |r| == |rs| && forall k :: 0 <= k < |rs| ==> r[k] == (a, rs[k])
  {
    seq(|rs|, k requires 0 <= k < |rs| => (a, rs[k]))
  }

  /** Every connection listed in the diagram, in order. */
  function Listed(lines: seq<string>): seq<(string, string)>
    requires forall k :: 0 <= k < |lines| ==> Halves(lines[k]).Some?
  {
    if |lines| == 0 then [] else LinePairs(lines[0]) + Listed(lines[1..])
  }

  /** How many of `pairs` connect index `a` to index `b`, in that direction. */
  function Mult(pairs: seq<(string, string)>, names: NameMap, a: nat, b: nat): nat
  {
    if |pairs| == 0 then 0
    else
      var p := pairs[|pairs| - 1];
      Mult(pairs[..|pairs| - 1], names, a, b)
        + if p.0 in names && p.1 in names && names[p.0] == a && names[p.1] == b then 1 else 0
  }

  /** Every name of `pairs` has an index. */
  ghost predicate Named(pairs: seq<(string, string)>, names: NameMap)
  {
    forall k :: 0 <= k < |pairs| ==> pairs[k].0 in names && pairs[k].1 in names
  }

  /** Index `b` occurs in `a`'s list once for each connection of `pairs` between the two, in
      either direction. */
  ghost predicate Counts(cxn: seq<seq<nat>>, names: NameMap, pairs: seq<(string, string)>)
  {
    forall a: nat, b: nat :: a < |cxn| && b < |cxn| ==>
      CountOf(cxn[a], b) == Mult(pairs, names, a, b) + Mult(pairs, names, b, a)
  }

  /** The loader's invariant after the connections `pairs`. */
  ghost predicate Holds(ld: Load, pairs: seq<(string, string)>)
  {
    Wf(ld) && Named(pairs, ld.names) && Counts(ld.cxn, ld.names, pairs)
  }

  /** Counting does not change when more names get indices. */
  lemma {:induction false} MultExtend(pairs: seq<(string, string)>, names: NameMap, names': NameMap, a: nat, b: nat)
    requires Named(pairs, names)
    requires forall n :: n in names ==> n in names' && names'[n] == names[n]
    ensures Mult(pairs, names', a, b) == Mult(pairs, names, a, b)
  {
    if |pairs| > 0 {
      MultExtend(pairs[..|pairs| - 1], names, names', a, b);
    }
  }

  lemma MultSnoc(pairs: seq<(string, string)>, p: (string, string), names: NameMap, a: nat, b: nat)
    ensures Mult(pairs + [p], names, a, b) ==
      Mult(pairs, names, a, b) + if p.0 in names && p.1 in names && names[p.0] == a && names[p.1] == b then 1 else 0
  {
    assert (pairs + [p])[..|pairs|] == pairs;
  }

  lemma CountSnoc(s: seq<nat>, x: nat, y: nat)
    ensures CountOf(s + [x], y) == CountOf(s, y) + if x == y then 1 else 0
  {
    CountOfAppend(s, [x], y);
  }

  lemma {:induction false} MultUnnamed(pairs: seq<(string, string)>, names: NameMap, a: nat, b: nat)
    requires Named(pairs, names) && Dense(names) && (a >= |names| || b >= |names|)
    ensures Mult(pairs, names, a, b) == 0
  {
    if |pairs| > 0 {
      MultUnnamed(pairs[..|pairs| - 1], names, a, b);
    }
  }

  lemma LookupWf(ld: Load, y: string)
    requires Wf(ld)
    ensures var (names, l) := Idx(ld.names, y); Wf(Load(names, Resize(ld.cxn, l + 1))) && l < |names|
  {
    IdxDense(ld.names, y);
  }

  /** Looking a name up and making room for its index keeps the invariant. */
  lemma LookupHolds(ld: Load, pairs: seq<(string, string)>, y: string)
    requires Holds(ld, pairs)
    ensures var (names, l) := Idx(ld.names, y);
      Holds(Load(names, Resize(ld.cxn, l + 1)), pairs) && l < |names|
  {
    var (names, l) := Idx(ld.names, y);
    LookupWf(ld, y);
    ExtendCounts(ld, pairs, names, Resize(ld.cxn, l + 1));
  }

  /** More names and more empty entries leave the counts as they were. */
  lemma ExtendCounts(ld: Load, pairs: seq<(string, string)>, names: NameMap, c: seq<seq<nat>>)
    requires Holds(ld, pairs)
    requires forall n :: n in ld.names ==> n in names && names[n] == ld.names[n]
    requires |c| >= |ld.cxn| && forall a :: 0 <= a < |c| ==> c[a] == if a < |ld.cxn| then ld.cxn[a] else []
    ensures Counts(c, names, pairs)
  {
    forall a: nat, b: nat | a < |c| && b < |c|
      ensures CountOf(c[a], b) == Mult(pairs, names, a, b) + Mult(pairs, names, b, a)
    {
      MultExtend(pairs, ld.names, names, a, b);
      MultExtend(pairs, ld.names, names, b, a);
      if !(a < |ld.cxn| && b < |ld.cxn|) {
        MultUnnamed(pairs, ld.names, a, b);
        MultUnnamed(pairs, ld.names, b, a);
        if a < |ld.cxn| {
          CountAbsent(c[a], b);
        }
      }
    }
  }

  /** Pushing a connection between two named components keeps the invariant, with the connection
      listed. */
  lemma PushHolds(ld: Load, pairs: seq<(string, string)>, x: string, y: string)
    requires Holds(ld, pairs) && x in ld.names && y in ld.names
    ensures ld.names[x] < |ld.cxn| && ld.names[y] < |ld.cxn|
    ensures Holds(Load(ld.names, Push(ld.cxn, ld.names[x], ld.names[y])), pairs + [(x, y)])
  {
    var l, ri := ld.names[x], ld.names[y];
    var c := Push(ld.cxn, l, ri);
    forall a: nat, b: nat | a < |c| && b < |c|
      ensures CountOf(c[a], b) == Mult(pairs + [(x, y)], ld.names, a, b) + Mult(pairs + [(x, y)], ld.names, b, a)
    {
      MultSnoc(pairs, (x, y), ld.names, a, b);
      MultSnoc(pairs, (x, y), ld.names, b, a);
    }
  }

  /** `Connect` keeps the invariant, with one more connection listed. */
  lemma ConnectHolds(ld: Load, pairs: seq<(string, string)>, x: string, l: nat, r: string)
    requires Holds(ld, pairs) && x in ld.names && ld.names[x] == l
    ensures l < |ld.cxn| && Holds(Connect(ld, l, r), pairs + [(x, r)])
  {
    var (names, ri) := Idx(ld.names, r);
    LookupHolds(ld, pairs, r);
    var ld1 := Load(names, Resize(ld.cxn, ri + 1));
    PushHolds(ld1, pairs, x, r);
    assert Connect(ld, l, r) == Load(names, Push(ld1.cxn, l, ri));
  }

  lemma {:induction false} ConnectAllHolds(ld: Load, pairs: seq<(string, string)>, x: string, l: nat, rs: seq<string>)
    requires Holds(ld, pairs) && x in ld.names && ld.names[x] == l
    ensures l < |ld.cxn| && Holds(ConnectAll(ld, l, rs), pairs + PairsWith(x, rs))
    decreases |rs|
  {
    if |rs| == 0 {
      assert pairs + PairsWith(x, rs) == pairs;
    } else {
      ConnectHolds(ld, pairs, x, l, rs[0]);
      var ld1 := Connect(ld, l, rs[0]);
      ConnectAllHolds(ld1, pairs + [(x, rs[0])], x, l, rs[1..]);
      assert pairs + [(x, rs[0])] + PairsWith(x, rs[1..]) == pairs + PairsWith(x, rs);
    }
  }

  lemma LoadLineHolds(ld: Load, pairs: seq<(string, string)>, line: string)
    requires Holds(ld, pairs) && Halves(line).Some?
    ensures Holds(LoadLine(ld, line).value, pairs + LinePairs(line))
  {
    var h := Halves(line).value;
    var (names, l) := Idx(ld.names, h.0);
    LookupHolds(ld, pairs, h.0);
    ConnectAllHolds(Load(names, Resize(ld.cxn, l + 1)), pairs, h.0, l, SplitWhitespace(h.1));
  }

  lemma AppendAssoc<T>(a: seq<T>, b: seq<T>, c: seq<T>)
    ensures a + b + c == a + (b + c)
  {
  }

  lemma LoadLinesStep(ld: Load, lines: seq<string>)
    requires LoadLines(ld, lines).Ok? && |lines| > 0
    ensures LoadLine(ld, lines[0]).Ok?
    ensures LoadLines(LoadLine(ld, lines[0]).value, lines[1..]) == LoadLines(ld, lines)
    ensures Listed(lines) == LinePairs(lines[0]) + Listed(lines[1..])
  {
  }

  lemma {:induction false} LoadLinesHolds(ld: Load, pairs: seq<(string, string)>, lines: seq<string>)
    requires Holds(ld, pairs) && LoadLines(ld, lines).Ok?
    ensures Holds(LoadLines(ld, lines).value, pairs + Listed(lines))
    decreases |lines|
  {
    if |lines| == 0 {
      assert pairs + Listed(lines) == pairs;
    } else {
      LoadLinesStep(ld, lines);
      LoadLineHolds(ld, pairs, lines[0]);
      var ld1 := LoadLine(ld, lines[0]).value;
      LoadLinesHolds(ld1, pairs + LinePairs(lines[0]), lines[1..]);
      AppendAssoc(pairs, LinePairs(lines[0]), Listed(lines[1..]));
    }
  }

  /** The loaded diagram: every name has a dense index with its own adjacency entry, and index `b`
      occurs in `a`'s list once for each listed connection between the two names, in either
      direction. */
  lemma LoadInputSpec(input: string)
    requires LoadInput(input).Ok?
    ensures var ld := LoadLines(Load(map[], []), Lines(input)).value;
      && ld.cxn == LoadInput(input).value
      && Dense(ld.names) && |ld.cxn| == |ld.names|
      && Named(Listed(Lines(input)), ld.names)
      && forall a: nat, b: nat :: a < |ld.cxn| && b < |ld.cxn| ==>
           CountOf(ld.cxn[a], b) == Mult(Listed(Lines(input)), ld.names, a, b) + Mult(Listed(Lines(input)), ld.names, b, a)
  {
    assert Holds(Load(map[], []), []);
    LoadLinesHolds(Load(map[], []), [], Lines(input));
    assert [] + Listed(Lines(input)) == Listed(Lines(input));
  }

  /** The adjacency list is symmetric, counting repeats: `b` is listed under `a` as often as `a`
      under `b`. */
  lemma LoadInputSymmetric(input: string, a: nat, b: nat)
    requires LoadInput(input).Ok?
    requires a < |LoadInput(input).value| && b < |LoadInput(input).value|
    ensures CountOf(LoadInput(input).value[a], b) == CountOf(LoadInput(input).value[b], a)
  {
    LoadInputSpec(input);
  }
}

=== FILE: grid.dfy ===
/** The shared 2-D grid: cardinal directions, row-major cell storage, and parsing a block of equally
    long lines into a grid of characters. */
module Grid {
  import opened Common
  import opened Strings

  /** A cell position `(x, y)`; `x` grows to the east and `y` to the south. */
  type CellP = (int, int)

  datatype Dir = North | South | East | West
  {
    function Opposite(): (r: Dir)
      ensures r != this
    {
      match this
      case North => South
      case South => North
      case East => West
      case West => East
    }

    function Index(): (r: nat)
      ensures r < 4
    {
      match this
      case North => 0
      case South => 1
      case East => 2
      case West => 3
    }

    /** The offset of `x` steps in this direction. */
    function Step(x: int): (r: CellP)
      ensures Abs(r.0) + Abs(r.1) == Abs(x)
      ensures x != 0 ==> ((this == North || this == South) <==> r.0 == 0)
    {
      match this
      case North => (0, -x)
      case South => (0, x)
      case East => (x, 0)
      case West => (-x, 0)
    }
  }

  /** The four directions in the order the solvers iterate them. */
  const Dirs: seq<Dir> := [North, South, West, East]

  /** The direction of a non-zero axis-aligned offset. */
  function FromXy(p: CellP): (r: Option<Dir>)
    ensures r.Some? <==> (p.0 == 0) != (p.1 == 0)
    ensures r.Some? ==> r.value.Step(Abs(p.0) + Abs(p.1)) == p
  {
    if p.0 == 0 then
      if p.1 < 0 then Some(North) else if p.1 == 0 then None else Some(South)
    else if p.1 == 0 then
      if p.0 < 0 then Some(West) else Some(East)
    else None
  }

  lemma OppositeInvolution(d: Dir)
    ensures d.Opposite().Opposite() == d
    ensures forall x :: d.Opposite().Step(x) == d.Step(-x)
  {
  }

  lemma FromXyStep(d: Dir, k: int)
    requires k > 0
    ensures FromXy(d.Step(k)) == Some(d)
  {
  }

  lemma IndexInjective(d: Dir, e: Dir)
    ensures d.Index() == e.Index() <==> d == e
  {
  }

  lemma DirsComplete(d: Dir)
    ensures d in Dirs
    ensures forall i, j :: 0 <= i < j < |Dirs| ==> Dirs[i] != Dirs[j]
  {
  }

  /** `(a + b * w) / w == b` and `(a + b * w) % w == a` for `0 <= a < w`. */
  /** A product divided by one factor is the other. */
  lemma ExactDiv(n: int, w: int, h: int)
    requires w > 0 && n == w * h
    ensures n / w == h
  {
    DivModUnique(0, h, w);
  }

  lemma DivModUnique(a: int, b: int, w: int)
    requires 0 <= a < w
    ensures (a + b * w) / w == b && (a + b * w) % w == a
  {
    var i := a + b * w;
    var q, r := i / w, i % w;
    assert i == q * w + r && 0 <= r < w;
    MulSub(q, b, w);
    if q > b {
      MulAtLeast(q - b, w);
    } else if q < b {
      MulAtLeast(b - q, w);
      MulSub(b, q, w);
    }
  }

  lemma MulAtLeast(k: int, w: int)
    requires k >= 1 && w > 0
    ensures k * w >= w
  {
  }

  lemma MulSub(x: int, y: int, w: int)
    ensures (x - y) * w == x * w - y * w
  {
  }

  /** A `dx` by `dy` grid stored row by row in `m`. */
  datatype Grid<T> = Grid(dx: int, dy: int, m: seq<T>)
  {
    predicate Valid()
    {
      dx >= 0 && dy >= 0 && |m| == dx * dy
    }

    predicate IsInside(p: CellP)
    {
      0 <= p.0 < dx && 0 <= p.1 < dy
    }

    /** The cell of storage index `p`. */
    function ToXy(p: int): (r: Option<CellP>)
      requires Valid()
      ensures r.Some? <==> 0 <= p < |m|
      ensures r.Some? ==> IsInside(r.value) && r.value.0 + r.value.1 * dx == p
    {
      if 0 <= p < |m| then
        assert dx > 0;
        assert p < dx * dy;
        assert p / dx < dy;
        Some((p % dx, p / dx))
      else None
    }

    /** The storage index of cell `p`. */
    function ToIndex(p: CellP): (r: Option<nat>)
      requires Valid()
      ensures r.Some? <==> IsInside(p)
      ensures r.Some? ==> r.value == p.0 + p.1 * dx && r.value < |m|
    {
      if IsInside(p) then
        assert p.0 + p.1 * dx < |m| by {
          assert p.1 * dx <= (dy - 1) * dx;
        }
        Some(p.0 + p.1 * dx)
      else None
    }

    function Get(p: CellP): (r: Option<T>)
      requires Valid()
      ensures r.Some? <==> IsInside(p)
      ensures r.Some? ==> r == Some(m[ToIndex(p).value])
    {
      if IsInside(p) then
        var i := ToIndex(p).value;
        assert i == p.0 + p.1 * dx && i < |m|;
        Some(m[i])
      else None
    }
  }

  lemma ToIndexToXy<T>(g: Grid<T>, p: CellP)
    requires g.Valid() && g.IsInside(p)
    ensures g.ToXy(g.ToIndex(p).value) == Some(p)
  {
    DivModUnique(p.0, p.1, g.dx);
  }

  lemma ToXyToIndex<T>(g: Grid<T>, p: int)
    requires g.Valid() && 0 <= p < |g.m|
    ensures g.ToIndex(g.ToXy(p).value) == Some(p)
  {
  }

  /** A grid of the given dimensions filled with `v`. */
  function New<T>(dims: CellP, v: T): (g: Grid<T>)
    requires dims.0 >= 0 && dims.1 >= 0
    ensures g.Valid() && g.dx == dims.0 && g.dy == dims.1
    ensures forall p :: g.IsInside(p) ==> g.Get(p) == Some(v)
  {
    Grid(dims.0, dims.1, seq(dims.0 * dims.1, _ => v))
  }

  /** The cell holding the first occurrence of `what` in storage order. */
  function Find<T(==)>(g: Grid<T>, what: T): (r: Option<CellP>)
    requires g.Valid()
    ensures r.Some? <==> what in g.m
    ensures r.Some? ==> g.Get(r.value) == Some(what)
    ensures r.Some? ==> forall q :: 0 <= q < r.value.0 + r.value.1 * g.dx ==> g.m[q] != what
  {
    match FirstIndex(g.m, what)
    case None => None
    case Some(i) =>
      var p := g.ToXy(i).value;
      ToXyToIndex(g, i);
      Some(p)
  }

  /** After any non-empty line every later line has its length. */
  predicate Uniform(lines: seq<string>)
  {
    forall i, j :: 0 <= i < j < |lines| && |lines[i]| > 0 ==> |lines[j]| == |lines[i]|
  }

  /** Rows are uniform exactly when the rest are and, if the first is non-empty, every later row
      has its length. */
  lemma UniformCons(lines: seq<string>)
    requires |lines| > 0
    ensures Uniform(lines) <==>
      (Uniform(lines[1..]) && (|lines[0]| > 0 ==> forall j :: 0 <= j < |lines[1..]| ==> |lines[1..][j]| == |lines[0]|))
  {
    var rest := lines[1..];
    if Uniform(rest) && (|lines[0]| > 0 ==> forall j :: 0 <= j < |rest| ==> |rest[j]| == |lines[0]|) {
      forall i, j | 0 <= i < j < |lines| && |lines[i]| > 0 ensures |lines[j]| == |lines[i]| {
        assert rest[j - 1] == lines[j];
        if i > 0 { assert rest[i - 1] == lines[i]; }
      }
    }
    if Uniform(lines) {
      forall i, j | 0 <= i < j < |rest| && |rest[i]| > 0 ensures |rest[j]| == |rest[i]| {
        assert rest[i] == lines[i + 1] && rest[j] == lines[j + 1];
      }
      forall j | 0 <= j < |rest| && |lines[0]| > 0 ensures |rest[j]| == |lines[0]| {
        assert rest[j] == lines[j + 1];
      }
    }
  }

  function CountNonEmpty(lines: seq<string>): nat
  {
    if |lines| == 0 then 0 else (if |lines[0]| > 0 then 1 else 0) + CountNonEmpty(lines[1..])
  }

  lemma {:induction false} CountNonEmptyPositive(lines: seq<string>, k: nat)
    requires k < |lines| && |lines[k]| > 0
    ensures CountNonEmpty(lines) >= 1
  {
    if k > 0 {
      assert lines[1..][k - 1] == lines[k];
      CountNonEmptyPositive(lines[1..], k - 1);
    }
  }

  /** The `try_fold` of `Grid::parse` over the lines that remain, with the width `dx` of the previous
      line and the cells `v` gathered so far. */
  function ParseFold(lines: seq<string>, dx: nat, v: string): (r: Result<(nat, string)>)
    ensures r.Ok? <==> Uniform(lines) && (|v| > 0 ==> forall j :: 0 <= j < |lines| ==> |lines[j]| == dx)
    ensures r.Ok? ==> r.value.1 == v + Concat(lines)
    ensures r.Ok? ==> r.value.0 == if |lines| == 0 then dx else |lines[|lines| - 1]|
  {
    if |lines| == 0 then Ok((dx, v))
    else if |v| != 0 && dx != |lines[0]| then Err("invalid line")
    else
      var rest := ParseFold(lines[1..], |lines[0]|, v + lines[0]);
      assert rest.Ok? ==> Uniform(lines) by {
        if rest.Ok? {
          forall i, j | 0 <= i < j < |lines| && |lines[i]| > 0 ensures |lines[j]| == |lines[i]| {
            if i > 0 {
              assert lines[1..][i - 1] == lines[i] && lines[1..][j - 1] == lines[j];
            } else {
              assert lines[1..][j - 1] == lines[j];
            }
          }
        }
      }
      assert Uniform(lines) && (|v| > 0 ==> forall j :: 0 <= j < |lines| ==> |lines[j]| == dx) ==> rest.Ok? by {
        if Uniform(lines) && (|v| > 0 ==> forall j :: 0 <= j < |lines| ==> |lines[j]| == dx) {
          assert Uniform(lines[1..]) by {
            forall i, j | 0 <= i < j < |lines[1..]| && |lines[1..][i]| > 0
              ensures |lines[1..][j]| == |lines[1..][i]|
            {
              assert lines[1..][i] == lines[i + 1] && lines[1..][j] == lines[j + 1];
            }
          }
          if |v + lines[0]| > 0 {
            forall j | 0 <= j < |lines[1..]| ensures |lines[1..][j]| == |lines[0]| {
              assert lines[1..][j] == lines[j + 1];
            }
          }
        }
      }
      assert Concat(lines) == lines[0] + Concat(lines[1..]);
      rest
  }

  lemma {:induction false} ConcatUniformLength(lines: seq<string>, w: nat)
    requires forall j :: 0 <= j < |lines| ==> |lines[j]| == 0 || |lines[j]| == w
    ensures |Concat(lines)| == w * CountNonEmpty(lines)
  {
    if |lines| > 0 {
      ConcatUniformLength(lines[1..], w);
    }
  }

  /** `Grid::parse` on the lines of the input. An input with no non-empty line divides by zero. */
  function ParseLines(lines: seq<string>): (r: Result<Grid<char>>)
    requires exists i :: 0 <= i < |lines| && |lines[i]| > 0
    ensures r.Ok? <==> Uniform(lines)
    ensures r.Ok? ==> r.value.Valid() && r.value.m == Concat(lines) && r.value.dy == CountNonEmpty(lines)
    ensures r.Ok? ==> forall i :: 0 <= i < |lines| && |lines[i]| > 0 ==> r.value.dx == |lines[i]|
  {
    var f := ParseFold(lines, 0, []);
    if f.Err? then Err(f.msg)
    else
      var dx, m := f.value.0, f.value.1;
      var k :| 0 <= k < |lines| && |lines[k]| > 0;
      FoldedWidth(lines, k);
      var dy := CountNonEmpty(lines);
      ConcatUniformLength(lines, dx);
      ExactDiv(|m|, dx, dy);
      Ok(Grid(dx, |m| / dx, m))
  }

  /** A successful fold from no cells ends with the width of every non-empty line and with all the
      lines' cells. */
  lemma FoldedWidth(lines: seq<string>, k: nat)
    requires k < |lines| && |lines[k]| > 0 && ParseFold(lines, 0, []).Ok?
    ensures var f := ParseFold(lines, 0, []).value;
      && f.0 == |lines[k]| > 0 && f.1 == Concat(lines)
      && forall j :: 0 <= j < |lines| ==> |lines[j]| == 0 || |lines[j]| == f.0
  {
    var dx, last := ParseFold(lines, 0, []).value.0, |lines| - 1;
    if k < last { assert |lines[last]| == |lines[k]|; }
    forall j | 0 <= j < |lines| && |lines[j]| > 0 ensures |lines[j]| == dx {
      if j < last { assert |lines[last]| == |lines[j]|; }
    }
    assert [] + Concat(lines) == Concat(lines);
  }

  function Parse(input: string): (r: Result<Grid<char>>)
    requires exists i :: 0 <= i < |Lines(input)| && |Lines(input)[i]| > 0
    ensures r.Ok? <==> Uniform(Lines(input))
    ensures r.Ok? ==> r.value.Valid() && r.value.m == Concat(Lines(input))
  {
    ParseLines(Lines(input))
  }
}

=== FILE: sorting.dfy ===
/** Stable sorting (`slice::sort_by_key`, `slice::sort`) and `Vec::dedup`, over an ordering given as a
    `le` relation. */
module Sorting {

  ghost predicate TotalPreorder<T(!new)>(le: (T, T) -> bool)
  {
    && (forall a, b :: le(a, b) || le(b, a))
    && (forall a, b, c :: le(a, b) && le(b, c) ==> le(a, c))
  }

  predicate SortedBy<T>(s: seq<T>, le: (T, T) -> bool)
  {
    forall i, j :: 0 <= i < j < |s| ==> le(s[i], s[j])
  }

  /** Inserts `x` after every element of `s` that is not greater than it, so that equal elements keep
      their order. */
  function Insert<T(!new)>(s: seq<T>, x: T, le: (T, T) -> bool): (r: seq<T>)
    ensures multiset(r) == multiset(s) + multiset{x}
    ensures |r| == |s| + 1
    ensures TotalPreorder(le) && SortedBy(s, le) ==> SortedBy(r, le)
  {
    if |s| == 0 then [x]
    else if le(s[|s| - 1], x) then
      assert s == s[..|s| - 1] + [s[|s| - 1]];
      s + [x]
    else
      var last := s[|s| - 1];
      var front := Insert(s[..|s| - 1], x, le);
      assert s == s[..|s| - 1] + [last];
      var r := front + [last];
      assert TotalPreorder(le) && SortedBy(s, le) ==> SortedBy(r, le) by {
        if TotalPreorder(le) && SortedBy(s, le) {
          BelowLast(s[..|s| - 1], front, x, last, le);
          AppendSorted(front, last, le);
        }
      }
      r
  }

  /** Every element of a permutation of `s` plus `x` is below `last` when all of `s` and `x` are. */
  lemma BelowLast<T>(s: seq<T>, front: seq<T>, x: T, last: T, le: (T, T) -> bool)
    requires multiset(front) == multiset(s) + multiset{x}
    requires le(x, last) && forall k :: 0 <= k < |s| ==> le(s[k], last)
    ensures forall i :: 0 <= i < |front| ==> le(front[i], last)
  {
    forall i | 0 <= i < |front| ensures le(front[i], last) {
      assert front[i] in multiset(front);
      if front[i] != x {
        assert front[i] in multiset(s);
        var k :| 0 <= k < |s| && s[k] == front[i];
      }
    }
  }

  /** A sorted sequence stays sorted when an element above all of it is appended. */
  lemma AppendSorted<T>(front: seq<T>, last: T, le: (T, T) -> bool)
    requires SortedBy(front, le) && forall i :: 0 <= i < |front| ==> le(front[i], last)
    ensures SortedBy(front + [last], le)
  {
  }

  /** Stable insertion sort. */
  function SortBy<T(!new)>(s: seq<T>, le: (T, T) -> bool): (r: seq<T>)
    ensures multiset(r) == multiset(s)
    ensures |r| == |s|
    ensures TotalPreorder(le) ==> SortedBy(r, le)
  {
    if |s| == 0 then []
    else
      assert s == s[..|s| - 1] + [s[|s| - 1]];
      Insert(SortBy(s[..|s| - 1], le), s[|s| - 1], le)
  }

  // ---------------------------------------------------------------------------------------------
  // Stability: equivalent elements keep their order, and that fixes the sorted result

  predicate Equiv<T>(le: (T, T) -> bool, a: T, b: T)
  {
    le(a, b) && le(b, a)
  }

  /** The elements of `s` equivalent to `x`, in their order in `s`. */
  function Class<T>(s: seq<T>, le: (T, T) -> bool, x: T): seq<T>
  {
    if |s| == 0 then []
    else Class(s[..|s| - 1], le, x) + (if Equiv(le, x, s[|s| - 1]) then [s[|s| - 1]] else [])
  }

  /** `r` lists the elements of each class of equivalent elements in the order `s` does. */
  ghost predicate Stable<T(!new)>(s: seq<T>, r: seq<T>, le: (T, T) -> bool)
  {
    forall x :: Class(r, le, x) == Class(s, le, x)
  }

  lemma ClassMembers<T>(s: seq<T>, le: (T, T) -> bool, x: T, y: T)
    requires y in Class(s, le, x)
    ensures y in s && Equiv(le, x, y)
  {
    if |s| > 0 && y !in [s[|s| - 1]] {
      ClassMembers(s[..|s| - 1], le, x, y);
    }
  }

  /** Inserting `x` adds it to the end of its own class and leaves the other classes alone. */
  lemma {:induction false} InsertClass<T(!new)>(t: seq<T>, x: T, le: (T, T) -> bool, z: T)
    requires TotalPreorder(le) && SortedBy(t, le)
    ensures Class(Insert(t, x, le), le, z) == Class(t, le, z) + (if Equiv(le, z, x) then [x] else [])
    decreases |t|
  {
    var r := Insert(t, x, le);
    if |t| == 0 {
      assert r[..0] == [];
    } else if le(t[|t| - 1], x) {
      assert r[..|r| - 1] == t;
    } else {
      var last := t[|t| - 1];
      var front := Insert(t[..|t| - 1], x, le);
      assert r == front + [last] && r[..|r| - 1] == front;
      InsertClass(t[..|t| - 1], x, le, z);
      assert !(Equiv(le, z, x) && Equiv(le, z, last));
    }
  }

  /** The sort keeps every class of equivalent elements in its original order. */
  lemma {:induction false} SortClass<T(!new)>(s: seq<T>, le: (T, T) -> bool, z: T)
    requires TotalPreorder(le)
    ensures Class(SortBy(s, le), le, z) == Class(s, le, z)
    decreases |s|
  {
    if |s| > 0 {
      SortClass(s[..|s| - 1], le, z);
      InsertClass(SortBy(s[..|s| - 1], le), s[|s| - 1], le, z);
    }
  }

  /** The insertion sort is stable. */
  lemma SortByStable<T(!new)>(s: seq<T>, le: (T, T) -> bool)
    requires TotalPreorder(le)
    ensures Stable(s, SortBy(s, le), le)
  {
    forall x ensures Class(SortBy(s, le), le, x) == Class(s, le, x) {
      SortClass(s, le, x);
    }
  }

  /** Under a total preorder, two sorted sequences with the same classes are equal: a stable sort has
      one possible result. */
  lemma {:induction false} StableSortUnique<T(!new)>(a: seq<T>, b: seq<T>, le: (T, T) -> bool)
    requires TotalPreorder(le) && SortedBy(a, le) && SortedBy(b, le)
    requires forall z :: Class(a, le, z) == Class(b, le, z)
    ensures a == b
    decreases |a| + |b|
  {
    if |a| == 0 && |b| == 0 {
    } else if |a| == 0 {
      var bl := b[|b| - 1];
      assert Class(b, le, bl) == Class(b[..|b| - 1], le, bl) + [bl];
      assert false;
    } else if |b| == 0 {
      var al := a[|a| - 1];
      assert Class(a, le, al) == Class(a[..|a| - 1], le, al) + [al];
      assert false;
    } else {
      var al, bl := a[|a| - 1], b[|b| - 1];
      var a', b' := a[..|a| - 1], b[..|b| - 1];
      LastAbove(a, b, le);
      LastAbove(b, a, le);
      var c := Class(a, le, al);
      assert c == Class(a', le, al) + [al];
      assert c == Class(b', le, al) + [bl];
      assert al == c[|c| - 1] == bl;
      forall z ensures Class(a', le, z) == Class(b', le, z) {
        var ca, cb := Class(a, le, z), Class(b, le, z);
        assert ca == cb;
        if Equiv(le, z, al) {
          assert ca == Class(a', le, z) + [al];
          assert cb == Class(b', le, z) + [bl];
          assert Equiv(le, z, bl);
          assert Class(a', le, z) == ca[..|ca| - 1];
          assert Class(b', le, z) == cb[..|cb| - 1];
        } else {
          assert !Equiv(le, z, bl);
          assert ca == Class(a', le, z);
          assert cb == Class(b', le, z);
        }
      }
      StableSortUnique(a', b', le);
      assert a == a' + [al] && b == b' + [bl];
    }
  }

  /** The last element of `a` is not above the last element of `b` when `b` holds an element
      equivalent to it. */
  lemma LastAbove<T(!new)>(a: seq<T>, b: seq<T>, le: (T, T) -> bool)
    requires TotalPreorder(le) && SortedBy(b, le) && |a| > 0 && |b| > 0
    requires forall z :: Class(a, le, z) == Class(b, le, z)
    ensures le(a[|a| - 1], b[|b| - 1])
  {
    var al := a[|a| - 1];
    assert Class(a, le, al) == Class(a[..|a| - 1], le, al) + [al];
    assert al in Class(b, le, al);
    ClassMembers(b, le, al, al);
    var k :| 0 <= k < |b| && b[k] == al;
    if k < |b| - 1 {
      assert le(b[k], b[|b| - 1]);
    }
  }

  function IntLe(a: int, b: int): bool { a <= b }

  lemma IntLeTotal()
    ensures TotalPreorder(IntLe)
  {
  }

  predicate StrictlyIncreasing(s: seq<int>)
  {
    forall i, j :: 0 <= i < j < |s| ==> s[i] < s[j]
  }

  /** `Vec::dedup`: drops every element equal to its predecessor. */
  function Dedup(s: seq<int>): (r: seq<int>)
    ensures forall x :: x in r <==> x in s
    ensures |r| <= |s|
    ensures |s| > 0 ==> |r| > 0 && r[0] == s[0] && r[|r| - 1] == s[|s| - 1]
    ensures SortedBy(s, IntLe) ==> StrictlyIncreasing(r)
  {
    if |s| <= 1 then s
    else
      var rest := Dedup(s[1..]);
      assert s[1..][0] == s[1];
      assert forall x :: x in s <==> x == s[0] || x in s[1..];
      if s[0] == s[1] then rest
      else
        var r := [s[0]] + rest;
        assert SortedBy(s, IntLe) ==> StrictlyIncreasing(r) by {
          if SortedBy(s, IntLe) {
            assert SortedBy(s[1..], IntLe);
            forall j | 0 < j < |r| ensures r[0] < r[j] {
              assert r[j] in rest;
              assert r[j] in s[1..];
              var k :| 0 <= k < |s[1..]| && s[1..][k] == r[j];
              assert s[0] <= s[1] <= s[k + 1];
            }
          }
        }
        r
  }

  // ---------------------------------------------------------------------------------------------
  // The order of `str`: lexicographic on characters, a proper prefix first

  predicate StrLe(a: string, b: string)
  {
    |a| == 0 || (|b| > 0 && (a[0] < b[0] || (a[0] == b[0] && StrLe(a[1..], b[1..]))))
  }

  predicate StrLt(a: string, b: string)
  {
    !StrLe(b, a)
  }

  lemma {:induction false} StrLeTotalAt(a: string, b: string)
    ensures StrLe(a, b) || StrLe(b, a)
  {
    if |a| > 0 && |b| > 0 && a[0] == b[0] {
      StrLeTotalAt(a[1..], b[1..]);
    }
  }

  lemma {:induction false} StrLeTransitive(a: string, b: string, c: string)
    requires StrLe(a, b) && StrLe(b, c)
    ensures StrLe(a, c)
  {
    if |a| > 0 && a[0] == b[0] && b[0] == c[0] {
      StrLeTransitive(a[1..], b[1..], c[1..]);
    }
  }

  lemma {:induction false} StrLeAntisymmetric(a: string, b: string)
    requires StrLe(a, b) && StrLe(b, a)
    ensures a == b
  {
    if |a| > 0 {
      StrLeAntisymmetric(a[1..], b[1..]);
      assert a == [a[0]] + a[1..] && b == [b[0]] + b[1..];
    }
  }

  /** The order of `str` is total, transitive and antisymmetric. */
  lemma StrLeTotal()
    ensures TotalPreorder(StrLe)
    ensures forall a, b :: StrLe(a, b) && StrLe(b, a) ==> a == b
  {
    forall a, b ensures StrLe(a, b) || StrLe(b, a) {
      StrLeTotalAt(a, b);
    }
    forall a, b, c | StrLe(a, b) && StrLe(b, c) ensures StrLe(a, c) {
      StrLeTransitive(a, b, c);
    }
    forall a, b | StrLe(a, b) && StrLe(b, a) ensures a == b {
      StrLeAntisymmetric(a, b);
    }
  }
}

=== FILE: strings.dfy ===
/** The slice of Rust's `str` API the solvers use: splitting, trimming, searching and integer parsing.
    Characters stand for bytes: every puzzle input is ASCII. */
module Strings {
  import opened Common

  // ---------------------------------------------------------------------------------------------
  // Digits and integer parsing (`str::parse`, `from_str_radix`, `char::to_digit`)

  predicate IsDigit(c: char) { '0' <= c <= '9' }

  function DigitValue(c: char): (d: nat)
    requires IsDigit(c)
    ensures d <= 9
  {
    (c as int) - ('0' as int)
  }

  /** `char::to_digit(radix)`: the value of `c` as a digit of base `radix` (at most 36). */
  function ToDigit(c: char, radix: nat): (r: Option<nat>)
    ensures r.Some? ==> r.value < radix
    ensures radix == 10 ==> (r.Some? <==> IsDigit(c))
    ensures radix == 10 && IsDigit(c) ==> r == Some(DigitValue(c))
  {
    var v: int :=
      if '0' <= c <= '9' then (c as int) - ('0' as int)
      else if 'a' <= c <= 'z' then (c as int) - ('a' as int) + 10
      else if 'A' <= c <= 'Z' then (c as int) - ('A' as int) + 10
      else radix;
    if 0 <= v < radix then Some(v) else None
  }

  predicate AllDigits(s: string, radix: nat)
  {
    forall i :: 0 <= i < |s| ==> ToDigit(s[i], radix).Some?
  }

  /** Positional value of a digit string, most significant digit first. */
  function DigitsValue(s: string, radix: nat): nat
    requires AllDigits(s, radix)
  {
    if |s| == 0 then 0 else DigitsValue(s[..|s| - 1], radix) * radix + ToDigit(s[|s| - 1], radix).value
  }

  /** Digits after an optional leading '+' (the only sign an unsigned parse accepts). */
  function UnsignedDigits(s: string): string
  {
    if |s| > 0 && s[0] == '+' then s[1..] else s
  }

  /** `uN::from_str_radix`: an optional '+', at least one digit, and a value of at most `max`. */
  function ParseUnsigned(s: string, radix: nat, max: nat): (r: Option<nat>)
    ensures r.Some? <==> var d := UnsignedDigits(s); |d| > 0 && AllDigits(d, radix) && DigitsValue(d, radix) <= max
    ensures r.Some? ==> r.value <= max && r.value == DigitsValue(UnsignedDigits(s), radix)
  {
    var d := UnsignedDigits(s);
    if |d| == 0 || !AllDigits(d, radix) then None
    else if DigitsValue(d, radix) <= max then Some(DigitsValue(d, radix))
    else None
  }

  /** `iN::from_str`: an optional '+' or '-', at least one digit, and a value within min..=max. */
  function ParseSigned(s: string, min: int, max: int): (r: Option<int>)
    ensures r.Some? ==> min <= r.value <= max
    ensures |s| > 0 && s[0] != '-' ==> r == (var u := ParseUnsigned(s, 10, if max < 0 then 0 else max);
                                             if u.Some? && min <= u.value <= max then Some(u.value as int) else None)
  {
    if |s| > 0 && s[0] == '-' then
      var d := s[1..];
      if |d| == 0 || !AllDigits(d, 10) then None
      else if min <= -(DigitsValue(d, 10) as int) <= max then Some(-(DigitsValue(d, 10) as int))
      else None
    else
      var u := ParseUnsigned(s, 10, if max < 0 then 0 else max);
      if u.Some? && min <= u.value <= max then Some(u.value) else None
  }

  const U16_MAX: nat := 0xFFFF
  const U32_MAX: nat := 0xFFFF_FFFF
  const USIZE_MAX: nat := 0xFFFF_FFFF_FFFF_FFFF
  const I32_MIN: int := -0x8000_0000
  const I32_MAX: int := 0x7FFF_FFFF
  const I64_MIN: int := -0x8000_0000_0000_0000
  const I64_MAX: int := 0x7FFF_FFFF_FFFF_FFFF

  function ParseU16(s: string): Option<nat> { ParseUnsigned(s, 10, U16_MAX) }
  function ParseU32(s: string): Option<nat> { ParseUnsigned(s, 10, U32_MAX) }
  function ParseUsize(s: string): Option<nat> { ParseUnsigned(s, 10, USIZE_MAX) }
  function ParseI32(s: string): Option<int> { ParseSigned(s, I32_MIN, I32_MAX) }
  function ParseI64(s: string): Option<int> { ParseSigned(s, I64_MIN, I64_MAX) }

  lemma {:induction false} DigitsValueDecimal(s: string)
    requires AllDigits(s, 10)
    ensures |s| > 0 ==> DigitsValue(s, 10) == DigitsValue(s[..|s| - 1], 10) * 10 + DigitValue(s[|s| - 1])
  {
  }

  // ---------------------------------------------------------------------------------------------
  // Whitespace (`char::is_whitespace` restricted to ASCII), `trim`, `split_whitespace`

  predicate IsWhitespace(c: char)
  {
    c == ' ' || c == '\t' || c == '\n' || c == '\r' || c == '\U{000B}' || c == '\U{000C}'
  }

  predicate NoWhitespace(s: string)
  {
    forall i :: 0 <= i < |s| ==> !IsWhitespace(s[i])
  }

  predicate AllWhitespace(s: string)
  {
    forall i :: 0 <= i < |s| ==> IsWhitespace(s[i])
  }

  /** Length of the leading run of whitespace. */
  function LeadLen(s: string): (n: nat)
    ensures n <= |s| && AllWhitespace(s[..n])
    ensures n < |s| ==> !IsWhitespace(s[n])
  {
    if |s| == 0 || !IsWhitespace(s[0]) then 0
    else
      var n := 1 + LeadLen(s[1..]);
      assert s[..n] == [s[0]] + s[1..][..n - 1];
      n
  }

  /** Start of the trailing run of whitespace. */
  function TrailStart(s: string): (n: nat)
    ensures n <= |s| && AllWhitespace(s[n..])
    ensures n > 0 ==> !IsWhitespace(s[n - 1])
  {
    if |s| == 0 || !IsWhitespace(s[|s| - 1]) then |s|
    else
      var n := TrailStart(s[..|s| - 1]);
      assert s[n..] == s[..|s| - 1][n..] + [s[|s| - 1]];
      n
  }

  /** `str::trim`: the slice between the leading and the trailing whitespace. */
  function Trim(s: string): (r: string)
    ensures exists i, j :: 0 <= i <= j <= |s| && r == s[i..j] && AllWhitespace(s[..i]) && AllWhitespace(s[j..])
    ensures |r| > 0 ==> !IsWhitespace(r[0]) && !IsWhitespace(r[|r| - 1])
  {
    var i := LeadLen(s);
    var j := TrailStart(s);
    if j <= i then
      assert i == |s|;
      assert AllWhitespace(s[..|s|]) by {
        forall k | 0 <= k < |s| ensures IsWhitespace(s[k]) {
          assert s[k] == s[..i][k];
        }
      }
      assert s[|s|..] == [] == s[|s|..|s|];
      []
    else
      s[i..j]
  }

  /** Length of the leading run of non-whitespace characters. */
  function TokenLen(s: string): (n: nat)
    ensures n <= |s|
    ensures NoWhitespace(s[..n])
    ensures n < |s| ==> IsWhitespace(s[n])
    ensures |s| > 0 && !IsWhitespace(s[0]) ==> n > 0
  {
    if |s| == 0 || IsWhitespace(s[0]) then 0
    else
      var n := 1 + TokenLen(s[1..]);
      assert s[..n] == [s[0]] + s[1..][..n - 1];
      n
  }

  /** `str::split_whitespace`: the maximal runs of non-whitespace characters, in order. */
  function SplitWhitespace(s: string): (r: seq<string>)
    ensures forall i :: 0 <= i < |r| ==> |r[i]| > 0 && NoWhitespace(r[i])
    decreases |s|
  {
    if |s| == 0 then []
    else if IsWhitespace(s[0]) then SplitWhitespace(s[1..])
    else
      var n := TokenLen(s);
      [s[..n]] + SplitWhitespace(s[n..])
  }

  /** Concatenation of a sequence of strings. */
  function Concat(ss: seq<string>): string
  {
    if |ss| == 0 then [] else ss[0] + Concat(ss[1..])
  }

  /** The characters of `s` that are not whitespace. */
  function RemoveWhitespace(s: string): (r: string)
    ensures NoWhitespace(r)
  {
    if |s| == 0 then []
    else if IsWhitespace(s[0]) then RemoveWhitespace(s[1..])
    else [s[0]] + RemoveWhitespace(s[1..])
  }

  lemma {:induction false} RemoveWhitespaceAppend(a: string, b: string)
    ensures RemoveWhitespace(a + b) == RemoveWhitespace(a) + RemoveWhitespace(b)
  {
    if |a| > 0 {
      assert (a + b)[1..] == a[1..] + b;
      RemoveWhitespaceAppend(a[1..], b);
    } else {
      assert a + b == b;
    }
  }

  lemma {:induction false} RemoveWhitespaceNone(s: string)
    requires NoWhitespace(s)
    ensures RemoveWhitespace(s) == s
  {
    if |s| > 0 {
      RemoveWhitespaceNone(s[1..]);
    }
  }

  /** Splitting on whitespace loses exactly the whitespace: the tokens, glued back together, are the
      input with its whitespace removed. */
  lemma {:induction false} SplitWhitespaceKeepsText(s: string)
    ensures Concat(SplitWhitespace(s)) == RemoveWhitespace(s)
    decreases |s|
  {
    if |s| == 0 {
    } else if IsWhitespace(s[0]) {
      SplitWhitespaceKeepsText(s[1..]);
    } else {
      var n := TokenLen(s);
      SplitWhitespaceKeepsText(s[n..]);
      assert s == s[..n] + s[n..];
      RemoveWhitespaceAppend(s[..n], s[n..]);
      RemoveWhitespaceNone(s[..n]);
      var r := SplitWhitespace(s);
      assert r == [s[..n]] + SplitWhitespace(s[n..]);
      assert r[1..] == SplitWhitespace(s[n..]);
    }
  }

  // ---------------------------------------------------------------------------------------------
  // Splitting on characters (`split`, `split_once`)

  predicate NoneIn(s: string, seps: set<char>)
  {
    forall i :: 0 <= i < |s| ==> s[i] !in seps
  }

  /** Index of the first character of `s` in `seps`, or |s| if there is none. */
  function FirstIn(s: string, seps: set<char>): (k: nat)
    ensures k <= |s|
    ensures NoneIn(s[..k], seps)
    ensures k < |s| ==> s[k] in seps
  {
    if |s| == 0 || s[0] in seps then 0
    else
      var k := 1 + FirstIn(s[1..], seps);
      assert s[..k] == [s[0]] + s[1..][..k - 1];
      k
  }

  /** `str::split` with a set of separator characters: always at least one piece, none of which
      contains a separator. */
  function SplitBy(s: string, seps: set<char>): (r: seq<string>)
    ensures |r| >= 1
    ensures forall i :: 0 <= i < |r| ==> NoneIn(r[i], seps)
    decreases |s|
  {
    var k := FirstIn(s, seps);
    if k == |s| then [s] else [s[..k]] + SplitBy(s[k + 1..], seps)
  }

  /** A separator-free piece followed by a separator is split off as the first piece. */
  lemma SplitByCons(a: string, c: char, b: string, seps: set<char>)
    requires NoneIn(a, seps) && c in seps
    ensures SplitBy(a + [c] + b, seps) == [a] + SplitBy(b, seps)
  {
    var s := a + [c] + b;
    var k := FirstIn(s, seps);
    assert s[|a|] == c;
    assert k == |a|;
    assert s[..|a|] == a;
    assert s[|a| + 1..] == b;
  }

  /** A separator-free string is one piece. */
  lemma SplitByNone(a: string, seps: set<char>)
    requires NoneIn(a, seps)
    ensures SplitBy(a, seps) == [a]
  {
  }

  function Split(s: string, c: char): seq<string>
  {
    SplitBy(s, {c})
  }

  /** The pieces joined with the separator `sep` in between. */
  function Join(parts: seq<string>, sep: string): string
  {
    if |parts| == 0 then []
    else if |parts| == 1 then parts[0]
    else parts[0] + sep + Join(parts[1..], sep)
  }

  /** Splitting on one character and joining with it gives the input back. */
  lemma {:induction false} SplitJoin(s: string, c: char)
    ensures Join(Split(s, c), [c]) == s
    decreases |s|
  {
    var k := FirstIn(s, {c});
    if k < |s| {
      var rest := s[k + 1..];
      SplitJoin(rest, c);
      var r := Split(s, c);
      assert r == [s[..k]] + Split(rest, c);
      assert r[1..] == Split(rest, c);
      assert s == s[..k] + [c] + rest;
    }
  }

  /** `str::split_once(c)`: the text before and after the first `c`. */
  function SplitOnce(s: string, c: char): (r: Option<(string, string)>)
    ensures r.Some? <==> c in s
    ensures r.Some? ==> s == r.value.0 + [c] + r.value.1 && c !in r.value.0
  {
    var k := FirstIn(s, {c});
    if k == |s| then
      assert c !in s by {
        forall i | 0 <= i < |s| ensures s[i] != c { assert s[i] == s[..k][i]; }
      }
      None
    else
      assert s == s[..k] + [c] + s[k + 1..];
      assert forall i :: 0 <= i < k ==> s[..k][i] != c;
      Some((s[..k], s[k + 1..]))
  }

  /** Splitting separator-free pieces joined with the separator gives the pieces back. */
  lemma {:induction false} JoinSplit(parts: seq<string>, c: char)
    requires |parts| > 0 && forall i :: 0 <= i < |parts| ==> NoneIn(parts[i], {c})
    ensures Split(Join(parts, [c]), c) == parts
  {
    if |parts| == 1 {
      SplitByNone(parts[0], {c});
    } else {
      JoinSplit(parts[1..], c);
      SplitByCons(parts[0], c, Join(parts[1..], [c]), {c});
      assert parts[0] + [c] + Join(parts[1..], [c]) == Join(parts, [c]);
      assert parts == [parts[0]] + parts[1..];
    }
  }

  /** The pieces around the first `c` are determined by `s`. */
  lemma SplitOnceUnique(s: string, c: char, l: string, r: string, l': string, r': string)
    requires s == l + [c] + r && c !in l
    requires s == l' + [c] + r' && c !in l'
    ensures l == l' && r == r'
  {
    ConcatIndex(l, c, r);
    ConcatIndex(l', c, r');
    if |l| == |l'| {
      assert l == s[..|l|] == l';
      assert r == s[|l| + 1..] == r';
    } else {
      assert false;
    }
  }

  lemma ConcatIndex(a: string, c: char, b: string)
    ensures (a + [c] + b)[|a|] == c
    ensures forall i :: 0 <= i < |a| ==> (a + [c] + b)[i] == a[i]
  {
  }

  // ---------------------------------------------------------------------------------------------
  // Substrings (`find`, `rfind`, `split_once(&str)`, `split(&str)`, prefixes and suffixes)

  predicate OccursAt(s: string, pat: string, k: int)
  {
    0 <= k && k + |pat| <= |s| && s[k..k + |pat|] == pat
  }

  function FindFrom(s: string, pat: string, i: nat): (r: Option<nat>)
    requires i <= |s|
    ensures r.Some? ==> i <= r.value && OccursAt(s, pat, r.value)
    ensures r.Some? ==> forall j :: i <= j < r.value ==> !OccursAt(s, pat, j)
    ensures r.None? ==> forall j :: i <= j ==> !OccursAt(s, pat, j)
    decreases |s| - i
  {
    if i + |pat| > |s| then None
    else if s[i..i + |pat|] == pat then Some(i)
    else FindFrom(s, pat, i + 1)
  }

  /** `str::find`: the first position at which `pat` occurs. */
  function Find(s: string, pat: string): (r: Option<nat>)
    ensures r.Some? ==> OccursAt(s, pat, r.value) && forall j :: 0 <= j < r.value ==> !OccursAt(s, pat, j)
    ensures r.None? ==> forall j :: !OccursAt(s, pat, j)
  {
    FindFrom(s, pat, 0)
  }

  function RFindBelow(s: string, pat: string, i: nat): (r: Option<nat>)
    ensures r.Some? ==> r.value < i && OccursAt(s, pat, r.value)
    ensures r.Some? ==> forall j :: r.value < j < i ==> !OccursAt(s, pat, j)
    ensures r.None? ==> forall j :: j < i ==> !OccursAt(s, pat, j)
  {
    if i == 0 then None
    else if OccursAt(s, pat, i - 1) then Some(i - 1)
    else RFindBelow(s, pat, i - 1)
  }

  /** `str::rfind`: the last position at which `pat` occurs. */
  function RFind(s: string, pat: string): (r: Option<nat>)
    ensures r.Some? ==> OccursAt(s, pat, r.value) && forall j :: r.value < j ==> !OccursAt(s, pat, j)
    ensures r.None? ==> forall j :: !OccursAt(s, pat, j)
  {
    RFindBelow(s, pat, |s| + 1)
  }

  /** `str::split_once(pat)`: the text before and after the first occurrence of `pat`. */
  function SplitOnceStr(s: string, pat: string): (r: Option<(string, string)>)
    ensures r.Some? <==> exists k :: OccursAt(s, pat, k)
    ensures r.Some? ==> s == r.value.0 + pat + r.value.1
    ensures r.Some? ==> forall j :: 0 <= j && j + |pat| <= |r.value.0| + |pat| - 1 ==> !OccursAt(s, pat, j)
  {
    match Find(s, pat)
    case None => None
    case Some(k) =>
      assert s == s[..k] + pat + s[k + |pat|..];
      Some((s[..k], s[k + |pat|..]))
  }

  /** `str::split(pat)` for a non-empty pattern: the pieces between non-overlapping occurrences found
      left to right. */
  function SplitStr(s: string, pat: string): (r: seq<string>)
    requires |pat| > 0
    ensures |r| >= 1
    ensures Join(r, pat) == s
    decreases |s|
  {
    match SplitOnceStr(s, pat)
    case None => [s]
    case Some((l, rest)) =>
      var r := [l] + SplitStr(rest, pat);
      assert r[1..] == SplitStr(rest, pat);
      r
  }

  /** Pieces free of the separator's first character, joined with the separator, split back into
      the pieces. */
  lemma {:induction false} JoinSplitStr(parts: seq<string>, pat: string)
    requires |parts| > 0 && |pat| > 0
    requires forall i :: 0 <= i < |parts| ==> NoneIn(parts[i], {pat[0]})
    ensures SplitStr(Join(parts, pat), pat) == parts
  {
    var p0 := parts[0];
    if |parts| == 1 {
      forall j | 0 <= j ensures !OccursAt(p0, pat, j) {
        if j < |p0| {
          assert p0[j] != pat[0];
        }
      }
    } else {
      var rest := Join(parts[1..], pat);
      var s := p0 + pat + rest;
      assert Join(parts, pat) == s;
      assert OccursAt(s, pat, |p0|) by {
        assert s[|p0|..|p0| + |pat|] == pat;
      }
      var r := SplitOnceStr(s, pat);
      var l := r.value.0;
      assert s[..|l|] == l;
      assert l == s[..|p0|] == p0;
      assert r.value.1 == rest;
      JoinSplitStr(parts[1..], pat);
      assert parts == [p0] + parts[1..];
    }
  }

  function StripPrefix(s: string, p: string): (r: Option<string>)
    ensures r.Some? <==> p <= s
    ensures r.Some? ==> s == p + r.value
  {
    if p <= s then
      assert s == p + s[|p|..];
      Some(s[|p|..])
    else None
  }

  predicate EndsWith(s: string, p: string)
  {
    |p| <= |s| && s[|s| - |p|..] == p
  }

  function StripSuffix(s: string, p: string): (r: Option<string>)
    ensures r.Some? <==> EndsWith(s, p)
    ensures r.Some? ==> s == r.value + p
  {
    if EndsWith(s, p) then
      assert s == s[..|s| - |p|] + p;
      Some(s[..|s| - |p|])
    else None
  }

  /** `str::lines` for '\n'-terminated text: the pieces between newlines, without a final empty piece
      after a trailing newline. */
  function Lines(s: string): (r: seq<string>)
    ensures forall i :: 0 <= i < |r| ==> '\n' !in r[i]
    ensures s == [] ==> r == []
  {
    var parts := Split(s, '\n');
    assert forall i :: 0 <= i < |parts| ==> NoneIn(parts[i], {'\n'});
    if |parts[|parts| - 1]| == 0 then parts[..|parts| - 1] else parts
  }

  /** At least one row, and every row at least as wide as the first (which is where the solvers
      take the width from). */
  predicate WideRows(rows: seq<string>)
  {
    |rows| > 0 && forall r :: 0 <= r < |rows| ==> |rows[r]| >= |rows[0]|
  }
}
